=== FILE: README.md ===
# CsNitra core, modelled in Dafny

CsNitra is a toolkit for building extensible parsers. This project models its core in Dafny 4.11 and proves properties of the model. The core has these parts:

- **ExtensibleParser.** A packrat parser with memoisation. It runs a top-down operator-precedence (TDOPP) step for left-recursive rules and recovers from errors in rounds that skip input. It also provides parse results, rule values and error-position formatting.
- **FollowSetCalculatorV2.** Computes FIRST and FOLLOW sets over a grammar.
- **The CsNitra grammar type checker.** This covers:
  - scopes and the type-checking context;
  - declaration collection;
  - the visitor that checks names, references and repetitions;
  - the merging of precedence lists into binding powers.
- **The regex engine.** A regex parser with a printer for the regex tree. A Thompson NFA builder turns the tree into an NFA, subset construction turns that into a DFA, and a longest-match DFA interpreter runs the result.
- **Terminals.** The string and trivia terminals of the Dot parser, and the string escapes of the JSON visitor.
- **EnumGenerator.** The C++ `enum` to C# enum generator: Pascal-case names, member names and underlying types.
- **`loader.cpp`.** The native loader sample: it reads command-line arguments, picks a trace level and starts the managed entry point.

## Modelling conventions

- **Errors.** A C# exception is modelled as `Throw(e)` of `Wrappers.Result`. The parser has its own outcome type, `Run<T>`, with three cases:
  - `Ran`: the call returned normally;
  - `Raised`: the call threw an exception;
  - `OutOfFuel`: the recursion bound ran out.
- **Parser state.** Mutable state is passed explicitly and returned. This includes the memo table, the furthest error position with its expected terminals, and the recovery skip position.
- **Recursion bounds.** Recursion that the source bounds only by the input or the grammar takes an explicit `fuel` parameter. This applies to the parser, the follow-set fixpoint and rule inlining.
- **Integers.** `Int32` is a `newtype`. The .NET `Index`/`Range` arithmetic wraps around explicitly, as unchecked C# arithmetic does.
- **Unicode.** Unicode character classes (letter, digit, white space, upper case, case mapping) are fields of the `Chars.CharInfo` record and stay abstract. `char.IsControl` is modelled concretely. A Dafny `char` is a Unicode scalar value, while a .NET string is a sequence of UTF-16 code units; the JSON string decoder works on code units (`JsonString.Utf16`), everything else counts characters.
- **Collection order.** A .NET `HashSet` or `Dictionary` that is only ever added to enumerates in insertion order, so it is modelled as a sequence kept in insertion order. Where the order is unspecified, the model uses a set.

## Where the code and its description differ

Each item below follows the code:

- `loader.cpp`:
  - an empty dotnet path does not by itself make the loader exit with 1; only a failure to find the entry point or to create the tracer does (`Loader.WinMain`);
  - the first argument is dropped when it *contains* `troubleshoot.exe`, not only when it equals it (`Loader.GetCmdLineArguments`);
  - `GetArgumentValue` returns an empty string, not "absent", when the option is missing.
- `TypeCheckingContext.GlobalScope` is `Stack.First()`. On a .NET `Stack` that is the top of the stack, so the "global" scope is the current one.
- `ParseResult` defines only one error text, `"Error"`.

## Model

| member | source | states |
|---|---|---|
| TextPosition.LineStart | ExtensibleParser/Extensions.cs:55-66 | The start of the line holding a position: at or before it, just after a CR or LF (or at 0), with no line end between it and the position |
| TextPosition.PositionToLineCol | ExtensibleParser/Extensions.cs:37-70 | Throws ArgumentOutOfRange exactly when the position is outside `0..length`; otherwise gives the 1-based line and column, and (1,1) at position 0 |
| TextPosition.CrLfIsOneLineEnd | ExtensibleParser/Extensions.cs:48-54 | A CR LF pair counts as a single line end: the position after the pair starts the next line at column 1, and the position between CR and LF is already there |
| TextPosition.OrdinaryCharAdvancesColumn | ExtensibleParser/Extensions.cs:62-66 | A character that is neither CR nor LF leaves the line unchanged and advances the column by one |
| TextPosition.LineCountsLineEnds | ExtensibleParser/Extensions.cs:46-67 | The line number of a position is one more than the number of line ends (a CR LF pair counting once) before it |
| TextPosition.EscapeLineEnds | ExtensibleParser/Extensions.cs:28 | Escaping `\r` and `\n` adds exactly one character per line-end character |
| TextPosition.EscapeConcat | ExtensibleParser/Extensions.cs:28 | Escaping line ends distributes over concatenation, so it works character by character |
| TextPosition.WindowStart | ExtensibleParser/Extensions.cs:20 | The context window never starts before the beginning of the input |
| TextPosition.WindowLength | ExtensibleParser/Extensions.cs:21 | The window length is the context size or the rest of the input, whichever is smaller |
| TextPosition.Spaces | ExtensibleParser/Extensions.cs:31 | A run of exactly `n` spaces |
| TextPosition.HighlightContext | ExtensibleParser/Extensions.cs:18-35 | Fails with ArgumentOutOfRange exactly when the error position lies outside the window or the window is negative; otherwise the context line is the escaped window framed by `" ..."` and `"..."`, and the caret line is padded by the escaped width of the text before the error |
| TextPosition.CaretPointsAtError | ExtensibleParser/Extensions.cs:22-31 | When the error lies inside the window, the caret stands exactly under the (escaped) character at the error position |
| ParseResults.Success | ExtensibleParser/Result.cs:71 | A success result keeps its node and positions, and counts as a success exactly when the new position is non-negative |
| ParseResults.Failure | ExtensibleParser/Result.cs:72 | A failure result has position -1, no node, the given furthest failure position, and is never a success |
| ParseResults.TryGetSuccess | ExtensibleParser/Result.cs:15-27 | Succeeds exactly when the result is a success, then yields its node and non-negative position; otherwise yields no node and -1 |
| ParseResults.GetErrorOrDefault | ExtensibleParser/Result.cs:41 | No error text exactly for a success, `"Error"` otherwise |
| ParseResults.GetError | ExtensibleParser/Result.cs:43 | Throws InvalidCast exactly for a success, gives `"Error"` otherwise |
| ParseResults.TryGetFailed | ExtensibleParser/Result.cs:45-55 | Reports failure exactly when the result is not a success, with the same text as GetErrorOrDefault |
| ParseResults.WithPrefixOnly | ExtensibleParser/Result.cs:57 | The result takes node and both positions from the argument, not from the receiver |
| ParseResults.SuccessReadsBack | ExtensibleParser/Result.cs:13-72 | A success built with a non-negative position reads back its node and position, is not failed, and GetError throws |
| ParseResults.FailureReadsBack | ExtensibleParser/Result.cs:13-72 | A failure reads back as no success, failed with `"Error"`, and GetError returns `"Error"` |
| ParseResults.SuccessOrFailed | ExtensibleParser/Result.cs:15-55 | Every result is exactly one of success or failed |
| IndexRange.AsUInt | Shared/NetStandard2_0Support.cs:432 | The `(uint)` cast: a non-negative value is unchanged, a negative one gains 2^32 |
| IndexRange.Index.Value | Shared/NetStandard2_0Support.cs:246-255 | The value of an index is never negative, whichever end it counts from |
| IndexRange.Index.GetOffset | Shared/NetStandard2_0Support.cs:269-281 | A start index resolves to its value; an end index to the length minus its value, wrapped to 32 bits |
| IndexRange.NewIndex | Shared/NetStandard2_0Support.cs:194-205 | Throws ArgumentOutOfRange exactly for a negative value; otherwise the index reads back its value and direction |
| IndexRange.FromStart | Shared/NetStandard2_0Support.cs:222-230 | Same as constructing a start index, including the error for a negative value |
| IndexRange.FromEnd | Shared/NetStandard2_0Support.cs:235-243 | Same as constructing an end index, including the error for a negative value |
| IndexRange.EqualsIffSameValueAndDirection | Shared/NetStandard2_0Support.cs:289 | Two indices are equal exactly when they have the same value and the same direction |
| IndexRange.FromEndOffset | Shared/NetStandard2_0Support.cs:269-281 | For a non-negative length, an end index resolves without wrap-around to the length minus its value |
| IndexRange.Range.GetOffsetAndLength | Shared/NetStandard2_0Support.cs:416-436 | Succeeds exactly when the unsigned end is within the length and the unsigned start within the end, giving start and end minus start; otherwise ArgumentOutOfRange |
| IndexRange.OffsetAndLengthInBounds | Shared/NetStandard2_0Support.cs:416-436 | For a non-negative length, succeeds exactly when 0 <= start <= end <= length (resolved as integers), and then gives the start and the distance |
| IndexRange.GetSubArray | Shared/NetStandard2_0Support.cs:65-110 | Succeeds exactly when the resolved range is inside the array; the slice has length end minus start and holds the elements from the start on |
| IndexRange.SliceExamples | Shared/NetStandard2_0Support.cs:400-406 | `a[..]` is the whole array and `a[^n..]` its last `n` elements |
| Loader.GetCmdLineArguments | Parsers/Cpp/EnumGeneratorTest/CppSources/loader.cpp:107-129 | No arguments gives none; the first argument is dropped exactly when it contains the executable name |
| Loader.OptionsSurviveProgramName | Parsers/Cpp/EnumGeneratorTest/CppSources/loader.cpp:107-129 | Dropping the program name loses no option: reading an option from the arguments passed on gives what reading it from the whole command line gives, unless the program name itself starts with the option |
| Loader.CommandLineOptionRoundTrip | Parsers/Cpp/EnumGeneratorTest/CppSources/loader.cpp:107-169 | An option written as `name=value` after the program name, with no earlier argument starting with the name, is read back as `value` from the arguments passed on |
| Loader.FindFirstOf | Parsers/Cpp/EnumGeneratorTest/CppSources/loader.cpp:162 | The first occurrence of a character from a position on, or none when it does not occur there |
| Loader.FirstStartingWith | Parsers/Cpp/EnumGeneratorTest/CppSources/loader.cpp:153-156 | The first argument starting with the option name, or none when no argument does |
| Loader.GetArgumentValue | Parsers/Cpp/EnumGeneratorTest/CppSources/loader.cpp:151-169 | The text after the first `=` past the name in the first matching argument; empty when no argument matches or it has no `=` |
| Loader.ArgumentRoundTrip | Parsers/Cpp/EnumGeneratorTest/CppSources/loader.cpp:151-169 | Writing `name=value` as the first matching argument reads back `value` |
| Loader.FirstMatchAt | Parsers/Cpp/EnumGeneratorTest/CppSources/loader.cpp:153-156 | When argument `i` is the first to start with the name, the search finds `i` |
| Loader.TraceLevelFromString | Parsers/Cpp/EnumGeneratorTest/CppSources/loader.cpp:181-196 | A known level name maps to the level of that name; anything else maps to INF |
| Loader.TraceLevelRoundTrip | Parsers/Cpp/EnumGeneratorTest/CppSources/loader.cpp:183-195 | Parsing a level's name gives back the level |
| Loader.TraceLevelExamples | Parsers/Cpp/EnumGeneratorTest/CppSources/loader.cpp:183-195 | Matching is case-sensitive and exact: `warn`, `WRN` and the empty string give INF, and `DBG` gives DBG |
| Loader.ManagedArguments | Parsers/Cpp/EnumGeneratorTest/CppSources/loader.cpp:372-374 | The managed entry point gets the trace-path option, the full trace path, then the user arguments unchanged |
| Loader.WinMain | Parsers/Cpp/EnumGeneratorTest/CppSources/loader.cpp:331-418 | The trace level comes from the command line; without a tracer or an entry point the exit code is 1 and nothing runs; otherwise the managed code gets its arguments and its exit code is returned; the trace file is deleted exactly after a regular exit, when it exists and clearing is not disabled |
| Loader.TraceKeptUnlessRegular | Parsers/Cpp/EnumGeneratorTest/CppSources/loader.cpp:412-416 | After any exit code other than the regular one, the trace file is kept |
| Loader.TraceLevelFromCommandLine | Parsers/Cpp/EnumGeneratorTest/CppSources/loader.cpp:350-352 | A trace-level option right after the program name sets that level |
| Scopes.AddSymbol | Parsers/CsNitra/CsNitraGrammar/TypeChecking/Scope.cs:20-24 | The symbol lands in the table of its kind under its name, overwriting only that entry; every other entry and every other kind's table is unchanged |
| Scopes.Find | Parsers/CsNitra/CsNitraGrammar/TypeChecking/Scope.cs:26-57 | A name in the innermost scope is found there; without recursion a name is found exactly when the innermost scope holds it |
| Scopes.FindAnySymbol | Parsers/CsNitra/CsNitraGrammar/TypeChecking/Scope.cs:59-63 | Precedences are looked up first, then rules, then terminals |
| Scopes.FindIsInnermost | Parsers/CsNitra/CsNitraGrammar/TypeChecking/Scope.cs:26-57 | A recursive lookup succeeds exactly when some scope in the chain holds the name, and returns the entry of the innermost such scope |
| Scopes.FindAnyFindsSomeKind | Parsers/CsNitra/CsNitraGrammar/TypeChecking/Scope.cs:59-63 | A recursive lookup of any kind succeeds exactly when some scope holds the name under some kind |
| Scopes.AddThenFind | Parsers/CsNitra/CsNitraGrammar/TypeChecking/Scope.cs:20-35 | A symbol added to the innermost scope is found by its kind and name |
| Scopes.AddLeavesOthers | Parsers/CsNitra/CsNitraGrammar/TypeChecking/Scope.cs:10-24 | Adding a symbol changes no lookup of another name or another kind |
| Scopes.EmptyScopeIsTransparent | Parsers/CsNitra/CsNitraGrammar/TypeChecking/Scope.cs:26-35 | A recursive lookup through a new, empty inner scope finds what the outer chain finds |
| TypeCheckingContext.TerminalSymbolFor | Parsers/CsNitra/CsNitraGrammar/TypeChecking/TypeCheckingContext.cs:24-25 | A terminal's symbol is a terminal named by its kind, spanning `0..length of the kind` |
| TypeCheckingContext.SeedTerminals | Parsers/CsNitra/CsNitraGrammar/TypeChecking/TypeCheckingContext.cs:22-27 | Adds one terminal symbol per kind and leaves precedences, rules and other terminals alone |
| TypeCheckingContext.NewContext | Parsers/CsNitra/CsNitraGrammar/TypeChecking/TypeCheckingContext.cs:17-28 | A new context has one scope with no diagnostics, no precedences or rules, and exactly the given terminal kinds |
| TypeCheckingContext.GlobalScope | Parsers/CsNitra/CsNitraGrammar/TypeChecking/TypeCheckingContext.cs:13 | `Stack.First()` is the top of the stack, so the global scope is the current scope; it is the outermost one only when one scope is open |
| TypeCheckingContext.AddToGlobalScope | Parsers/CsNitra/CsNitraGrammar/TypeChecking/TypeCheckingContext.cs:26 | Adds the symbol to that scope only; the other scopes and the diagnostics stay |
| TypeCheckingContext.EnterScope | Parsers/CsNitra/CsNitraGrammar/TypeChecking/TypeCheckingContext.cs:30-35 | Pushes an empty scope onto the chain and keeps everything else |
| TypeCheckingContext.ExitScope | Parsers/CsNitra/CsNitraGrammar/TypeChecking/TypeCheckingContext.cs:37-41 | Pops the innermost scope, but never the last one |
| TypeCheckingContext.ReportError | Parsers/CsNitra/CsNitraGrammar/TypeChecking/TypeCheckingContext.cs:43-47 | Appends exactly one error diagnostic with the message and location, and keeps the scopes |
| TypeCheckingContext.EnterThenExit | Parsers/CsNitra/CsNitraGrammar/TypeChecking/TypeCheckingContext.cs:30-41 | Leaving a scope just entered restores the context |
| TypeCheckingContext.ExitNeverPopsGlobal | Parsers/CsNitra/CsNitraGrammar/TypeChecking/TypeCheckingContext.cs:37-41 | However many times a scope is exited, the outermost scope stays in place |
| TypeCheckingContext.SeededTerminalsAreFound | Parsers/CsNitra/CsNitraGrammar/TypeChecking/TypeCheckingContext.cs:17-28 | In a new context, a terminal is found exactly when its kind was given, and then as that kind's terminal symbol |
| RegexAst.InSomeRange | Regex/Regex/RegexAst.cs:48 | A character is in a range list exactly when some range holds it, bounds included |
| RegexAst.Matches | Regex/Regex/RegexAst.cs:48-144 | Each class matches by its definition (ranges, word, digit, letter, white space) flipped when negated; a negated group matches when none of its classes does; a node that is not a class matches nothing |
| RegexAst.AnyMatches | Regex/Regex/RegexAst.cs:144 | A class list matches a character exactly when one of its classes does |
| RegexAst.MatchesCondition | Regex/Regex/Dfa/DfaInterpreter.cs:60-72 | A DFA condition matches: a literal character only itself, `.` every character, a class by its own rule, and anything else nothing |
| RegexAst.EscapeChar | Regex/Regex/RegexAst.cs:50-61 | Inside a class, `\`, `]`, `-` and `^` get a backslash and a plain printable character stays as it is |
| RegexAst.CharText | Regex/Regex/RegexAst.cs:14-15 | A literal backslash prints as `\\`, any other literal character as itself, and `ToString()` as written prints a literal the same way |
| RegexAst.Print | Regex/Regex/RegexAst.cs:8-145 | `ToString(precedence)` of every node kind; it has no contract of its own, and what it prints is stated by the lemmas in the rows around it |
| RegexAst.TextAsWritten | Regex/Regex/RegexAst.cs:9 | `ToString()` as written, with concatenation elements printed at precedence 1; it has no contract of its own, and the Findings table states where it goes wrong |
| RegexAst.Text | Regex/Regex/RegexAst.cs:9 | The corrected `ToString()` agrees with the one as written on every tree without a concatenation |
| RegexAst.ParenthesesByPrecedence | Regex/Regex/RegexAst.cs:93-105 | A concatenation is parenthesised exactly when printed above precedence 1, an alternation exactly when above precedence 2 |
| RegexAst.PrintIgnoresElementsWithoutConcat | Regex/Regex/RegexAst.cs:94 | In a tree without a concatenation, the precedence at which concatenation elements print makes no difference |
| RegexAst.NestingExamples | Regex/Regex/RegexAst.cs:88-134 | `a(b\|c)` prints as `ab\|c` as written and as `a(b\|c)` corrected; `(ab)\|c` and `(ab)*` keep their parentheses |
| RegexAst.CombinedClassText | Tests/Regex/RegexParserTests.cs:32-46 | The class `[a-z\d]`, parsed into an alternation, prints as `[a-z]\|\d` |
| RegexParser.Parse | Regex/Regex/RegexParser.cs:11-17 | A pattern parses exactly when the alternation consumes all of it; a `)` left over is an error |
| RegexParser.ParseAlternation | Regex/Regex/RegexParser.cs:19-28 | Branches stop at the end or before a `)` |
| RegexParser.ParseConcat | Regex/Regex/RegexParser.cs:30-36 | A branch stops at the end, before `)` or before `\|` |
| RegexParser.ParseAtom | Regex/Regex/RegexParser.cs:38-48 | An atom consumes at least one character |
| RegexParser.Postfix | Regex/Regex/RegexParser.cs:41-47 | Consumes the whole run of `*`, `+` and `?` after an atom and stops at the first other character |
| RegexParser.ApplyPostfix | Regex/Regex/RegexParser.cs:43-45 | A postfix operator wraps its operand in a star, plus or optional node |
| RegexParser.PostfixWrapsInOrder | Regex/Regex/RegexParser.cs:38-48 | The atom ends up wrapped by each consumed operator in order, the first operator innermost |
| RegexParser.ParseFactor | Regex/Regex/RegexParser.cs:50-60 | Past the end the read is out of range; a character that opens no group, class, dot or escape is a literal; a factor consumes at least one character |
| RegexParser.ParseGroup | Regex/Regex/RegexParser.cs:62-68 | A group ends just after its closing `)` and yields a group node |
| RegexParser.NamedClass | Regex/Regex/RegexParser.cs:73-84 | Exactly `w W l L d D s S` name a class, and an upper-case letter names the negated class |
| RegexParser.ParseEscape | Regex/Regex/RegexParser.cs:70-85 | A trailing backslash is an unexpected end; otherwise a class letter gives its class and any other character is taken literally |
| RegexParser.ParseCharClass | Regex/Regex/RegexParser.cs:87-106 | A class ends just after its `]`, and the node has the shape Combine gives, negated exactly when the class starts with `^` |
| RegexParser.CombineIsClassNode | Regex/Regex/RegexParser.cs:138-147 | Combining class items always gives a node of that shape |
| RegexParser.ClassItems | Regex/Regex/RegexParser.cs:92-104 | The items run up to and including the closing `]`, and each is a range or a named class |
| RegexParser.ClassEscape | Regex/Regex/RegexParser.cs:108-123 | A trailing backslash is an unexpected end; a class letter gives its class, any other character a one-character range |
| RegexParser.RangeItem | Regex/Regex/RegexParser.cs:125-136 | `a-b` gives the range `a..b` when `a <= b` and fails otherwise; a single character gives a range starting at itself |
| RegexParser.FlattenMatches | Regex/Regex/RegexParser.cs:143-144 | Merging plain ranges into one class matches the same characters as the separate ranges |
| RegexParser.CombineMatches | Regex/Regex/RegexParser.cs:138-147 | A negated class matches exactly what none of its items matches; a plain class of ranges or of one item matches what some item matches; other plain classes become an alternation |
| RegexParser.LiteralPattern | Regex/Regex/RegexParser.cs:11-36 | A pattern without metacharacters parses as the concatenation of its characters |
| RegexParser.JoinLiteral | Regex/Regex/RegexAst.cs:94 | The characters of a word without backslashes print back as that word |
| RegexParser.LiteralRoundTrip | Regex/Regex/RegexParser.cs:11-36 | On patterns without metacharacters, parsing and printing are inverse: the parsed node prints back as the pattern, by either printer, and that text parses back to the same node |
| RegexParser.SingleAtomIsItself | Regex/Regex/RegexParser.cs:35 | A branch of one atom is that atom, not a concatenation |
| RegexParser.SingleBranchIsItself | Regex/Regex/RegexParser.cs:27 | An alternation whose first branch is not followed by '|' is that branch itself, not an alternation node |
| RegexParser.RangeAndDigitClass | Tests/Regex/RegexParserTests.cs:32-46 | `[a-z\d]` parses as the alternation of the range `a-z` and the digit class |
| RegexParser.UnclosedGroupFails | Regex/Regex/RegexParser.cs:62-68 | `(a` reads past the end of the pattern |
| RegexParser.UnopenedGroupFails | Regex/Regex/RegexParser.cs:14-15 | `a)` fails with "Unexpected char" |
| RegexParser.InvalidRangeFails | Regex/Regex/RegexParser.cs:132 | `[z-a]` fails with "Invalid range" |
| RegexParser.UnclosedClassFails | Regex/Regex/RegexParser.cs:151-156 | `[a` is an unexpected end |
| RegexParser.TrailingBackslashFails | Regex/Regex/RegexParser.cs:70-73 | `a\` is an unexpected end |
| RegexParser.ClassAfterChar | Regex/Regex/RegexParser.cs:138-147 | `x[a-z\d]` parses as `x` followed by the alternation that the class becomes |
| RegexParser.ClassAfterCharPrints | Regex/Regex/RegexAst.cs:88-106 | That tree prints as `x[a-z]\|\d` as written and as `x([a-z]\|\d)` corrected |
| RegexParser.AsWrittenPrintChangesMeaning | Regex/Regex/RegexAst.cs:94 | The printed text as written parses as a different tree, an alternation of `x[a-z]` and `\d` |
| RegexParser.CorrectedPrintKeepsGrouping | Regex/Regex/RegexAst.cs:94 | The corrected text parses back as `x` followed by a group around the same alternation |
| Nfa.CreateState | Regex/Regex/Nfa/NfaBuilder.cs:107 | Appends one state with no transitions, returns its number, and keeps the NFA well formed |
| Nfa.AddTransitions | Regex/Regex/Nfa/NfaBuilder.cs:68-77 | Appends the transitions to one state only, and keeps the NFA well formed when they point at existing states |
| Nfa.BuildSingle | Regex/Regex/Nfa/NfaBuilder.cs:29-35 | A character or class gives two new states joined by one transition on that condition |
| Nfa.BuildNode | Regex/Regex/Nfa/NfaBuilder.cs:15-27 | Every node adds exactly Size(node) states, leaves the old ones untouched, ends in a new state with no transitions, and puts its start and end at the node's StartOffset and EndOffset past the old states |
| Nfa.BuildOperand | Regex/Regex/Nfa/NfaBuilder.cs:15-24 | The same for characters, classes and postfix nodes, start and end placement included |
| Nfa.BuildConcat | Regex/Regex/Nfa/NfaBuilder.cs:37-48 | An empty concatenation adds two unconnected states; otherwise the result starts where the first element starts and ends where the last element ends, the elements numbered one after the other |
| Nfa.ConcatRest | Regex/Regex/Nfa/NfaBuilder.cs:41-46 | Chaining keeps the first fragment's start, changes no old state but the previous end, and ends where the last element ends |
| Nfa.ConcatRestStep | Regex/Regex/Nfa/NfaBuilder.cs:43-45 | One loop pass builds the next element and gives the previous end exactly one ε-transition, to that element's start |
| Nfa.ConcatRestLinks | Regex/Regex/Nfa/NfaBuilder.cs:41-46 | After the loop, the end of every element but the last has exactly one ε-transition, to the next element's start |
| Nfa.ConcatLinks | Regex/Regex/Nfa/NfaBuilder.cs:37-48 | For a whole concatenation: element j's end leads by exactly one ε-transition to element j+1's start, for every j |
| Nfa.BuildAlternation | Regex/Regex/Nfa/NfaBuilder.cs:50-61 | An alternation adds a fresh start and end state, numbered before its branches |
| Nfa.AlternationBranches | Regex/Regex/Nfa/NfaBuilder.cs:54-59 | Adding the branches changes no old state except the start and leaves the end without transitions |
| Nfa.AddBranch | Regex/Regex/Nfa/NfaBuilder.cs:56-58 | One loop pass gives the shared start one more ε-transition, to the branch's start, and the branch's end exactly one, to the shared end |
| Nfa.AlternationStartLinks | Regex/Regex/Nfa/NfaBuilder.cs:50-61 | The new start has exactly one ε-transition per branch, in branch order, each to that branch's start |
| Nfa.AlternationEndLinks | Regex/Regex/Nfa/NfaBuilder.cs:50-61 | Every branch's end has exactly one ε-transition, to the new end |
| Nfa.BuildStar | Regex/Regex/Nfa/NfaBuilder.cs:63-79 | A star adds a new start and end; both the start and the operand's end move by ε to the operand and to the end |
| Nfa.BuildPlus | Regex/Regex/Nfa/NfaBuilder.cs:81-93 | A plus keeps the operand's start and adds an end; the operand's end loops back by ε and moves by ε to the end |
| Nfa.BuildOptional | Regex/Regex/Nfa/NfaBuilder.cs:95-105 | An optional adds a start that moves by ε to the operand's start and straight to its end |
| Nfa.Build | Regex/Regex/Nfa/NfaBuilder.cs:7-13 | The whole NFA is well formed, has Size(node) states and distinct start and end states, and the end state has no transitions |
| Nfa.StartIsNeverFinal | Regex/Regex/Nfa/NfaBuilder.cs:9-12 | Only the end state is final, so the start state never is |
| Nfa.AlternationExample | Tests/Regex/RegexParserTests.cs:58-80 | `a\|b` builds the six-state NFA with a start splitting by ε into the two branches |
| Dfa.EpsilonTargets | Regex/Regex/Dfa/DfaBuilder.cs:104 | Exactly the targets of a state's ε transitions |
| Dfa.EpsilonClosure | Regex/Regex/Dfa/DfaBuilder.cs:94-111 | Holds every seed, no state twice and only existing states (ClosureIsLeast adds that it is ε-closed) |
| Dfa.ClosureLoop | Regex/Regex/Dfa/DfaBuilder.cs:99-109 | The work-list loop keeps what it has seen and what is queued, and closes the set when every unqueued state's ε targets are in it |
| Dfa.ClosureIsLeast | Regex/Regex/Dfa/DfaBuilder.cs:94-111 | The closure is ε-closed and is contained in every ε-closed set holding the seeds, so it is the least one |
| Dfa.ConditionMoves | Regex/Regex/Dfa/DfaBuilder.cs:80-82 | Exactly the non-ε transitions of a state, each keyed by its condition's `ToString()` as written, the text the source's comparer compares |
| Dfa.Moves | Regex/Regex/Dfa/DfaBuilder.cs:78-90 | Exactly the condition moves of the states in the set |
| Dfa.FindGroup | Regex/Regex/Dfa/DfaBuilder.cs:83 | The first group with the key, or none when no group has it |
| Dfa.AddTarget | Regex/Regex/Dfa/DfaBuilder.cs:88 | A target set plus one target, still without repeats |
| Dfa.GroupMoves | Regex/Regex/Dfa/DfaBuilder.cs:74-92 | The dictionary of GetTransitions, filled move by move; it has no contract of its own, and the four GroupMoves lemmas below state what it holds |
| Dfa.GroupMovesWellFormed | Regex/Regex/Dfa/DfaBuilder.cs:133-140 | Grouping gives one group per key, with no target listed twice |
| Dfa.GroupMovesKeys | Regex/Regex/Dfa/DfaBuilder.cs:74-92 | Every group's key comes from some move |
| Dfa.GroupMovesCoverMoves | Regex/Regex/Dfa/DfaBuilder.cs:74-92 | Every move's target is in the group of its key |
| Dfa.GroupMovesFromMoves | Regex/Regex/Dfa/DfaBuilder.cs:74-92 | Every target in a group comes from a move with that key |
| Dfa.GetTransitions | Regex/Regex/Dfa/DfaBuilder.cs:74-92 | Every group targets existing NFA states only; that the groups are exactly the state set's moves grouped by condition text is the four GroupMoves lemmas above, applied to those moves |
| Dfa.Lookup | Regex/Regex/Dfa/DfaBuilder.cs:44-49 | Finds a DFA state whose NFA set equals the closure as a set, or none when no state has it |
| Dfa.AddTargets | Regex/Regex/Dfa/DfaBuilder.cs:38-60 | Every transition of the new row leads to the state of its group's closure, and the existing states keep their numbers |
| Dfa.Step | Regex/Regex/Dfa/DfaBuilder.cs:29-60 | Handling one queued DFA state adds its row and keeps the construction consistent |
| Dfa.Explore | Regex/Regex/Dfa/DfaBuilder.cs:27-61 | The work-list ends with a row for every DFA state, and earlier states keep their numbers |
| Dfa.FitsStaysInside | Regex/Regex/Dfa/DfaBuilder.cs:44-58 | Every transition of a finished row leads to an existing DFA state |
| Dfa.Assemble | Regex/Regex/Dfa/DfaBuilder.cs:44-48 | Each DFA state is final by the construction's rule and has its row |
| Dfa.BuildDfa | Regex/Regex/Dfa/DfaBuilder.cs:7-65 | A well-formed DFA whose state 0 is the ε-closure of the NFA start, whose states are final by the rule, and whose every row leads to the closures of its condition groups |
| Dfa.ExampleStartClosure | Regex/Regex/Dfa/DfaBuilder.cs:94-111 | In the automaton of `a\|b`, the ε-closure of the start is the start and both branch starts, in the order the queue reaches them |
| Dfa.ExampleEndClosure | Regex/Regex/Dfa/DfaBuilder.cs:94-111 | The closure of either branch end is that end and the shared end |
| Dfa.ExampleGroups | Regex/Regex/Dfa/DfaBuilder.cs:74-92 | The start closure of `a\|b` has one group on `a` and one on `b`; the other two closures have none |
| Dfa.ExampleExplore | Regex/Regex/Dfa/DfaBuilder.cs:27-61 | The builder's queue for `a\|b` maps three closures and gives the start a row of two transitions and the others empty rows |
| Dfa.AlternationDfaExample | Tests/Regex/RegexParserTests.cs:82-99 | `a\|b` gives a three-state DFA: the start moves on `a` to state 1 and on `b` to state 2, and only those two are final |
| DfaInterpreter.FirstMatch | Regex/Regex/Dfa/DfaInterpreter.cs:21-40 | The first transition whose condition matches the character, or none when none matches |
| DfaInterpreter.Step | Regex/Regex/Dfa/DfaInterpreter.cs:21-40 | A move on one character stays inside the DFA |
| DfaInterpreter.Scan | Regex/Regex/Dfa/DfaInterpreter.cs:15-47 | The result is either the best length so far or a length reached later, never past the input |
| DfaInterpreter.Remainder | Regex/Regex/Dfa/DfaInterpreter.cs:15 | The input from the start position on; nothing when the position lies outside it |
| DfaInterpreter.InitialMax | Regex/Regex/Dfa/DfaInterpreter.cs:10 | 0 when the start state is final, -1 otherwise |
| DfaInterpreter.TryMatch | Regex/Regex/Dfa/DfaInterpreter.cs:5-58 | Throws IndexOutOfRange exactly for a negative start, even on the empty input; otherwise gives -1 or a length within the remainder, and never -1 when the start state is final |
| DfaInterpreter.StuckStep | Regex/Regex/Dfa/DfaInterpreter.cs:42-46 | Stopping on a character no transition matches already gives the longest final prefix |
| DfaInterpreter.MoveStep | Regex/Regex/Dfa/DfaInterpreter.cs:26-38 | A move extends the prefix read by one character and records its length when the new state is final |
| DfaInterpreter.ScanFindsLongest | Regex/Regex/Dfa/DfaInterpreter.cs:15-47 | From a consistent state, the loop returns the length of the longest prefix that ends in a final state, or -1 |
| DfaInterpreter.InitialLongest | Regex/Regex/Dfa/DfaInterpreter.cs:9-11 | Before the loop, the empty prefix is read and the initial best length is correct |
| DfaInterpreter.TryMatchIsLongestFinalPrefix | Regex/Regex/Dfa/DfaInterpreter.cs:5-58 | A match is the length of the longest prefix of the remainder that the DFA accepts, or -1 when there is none |
| DfaInterpreter.FallbackNeverFires | Regex/Regex/Dfa/DfaInterpreter.cs:49-54 | The final-state check after the loop never changes the loop's answer |
| DfaInterpreter.StopsAtUnmatchedChar | Regex/Regex/Dfa/DfaInterpreter.cs:42-46 | A match never reaches past the first character that no transition matches |
| DfaInterpreter.StarAOnEmpty | Regex/Regex/Dfa/DfaInterpreter.cs:10 | `a*` matches the empty input with length 0 |
| DfaInterpreter.StarAFromOne | Regex/Regex/Dfa/DfaInterpreter.cs:15 | From position 1, `a*` matches 0 characters of `sz` and 3 of `xaaay` |
| DfaInterpreter.AThenBMissesLaterMatch | Regex/Regex/Dfa/DfaInterpreter.cs:42-46 | `ab` does not match `cabab` at 0, because the match is anchored at the start |
| DfaInterpreter.StarAbFromThree | Regex/Regex/Dfa/DfaInterpreter.cs:15-47 | `(ab)*` matches 4 characters of `234ababde` from position 3 |
| DfaInterpreter.AOrBMatchesA | Regex/Regex/Dfa/DfaInterpreter.cs:15-47 | The DFA of `a\|b` matches one character of `a` |
| DfaInterpreter.AlternationMatchesA | Tests/Regex/RegexParserTests.cs:120 | The DFA built from the pattern `a\|b` matches one character of `a`, as the matching test expects |
| DfaInterpreter.NegativeStartThrows | Regex/Regex/Dfa/DfaInterpreter.cs:15-17 | A negative start throws IndexOutOfRange, on a non-empty and on the empty input alike |
| DotStrings.ScanQuoted | Parsers/Dot/DotParser/DotTerminals.cs:35-48 | The scan of a string body either rejects (-1) or stops at a position between its start and the end of the input |
| DotStrings.QuotedStringMatch | Parsers/Dot/DotParser/DotTerminals.cs:24-52 | A match starts at a `"`, has length at least 1 and stays inside the input; anything not starting with `"` gives -1 |
| DotStrings.CommentEnd | Parsers/Dot/DotParser/DotTerminals.cs:73-74 | A line comment runs up to the next LF, which it does not include, or to the end of the input |
| DotStrings.QuotedStringTryMatch | Parsers/Dot/DotParser/DotTerminals.cs:24-33 | A negative start throws IndexOutOfRange, and only a negative start throws; otherwise the match is -1 or a length of at least 1, inside the input, starting at a `"` |
| DotStrings.TriviaTryMatch | Parsers/Dot/DotParser/DotTerminals.cs:61-66 | A negative start throws IndexOutOfRange, and only a negative start throws; otherwise the length is 0 at or past the end and stays inside the input before it |
| DotStrings.ScanTrivia | Parsers/Dot/DotParser/DotTerminals.cs:61-83 | The trivia scan stops at a position between its start and the end of the input |
| DotStrings.TriviaMatch | Parsers/Dot/DotParser/DotTerminals.cs:61-83 | Trivia at or past the end has length 0; otherwise the match stays inside the input |
| DotStrings.TriviaMatchIsMaximalTrivia | Parsers/Dot/DotParser/DotTerminals.cs:61-83 | The matched text is white space and comments only, and the match stops at a character that is neither white space nor the start of a comment |
| DotStrings.NewQuotedStringNode | Parsers/DotParser/DotAst.cs:58-61 | A span shorter than two characters is out of range; otherwise the node keeps the text between the quotes as its raw value, the decoded text as its value, and its positions |
| DotStrings.QuotedStringText | Parsers/DotParser/DotAst.cs:116 | Printing a node puts its raw value back between two quotes |
| DotStrings.DecodeQuoted | Parsers/DotParser/DotAst.cs:63-114 | Decoding never makes the text longer |
| DotStrings.DecodeEscaped | Parsers/DotParser/DotAst.cs:63-114 | Decoding undoes escaping: every string comes back unchanged |
| DotStrings.ScanEscapedBody | Parsers/Dot/DotParser/DotTerminals.cs:35-48 | The string scanner steps over an escaped body and stops just after the closing quote |
| DotStrings.QuotedStringRoundTrip | Parsers/Dot/DotParser/DotTerminals.cs:24-52 | An escaped, quoted string anywhere in the input is matched with its full length and its node's value is the original string |
| DotStrings.MatcherExamples | Parsers/Dot/DotParser/DotTerminals.cs:24-83 | Trivia matches runs of blanks and `//` comments, and a lone `/` stops it; quoted strings match with their escapes, and text without a quote does not match |
| JsonString.ParseHex | Parsers/Json/JsonVisitor.cs:109-110 | Hex parsing succeeds exactly for an optional `+`, then an optional `0x` or `0X`, then at least one hex digit, and gives their value, below 0x10000; a leading `-` is an ArgumentError and any other malformed text a FormatError, as Convert.ToInt32(s, 16) reports them |
| JsonString.ProcessJsonString | Parsers/Json/JsonVisitor.cs:91-121 | Decoding reads and writes UTF-16 code units, as the .NET string does, and never makes the text longer |
| JsonString.Utf16 | Parsers/Json/JsonVisitor.cs:13 | The .NET string of a text: one code unit per character up to U+FFFF and a surrogate pair above, so between one and two units per character |
| JsonString.Utf16RoundTrip | Parsers/Json/JsonVisitor.cs:13 | Encoding loses nothing: the code units of any text are read back as that text |
| JsonString.Utf16OfBmp | Parsers/Json/JsonVisitor.cs:13 | Text without characters above U+FFFF has exactly one unit per character, of the same value |
| JsonString.StringTerminalValue | Parsers/Json/JsonVisitor.cs:13-16 | The span is cut in code units: it is out of range exactly when it has fewer than two units; otherwise the units between the outer quotes are decoded |
| JsonString.UnescapedIsCopied | Parsers/Json/JsonVisitor.cs:116-117 | Every unit sequence without a backslash decodes to itself, lone or paired surrogates included |
| JsonString.UnescapedTerminal | Parsers/Json/JsonVisitor.cs:16 | A String terminal whose text has no backslash has that text's code units as its value |
| JsonString.DecodeEscapedJson | Parsers/Json/JsonVisitor.cs:91-121 | Decoding undoes JSON escaping: every sequence of UTF-16 code units comes back unchanged |
| JsonString.DecodeEscapedUnit | Parsers/Json/JsonVisitor.cs:96-117 | An escaped code unit decodes to itself, followed by the decoding of the rest |
| JsonString.HexOfHex4 | Parsers/Json/JsonVisitor.cs:108-111 | Four hex digits read back as the value they were written from |
| JsonString.OmegaExample | Parsers/Json/JsonVisitor.cs:16 | `"Ω"` decodes to the single code unit 0x03A9 |
| JsonString.EmojiExample | Parsers/Json/JsonVisitor.cs:91-121 | `"😀"` decodes to the surrogate pair D83D DE00 |
| JsonString.SurrogatesInUnicodeEscape | Parsers/Json/JsonVisitor.cs:108-110 | In `\u12😀` the four units after `\u` are `1`, `2` and a surrogate pair, so decoding throws a FormatError |
| EnumGenerator.ConvertToPascalCase | Parsers/Cpp/EnumGenerator/EnumGenerator.cs:299-334 | An empty name stays empty; a name starting upper case with no `_` only loses a trailing `;`; otherwise the result is shorter by exactly the underscores |
| EnumGenerator.PascalLoopIsCapitalizedWords | Parsers/Cpp/EnumGenerator/EnumGenerator.cs:311-331 | The conversion loop gives the words between underscores, each with its first letter upper case and the rest lower case, joined |
| EnumGenerator.PascalLoopRemovesUnderscores | Parsers/Cpp/EnumGenerator/EnumGenerator.cs:318-322 | When case mapping never produces `_`, the result holds no underscore |
| EnumGenerator.ConvertMemberName | Parsers/Cpp/EnumGenerator/EnumGenerator.cs:420-443 | A name that is empty, starts upper case, is all upper case or has no words stays as it is; any other becomes its capitalised words joined |
| EnumGenerator.MemberNameIsPascalCase | Parsers/Cpp/EnumGenerator/EnumGenerator.cs:420-443 | On every name it changes, member-name conversion agrees with Pascal-case conversion |
| EnumGenerator.ProcessEnumDeclaration | Parsers/Cpp/EnumGenerator/EnumGenerator.cs:237-282 | The enum keeps its members, kind, underlying type, source file and `::`-joined namespace; an enum named `Enum` inside a namespace takes its name from the innermost namespace, any other enum from its own name; with no namespace part left the C# namespace is the file name, otherwise the kept parts PascalCased and joined by `.`, the innermost last |
| EnumGenerator.JoinSnoc | Parsers/Cpp/EnumGenerator/EnumGenerator.cs:268-270 | Joining one more part adds the separator and that part at the end |
| EnumGenerator.NestedNamespace | Parsers/Cpp/EnumGenerator/EnumGenerator.cs:258-270 | Wrapping an enum not named `Enum` in one more namespace appends that namespace, PascalCased, to a non-empty C# namespace |
| EnumGenerator.EnumTakesNamespaceName | Parsers/Cpp/EnumGenerator/EnumGenerator.cs:250-270 | An enum named `Enum` inside namespace `n` gets the C# name and namespace of an enum named `n` one level up |
| EnumGenerator.CollectEnums | Parsers/Cpp/EnumGenerator/EnumGenerator.cs:212-235 | One enum description for every enum declaration in the tree, nested namespaces included |
| EnumGenerator.Enums | Parsers/Cpp/EnumGenerator/EnumGenerator.cs:212-235 | The enum declarations of a tree in document order, each with its enclosing named namespaces, which extend the outer ones |
| EnumGenerator.CollectProcessesEachEnum | Parsers/Cpp/EnumGenerator/EnumGenerator.cs:212-235 | The k-th description the walk yields is ProcessEnumDeclaration of the k-th enum declaration with exactly its enclosing named namespaces |
| EnumGenerator.EnumsSkipAnonymousNamespaces | Parsers/Cpp/EnumGenerator/EnumGenerator.cs:225-227 | An anonymous namespace adds no namespace part: in `namespace a { namespace { E1 } } E2`, E1 is inside `a` and E2 inside nothing |
| EnumGenerator.CSharpUnderlyingType | Parsers/Cpp/EnumGenerator/EnumGenerator.cs:370-382 | No type and `int32_t` give no C# type; a type outside the fixed-width table is kept as it is |
| EnumGenerator.UnderlyingTypeTable | Parsers/Cpp/EnumGenerator/EnumGenerator.cs:370-382 | Each other fixed-width C++ type maps to its C# keyword |
| EnumGenerator.MemberLine | Parsers/Cpp/EnumGenerator/EnumGenerator.cs:394-403 | A member line is the indented converted name, then ` = value` exactly when the member has a non-empty value, then a comma |
| EnumGenerator.HasBitwiseOperations | Parsers/Cpp/EnumGenerator/EnumGenerator.cs:358-362 | The flags test: some member's value contains `<<` or `\|`; a predicate without a contract of its own |
| EnumGenerator.EnumHeaderAsWritten | Parsers/Cpp/EnumGenerator/EnumGenerator.cs:390 | The header as written starts with `public enum` and the name |
| EnumGenerator.EnumHeader | Parsers/Cpp/EnumGenerator/EnumGenerator.cs:369-390 | The corrected header is `public enum Name`, followed by `: type` exactly when there is a C# underlying type |
| EnumGenerator.ByteEnumLosesItsType | Parsers/Cpp/EnumGenerator/EnumGenerator.cs:370-390 | For a `uint8_t` enum, the header as written lacks the `: byte` that the corrected one has |
| EnumGenerator.PascalCaseExample | Parsers/Cpp/EnumGenerator/EnumGenerator.cs:311-333 | `ab_cd` becomes `AbCd` |
| EnumGenerator.UpperNameExample | Parsers/Cpp/EnumGenerator/EnumGenerator.cs:304-305 | `Color;` becomes `Color` |
| EnumGenerator.MemberNameExamples | Parsers/Cpp/EnumGenerator/EnumGenerator.cs:425-442 | `MAX_VALUE` stays as it is and `ab_cd` becomes `AbCd` |
| EnumGenerator.EnumInNamespaceExample | Parsers/Cpp/EnumGenerator/EnumGenerator.cs:250-270 | An enum named `Enum` inside `Ns::a_b` is named `AB` in namespace `Ns` |
| EnumGenerator.PascalOfSnakeName | Parsers/Cpp/EnumGenerator/EnumGenerator.cs:318-330 | `a_b` becomes `AB` |
| EnumGenerator.PascalOfPascalName | Parsers/Cpp/EnumGenerator/EnumGenerator.cs:304-305 | `Ns` stays `Ns` |
| Rules.MakeLiteral | ExtensibleParser/Rules.cs:65 | A literal terminal of the given text, whose kind defaults to the text itself |
| Rules.MakeRef | ExtensibleParser/Rules.cs:205 | A reference to the named rule, whose kind defaults to the literal string `RuleName` |
| Rules.MakeReqRef | ExtensibleParser/Rules.cs:249 | A reference with a required binding power and associativity, whose kind defaults to `RuleName` |
| Rules.TryMatch | ExtensibleParser/Rules.cs:65-70 | A literal throws ArgumentOutOfRange exactly for a start outside `0..length`; otherwise it matches its full length exactly when the text occurs at the start, and gives -1 exactly when it does not; the empty terminal always matches 0 characters; a custom terminal gives its matcher's answer |
| Rules.GetSubRules | ExtensibleParser/Rules.cs:52-412 | Every rule collected is of the requested class and occurs inside the rule, and a rule of that class comes first itself |
| Rules.SubRulesExactly | ExtensibleParser/Rules.cs:52-412 | A rule is collected exactly when it occurs inside the rule and is of the requested class |
| Rules.HasRecoveryTerminal | ExtensibleParser/Parser.cs:75 | An alternative is a recovery rule when some recovery terminal occurs inside it; a predicate without a contract of its own, made exact by SubRulesExactly |
| Rules.InlineReferences | ExtensibleParser/Rules.cs:92-253 | After inlining, no reference to an inlineable rule remains and every often-missed kind is reset; terminals, required references and references to other rules are left as they are |
| Rules.InlineAll | ExtensibleParser/Rules.cs:92-93 | Inlines every element of a list, keeping its length |
| Rules.InlinedIsFixed | ExtensibleParser/Rules.cs:209-210 | A rule with nothing left to inline comes back unchanged |
| Rules.InlinedAllFixed | ExtensibleParser/Rules.cs:92-93 | A list with nothing left to inline comes back unchanged |
| Rules.InlineIsIdempotent | ExtensibleParser/Rules.cs:92-253 | Inlining an inlined rule again changes nothing, whatever the fuel |
| Rules.InlineResetsMissedKind | ExtensibleParser/Rules.cs:186-187 | Inlining an often-missed rule resets its kind to `Error` |
| Tdopp.FirstReqRef | ExtensibleParser/Parser.cs:79 | The first required reference in the tail, or none when the tail has none |
| Tdopp.PostfixOf | ExtensibleParser/Parser.cs:77-94 | A left-recursive alternative becomes the postfix of its tail, bound like the first required reference in the tail; with none, like a required-reference head or at 0, and never right-associative |
| Tdopp.SplitAlternatives | ExtensibleParser/Parser.cs:73-103 | Every alternative goes to exactly one recovery list, and the normal lists are no longer than the recovery ones |
| Tdopp.PrefixesAreNonRecursive | ExtensibleParser/Parser.cs:96-102 | The recovery prefixes are exactly the alternatives that are not left-recursive; the normal prefixes are those that also have no recovery terminal |
| Tdopp.RecoveryPostfixesAreRecursive | ExtensibleParser/Parser.cs:77-94 | The recovery postfixes are exactly the postfixes of the left-recursive alternatives |
| Tdopp.PostfixesAreRecursive | ExtensibleParser/Parser.cs:84-93 | The normal postfixes are exactly the postfixes of the left-recursive alternatives without a recovery terminal |
| Tdopp.BuildTdoppRule | ExtensibleParser/Parser.cs:105-112 | A rule's TDOPP entry is named by a reference to it and takes its name as kind, and its recovery lists hold every alternative |
| Tdopp.BuildTdoppRulesInternal | ExtensibleParser/Parser.cs:62-114 | Every rule gets its freshly built entry, and entries for names that are no longer rules remain, because the table is never cleared |
| Tdopp.InlineableRules | ExtensibleParser/Parser.cs:49-51 | Exactly the entries with no postfix and a single prefix are inlineable, each mapped to that prefix |
| Tdopp.InlineRules | ExtensibleParser/Parser.cs:53-56 | Every rule's alternatives are inlined, with the same rule names, and the result is missing exactly when some inlining runs out of fuel |
| Tdopp.BuildTdoppRules | ExtensibleParser/Parser.cs:47-60 | After building, the rules keep their names, no alternative refers to a rule that was inlineable, and the table is rebuilt from the inlined rules |
| Tdopp.SingleAlternativeIsInlineable | ExtensibleParser/Parser.cs:49-51 | A rule with one alternative that is neither left-recursive nor a recovery rule is inlineable, as that alternative |
| Tdopp.AdditionExample | ExtensibleParser/Parser.cs:77-85 | `Expr = Num \| Expr "+" Expr:100` gives one prefix and one postfix with binding power 100 |
| Parser.RecordFailure | ExtensibleParser/Parser.cs:530-538 | A failure further right than the furthest so far resets the expected set to this terminal, one at the same position adds it, and one further left changes nothing |
| Parser.ParseTerminal | ExtensibleParser/Parser.cs:524-562 | A matcher exception propagates; a miss fails at the start position and records the failure; a match yields a terminal node of the terminal's kind and length, then skips the trivia after it, whose exception also propagates |
| Parser.LiteralTerminalMatchesIffOccurs | ExtensibleParser/Parser.cs:524-562 | Without trivia, a literal succeeds exactly when its text occurs at the position, and then ends after the text; a failure moves the error position to the maximum of the old one and this position |
| Parser.ChooseIsLongestLeftFirst | ExtensibleParser/Parser.cs:335-341 | The chosen postfix reaches furthest; among those that reach as far, a left-associative one beats the right-associative ones before it; nothing is chosen exactly when every candidate ends before the start |
| Parser.ParseRule | ExtensibleParser/Parser.cs:219-293 | The result is memoised under (position, rule, binding power); outside the recovery position a new success is never empty; an unknown rule throws InvalidData |
| Parser.PrefixLoop | ExtensibleParser/Parser.cs:254-285 | Trying the prefixes keeps the memo consistent and the best result so far good, and never moves the error position back |
| Parser.ProcessPostfix | ExtensibleParser/Parser.cs:295-360 | The postfix loop always returns a node and never ends before it started |
| Parser.PostfixCandidates | ExtensibleParser/Parser.cs:314-342 | Every candidate collected ends at or after the position and is applicable at the current binding power |
| Parser.TryParsePostfix | ExtensibleParser/Parser.cs:362-400 | A success is a sequence node of the postfix's kind that starts with the current node, followed by the parsed elements without predicate nodes, spanning from the current node's start to the new position; a postfix without elements throws NullReference |
| Parser.CollectElements | ExtensibleParser/Parser.cs:575-593 | Collecting a sequence's elements either stops with a failure or keeps every node that is not a predicate |
| Parser.ParseSeq | ExtensibleParser/Parser.cs:564-600 | A successful sequence never yields a bare predicate node |
| Parser.Repeat | ExtensibleParser/Parser.cs:479-491 | Repetition only adds nodes after those it had and never moves back |
| Parser.ParseOneOrMany | ExtensibleParser/Parser.cs:462-494 | A success is a sequence node of the rule's kind with at least one element, spanning the match |
| Parser.ParseZeroOrMany | ExtensibleParser/Parser.cs:496-518 | Always succeeds, with a sequence node of the rule's kind spanning the match |
| Parser.RepeatIsSuccessive | ExtensibleParser/Parser.cs:479-491 | The repetition loop keeps the nodes it had and appends exactly the nodes of the element's successive successful parses, each starting where the last ended, and stops at the element's first failure |
| Parser.OneOrManyIsSuccessive | ExtensibleParser/Parser.cs:462-494 | OneOrMany fails exactly when its first element fails; a success holds that element's node followed by the successive parses after it, up to the first failure |
| Parser.ZeroOrManyIsSuccessive | ExtensibleParser/Parser.cs:496-518 | ZeroOrMany's elements are exactly the successive successful parses of its element from the start, up to the first failure |
| Parser.ParseOptional | ExtensibleParser/Parser.cs:443-451 | Always succeeds with a Some or a None node, and a None node consumes nothing |
| Parser.ParseOftenMissed | ExtensibleParser/Parser.cs:453-460 | The element's own result and state, except when the element fails at the recovery position as it stands after the element's parse: then an empty recovery terminal node at the start, with the element's furthest failure |
| Parser.ParsePredicate | ExtensibleParser/Parser.cs:421-441 | A predicate runs its rule and then restores the error position; it succeeds with an empty predicate node exactly when the rule's success agrees with the predicate's polarity, and fails at the start otherwise |
| Parser.ListLoop | ExtensibleParser/Parser.cs:635-675 | The list loop never moves back, and an unfailed list has the delimiter count its end behaviour allows |
| Parser.ParseSeparatedList | ExtensibleParser/Parser.cs:603-694 | A success is a list node spanning the match; it is empty only when the rule allows that, and then consumes nothing; a missing first element gives the empty list or a failure, depending on whether the list may be empty |
| Parser.ParseAlternative | ExtensibleParser/Parser.cs:402-419 | The result is good and the error position does not move back |
| Parser.ParseRuleIsMemoised | ExtensibleParser/Parser.cs:228-237 | Parsing the same rule at the same position again returns the memoised answer without change, unless that answer failed at the recovery position |
| Parser.ErrorAt | ExtensibleParser/Parser.cs:179 | Building the error report throws ArgumentOutOfRange exactly when the error position lies outside the input; otherwise it reports the input, the position, its line and column, and the expected terminals |
| Parser.Prune | ExtensibleParser/Parser.cs:203-215 | A retry keeps exactly the memoised successes that neither start where the round started nor end at the error position |
| Parser.Round | ExtensibleParser/Parser.cs:171-215 | A round either parses the whole input, or gives up with a report of the furthest error, or retries after moving the error position forward, setting the recovery position there and pruning the memo |
| Parser.Rounds | ExtensibleParser/Parser.cs:169-216 | The rounds end either with the whole input parsed or with an error report, and the report is cleared only when it never existed |
| Parser.Parse | ExtensibleParser/Parser.cs:146-217 | Parsing either consumes the whole input or returns a report of the furthest error, and leading trivia has a non-negative length that is 0 for empty input; leading trivia that does not match throws InvalidOperation |
| Parser.LiteralGrammarParsesA | ExtensibleParser/Parser.cs:146-177 | The one-rule grammar `S = "a"` parses `a` completely with no error |
| Parser.EmptyMatchIsRejected | ExtensibleParser/Parser.cs:271-283 | `S = "a"*` rejects the empty input with an error at 0, because a rule may not succeed on an empty match |
| FollowSets.Unwrap | ExtensibleParaser/FollowSetCalculatorV2.cs:178-185 | Repetition, optional and often-missed wrappers are stripped down to the first element that is none of them; anything else is left as it is |
| FollowSets.UnwrapIsIdempotent | ExtensibleParaser/FollowSetCalculatorV2.cs:178-185 | Unwrapping twice is the same as unwrapping once |
| FollowSets.Production | ExtensibleParaser/FollowSetCalculatorV2.cs:172-176 | A sequence alternative is its unwrapped elements, any other alternative the single unwrapped rule |
| FollowSets.ComputeFirst | ExtensibleParaser/FollowSetCalculatorV2.cs:64-92 | The FIRST set of a rule is stored under its name, the sets already stored are kept, and only tokens enter; a rule the grammar lacks throws KeyNotFound after its empty placeholder is stored, and every throw leaves the missing name's placeholder in the table |
| FollowSets.FirstOfAlternatives | ExtensibleParaser/FollowSetCalculatorV2.cs:72-90 | The alternatives' FIRST sets only add to the rule's set, which stays stored under its name; a throw from a referenced rule is KeyNotFound and leaves that rule's placeholder stored |
| FollowSets.FirstOfAll | ExtensibleParaser/FollowSetCalculatorV2.cs:38-41 | Every remaining rule name gets a FIRST set and the stored sets are kept; when a rule throws, the sets stored before the throw stay, the first rule's and the missing name's placeholder among them |
| FollowSets.FirstSets | ExtensibleParaser/FollowSetCalculatorV2.cs:36-41 | Every rule of the grammar has a FIRST set, and the sets hold tokens only |
| FollowSets.FirstSetsNeverHoldEpsilon | ExtensibleParaser/FollowSetCalculatorV2.cs:64-92 | No FIRST set ever holds ε or the end of input |
| FollowSets.FirstOfElement | ExtensibleParaser/FollowSetCalculatorV2.cs:149-157 | A terminal's FIRST is itself; a reference's FIRST is the stored set of its rule, or KeyNotFound when none is stored; anything else contributes nothing |
| FollowSets.FirstOfSequence | ExtensibleParaser/FollowSetCalculatorV2.cs:133-147 | An empty sequence has an empty FIRST set, the sets hold tokens only, and a non-empty sequence's set includes its first element's FIRST set without ε |
| FollowSets.FirstOfRemainder | ExtensibleParaser/FollowSetCalculatorV2.cs:111-112 | Corrected: the empty remainder has FIRST {ε}, so a reference at the end of a production inherits its parent's FOLLOW; a non-empty remainder is as written |
| FollowSets.Productions | ExtensibleParaser/FollowSetCalculatorV2.cs:159-170 | One production per alternative |
| FollowSets.AllSites | ExtensibleParaser/FollowSetCalculatorV2.cs:102-109 | Every position of every production of every rule, each pointing inside its production |
| FollowSets.Absorb | ExtensibleParaser/FollowSetCalculatorV2.cs:115-119 | A reference's FOLLOW keeps what it had and gains what follows it, ε excluded; it also gains the parent's FOLLOW exactly when what follows can be empty |
| FollowSets.Update | ExtensibleParaser/FollowSetCalculatorV2.cs:113-125 | The sets only grow, the rule's FOLLOW then covers the site, and "changed" is reported exactly when the set strictly grew |
| FollowSets.Step | ExtensibleParaser/FollowSetCalculatorV2.cs:109-126 | Processing a site grows the sets and closes that site; a change strictly grows the referenced rule's FOLLOW; a site that is not a reference changes nothing; only a missing FIRST set throws |
| FollowSets.Pass | ExtensibleParaser/FollowSetCalculatorV2.cs:101-129 | A pass grows the sets, and a pass that changes nothing finds every site closed |
| FollowSets.Fixpoint | ExtensibleParaser/FollowSetCalculatorV2.cs:98-130 | When it finishes, the sets have only grown and every site is closed |
| FollowSets.FollowSet | ExtensibleParaser/FollowSetCalculatorV2.cs:30-45 | An empty rule name is an argument error; otherwise the answer is the rule's set in the closed fixpoint seeded with end of input for `Module`, and `Module`'s set holds end of input |
| FollowSets.GetFollowSetAsWritten | ExtensibleParaser/FollowSetCalculatorV2.cs:30-45 | As written, end of input is in a rule's FOLLOW only when that rule is `Module` |
| FollowSets.GetFollowSet | ExtensibleParaser/FollowSetCalculatorV2.cs:30-45 | Corrected, the same argument check, and `Module`'s FOLLOW holds end of input |
| FollowSets.FollowAsWrittenNeverInherits | ExtensibleParaser/FollowSetCalculatorV2.cs:133-147 | As written, end of input never leaves `Module`, even for a rule that ends `Module`'s production |
| FollowSets.FixpointAsWrittenOnlyAddsTokens | ExtensibleParaser/FollowSetCalculatorV2.cs:98-130 | As written, the fixpoint adds only tokens to the seeded sets, never ε or end of input |
| FollowSets.TailInheritsFollow | ExtensibleParaser/FollowSetCalculatorV2.cs:118-119 | Corrected, in the closed sets a reference at the end of a production has at least its parent's FOLLOW |
| FollowSets.TinyFirstSets | ExtensibleParaser/FollowSetCalculatorV2.cs:64-92 | For `Module = Stmt` and `Stmt = "x"`, both FIRST sets are `{x}` |
| FollowSets.TinyFollowAsWritten | ExtensibleParaser/FollowSetCalculatorV2.cs:133-147 | As written, FOLLOW(`Stmt`) in that grammar is empty |
| FollowSets.TinyFollowCorrected | ExtensibleParaser/FollowSetCalculatorV2.cs:94-131 | Corrected, FOLLOW(`Stmt`) is `{end of input}` |
| FollowSets.GetFirstSet | ExtensibleParaser/FollowSetCalculatorV2.cs:47-62 | An empty rule name is an argument error; once sets are stored they are reused; otherwise they are computed and stored and the rule's set is returned, and a computation that throws KeyNotFound leaves the first rule's set and the missing name's placeholder in the table |
| FollowSets.BrokenAnswersOnSecondCall | ExtensibleParaser/FollowSetCalculatorV2.cs:54-72 | For `Module = Missing` the first call throws KeyNotFound but leaves the empty placeholders of Module and Missing, so the second call answers with the empty set instead of throwing |
| PrecedenceOrder.Insert | Parsers/CsNitra/CsNitraGrammar/TypeChecking/CsNitraTypeChecker.cs:267 | `List.Insert`: the element lands at the index, the elements before it stay and those after it shift by one |
| PrecedenceOrder.FirstKnown | Parsers/CsNitra/CsNitraGrammar/TypeChecking/CsNitraTypeChecker.cs:253 | The first name of the new list that is already known, or none when no name is |
| PrecedenceOrder.IndexOfValue | Parsers/CsNitra/CsNitraGrammar/TypeChecking/CsNitraTypeChecker.cs:257 | The position of a name in the merged order, none exactly when the name is absent |
| PrecedenceOrder.DropValue | Parsers/CsNitra/CsNitraGrammar/TypeChecking/CsNitraTypeChecker.cs:276-283 | Leaving out the anchor leaves no copy of it and never adds an element |
| PrecedenceOrder.SuffixRejectsKnown | Parsers/CsNitra/CsNitraGrammar/TypeChecking/CsNitraTypeChecker.cs:286-292 | A name after the anchor that is already known makes the merge fail |
| PrecedenceOrder.InsertPrefix | Parsers/CsNitra/CsNitraGrammar/TypeChecking/CsNitraTypeChecker.cs:259-272 | The first loop of the merge; it has no contract of its own, and PrefixInserts states what it does |
| PrecedenceOrder.InsertSuffix | Parsers/CsNitra/CsNitraGrammar/TypeChecking/CsNitraTypeChecker.cs:274-294 | The second loop of the merge; it has no contract of its own, and SuffixRejectsKnown and SuffixInserts state what it does |
| PrecedenceOrder.PrefixInserts | Parsers/CsNitra/CsNitraGrammar/TypeChecking/CsNitraTypeChecker.cs:259-272 | The names before the anchor are inserted, in order, at the anchor's position, and become known |
| PrecedenceOrder.SuffixInserts | Parsers/CsNitra/CsNitraGrammar/TypeChecking/CsNitraTypeChecker.cs:274-294 | The names after the anchor, other than the anchor, are inserted in order at the given position, and become known |
| PrecedenceOrder.MergeAnchored | Parsers/CsNitra/CsNitraGrammar/TypeChecking/CsNitraTypeChecker.cs:257-296 | Merging around a known anchor inserts the prefix before it and the suffix at the chosen index |
| PrecedenceOrder.MergeAt | Parsers/CsNitra/CsNitraGrammar/TypeChecking/CsNitraTypeChecker.cs:246-256 | The first list is taken as it is; a later list with no known name cannot be merged; a merge makes every name of the list known and keeps the order free of duplicates |
| PrecedenceOrder.TryMergeAsWritten | Parsers/CsNitra/CsNitraGrammar/TypeChecking/CsNitraTypeChecker.cs:241-297 | As written, the suffix goes at the anchor's original index plus one; the merge still makes every name known |
| PrecedenceOrder.TryMerge | Parsers/CsNitra/CsNitraGrammar/TypeChecking/CsNitraTypeChecker.cs:241-297 | Corrected, the suffix goes just after the anchor's new position; the merge makes every name known |
| PrecedenceOrder.MergeSplicesAroundAnchor | Parsers/CsNitra/CsNitraGrammar/TypeChecking/CsNitraTypeChecker.cs:257-294 | The corrected merge is the old order with the names before the anchor right before it and the names after it right after it |
| PrecedenceOrder.AsWrittenShape | Parsers/CsNitra/CsNitraGrammar/TypeChecking/CsNitraTypeChecker.cs:274-289 | As written, with at least one name before the anchor, the suffix lands after the first of them and before the anchor |
| PrecedenceOrder.MergeRespectsNewList | Parsers/CsNitra/CsNitraGrammar/TypeChecking/CsNitraTypeChecker.cs:259-294 | After the corrected merge, every name before the anchor in the new list comes before it, and every other name after it comes after it |
| PrecedenceOrder.AsWrittenMisplacesSuffix | Parsers/CsNitra/CsNitraGrammar/TypeChecking/CsNitraTypeChecker.cs:274 | Merging `[x, A, y]` into `[A]` gives `[x, y, A]` as written and `[x, A, y]` corrected |
| PrecedenceOrder.MergeEach | Parsers/CsNitra/CsNitraGrammar/TypeChecking/CsNitraTypeChecker.cs:217-228 | Every list is merged in turn, by the merge as written (the source) or by the corrected one; a failure names the index of a dependency that was actually given |
| PrecedenceOrder.MergeEachKeepsEveryName | Parsers/CsNitra/CsNitraGrammar/TypeChecking/CsNitraTypeChecker.cs:217-228 | A successful merge of all lists holds exactly the names of all of them |
| PrecedenceOrder.TwoListsOrder | Parsers/CsNitra/CsNitraGrammar/TypeChecking/CsNitraTypeChecker.cs:217-228 | Merging `[A]` then `[x, A, y]` gives `[x, y, A]` as written and `[x, A, y]` corrected |
| PrecedenceOrder.ResolvedPowersAreFound | Parsers/CsNitra/CsNitraGrammar/TypeChecking/CsNitraTypeChecker.cs:212-239 | After a successful merge, looking up a name finds the precedence symbol with its binding power, the length of the order minus its index |
| PrecedenceOrder.TwoListsAsWrittenPowers | Parsers/CsNitra/CsNitraGrammar/TypeChecking/CsNitraTypeChecker.cs:230-238 | As written, that grammar gives `A` binding power 1 |
| PrecedenceOrder.TwoListsCorrectedPowers | Parsers/CsNitra/CsNitraGrammar/TypeChecking/CsNitraTypeChecker.cs:230-238 | Corrected, `A` gets binding power 2, between `x` and `y` |
| PrecedenceOrder.SymbolNames | Parsers/CsNitra/CsNitraGrammar/TypeChecking/CsNitraTypeChecker.cs:222 | The names of the identifiers, in order |
| PrecedenceOrder.BindingPowers | Parsers/CsNitra/CsNitraGrammar/TypeChecking/CsNitraTypeChecker.cs:230-238 | The i-th name of the merged order gets binding power `count - i`, so earlier names bind tighter |
| PrecedenceOrder.AddAll | Parsers/CsNitra/CsNitraGrammar/TypeChecking/CsNitraTypeChecker.cs:230-238 | Adding the precedence symbols reports nothing, keeps the context well formed and opens no scope |
| PrecedenceOrder.ResolvePrecedenceDependencies | Parsers/CsNitra/CsNitraGrammar/TypeChecking/CsNitraTypeChecker.cs:212-239 | When some list cannot be merged, exactly one error names that list at its location; otherwise every name of the merged order is added with its binding power |
| PrecedenceOrder.AddedPowersAreFound | Parsers/CsNitra/CsNitraGrammar/TypeChecking/CsNitraTypeChecker.cs:230-238 | Afterwards, each name looks up as its precedence symbol with its binding power |
| PrecedenceOrder.SingleListBindingPowers | Parsers/CsNitra/CsNitraGrammar/TypeChecking/CsNitraTypeChecker.cs:212-251 | One list `a < b < d` of distinct names gives them binding powers 3, 2 and 1 and reports nothing |
| TypeChecker.ResolveKeepsRules | Parsers/CsNitra/CsNitraGrammar/TypeChecking/CsNitraTypeChecker.cs:212-239 | Resolving precedences changes no rule lookup |
| TypeChecker.CheckGrammar | Parsers/CsNitra/CsNitraGrammar/TypeChecking/CsNitraTypeChecker.cs:186-191 | The diagnostics are the precedence error, when a list does not merge, followed by the statements' reports, and the global scope is the one the precedences were resolved into |
| TypeChecker.CheckGrammarNeverMissesRule | Parsers/CsNitra/CsNitraGrammar/TypeChecking/CsNitraTypeChecker.cs:186-191 | Checking a grammar after collecting its declarations never reports a declared rule as missing |
| TypeChecker.RequireName | Parsers/CsNitra/CsNitraGrammar/TypeChecking/TypeCheckerVisitor.cs:128-129 | Reports the message exactly when no name is given, and keeps the scopes |
| TypeChecker.VisitExpr | Parsers/CsNitra/CsNitraGrammar/TypeChecking/TypeCheckerVisitor.cs:82-192 | Visiting an expression never changes the scopes |
| TypeChecker.VisitAppends | Parsers/CsNitra/CsNitraGrammar/TypeChecking/TypeCheckerVisitor.cs:82-192 | Visiting only appends, and what it appends depends on the scopes, the expression and the name flag alone |
| TypeChecker.ReportsAreVisitorMessages | Parsers/CsNitra/CsNitraGrammar/TypeChecking/TypeCheckerVisitor.cs:82-198 | An expression's reports are never a missing rule or an unmergeable precedence list; those come only from statements and from precedence resolution |
| TypeChecker.UnnamedGroupReportsOnce | Parsers/CsNitra/CsNitraGrammar/TypeChecking/TypeCheckerVisitor.cs:146-157 | An unnamed group reports one missing name, and its contents are checked as named |
| TypeChecker.UnnamedRepetitionReportsItems | Parsers/CsNitra/CsNitraGrammar/TypeChecking/TypeCheckerVisitor.cs:126-175 | An unnamed repetition or list reports one missing `Items` name, and its contents are checked as named |
| TypeChecker.OptionalNeedsNoName | Parsers/CsNitra/CsNitraGrammar/TypeChecking/TypeCheckerVisitor.cs:112-124 | Optional and often-missed expressions are checked the same with or without a name |
| TypeChecker.NestedNameReported | Parsers/CsNitra/CsNitraGrammar/TypeChecking/TypeCheckerVisitor.cs:99-110 | A name directly inside a name is reported at the inner name |
| TypeChecker.ReferenceReported | Parsers/CsNitra/CsNitraGrammar/TypeChecking/TypeCheckerVisitor.cs:177-185 | A one-part reference reports exactly one error exactly when it is neither a rule nor a terminal; a qualified reference is not checked |
| TypeChecker.NamedSequenceIsClean | Parsers/CsNitra/CsNitraGrammar/TypeChecking/TypeCheckerVisitor.cs:82-110 | A named sequence of a known rule and a known terminal reports nothing |
| TypeChecker.RightOfSequenceNeedsSequenceOnLeft | Parsers/CsNitra/CsNitraGrammar/TypeChecking/TypeCheckerVisitor.cs:87-96 | In a sequence, the left part is checked as unnamed unless it is itself a sequence, and an unnamed repetition on the right reports a missing `Items` name |
| TypeChecker.ScopedVisit | Parsers/CsNitra/CsNitraGrammar/TypeChecking/TypeCheckerVisitor.cs:62-70 | Entering a scope for an alternative and leaving it restores the scopes and keeps the diagnostics |
| TypeChecker.VisitAlternative | Parsers/CsNitra/CsNitraGrammar/TypeChecking/TypeCheckerVisitor.cs:62-80 | An alternative appends its reports and leaves the scopes as they were |
| TypeChecker.VisitAlternatives | Parsers/CsNitra/CsNitraGrammar/TypeChecking/TypeCheckerVisitor.cs:42-45 | The alternatives append their reports in order and leave the scopes as they were |
| TypeChecker.VisitStatement | Parsers/CsNitra/CsNitraGrammar/TypeChecking/TypeCheckerVisitor.cs:32-60 | A statement appends its reports and leaves the scopes as they were |
| TypeChecker.VisitStatements | Parsers/CsNitra/CsNitraGrammar/TypeChecking/TypeCheckerVisitor.cs:20-30 | The statements append their reports in order and leave the scopes as they were |
| TypeChecker.AlternativesReportNoRule | Parsers/CsNitra/CsNitraGrammar/TypeChecking/TypeCheckerVisitor.cs:62-80 | Checking alternatives never reports a missing rule |
| TypeChecker.StatementReportsRuleOnlyIfMissing | Parsers/CsNitra/CsNitraGrammar/TypeChecking/TypeCheckerVisitor.cs:32-54 | A statement reports a missing rule only when it declares a rule that cannot be found |
| TypeChecker.StatementsFindRules | Parsers/CsNitra/CsNitraGrammar/TypeChecking/TypeCheckerVisitor.cs:20-30 | When every declared rule can be found, no missing rule is reported |
| TypeChecker.CollectDeclarations | Parsers/CsNitra/CsNitraGrammar/TypeChecking/DeclarationCollectorVisitor.cs:16-34 | Collecting keeps the scope depth and the diagnostics, and returns the precedence lists of exactly the precedence statements, in order |
| TypeChecker.CollectedRulesAreFound | Parsers/CsNitra/CsNitraGrammar/TypeChecking/DeclarationCollectorVisitor.cs:24-34 | After collecting, every declared rule can be looked up |

## Left out

- Logging, the parser's rule stack and the memoisation visualiser. They are diagnostics only and do not affect results.
- Parsing is bounded by `fuel` (recursion depth) and `rounds` (recovery rounds); follow-set fixpoints and rule inlining are bounded by `fuel`. Running out gives `OutOfFuel` or `None`, a case the source does not have.
- Parser.ProcessPostfix: a postfix that matches nothing makes the source loop for ever. The model stops it through the fuel bound, so no contract speaks about that case.
- Parser.ParseAlternative: the contract states only the soundness invariant (a good result, a consistent memo, an error position that never moves back) and not the node built for each case; each case's parser states that.
- Parser.Parse: `_expected` is not cleared when a parse starts, and the model keeps whatever the given state holds. Error information from an earlier round is kept across rounds, as in the source.
- Exception messages are mostly modelled as exception kinds only. Texts are kept in these places:
  - the regex parser: "Unexpected end of pattern" and "Expected ')'" in full, and "Unexpected char" and "Invalid range" without the position number;
  - the FOLLOW-set calculator's "Rule name cannot be null or empty";
  - the parser's failed `Guard` assertion about the trivia length;
  - the JSON hex parser's two errors. These are messages of .NET's own `Convert.ToInt32`, which is not part of this model; their wording follows the .NET runtime's resource texts, and only their kinds are meant to be relied on.
- Custom terminals are a `(id, input, position) -> length` matcher passed in as a parameter. Terminal generation from regular expressions is not part of this model.
- Sets are modelled as Dafny sets, with no order: the parser's expected terminals (`_expected.ToArray()`) and the FIRST and FOLLOW hash sets.
- Null arguments, which C#'s nullable annotations exclude.
- The tuple overload of `ParseResult.TryGetSuccess`. It returns the same information as the modelled one.
- `ParseResult.ToString` and `Index`/`Range` `ToString`. They only format values.
- Unicode categories (letter, digit, white space, upper case, case mapping) are fields of `Chars.CharInfo` and stay abstract; the examples use an ASCII instance.
- Positions and lengths outside the JSON string decoder count Unicode scalar values, not UTF-16 code units, so on text with characters above U+FFFF they differ from the source's. This concerns the columns of `TextPosition.PositionToLineCol` and `TextPosition.HighlightContext`, the parser's start and end positions and lengths, the match lengths of `DfaInterpreter.TryMatch` and the `DotStrings` matchers, and the `^n` offsets of `IndexRange`. On text within U+FFFF the two counts agree.
- The type checker's last step, `ResolveSymbolReferences`, with its `SymbolReferenceResolver` visitor. It only writes the results of scope lookups into the syntax tree's symbol fields, and reports and declares nothing, so the diagnostics and the global scope do not depend on it.
- JSON numbers and the other JsonVisitor visit methods, which build the JSON tree; only the string decoding is modelled.
- The Roslyn side of EnumGenerator:
  - `Execute`, `GetCppFilesFromAttributes`, `FindCppFile`, `CreateLocation`, `GetFileName`;
  - diagnostics and file discovery;
  - the namespace grouping and ordering in `GenerateCSharpCode`.

  The C++ parse tree is taken as input.
- The loader's COM and CLR hosting, the Windows API calls and the tracer's file I/O. Their outcomes are fields of `Loader.Platform`:
  - whether the tracer was created;
  - whether the entry point was found;
  - the managed exit code;
  - whether the trace file exists.
- `NativeTracer::Trace` after `Deinit` dereferences a null pointer; the model has no tracer object.
- `GetAllStates` of the DFA builder.
- The matching tests build each DFA from its pattern. Only `a|b` is carried from pattern to match here (`DfaInterpreter.AlternationMatchesA`). The other matching examples run on small DFAs written out in the shape the builder gives for `a*`, `ab` and `(ab)*`, without deriving them from their patterns.
- The DFA builder and interpreter do not split overlapping conditions (such as `a` next to `[a-z]`); the interpreter takes the first matching transition. This is modelled as it is.
- TypeChecker.VisitExpr: `&e`, `!e` and literal expressions report nothing and leave the context as it is. The type checker does not override these cases and leaves them to its base visitor class, which is not part of this model (only the `IAstVisitor` interface is); the model assumes that class visits nothing that reports or declares.
- The print/parse round trip of regular expressions is proved only for literal patterns (`RegexParser.LiteralRoundTrip`). For other patterns the model states how each node prints and where the printer as written goes wrong (see Findings), not a general inverse.
- TextPosition.HighlightContext: the result is the pair of lines. The source returns one string from a raw string literal, so the two lines are joined by the line break of its own source file (`\r\n` or `\n`, depending on how the file was checked out); the model does not fix that joiner.
- DotStrings.MatcherExamples: the inputs are short strings chosen to reach each branch of the two matchers; they are not taken from the repository's tests.
- `GetSubRules` of a TDOPP rule also yields the rule itself when it matches; the model collects only its prefix and postfix sub-rules.
- The ExtensibleParaser directory holds an older copy of Rules.cs without `OftenMissed`. The follow-set model uses the rule type of the parser model. Like that copy, it treats a required reference as something other than a reference, so a required reference adds nothing to FIRST or FOLLOW.

## Findings

| source | as written | input that shows it | evidently intended | confidence | as-written member | corrected member |
|---|---|---|---|---|---|---|
| Parsers/CsNitra/CsNitraGrammar/TypeChecking/CsNitraTypeChecker.cs:274 | The names after the anchor are inserted at the anchor's original index plus one, ignoring the names just inserted before it | merging `[x, A, y]` into `[A]` gives `[x, y, A]` | `[x, A, y]`: the suffix goes right after the anchor | not executed | PrecedenceOrder.TryMergeAsWritten, PrecedenceOrder.AsWrittenMisplacesSuffix, PrecedenceOrder.TwoListsAsWrittenPowers | PrecedenceOrder.TryMerge, PrecedenceOrder.MergeSplicesAroundAnchor, PrecedenceOrder.TwoListsCorrectedPowers |
| Parsers/Cpp/EnumGenerator/EnumGenerator.cs:370-390 | The C# underlying-type suffix is computed but never written into the enum header | an enum with underlying type `uint8_t` is emitted as `public enum E` | `public enum E : byte` | not executed | EnumGenerator.EnumHeaderAsWritten, EnumGenerator.ByteEnumLosesItsType | EnumGenerator.EnumHeader |
| Regex/Regex/RegexAst.cs:94 | A concatenation prints its elements at precedence 1, and an alternation is parenthesised only above 2 | `x[a-z\d]` parses to `x` followed by an alternation and prints as `x[a-z]\|\d`, which parses differently | elements printed above the alternation's precedence: `x([a-z]\|\d)` | not executed | RegexAst.TextAsWritten, RegexParser.AsWrittenPrintChangesMeaning | RegexAst.Text, RegexParser.CorrectedPrintKeepsGrouping |
| ExtensibleParaser/FollowSetCalculatorV2.cs:133-147 | The FIRST set of an empty remainder is `{}`, without ε, so a reference at the end of a production never inherits its parent's FOLLOW | `Module = Stmt; Stmt = "x"` gives FOLLOW(`Stmt`) = `{}` | FOLLOW(`Stmt`) = `{end of input}` | not executed | FollowSets.GetFollowSetAsWritten, FollowSets.TinyFollowAsWritten, FollowSets.FollowAsWrittenNeverInherits | FollowSets.GetFollowSet, FollowSets.TailInheritsFollow, FollowSets.TinyFollowCorrected |

=== FILE: chars.dfy ===
/**
 * Character classification and small string helpers shared by the modules.
 *
 * The Unicode tables behind .NET's char.IsLetter, char.IsDigit,
 * char.IsWhiteSpace, char.IsUpper, char.ToUpperInvariant and
 * char.ToLowerInvariant are not modelled: they are the fields of a
 * `CharInfo` value that every operation needing them takes as a parameter.
 * `Ascii` is one such value, used for concrete examples. char.IsControl is a
 * fixed range and is modelled directly.
 */
module Chars {

  datatype CharInfo = CharInfo(
    isLetter: char -> bool,
    isDigit: char -> bool,
    isWhiteSpace: char -> bool,
    isUpper: char -> bool,
    toUpper: char -> char,
    toLower: char -> char)
  {
    /** .NET defines IsLetterOrDigit as IsLetter or IsDigit. */
    predicate IsLetterOrDigit(c: char) {
      isLetter(c) || isDigit(c)
    }
  }

  /** The ASCII subset of the Unicode tables. */
  const Ascii: CharInfo := CharInfo(
    c => 'a' <= c <= 'z' || 'A' <= c <= 'Z',
    c => '0' <= c <= '9',
    c => c == ' ' || c == '\t' || c == '\n' || c == '\r' || c == '\U{B}' || c == '\U{C}',
    c => 'A' <= c <= 'Z',
    c => if 'a' <= c <= 'z' then (c as int - 32) as char else c,
    c => if 'A' <= c <= 'Z' then (c as int + 32) as char else c)

  /** char.IsControl: the Unicode Cc category, U+0000..U+001F and U+007F..U+009F. */
  predicate IsControl(c: char) {
    c as int < 0x20 || 0x7F <= c as int <= 0x9F
  }

  predicate StartsWith(s: string, prefix: string) {
    |prefix| <= |s| && s[..|prefix|] == prefix
  }

  predicate OccursAt(s: string, part: string, i: int) {
    0 <= i <= |s| - |part| && s[i..i + |part|] == part
  }

  /** Ordinal substring containment (string.Contains, wcsstr). */
  predicate Contains(s: string, part: string) {
    exists i | 0 <= i <= |s| - |part| :: OccursAt(s, part, i)
  }

  predicate IsHexDigit(c: char) {
    '0' <= c <= '9' || 'a' <= c <= 'f' || 'A' <= c <= 'F'
  }

  /** The value of a hexadecimal digit, upper or lower case; 0 for other characters. */
  function HexValue(c: char): (v: int)
    ensures 0 <= v < 16
    ensures !IsHexDigit(c) ==> v == 0
  {
    if '0' <= c <= '9' then c as int - '0' as int
    else if 'a' <= c <= 'f' then c as int - 'a' as int + 10
    else if 'A' <= c <= 'F' then c as int - 'A' as int + 10
    else 0
  }

  /** The upper-case hexadecimal digit of a value below 16. */
  function HexDigit(d: int): (c: char)
    requires 0 <= d < 16
    ensures IsHexDigit(c) && !('a' <= c <= 'f')
    ensures HexValue(c) == d
  {
    if d < 10 then ('0' as int + d) as char else ('A' as int + d - 10) as char
  }

  /** The "X4" format of a 16-bit value: four upper-case hex digits, most significant first. */
  function Hex4(v: int): (r: string)
    requires 0 <= v < 0x10000
    ensures |r| == 4 && forall k | 0 <= k < 4 :: IsHexDigit(r[k]) && !('a' <= r[k] <= 'f')
    ensures v == 256 * (16 * HexValue(r[0]) + HexValue(r[1])) + (16 * HexValue(r[2]) + HexValue(r[3]))
  {
    var hi := v / 256;
    var lo := v % 256;
    [HexDigit(hi / 16), HexDigit(hi % 16), HexDigit(lo / 16), HexDigit(lo % 16)]
  }
}

=== FILE: dfa.dfy ===
/**
 * The subset construction of the terminal matchers: ε-closures of NFA
 * states, the grouping of a state set's transitions by condition, and the
 * DFA whose states stand for the distinct closures reached from the start.
 *
 * The source keeps state sets in .NET hash sets and groups in a
 * dictionary; both are only ever added to, so they enumerate in insertion
 * order, which is the order kept by the sequences here. Two closures are
 * the same DFA state when they hold the same NFA states, in any order.
 */
module Dfa {
  import opened Wrappers
  import opened RegexAst
  import opened Nfa

  // ---------------------------------------------------------------------
  // Sequences without repeats
  // ---------------------------------------------------------------------

  predicate Distinct<T(==)>(s: seq<T>) {
    forall i, j | 0 <= i < j < |s| :: s[i] != s[j]
  }

  function Elements<T(==)>(s: seq<T>): set<T> {
    set x | x in s
  }

  /** The state numbers below `count`. */
  function States(count: nat): (r: set<nat>)
    ensures forall s: nat :: s in r <==> s < count
  {
    if count == 0 then {} else States(count - 1) + {count - 1}
  }

  predicate Below(s: seq<nat>, count: nat) {
    forall k | 0 <= k < |s| :: s[k] < count
  }

  // ---------------------------------------------------------------------
  // ε-closure
  // ---------------------------------------------------------------------

  /** The targets of a transition list's ε-transitions, in order. */
  function EpsilonTargets(ts: seq<Transition>): (r: seq<nat>)
    ensures forall x :: x in r <==> exists k | 0 <= k < |ts| :: ts[k].condition == None && ts[k].target == x
  {
    if ts == [] then []
    else
      var rest := EpsilonTargets(ts[1..]);
      assert forall x :: x in rest <==> exists k | 1 <= k < |ts| :: ts[k].condition == None && ts[k].target == x by {
        forall x ensures x in rest <==> exists k | 1 <= k < |ts| :: ts[k].condition == None && ts[k].target == x {
          if x in rest {
            var k :| 0 <= k < |ts[1..]| && ts[1..][k].condition == None && ts[1..][k].target == x;
            assert ts[k + 1] == ts[1..][k];
          }
          if exists k | 1 <= k < |ts| :: ts[k].condition == None && ts[k].target == x {
            var k :| 1 <= k < |ts| && ts[k].condition == None && ts[k].target == x;
            assert ts[1..][k - 1] == ts[k];
          }
        }
      }
      if ts[0].condition == None then [ts[0].target] + rest else rest
  }

  /** A set of states that every ε-transition out of it stays inside. */
  predicate EpsilonClosed(nfa: Nfa, c: set<nat>)
    requires nfa.Valid()
  {
    forall s, k | s in c && s < nfa.Count() && 0 <= k < |nfa.trans[s]| ::
      nfa.trans[s][k].condition == None ==> nfa.trans[s][k].target in c
  }

  /**
   * EpsilonClosure: the queue starts with the given states; a state taken
   * from it is skipped when already in the closure and otherwise added, its
   * ε-targets joining the end of the queue.
   */
  function EpsilonClosure(nfa: Nfa, seeds: seq<nat>): (r: seq<nat>)
    requires nfa.Valid() && Below(seeds, nfa.Count())
    ensures Distinct(r) && Below(r, nfa.Count())
    ensures forall k | 0 <= k < |seeds| :: seeds[k] in r
  {
    ClosureLoop(nfa, seeds, [])
  }

  /** Every ε-target of a closed-off state is already in the closure or still queued. */
  predicate Pending(nfa: Nfa, queue: seq<nat>, closure: seq<nat>)
    requires nfa.Valid() && Below(closure, nfa.Count())
  {
    forall s, k | s in closure && 0 <= k < |nfa.trans[s]| ::
      nfa.trans[s][k].condition == None ==> nfa.trans[s][k].target in closure || nfa.trans[s][k].target in queue
  }

  function ClosureLoop(nfa: Nfa, queue: seq<nat>, closure: seq<nat>): (r: seq<nat>)
    requires nfa.Valid() && Below(queue, nfa.Count()) && Below(closure, nfa.Count()) && Distinct(closure)
    ensures Distinct(r) && Below(r, nfa.Count())
    ensures forall x | x in closure || x in queue :: x in r
    ensures Pending(nfa, queue, closure) ==> EpsilonClosed(nfa, Elements(r))
    decreases States(nfa.Count()) - Elements(closure), |queue|
  {
    if queue == [] then
      closure
    else
      var s := queue[0];
      if s in closure then
        ClosureLoop(nfa, queue[1..], closure)
      else
        var more := EpsilonTargets(nfa.trans[s]);
        assert Below(more, nfa.Count()) by {
          forall k | 0 <= k < |more| ensures more[k] < nfa.Count() {
            assert more[k] in more;
            var j :| 0 <= j < |nfa.trans[s]| && nfa.trans[s][j].condition == None && nfa.trans[s][j].target == more[k];
          }
        }
        assert Elements(closure + [s]) == Elements(closure) + {s};
        assert s in States(nfa.Count()) - Elements(closure);
        ClosureLoop(nfa, queue[1..] + more, closure + [s])
  }

  /**
   * The closure is the least ε-closed set holding the seeds: it is ε-closed,
   * and any ε-closed set that holds the seeds holds the whole closure.
   */
  lemma {:induction false} ClosureIsLeast(nfa: Nfa, seeds: seq<nat>, c: set<nat>)
    requires nfa.Valid() && Below(seeds, nfa.Count())
    ensures EpsilonClosed(nfa, Elements(EpsilonClosure(nfa, seeds)))
    ensures EpsilonClosed(nfa, c) && (forall k | 0 <= k < |seeds| :: seeds[k] in c) ==> Elements(EpsilonClosure(nfa, seeds)) <= c
  {
    if EpsilonClosed(nfa, c) && forall k | 0 <= k < |seeds| :: seeds[k] in c {
      ClosureLoopIsLeast(nfa, seeds, [], c);
    }
  }

  lemma {:induction false} ClosureLoopIsLeast(nfa: Nfa, queue: seq<nat>, closure: seq<nat>, c: set<nat>)
    requires nfa.Valid() && Below(queue, nfa.Count()) && Below(closure, nfa.Count()) && Distinct(closure)
    requires EpsilonClosed(nfa, c)
    requires forall k | 0 <= k < |queue| :: queue[k] in c
    requires forall k | 0 <= k < |closure| :: closure[k] in c
    ensures Elements(ClosureLoop(nfa, queue, closure)) <= c
    decreases States(nfa.Count()) - Elements(closure), |queue|
  {
    if queue == [] {
    } else {
      var s := queue[0];
      if s in closure {
        ClosureLoopIsLeast(nfa, queue[1..], closure, c);
      } else {
        var more := EpsilonTargets(nfa.trans[s]);
        assert Below(more, nfa.Count()) by {
          forall k | 0 <= k < |more| ensures more[k] < nfa.Count() {
            assert more[k] in more;
            var j :| 0 <= j < |nfa.trans[s]| && nfa.trans[s][j].condition == None && nfa.trans[s][j].target == more[k];
          }
        }
        forall k | 0 <= k < |more| ensures more[k] in c {
          assert more[k] in more;
          var j :| 0 <= j < |nfa.trans[s]| && nfa.trans[s][j].condition == None && nfa.trans[s][j].target == more[k];
        }
        var q := queue[1..] + more;
        forall k | 0 <= k < |q| ensures q[k] in c {
          if k < |queue| - 1 {
            assert q[k] == queue[k + 1];
          } else {
            assert q[k] == more[k - (|queue| - 1)];
          }
        }
        assert Elements(closure + [s]) == Elements(closure) + {s};
        assert s in States(nfa.Count()) - Elements(closure);
        ClosureLoopIsLeast(nfa, q, closure + [s], c);
      }
    }
  }

  // ---------------------------------------------------------------------
  // Grouping a state set's transitions by condition
  // ---------------------------------------------------------------------

  /**
   * A non-ε transition of some state: its condition, the condition's text
   * (the source's comparer tells conditions apart by `ToString()` as
   * written) and its target.
   */
  datatype Move = Move(key: string, condition: RegexNode, target: nat)

  /** A condition and the NFA states it leads to, in the order first reached. */
  datatype ConditionGroup = ConditionGroup(key: string, condition: RegexNode, targets: seq<nat>)

  /** The non-ε transitions of one list, in order. */
  function ConditionMoves(ts: seq<Transition>): (r: seq<Move>)
    ensures forall m :: m in r <==> m.key == TextAsWritten(m.condition) && exists k | 0 <= k < |ts| :: ts[k] == Transition(m.target, Some(m.condition))
  {
    if ts == [] then []
    else
      var rest := ConditionMoves(ts[1..]);
      assert forall m :: m in rest <==> m.key == TextAsWritten(m.condition) && exists k | 1 <= k < |ts| :: ts[k] == Transition(m.target, Some(m.condition)) by {
        forall m ensures m in rest <==> m.key == TextAsWritten(m.condition) && exists k | 1 <= k < |ts| :: ts[k] == Transition(m.target, Some(m.condition)) {
          if m in rest {
            var k :| 0 <= k < |ts[1..]| && ts[1..][k] == Transition(m.target, Some(m.condition));
            assert ts[k + 1] == ts[1..][k];
          }
          if exists k | 1 <= k < |ts| :: ts[k] == Transition(m.target, Some(m.condition)) {
            var k :| 1 <= k < |ts| && ts[k] == Transition(m.target, Some(m.condition));
            assert ts[1..][k - 1] == ts[k];
          }
        }
      }
      match ts[0].condition
      case Some(c) => [Move(TextAsWritten(c), c, ts[0].target)] + rest
      case None => rest
  }

  /** The non-ε transitions of every state of the set, state by state. */
  function Moves(nfa: Nfa, states: seq<nat>): (r: seq<Move>)
    requires Below(states, nfa.Count())
    ensures forall m :: m in r <==> exists i | 0 <= i < |states| :: m in ConditionMoves(nfa.trans[states[i]])
  {
    if states == [] then []
    else
      var rest := Moves(nfa, states[1..]);
      assert forall m :: m in rest <==> exists i | 1 <= i < |states| :: m in ConditionMoves(nfa.trans[states[i]]) by {
        forall m ensures m in rest <==> exists i | 1 <= i < |states| :: m in ConditionMoves(nfa.trans[states[i]]) {
          if m in rest {
            var i :| 0 <= i < |states[1..]| && m in ConditionMoves(nfa.trans[states[1..][i]]);
            assert states[i + 1] == states[1..][i];
          }
          if exists i | 1 <= i < |states| :: m in ConditionMoves(nfa.trans[states[i]]) {
            var i :| 1 <= i < |states| && m in ConditionMoves(nfa.trans[states[i]]);
            assert states[1..][i - 1] == states[i];
          }
        }
      }
      ConditionMoves(nfa.trans[states[0]]) + rest
  }

  /** The first group whose key is `key`. */
  function FindGroup(groups: seq<ConditionGroup>, key: string): (r: Option<nat>)
    ensures r.Some? ==> r.value < |groups| && groups[r.value].key == key
    ensures r.None? <==> forall i | 0 <= i < |groups| :: groups[i].key != key
  {
    if groups == [] then None
    else if groups[0].key == key then Some(0)
    else
      match FindGroup(groups[1..], key)
      case None => None
      case Some(i) => Some(i + 1)
  }

  /** A target added to a list that holds each target once. */
  function AddTarget(ts: seq<nat>, t: nat): (r: seq<nat>)
    ensures Distinct(ts) ==> Distinct(r)
    ensures forall x :: x in r <==> x in ts || x == t
  {
    if t in ts then ts
    else
      assert Distinct(ts) ==> Distinct(ts + [t]) by {
        forall a, b | 0 <= a < b < |ts| + 1 ensures Distinct(ts) ==> (ts + [t])[a] != (ts + [t])[b] {
          if b == |ts| {
            assert ts[a] in ts;
          }
        }
      }
      ts + [t]
  }

  /**
   * AddMove: a condition met for the first time opens a new group under
   * that condition; otherwise the target joins the existing group unless
   * it is already there.
   */
  function AddMove(groups: seq<ConditionGroup>, m: Move): seq<ConditionGroup> {
    match FindGroup(groups, m.key)
    case None => groups + [ConditionGroup(m.key, m.condition, [m.target])]
    case Some(i) => groups[i := groups[i].(targets := AddTarget(groups[i].targets, m.target))]
  }

  /** GetTransitions' dictionary, filled move by move. */
  function GroupMoves(moves: seq<Move>): seq<ConditionGroup>
  {
    if moves == [] then [] else AddMove(GroupMoves(moves[..|moves| - 1]), moves[|moves| - 1])
  }

  /** No two groups share a key; each lists at least one target, each once. */
  predicate WellFormed(groups: seq<ConditionGroup>) {
    (forall i, j | 0 <= i < j < |groups| :: groups[i].key != groups[j].key)
    && (forall i | 0 <= i < |groups| :: Distinct(groups[i].targets) && |groups[i].targets| > 0)
  }

  /** Each group's key and condition are those of one of the moves. */
  predicate KeysFromMoves(moves: seq<Move>, groups: seq<ConditionGroup>) {
    forall i | 0 <= i < |groups| :: exists m | m in moves :: m.key == groups[i].key && m.condition == groups[i].condition
  }

  /** A move's target is in the group of its key. */
  predicate MovesInGroups(moves: seq<Move>, groups: seq<ConditionGroup>) {
    forall m | m in moves :: exists i | 0 <= i < |groups| :: groups[i].key == m.key && m.target in groups[i].targets
  }

  /** A group's targets come from moves with its key. */
  predicate GroupsFromMoves(moves: seq<Move>, groups: seq<ConditionGroup>) {
    forall i, t | 0 <= i < |groups| && t in groups[i].targets ::
      exists m | m in moves :: m.key == groups[i].key && m.target == t
  }

  /** What the grouping means: one group per distinct key, holding exactly that key's targets. */
  predicate Grouped(moves: seq<Move>, groups: seq<ConditionGroup>) {
    WellFormed(groups) && KeysFromMoves(moves, groups) && MovesInGroups(moves, groups) && GroupsFromMoves(moves, groups)
  }

  lemma AddMoveKeepsWellFormed(groups: seq<ConditionGroup>, m: Move)
    requires WellFormed(groups)
    ensures WellFormed(AddMove(groups, m))
  {
  }

  lemma AddMoveKeepsKeys(moves: seq<Move>, groups: seq<ConditionGroup>, m: Move)
    requires KeysFromMoves(moves, groups)
    ensures KeysFromMoves(moves + [m], AddMove(groups, m))
  {
    var all := moves + [m];
    assert forall x | x in moves :: x in all;
    assert m in all;
  }

  lemma AddMoveKeepsMoves(moves: seq<Move>, groups: seq<ConditionGroup>, m: Move)
    requires MovesInGroups(moves, groups)
    ensures MovesInGroups(moves + [m], AddMove(groups, m))
  {
    var all := moves + [m];
    var r := AddMove(groups, m);
    assert |r| >= |groups|;
    assert forall i | 0 <= i < |groups| :: r[i].key == groups[i].key && forall t | t in groups[i].targets :: t in r[i].targets;
    forall x | x in all
      ensures exists i | 0 <= i < |r| :: r[i].key == x.key && x.target in r[i].targets
    {
      if x in moves {
        var i :| 0 <= i < |groups| && groups[i].key == x.key && x.target in groups[i].targets;
        assert x.target in r[i].targets;
      } else {
        assert x == m;
        match FindGroup(groups, m.key)
        case None => assert r[|groups|].targets == [m.target];
        case Some(i) => assert m.target in r[i].targets;
      }
    }
  }

  lemma AddMoveKeepsGroups(moves: seq<Move>, groups: seq<ConditionGroup>, m: Move)
    requires GroupsFromMoves(moves, groups)
    ensures GroupsFromMoves(moves + [m], AddMove(groups, m))
  {
    var all := moves + [m];
    assert m in all;
    var r := AddMove(groups, m);
    forall j, t | 0 <= j < |r| && t in r[j].targets
      ensures exists x | x in all :: x.key == r[j].key && x.target == t
    {
      if t == m.target && r[j].key == m.key {
      } else {
        assert j < |groups| && t in groups[j].targets;
        var x :| x in moves && x.key == groups[j].key && x.target == t;
        assert x in all;
      }
    }
  }

  lemma {:induction false} GroupMovesWellFormed(moves: seq<Move>)
    ensures WellFormed(GroupMoves(moves))
  {
    if moves != [] {
      GroupMovesWellFormed(moves[..|moves| - 1]);
      AddMoveKeepsWellFormed(GroupMoves(moves[..|moves| - 1]), moves[|moves| - 1]);
    }
  }

  lemma {:induction false} GroupMovesKeys(moves: seq<Move>)
    ensures KeysFromMoves(moves, GroupMoves(moves))
  {
    if moves != [] {
      var init := moves[..|moves| - 1];
      GroupMovesKeys(init);
      AddMoveKeepsKeys(init, GroupMoves(init), moves[|moves| - 1]);
      assert init + [moves[|moves| - 1]] == moves;
    }
  }

  lemma {:induction false} GroupMovesCoverMoves(moves: seq<Move>)
    ensures MovesInGroups(moves, GroupMoves(moves))
  {
    if moves != [] {
      var init := moves[..|moves| - 1];
      GroupMovesCoverMoves(init);
      AddMoveKeepsMoves(init, GroupMoves(init), moves[|moves| - 1]);
      assert init + [moves[|moves| - 1]] == moves;
    }
  }

  lemma {:induction false} GroupMovesFromMoves(moves: seq<Move>)
    ensures GroupsFromMoves(moves, GroupMoves(moves))
  {
    if moves != [] {
      var init := moves[..|moves| - 1];
      GroupMovesFromMoves(init);
      AddMoveKeepsGroups(init, GroupMoves(init), moves[|moves| - 1]);
      assert init + [moves[|moves| - 1]] == moves;
    }
  }

  lemma GroupTargetsBelow(nfa: Nfa, states: seq<nat>, groups: seq<ConditionGroup>)
    requires Below(states, nfa.Count())
    requires GroupsFromMoves(Moves(nfa, states), groups)
    ensures nfa.Valid() ==> forall k | 0 <= k < |groups| :: Below(groups[k].targets, nfa.Count())
  {
    forall k, j | nfa.Valid() && 0 <= k < |groups| && 0 <= j < |groups[k].targets| ensures groups[k].targets[j] < nfa.Count() {
      var t := groups[k].targets[j];
      assert t in groups[k].targets;
      var m :| m in Moves(nfa, states) && m.key == groups[k].key && m.target == t;
      var i :| 0 <= i < |states| && m in ConditionMoves(nfa.trans[states[i]]);
      var n :| 0 <= n < |nfa.trans[states[i]]| && nfa.trans[states[i]][n] == Transition(m.target, Some(m.condition));
    }
  }

  /**
   * GetTransitions: the non-ε transitions of a state set grouped by the
   * text of their conditions. What the grouping means is stated once, for
   * any list of moves, by the GroupMoves lemmas above; keeping it out of
   * this contract keeps the construction's proofs small.
   */
  function GetTransitions(nfa: Nfa, states: seq<nat>): (r: seq<ConditionGroup>)
    requires Below(states, nfa.Count())
    ensures nfa.Valid() ==> forall k | 0 <= k < |r| :: Below(r[k].targets, nfa.Count())
  {
    var moves := Moves(nfa, states);
    GroupMovesFromMoves(moves);
    GroupTargetsBelow(nfa, states, GroupMoves(moves));
    GroupMoves(moves)
  }

  // ---------------------------------------------------------------------
  // The subset construction
  // ---------------------------------------------------------------------

  datatype DfaTransition = DfaTransition(condition: RegexNode, target: nat)

  datatype DfaState = DfaState(isFinal: bool, transitions: seq<DfaTransition>)

  /** `states[id]` is the DFA state numbered `id`; state 0 is the start. */
  datatype Dfa = Dfa(states: seq<DfaState>)
  {
    predicate Valid() {
      |states| > 0
      && forall s, k | 0 <= s < |states| && 0 <= k < |states[s].transitions| :: states[s].transitions[k].target < |states|
    }
  }

  /**
   * The builder's mapping: `sets[id]` is the closure the DFA state `id`
   * stands for; no two of them hold the same NFA states.
   */
  predicate SetsOk(nfa: Nfa, sets: seq<seq<nat>>) {
    (forall i | 0 <= i < |sets| :: Below(sets[i], nfa.Count()))
    && (forall i, j | 0 <= i < j < |sets| :: Elements(sets[i]) != Elements(sets[j]))
  }

  /** The id already mapped to a closure with the same NFA states, if any. */
  function Lookup(sets: seq<seq<nat>>, c: seq<nat>): (r: Option<nat>)
    ensures r.Some? ==> r.value < |sets| && Elements(sets[r.value]) == Elements(c)
    ensures r.None? <==> forall i | 0 <= i < |sets| :: Elements(sets[i]) != Elements(c)
  {
    if sets == [] then None
    else if Elements(sets[0]) == Elements(c) then Some(0)
    else
      match Lookup(sets[1..], c)
      case None => None
      case Some(i) => Some(i + 1)
  }

  /**
   * The `i`-th DFA transition of a row keeps the `i`-th group's condition
   * and leads to the state standing for the closure of that group's targets.
   */
  predicate TransitionFits(nfa: Nfa, sets: seq<seq<nat>>, groups: seq<ConditionGroup>, row: seq<DfaTransition>, i: nat)
    requires nfa.Valid() && i < |groups| && i < |row| && Below(groups[i].targets, nfa.Count())
  {
    row[i].condition == groups[i].condition
    && row[i].target < |sets|
    && Elements(sets[row[i].target]) == Elements(EpsilonClosure(nfa, groups[i].targets))
  }

  /** The transitions of DFA state `j`: one per group of its closure's transitions. */
  predicate Fits(nfa: Nfa, sets: seq<seq<nat>>, j: nat, row: seq<DfaTransition>)
    requires nfa.Valid() && SetsOk(nfa, sets) && j < |sets|
  {
    var groups := GetTransitions(nfa, sets[j]);
    |row| == |groups| && forall i | 0 <= i < |groups| :: TransitionFits(nfa, sets, groups, row, i)
  }

  /** Growing the mapping keeps every transition already fitted. */
  lemma GrowKeepsFit(nfa: Nfa, sets: seq<seq<nat>>, more: seq<seq<nat>>, groups: seq<ConditionGroup>, row: seq<DfaTransition>, i: nat)
    requires nfa.Valid() && i < |groups| && i < |row| && Below(groups[i].targets, nfa.Count())
    requires |sets| <= |more| && more[..|sets|] == sets
    requires TransitionFits(nfa, sets, groups, row, i)
    ensures TransitionFits(nfa, more, groups, row, i)
  {
    assert more[row[i].target] == more[..|sets|][row[i].target];
  }

  /**
   * The transitions of one DFA state, group by group: a closure not yet
   * mapped becomes the next DFA state, numbered by the mapping's size.
   */
  function AddTargets(nfa: Nfa, groups: seq<ConditionGroup>, k: nat, sets: seq<seq<nat>>, row: seq<DfaTransition>): (r: (seq<seq<nat>>, seq<DfaTransition>))
    requires nfa.Valid() && SetsOk(nfa, sets) && k <= |groups| && |row| == k
    requires forall i | 0 <= i < |groups| :: Below(groups[i].targets, nfa.Count())
    requires forall i | 0 <= i < k :: TransitionFits(nfa, sets, groups, row, i)
    ensures SetsOk(nfa, r.0) && |sets| <= |r.0| && r.0[..|sets|] == sets
    ensures |r.1| == |groups| && forall i | 0 <= i < |groups| :: TransitionFits(nfa, r.0, groups, r.1, i)
    decreases |groups| - k
  {
    if k == |groups| then (sets, row)
    else
      var closure := EpsilonClosure(nfa, groups[k].targets);
      match Lookup(sets, closure)
      case Some(id) =>
        var row' := row + [DfaTransition(groups[k].condition, id)];
        forall i | 0 <= i < k ensures TransitionFits(nfa, sets, groups, row', i) {
          assert TransitionFits(nfa, sets, groups, row, i);
          assert row'[i] == row[i];
        }
        assert TransitionFits(nfa, sets, groups, row', k);
        AddTargets(nfa, groups, k + 1, sets, row')
      case None =>
        var more := sets + [closure];
        var row' := row + [DfaTransition(groups[k].condition, |sets|)];
        assert more[..|sets|] == sets;
        forall i | 0 <= i < k ensures TransitionFits(nfa, more, groups, row', i) {
          GrowKeepsFit(nfa, sets, more, groups, row, i);
          assert row'[i] == row[i];
        }
        assert TransitionFits(nfa, more, groups, row', k);
        assert SetsOk(nfa, more);
        AddTargets(nfa, groups, k + 1, more, row')
  }

  /** Every set of NFA states below `count`: the mapping's keys are drawn from it. */
  function Pool(count: nat): set<set<nat>> {
    set a: set<nat> | a <= States(count)
  }

  /** The NFA-state sets already mapped. */
  function SetsOf(sets: seq<seq<nat>>): set<set<nat>> {
    set i | 0 <= i < |sets| :: Elements(sets[i])
  }

  lemma GrowKeepsRows(nfa: Nfa, sets: seq<seq<nat>>, more: seq<seq<nat>>, rows: seq<seq<DfaTransition>>)
    requires nfa.Valid() && SetsOk(nfa, sets) && SetsOk(nfa, more) && |rows| <= |sets|
    requires |sets| <= |more| && more[..|sets|] == sets
    requires forall j | 0 <= j < |rows| :: Fits(nfa, sets, j, rows[j])
    ensures forall j | 0 <= j < |rows| :: Fits(nfa, more, j, rows[j])
  {
    forall j | 0 <= j < |rows| ensures Fits(nfa, more, j, rows[j]) {
      var g := GetTransitions(nfa, sets[j]);
      assert more[j] == sets[j] by {
        assert more[..|sets|][j] == more[j];
      }
      forall i | 0 <= i < |g| ensures TransitionFits(nfa, more, g, rows[j], i) {
        GrowKeepsFit(nfa, sets, more, g, rows[j], i);
      }
    }
  }

  /** A grown mapping holds strictly more of the pool, unless it did not grow. */
  lemma MappingGrows(nfa: Nfa, sets: seq<seq<nat>>, more: seq<seq<nat>>)
    requires SetsOk(nfa, more) && |sets| <= |more| && more[..|sets|] == sets
    ensures more == sets || Pool(nfa.Count()) - SetsOf(more) < Pool(nfa.Count()) - SetsOf(sets)
  {
    assert SetsOf(sets) <= SetsOf(more) by {
      forall i | 0 <= i < |sets| ensures Elements(sets[i]) in SetsOf(more) {
        assert more[..|sets|][i] == more[i];
      }
    }
    assert SetsOf(more) <= Pool(nfa.Count()) by {
      forall i | 0 <= i < |more| ensures Elements(more[i]) <= States(nfa.Count()) {
        assert Below(more[i], nfa.Count());
      }
    }
    if |more| > |sets| {
      assert Elements(more[|sets|]) !in SetsOf(sets) by {
        forall i | 0 <= i < |sets| ensures Elements(sets[i]) != Elements(more[|sets|]) {
          assert more[..|sets|][i] == more[i];
        }
      }
      assert Elements(more[|sets|]) in SetsOf(more);
    } else {
      assert more == more[..|sets|];
    }
  }

  /**
   * What the builder's loop keeps: the mapping holds distinct sets and
   * every processed DFA state has its transitions.
   */
  predicate Explored(nfa: Nfa, sets: seq<seq<nat>>, rows: seq<seq<DfaTransition>>) {
    nfa.Valid() && SetsOk(nfa, sets) && |rows| <= |sets|
    && forall j | 0 <= j < |rows| :: Fits(nfa, sets, j, rows[j])
  }

  /**
   * One turn of the builder's loop: the next DFA state's transitions,
   * adding the closures not seen before to the mapping.
   */
  function Step(nfa: Nfa, sets: seq<seq<nat>>, rows: seq<seq<DfaTransition>>): (r: (seq<seq<nat>>, seq<seq<DfaTransition>>))
    requires Explored(nfa, sets, rows) && |rows| < |sets|
    ensures Explored(nfa, r.0, r.1) && |r.1| == |rows| + 1
    ensures SetsOk(nfa, r.0) && |sets| <= |r.0| && r.0[..|sets|] == sets
  {
    var groups := GetTransitions(nfa, sets[|rows|]);
    var (more, row) := AddTargets(nfa, groups, 0, sets, []);
    GrowKeepsRows(nfa, sets, more, rows);
    assert more[|rows|] == sets[|rows|] by {
      assert more[..|sets|][|rows|] == more[|rows|];
    }
    var rows' := rows + [row];
    forall j | 0 <= j < |rows'| ensures Fits(nfa, more, j, rows'[j]) {
      if j < |rows| {
        assert rows'[j] == rows[j];
      }
    }
    assert Explored(nfa, more, rows');
    (more, rows')
  }

  /**
   * The builder's queue: DFA states are dequeued in the order they were
   * numbered, so the next one to process is the first without a row.
   */
  function Explore(nfa: Nfa, sets: seq<seq<nat>>, rows: seq<seq<DfaTransition>>): (r: (seq<seq<nat>>, seq<seq<DfaTransition>>))
    requires Explored(nfa, sets, rows)
    ensures Explored(nfa, r.0, r.1) && |r.1| == |r.0|
    ensures |sets| <= |r.0| && forall i | 0 <= i < |sets| :: r.0[i] == sets[i]
    decreases Pool(nfa.Count()) - SetsOf(sets), |sets| - |rows|
  {
    if |rows| == |sets| then (sets, rows)
    else
      var (more, rows') := Step(nfa, sets, rows);
      MappingGrows(nfa, sets, more);
      assert forall i | 0 <= i < |sets| :: more[i] == sets[i] by {
        forall i | 0 <= i < |sets| ensures more[i] == sets[i] {
          assert more[..|sets|][i] == more[i];
        }
      }
      Explore(nfa, more, rows')
  }

  lemma FitsStaysInside(nfa: Nfa, sets: seq<seq<nat>>, j: nat, row: seq<DfaTransition>)
    requires nfa.Valid() && SetsOk(nfa, sets) && j < |sets| && Fits(nfa, sets, j, row)
    ensures forall k | 0 <= k < |row| :: row[k].target < |sets|
  {
    var groups := GetTransitions(nfa, sets[j]);
    forall k | 0 <= k < |row| ensures row[k].target < |sets| {
      assert TransitionFits(nfa, sets, groups, row, k);
    }
  }

  /** IsEmptyPattern: the NFA start is final and has no transitions. */
  predicate IsEmptyPattern(b: Built)
    requires b.start < b.nfa.Count()
  {
    b.IsFinal(b.start) && b.nfa.trans[b.start] == []
  }

  /** A DFA together with the mapping it was built from. */
  datatype Construction = Construction(dfa: Dfa, sets: seq<seq<nat>>)

  /**
   * The builder's finality rule: a state is final when its closure holds
   * the NFA's final state, except that the initial one is not when the
   * pattern is empty.
   */
  predicate FinalRule(b: Built, sets: seq<seq<nat>>, j: nat)
    requires b.start < b.nfa.Count() && j < |sets|
  {
    b.end in sets[j] && (j > 0 || !IsEmptyPattern(b))
  }

  /** The DFA states, numbered like the mapping, with their rows and finality. */
  function Assemble(b: Built, sets: seq<seq<nat>>, rows: seq<seq<DfaTransition>>): (r: Dfa)
    requires b.start < b.nfa.Count() && |rows| == |sets| && |sets| > 0
    requires forall j | 0 <= j < |rows| :: forall k | 0 <= k < |rows[j]| :: rows[j][k].target < |sets|
    ensures r.Valid() && |r.states| == |sets|
    ensures forall j | 0 <= j < |sets| :: r.states[j] == DfaState(FinalRule(b, sets, j), rows[j])
  {
    Dfa(seq(|sets|, j requires 0 <= j < |sets| => DfaState(FinalRule(b, sets, j), rows[j])))
  }

  /**
   * DfaBuilder.Build: state 0 stands for the ε-closure of the NFA start,
   * every other state for a closure first reached from an earlier one;
   * each state's transitions follow its closure's grouped transitions.
   */
  function BuildDfa(b: Built): (r: Construction)
    requires b.nfa.Valid() && b.start < b.nfa.Count() && b.end < b.nfa.Count()
    ensures r.dfa.Valid() && |r.dfa.states| == |r.sets| && SetsOk(b.nfa, r.sets)
    ensures r.sets[0] == EpsilonClosure(b.nfa, [b.start])
    ensures forall j | 0 <= j < |r.sets| :: r.dfa.states[j].isFinal == FinalRule(b, r.sets, j)
    ensures forall j | 0 <= j < |r.sets| :: Fits(b.nfa, r.sets, j, r.dfa.states[j].transitions)
  {
    var initial := EpsilonClosure(b.nfa, [b.start]);
    var none: seq<seq<DfaTransition>> := [];
    InitialExplored(b.nfa, initial);
    var (sets, rows) := Explore(b.nfa, [initial], none);
    assert sets[0] == [initial][0];
    Finish(b, sets, rows)
  }

  /** The mapping starts out as the initial closure alone, with nothing processed. */
  lemma InitialExplored(nfa: Nfa, initial: seq<nat>)
    requires nfa.Valid() && Distinct(initial) && Below(initial, nfa.Count())
    ensures Explored(nfa, [initial], [])
  {
  }

  /** The DFA once every mapped closure has its row. */
  function Finish(b: Built, sets: seq<seq<nat>>, rows: seq<seq<DfaTransition>>): (r: Construction)
    requires b.nfa.Valid() && b.start < b.nfa.Count()
    requires Explored(b.nfa, sets, rows) && |rows| == |sets| && |sets| > 0
    ensures r.dfa.Valid() && |r.dfa.states| == |r.sets| && SetsOk(b.nfa, r.sets) && r.sets == sets
    ensures forall j | 0 <= j < |r.sets| :: r.dfa.states[j].isFinal == FinalRule(b, r.sets, j)
    ensures forall j | 0 <= j < |r.sets| :: Fits(b.nfa, r.sets, j, r.dfa.states[j].transitions)
  {
    forall j | 0 <= j < |rows| ensures forall k | 0 <= k < |rows[j]| :: rows[j][k].target < |sets| {
      FitsStaysInside(b.nfa, sets, j, rows[j]);
    }
    Construction(Assemble(b, sets, rows), sets)
  }

  // ---------------------------------------------------------------------
  // The DFA of a|b
  // ---------------------------------------------------------------------

  /** The ε-targets of the states of a|b. */
  lemma ExampleTargets()
    ensures EpsilonTargets(AfterB.trans[0]) == [2, 4]
    ensures EpsilonTargets(AfterB.trans[1]) == [] && EpsilonTargets(AfterB.trans[2]) == []
    ensures EpsilonTargets(AfterB.trans[3]) == [1] && EpsilonTargets(AfterB.trans[4]) == []
    ensures EpsilonTargets(AfterB.trans[5]) == [1]
  {
    assert AfterB.trans[0][1..] == [Epsilon(4)];
  }

  /** The closure loop from state 0 of a|b: it adds 0, then 2, then 4. */
  lemma ExampleStartFirst()
    ensures ClosureLoop(AfterB, [0], []) == ClosureLoop(AfterB, [2, 4], [0])
  {
    ExampleTargets();
    assert [0][1..] + [2, 4] == [2, 4] && [] + [0] == [0];
  }

  lemma ExampleStartSecond()
    ensures ClosureLoop(AfterB, [2, 4], [0]) == ClosureLoop(AfterB, [4], [0, 2])
  {
    ExampleTargets();
    assert [2, 4][1..] + [] == [4] && [0] + [2] == [0, 2];
  }

  lemma ExampleStartLast()
    ensures ClosureLoop(AfterB, [4], [0, 2]) == [0, 2, 4]
  {
    ExampleTargets();
    assert [4][1..] + [] == [] && [0, 2] + [4] == [0, 2, 4];
  }

  lemma ExampleStartClosure()
    ensures EpsilonClosure(AfterB, [0]) == [0, 2, 4]
  {
    ExampleStartFirst();
    ExampleStartSecond();
    ExampleStartLast();
  }

  /** From state `s`, a branch's end, the closure loop adds `s` and then the shared end. */
  lemma ExampleEndFirst(s: nat)
    requires s == 3 || s == 5
    ensures ClosureLoop(AfterB, [s], []) == ClosureLoop(AfterB, [1], [s])
  {
    ExampleTargets();
    assert EpsilonTargets(AfterB.trans[s]) == [1];
    assert [s][1..] + [1] == [1] && [] + [s] == [s];
  }

  lemma ExampleEndLast(s: nat)
    requires s == 3 || s == 5
    ensures ClosureLoop(AfterB, [1], [s]) == [s, 1]
  {
    ExampleTargets();
    assert [1][1..] + [] == [] && [s] + [1] == [s, 1];
  }

  lemma ExampleEndClosure(s: nat)
    requires s == 3 || s == 5
    ensures EpsilonClosure(AfterB, [s]) == [s, 1]
  {
    ExampleEndFirst(s);
    ExampleEndLast(s);
  }

  const ExampleMoveA := Move("a", RegexChar('a'), 3)
  const ExampleMoveB := Move("b", RegexChar('b'), 5)

  /** Only the branch starts of a|b have non-ε transitions. */
  lemma ExampleConditionMoves()
    ensures ConditionMoves(AfterB.trans[2]) == [ExampleMoveA]
    ensures ConditionMoves(AfterB.trans[4]) == [ExampleMoveB]
    ensures ConditionMoves(AfterB.trans[0]) == [] && ConditionMoves(AfterB.trans[1]) == []
    ensures ConditionMoves(AfterB.trans[3]) == [] && ConditionMoves(AfterB.trans[5]) == []
  {
    CharText('a', 0);
    CharText('b', 0);
    assert AfterB.trans[0][1..] == [Epsilon(4)];
  }

  lemma ExampleStartMoves()
    ensures Moves(AfterB, [0, 2, 4]) == [ExampleMoveA, ExampleMoveB]
  {
    ExampleConditionMoves();
    assert [0, 2, 4][1..] == [2, 4] && [2, 4][1..] == [4] && [4][1..] == [];
    assert Moves(AfterB, [4]) == [ExampleMoveB];
    assert Moves(AfterB, [2, 4]) == [ExampleMoveA, ExampleMoveB];
  }

  lemma ExampleEndMoves(s: nat)
    requires s == 3 || s == 5
    ensures Moves(AfterB, [s, 1]) == []
  {
    ExampleConditionMoves();
    assert [s, 1][1..] == [1] && [1][1..] == [];
    assert ConditionMoves(AfterB.trans[s]) == [];
    assert Moves(AfterB, [1]) == [];
  }

  const ExampleGroupA := ConditionGroup("a", RegexChar('a'), [3])
  const ExampleGroupB := ConditionGroup("b", RegexChar('b'), [5])

  lemma ExampleGrouping()
    ensures GroupMoves([ExampleMoveA, ExampleMoveB]) == [ExampleGroupA, ExampleGroupB]
  {
    var none: seq<Move> := [];
    assert [ExampleMoveA, ExampleMoveB][..1] == [ExampleMoveA] && [ExampleMoveA][..0] == none;
    assert GroupMoves([ExampleMoveA]) == [ExampleGroupA];
  }

  /** The start closure of a|b moves on `a` to state 3 and on `b` to state 5; the other two closures do not move. */
  lemma ExampleGroups()
    ensures GetTransitions(AfterB, [0, 2, 4]) == [ExampleGroupA, ExampleGroupB]
    ensures GetTransitions(AfterB, [3, 1]) == []
    ensures GetTransitions(AfterB, [5, 1]) == []
  {
    ExampleStartMoves();
    ExampleGrouping();
    ExampleEndMoves(3);
    ExampleEndMoves(5);
  }

  const ExampleStart: seq<nat> := [0, 2, 4]
  const ExampleRow := [DfaTransition(RegexChar('a'), 1), DfaTransition(RegexChar('b'), 2)]
  const ExampleSets: seq<seq<nat>> := [ExampleStart, [3, 1], [5, 1]]

  const ExampleGroupsAtStart := [ExampleGroupA, ExampleGroupB]

  lemma ExampleInitialSets()
    ensures SetsOk(AfterB, [ExampleStart]) && SetsOk(AfterB, [ExampleStart, [3, 1]]) && SetsOk(AfterB, ExampleSets)
  {
    var c3: seq<nat> := [3, 1];
    var c5: seq<nat> := [5, 1];
    assert 0 in Elements(ExampleStart) && 0 !in Elements(c3) && 0 !in Elements(c5);
    assert 3 in Elements(c3) && 3 !in Elements(c5);
    assert ExampleSets[0] == ExampleStart && ExampleSets[1] == c3 && ExampleSets[2] == c5;
  }

  /** Neither closure the start reaches is mapped when it is met. */
  lemma ExampleLookups()
    ensures Lookup([ExampleStart], [3, 1]) == None
    ensures Lookup([ExampleStart, [3, 1]], [5, 1]) == None
  {
    var c3: seq<nat> := [3, 1];
    var c5: seq<nat> := [5, 1];
    assert 0 in Elements(ExampleStart) && 0 !in Elements(c3) && 0 !in Elements(c5);
    assert 3 in Elements(c3) && 3 !in Elements(c5);
    var none: seq<seq<nat>> := [];
    assert [ExampleStart][1..] == none && [ExampleStart, c3][1..] == [c3] && [c3][1..] == none;
  }

  /** The start's first group, on `a`, reaches a closure not yet mapped: it becomes state 1. */
  lemma ExampleAddA()
    ensures SetsOk(AfterB, [ExampleStart]) && SetsOk(AfterB, [ExampleStart, [3, 1]])
    ensures forall i | 0 <= i < 1 :: TransitionFits(AfterB, [ExampleStart, [3, 1]], ExampleGroupsAtStart, [DfaTransition(RegexChar('a'), 1)], i)
    ensures AddTargets(AfterB, ExampleGroupsAtStart, 0, [ExampleStart], [])
      == AddTargets(AfterB, ExampleGroupsAtStart, 1, [ExampleStart, [3, 1]], [DfaTransition(RegexChar('a'), 1)])
  {
    ExampleInitialSets();
    ExampleEndClosure(3);
    assert TransitionFits(AfterB, [ExampleStart, [3, 1]], ExampleGroupsAtStart, [DfaTransition(RegexChar('a'), 1)], 0);
    ExampleLookups();
    var none: seq<DfaTransition> := [];
    assert [ExampleStart] + [[3, 1]] == [ExampleStart, [3, 1]];
    assert none + [DfaTransition(RegexChar('a'), 1)] == [DfaTransition(RegexChar('a'), 1)];
  }

  /** The second group, on `b`, reaches another new closure: it becomes state 2. */
  lemma ExampleAddB()
    requires SetsOk(AfterB, [ExampleStart, [3, 1]])
    requires forall i | 0 <= i < 1 :: TransitionFits(AfterB, [ExampleStart, [3, 1]], ExampleGroupsAtStart, [DfaTransition(RegexChar('a'), 1)], i)
    ensures AddTargets(AfterB, ExampleGroupsAtStart, 1, [ExampleStart, [3, 1]], [DfaTransition(RegexChar('a'), 1)]) == (ExampleSets, ExampleRow)
  {
    ExampleEndClosure(5);
    ExampleLookups();
    assert [ExampleStart, [3, 1]] + [[5, 1]] == ExampleSets;
    assert [DfaTransition(RegexChar('a'), 1)] + [DfaTransition(RegexChar('b'), 2)] == ExampleRow;
  }

  /** Processing the start: both closures are new, so they become states 1 and 2. */
  lemma ExampleFirstStep()
    ensures Explored(AfterB, [ExampleStart], [])
    ensures Step(AfterB, [ExampleStart], []) == (ExampleSets, [ExampleRow])
  {
    ExampleStartClosure();
    InitialExplored(AfterB, ExampleStart);
    ExampleGroups();
    ExampleAddA();
    ExampleAddB();
    var none: seq<seq<DfaTransition>> := [];
    assert none + [ExampleRow] == [ExampleRow];
  }

  /** Processing state `j`, 1 or 2: it does not move, so it gets an empty row. */
  lemma ExampleEmptyStep(rows: seq<seq<DfaTransition>>)
    requires rows == [ExampleRow] || rows == [ExampleRow, []]
    requires Explored(AfterB, ExampleSets, rows)
    ensures Step(AfterB, ExampleSets, rows) == (ExampleSets, rows + [[]])
  {
    ExampleGroups();
    var none: seq<DfaTransition> := [];
    assert GetTransitions(AfterB, ExampleSets[|rows|]) == [];
    assert AddTargets(AfterB, [], 0, ExampleSets, none) == (ExampleSets, none);
  }

  /** The builder's queue for a|b: the start, then states 1 and 2, then nothing left. */
  lemma ExampleExplore()
    ensures Explore(AfterB, [ExampleStart], []) == (ExampleSets, [ExampleRow, [], []])
  {
    ExampleFirstStep();
    var rows1 := [ExampleRow];
    var rows2 := rows1 + [[]];
    var rows3 := rows2 + [[]];
    assert Explore(AfterB, [ExampleStart], []) == Explore(AfterB, ExampleSets, rows1);
    ExampleEmptyStep(rows1);
    assert Explore(AfterB, ExampleSets, rows1) == Explore(AfterB, ExampleSets, rows2);
    ExampleEmptyStep(rows2);
    assert Explore(AfterB, ExampleSets, rows2) == Explore(AfterB, ExampleSets, rows3);
    assert rows3 == [ExampleRow, [], []];
  }

  const ExampleRows: seq<seq<DfaTransition>> := [ExampleRow, [], []]

  lemma ExampleBuildDfa()
    ensures Explored(AfterB, ExampleSets, ExampleRows)
    ensures BuildDfa(Built(AfterB, 0, 1)) == Finish(Built(AfterB, 0, 1), ExampleSets, ExampleRows)
  {
    ExampleStartClosure();
    ExampleExplore();
  }

  /** The three states of a|b: only the two standing for closures that hold the end are final. */
  lemma ExampleFinish()
    requires Explored(AfterB, ExampleSets, ExampleRows)
    ensures Finish(Built(AfterB, 0, 1), ExampleSets, ExampleRows).dfa
      == Dfa([DfaState(false, ExampleRow), DfaState(true, []), DfaState(true, [])])
  {
    var b := Built(AfterB, 0, 1);
    var d := Finish(b, ExampleSets, ExampleRows).dfa;
    assert !FinalRule(b, ExampleSets, 0) && FinalRule(b, ExampleSets, 1) && FinalRule(b, ExampleSets, 2);
    assert d.states[0] == DfaState(false, ExampleRow);
    assert d.states[1] == DfaState(true, []) && d.states[2] == DfaState(true, []);
  }

  /**
   * The DFA of a|b has three states: the start moves on `a` to state 1 and
   * on `b` to state 2, and only those two are final.
   */
  lemma AlternationDfaExample()
    ensures BuildDfa(Build(Alternation([RegexChar('a'), RegexChar('b')]))).dfa
      == Dfa([DfaState(false, ExampleRow), DfaState(true, []), DfaState(true, [])])
  {
    AlternationExample();
    ExampleBuildDfa();
    ExampleFinish();
  }
}

=== FILE: dfa_interpreter.dfy ===
/**
 * DfaInterpreter.TryMatch: run a DFA over the input from a start position
 * and report the length of the longest prefix that ends in a final state,
 * or -1 when none does. The scan follows the first transition, in list
 * order, whose condition matches the current character and stops at the
 * first character no transition matches.
 *
 * The declarative partner is `IsLongestFinalPrefix`, stated over `Reach`,
 * the state a word leads to; `ScanFindsLongest` connects the two.
 */
module DfaInterpreter {
  import opened Wrappers
  import opened Chars
  import opened RegexAst
  import opened Dfa
  import Nfa

  /** The index of the first transition whose condition matches `c`. */
  function FirstMatch(ci: CharInfo, ts: seq<DfaTransition>, c: char): (r: Option<nat>)
    ensures r.Some? ==> r.value < |ts| && MatchesCondition(ci, ts[r.value].condition, c)
    ensures r.Some? ==> forall k | 0 <= k < r.value :: !MatchesCondition(ci, ts[k].condition, c)
    ensures r.None? <==> forall k | 0 <= k < |ts| :: !MatchesCondition(ci, ts[k].condition, c)
  {
    if |ts| == 0 then None
    else if MatchesCondition(ci, ts[0].condition, c) then Some(0)
    else
      match FirstMatch(ci, ts[1..], c)
      case None => None
      case Some(k) =>
        assert ts[1..][k] == ts[k + 1];
        Some(k + 1)
  }

  /** The state `q` moves to on `c`, if any transition of it matches. */
  function Step(ci: CharInfo, d: Dfa, q: nat, c: char): (r: Option<nat>)
    requires d.Valid() && q < |d.states|
    ensures r.Some? ==> r.value < |d.states|
  {
    match FirstMatch(ci, d.states[q].transitions, c)
    case None => None
    case Some(k) => Some(d.states[q].transitions[k].target)
  }

  /** The state that reading `w` from `q` leads to; None once stuck. */
  function Reach(ci: CharInfo, d: Dfa, q: nat, w: string): (r: Option<nat>)
    requires d.Valid() && q < |d.states|
    ensures r.Some? ==> r.value < |d.states|
    decreases |w|
  {
    if w == [] then Some(q)
    else
      match Step(ci, d, q, w[0])
      case None => None
      case Some(t) => Reach(ci, d, t, w[1..])
  }

  /** Reading `w` from `q` ends in a final state. */
  predicate Accepts(ci: CharInfo, d: Dfa, q: nat, w: string)
    requires d.Valid() && q < |d.states|
  {
    var e := Reach(ci, d, q, w);
    e.Some? && d.states[e.value].isFinal
  }

  /**
   * `n` is the length of the longest prefix of `w[..upTo]` that `q`
   * accepts, or -1 when there is none.
   */
  predicate LongestUpTo(ci: CharInfo, d: Dfa, q: nat, w: string, upTo: nat, n: int)
    requires d.Valid() && q < |d.states| && upTo <= |w|
  {
    && -1 <= n <= upTo
    && (n >= 0 ==> Accepts(ci, d, q, w[..n]))
    && forall m | n < m <= upTo && m >= 0 :: !Accepts(ci, d, q, w[..m])
  }

  /** `n` is the length of the longest accepted prefix of `w`, or -1. */
  predicate IsLongestFinalPrefix(ci: CharInfo, d: Dfa, q: nat, w: string, n: int)
    requires d.Valid() && q < |d.states|
  {
    LongestUpTo(ci, d, q, w, |w|, n)
  }

  /**
   * The loop of TryMatch: `current` is the state reached so far, `rest`
   * the input still to read, `len` the characters consumed and `maxLen`
   * the longest final length seen.
   */
  function Scan(ci: CharInfo, d: Dfa, current: nat, rest: string, len: nat, maxLen: int): (r: int)
    requires d.Valid() && current < |d.states| && -1 <= maxLen <= len
    ensures maxLen <= r <= len + |rest|
    ensures r == maxLen || r > len
    decreases |rest|
  {
    if rest == [] then maxLen
    else
      match Step(ci, d, current, rest[0])
      case None => maxLen
      case Some(t) => Scan(ci, d, t, rest[1..], len + 1, if d.states[t].isFinal then len + 1 else maxLen)
  }

  /**
   * The characters the loop visits: from `startPos` to the end, and none
   * when `startPos` lies past the end (a negative start throws first).
   */
  function Remainder(input: string, startPos: int): (r: string)
    ensures 0 <= startPos <= |input| ==> r == input[startPos..]
    ensures startPos < 0 || startPos > |input| ==> r == []
  {
    if 0 <= startPos <= |input| then input[startPos..] else []
  }

  /** The longest length before any character is read. */
  function InitialMax(d: Dfa, start: nat): (r: int)
    requires d.Valid() && start < |d.states|
    ensures r == 0 <==> d.states[start].isFinal
    ensures r == -1 <==> !d.states[start].isFinal
  {
    if d.states[start].isFinal then 0 else -1
  }

  /**
   * DfaInterpreter.TryMatch. A negative start position reads `input[-1]`
   * even when the input is empty, since -1 is below every length; otherwise the result is -1 or a
   * length that fits in the remaining input, and at least 0 when the
   * start state is final.
   */
  function TryMatch(ci: CharInfo, d: Dfa, start: nat, input: string, startPos: int): (r: Result<int>)
    requires d.Valid() && start < |d.states|
    ensures r.Throw? <==> startPos < 0
    ensures r.Throw? ==> r.exception == IndexOutOfRange
    ensures r.Ok? ==> -1 <= r.value <= |Remainder(input, startPos)|
    ensures r.Ok? && d.states[start].isFinal ==> r.value >= 0
  {
    if startPos < 0 then Throw(IndexOutOfRange)
    else
      var maxLen := Scan(ci, d, start, Remainder(input, startPos), 0, InitialMax(d, start));
      Ok(if maxLen == -1 && d.states[start].isFinal then 0 else maxLen)
  }

  // ---------------------------------------------------------------------
  // Reaching states
  // ---------------------------------------------------------------------

  /** Reading one more character continues from the state reached so far. */
  lemma {:induction false} ReachSnoc(ci: CharInfo, d: Dfa, q: nat, w: string, c: char)
    requires d.Valid() && q < |d.states|
    ensures Reach(ci, d, q, w + [c]) == (match Reach(ci, d, q, w) case None => None case Some(e) => Step(ci, d, e, c))
    decreases |w|
  {
    if w == [] {
      assert w + [c] == [c];
      assert [c][1..] == [];
    } else {
      assert (w + [c])[0] == w[0];
      assert (w + [c])[1..] == w[1..] + [c];
      match Step(ci, d, q, w[0])
      case None =>
      case Some(t) => ReachSnoc(ci, d, t, w[1..], c);
    }
  }

  lemma PrefixSnoc(w: string, n: nat)
    requires n < |w|
    ensures w[..n + 1] == w[..n] + [w[n]]
  {
  }

  /** Once a prefix is stuck, every longer prefix is stuck too. */
  lemma {:induction false} StuckStaysStuck(ci: CharInfo, d: Dfa, q: nat, w: string, n: nat, m: nat)
    requires d.Valid() && q < |d.states| && n <= m <= |w|
    requires Reach(ci, d, q, w[..n]).None?
    ensures Reach(ci, d, q, w[..m]).None?
    decreases m - n
  {
    if n < m {
      PrefixSnoc(w, n);
      ReachSnoc(ci, d, q, w[..n], w[n]);
      StuckStaysStuck(ci, d, q, w, n + 1, m);
    }
  }

  // ---------------------------------------------------------------------
  // The scan finds the longest final prefix
  // ---------------------------------------------------------------------

  /** The step at which the scan stops because no transition matches. */
  lemma StuckStep(ci: CharInfo, d: Dfa, q: nat, w: string, len: nat, current: nat, maxLen: int)
    requires d.Valid() && q < |d.states| && len < |w| && current < |d.states|
    requires Reach(ci, d, q, w[..len]) == Some(current) && Step(ci, d, current, w[len]).None?
    requires LongestUpTo(ci, d, q, w, len, maxLen)
    ensures IsLongestFinalPrefix(ci, d, q, w, maxLen)
  {
    PrefixSnoc(w, len);
    ReachSnoc(ci, d, q, w[..len], w[len]);
    forall m | len < m <= |w| ensures !Accepts(ci, d, q, w[..m]) {
      StuckStaysStuck(ci, d, q, w, len + 1, m);
    }
  }

  /** The step at which the scan moves to `t` and records its finality. */
  lemma MoveStep(ci: CharInfo, d: Dfa, q: nat, w: string, len: nat, current: nat, t: nat, maxLen: int)
    requires d.Valid() && q < |d.states| && len < |w| && current < |d.states|
    requires Reach(ci, d, q, w[..len]) == Some(current) && Step(ci, d, current, w[len]) == Some(t)
    requires LongestUpTo(ci, d, q, w, len, maxLen)
    ensures Reach(ci, d, q, w[..len + 1]) == Some(t)
    ensures LongestUpTo(ci, d, q, w, len + 1, if d.states[t].isFinal then len + 1 else maxLen)
  {
    PrefixSnoc(w, len);
    ReachSnoc(ci, d, q, w[..len], w[len]);
  }

  /**
   * The loop's invariant carried to its end: having consumed `w[..len]`
   * into `current` with `maxLen` the longest final length so far, the
   * scan returns the longest final prefix of the whole of `w`.
   */
  lemma {:induction false} ScanFindsLongest(ci: CharInfo, d: Dfa, q: nat, w: string, len: nat, current: nat, maxLen: int)
    requires d.Valid() && q < |d.states| && len <= |w| && current < |d.states|
    requires Reach(ci, d, q, w[..len]) == Some(current)
    requires LongestUpTo(ci, d, q, w, len, maxLen)
    ensures IsLongestFinalPrefix(ci, d, q, w, Scan(ci, d, current, w[len..], len, maxLen))
    decreases |w| - len
  {
    if len < |w| {
      var rest := w[len..];
      assert rest[0] == w[len];
      assert rest[1..] == w[len + 1..];
      match Step(ci, d, current, w[len])
      case None => StuckStep(ci, d, q, w, len, current, maxLen);
      case Some(t) =>
        MoveStep(ci, d, q, w, len, current, t, maxLen);
        ScanFindsLongest(ci, d, q, w, len + 1, t, if d.states[t].isFinal then len + 1 else maxLen);
    }
  }

  /** Before anything is read, the start's own finality decides. */
  lemma InitialLongest(ci: CharInfo, d: Dfa, start: nat, w: string)
    requires d.Valid() && start < |d.states|
    ensures Reach(ci, d, start, w[..0]) == Some(start)
    ensures LongestUpTo(ci, d, start, w, 0, InitialMax(d, start))
  {
    assert w[..0] == [];
  }

  /**
   * What TryMatch computes: the length of the longest prefix of the
   * remaining input whose run from the start ends in a final state, or -1.
   */
  lemma TryMatchIsLongestFinalPrefix(ci: CharInfo, d: Dfa, start: nat, input: string, startPos: int)
    requires d.Valid() && start < |d.states|
    ensures var r := TryMatch(ci, d, start, input, startPos);
      r.Ok? ==> IsLongestFinalPrefix(ci, d, start, Remainder(input, startPos), r.value)
  {
    var w := Remainder(input, startPos);
    InitialLongest(ci, d, start, w);
    assert w[0..] == w;
    ScanFindsLongest(ci, d, start, w, 0, start, InitialMax(d, start));
  }

  /**
   * The fallback after the loop (zero when nothing matched but the start
   * is final) never changes the result: the loop already starts from 0
   * in that case and never lowers it.
   */
  lemma FallbackNeverFires(ci: CharInfo, d: Dfa, start: nat, input: string, startPos: int)
    requires d.Valid() && start < |d.states|
    ensures var r := TryMatch(ci, d, start, input, startPos);
      r.Ok? ==> r.value == Scan(ci, d, start, Remainder(input, startPos), 0, InitialMax(d, start))
  {
  }

  /**
   * Matching stops at the first character no transition matches: if the
   * run reaches position `n` of the remaining input and is stuck there,
   * the result is at most `n`.
   */
  lemma StopsAtUnmatchedChar(ci: CharInfo, d: Dfa, start: nat, input: string, startPos: int, n: nat)
    requires d.Valid() && start < |d.states|
    requires n < |Remainder(input, startPos)|
    requires var w := Remainder(input, startPos);
      Reach(ci, d, start, w[..n]).Some? && Step(ci, d, Reach(ci, d, start, w[..n]).value, w[n]).None?
    ensures TryMatch(ci, d, start, input, startPos).Ok?
    ensures TryMatch(ci, d, start, input, startPos).value <= n
  {
    var w := Remainder(input, startPos);
    TryMatchIsLongestFinalPrefix(ci, d, start, input, startPos);
    var r := TryMatch(ci, d, start, input, startPos).value;
    if r > n {
      PrefixSnoc(w, n);
      ReachSnoc(ci, d, start, w[..n], w[n]);
      StuckStaysStuck(ci, d, start, w, n + 1, r);
    }
  }

  /**
   * The longest final prefix is unique, so any length with that property
   * is what TryMatch returns.
   */
  lemma LongestIsUnique(ci: CharInfo, d: Dfa, q: nat, w: string, a: int, b: int)
    requires d.Valid() && q < |d.states|
    requires IsLongestFinalPrefix(ci, d, q, w, a) && IsLongestFinalPrefix(ci, d, q, w, b)
    ensures a == b
  {
  }

  // ---------------------------------------------------------------------
  // Examples, on DFAs written out in the shape the builder gives them
  // ---------------------------------------------------------------------

  /** "a*": a final start looping on 'a' through a second final state. */
  const StarA := Dfa([
    DfaState(true, [DfaTransition(RegexChar('a'), 1)]),
    DfaState(true, [DfaTransition(RegexChar('a'), 1)])])

  /** "ab": 'a' then 'b' into the only final state. */
  const AThenB := Dfa([
    DfaState(false, [DfaTransition(RegexChar('a'), 1)]),
    DfaState(false, [DfaTransition(RegexChar('b'), 2)]),
    DfaState(true, [])])

  /** "(ab)*": a final start, and 'a' 'b' back into a final state. */
  const StarAb := Dfa([
    DfaState(true, [DfaTransition(RegexChar('a'), 1)]),
    DfaState(false, [DfaTransition(RegexChar('b'), 2)]),
    DfaState(true, [DfaTransition(RegexChar('a'), 1)])])

  lemma StarAOnEmpty()
    ensures TryMatch(Ascii, StarA, 0, "", 0) == Ok(0)
  {
  }

  lemma StarAFromOne()
    ensures TryMatch(Ascii, StarA, 0, "sz", 1) == Ok(0)
    ensures TryMatch(Ascii, StarA, 0, "xaaay", 1) == Ok(3)
  {
  }

  lemma AThenBMissesLaterMatch()
    ensures TryMatch(Ascii, AThenB, 0, "cabab", 0) == Ok(-1)
  {
  }

  lemma StarAbFromThree()
    ensures TryMatch(Ascii, StarAb, 0, "234ababde", 3) == Ok(4)
  {
    assert Remainder("234ababde", 3) == "ababde";
    StarAbTail();
  }

  /** The scan over the remaining "ababde", one transition at a time. */
  lemma StarAbTail()
    ensures Scan(Ascii, StarAb, 0, "ababde", 0, 0) == 4
  {
    assert Step(Ascii, StarAb, 2, 'd') == None;
    assert Scan(Ascii, StarAb, 2, "de", 4, 4) == 4;
    assert Step(Ascii, StarAb, 1, 'b') == Some(2);
    assert Scan(Ascii, StarAb, 1, "bde", 3, 2) == 4;
    assert Step(Ascii, StarAb, 2, 'a') == Some(1);
    assert Scan(Ascii, StarAb, 2, "abde", 2, 2) == 4;
    assert Scan(Ascii, StarAb, 1, "babde", 1, 0) == 4;
    assert Step(Ascii, StarAb, 0, 'a') == Some(1);
  }

  /** The DFA the builder gives for "a|b", written out. */
  const AOrB := Dfa([DfaState(false, ExampleRow), DfaState(true, []), DfaState(true, [])])

  /** On "a", that DFA moves to a final state and stops at the end of the input. */
  lemma AOrBMatchesA()
    ensures TryMatch(Ascii, AOrB, 0, "a", 0) == Ok(1)
  {
    assert Step(Ascii, AOrB, 0, 'a') == Some(1);
  }

  /** The DFA built from the pattern a|b matches one character of "a". */
  lemma AlternationMatchesA()
    ensures TryMatch(Ascii, BuildDfa(Nfa.Build(Alternation([RegexChar('a'), RegexChar('b')]))).dfa, 0, "a", 0) == Ok(1)
  {
    AlternationDfaExample();
    AOrBMatchesA();
  }

  /** A negative start position reads out of range, on an empty input too. */
  lemma NegativeStartThrows()
    ensures TryMatch(Ascii, StarA, 0, "a", -1) == Throw(IndexOutOfRange)
    ensures TryMatch(Ascii, StarA, 0, "", -1) == Throw(IndexOutOfRange)
  {
  }
}

=== FILE: dot_strings.dfy ===
/**
 * The hand-written terminals of the DOT grammar (quoted strings and
 * trivia) and the decoding of a quoted string into the value stored in its
 * syntax node.
 */
module DotStrings {
  import opened Wrappers
  import opened Chars

  // ---------------------------------------------------------------------------
  // QuotedStringMatcher

  /** The character after `i`, or '\0' past the end (the matchers' local `peek`). */
  function Peek(input: string, i: int): char
    requires 0 <= i
  {
    if i + 1 < |input| then input[i + 1] else '\0'
  }

  /**
   * The scan of the quoted-string body from `i`: a backslash followed by
   * anything but '\0' skips the next character, a raw '\n' rejects (-1), a
   * '"' ends the string just after it, and running off the end stops at the
   * end.
   */
  function ScanQuoted(input: string, i: nat): (j: int)
    requires i <= |input|
    ensures j == -1 || i <= j <= |input|
    decreases |input| - i
  {
    if i == |input| then i
    else if input[i] == '\\' && Peek(input, i) != '\0' then ScanQuoted(input, i + 2)
    else if input[i] == '\n' then -1
    else if input[i] == '"' then i + 1
    else ScanQuoted(input, i + 1)
  }

  /**
   * QuotedStringMatcher.TryMatch: the length of the quoted string at
   * `startPos`, or -1 when there is none there or it holds a raw line feed.
   * An unterminated string extends to the end of the input.
   */
  function QuotedStringMatch(input: string, startPos: nat): (r: int)
    ensures r == -1 || (1 <= r && startPos + r <= |input|)
    ensures r != -1 ==> input[startPos] == '"'
    ensures startPos >= |input| || input[startPos] != '"' ==> r == -1
  {
    if startPos >= |input| || input[startPos] != '"' then -1
    else
      var j := ScanQuoted(input, startPos + 1);
      if j == -1 then -1 else j - startPos
  }

  // ---------------------------------------------------------------------------
  // TriviaMatcher

  /** The index of the first '\n' at or after `j`, or the end of the input. */
  function CommentEnd(input: string, j: nat): (k: nat)
    requires j <= |input|
    ensures j <= k <= |input|
    ensures k < |input| ==> input[k] == '\n'
    ensures forall m | j <= m < k :: input[m] != '\n'
    decreases |input| - j
  {
    if j == |input| || input[j] == '\n' then j else CommentEnd(input, j + 1)
  }

  predicate StartsComment(input: string, i: nat)
    requires i < |input|
  {
    input[i] == '/' && Peek(input, i) == '/'
  }

  /** The scan of TriviaMatcher from `i`: white space and "//" comments up to the line end. */
  function ScanTrivia(ci: CharInfo, input: string, i: nat): (j: nat)
    requires i <= |input|
    ensures i <= j <= |input|
    decreases |input| - i
  {
    if i == |input| then i
    else if ci.isWhiteSpace(input[i]) then ScanTrivia(ci, input, i + 1)
    else if StartsComment(input, i) then ScanTrivia(ci, input, CommentEnd(input, i + 2))
    else i
  }

  /** TriviaMatcher.TryMatch: the length of the white space and comments at `startPos`. */
  function TriviaMatch(ci: CharInfo, input: string, startPos: nat): (r: nat)
    ensures startPos >= |input| ==> r == 0
    ensures startPos < |input| ==> startPos + r <= |input|
  {
    if startPos >= |input| then 0 else ScanTrivia(ci, input, startPos) - startPos
  }

  /**
   * Trivia as the commented-out regular expression describes it: any run of
   * white-space characters and comments, a comment being "//" and then
   * everything up to (not including) the next line feed.
   */
  predicate IsTrivia(ci: CharInfo, s: string)
    decreases |s|
  {
    s == []
    || (ci.isWhiteSpace(s[0]) && IsTrivia(ci, s[1..]))
    || (|s| >= 2 && s[0] == '/' && s[1] == '/' &&
        (exists k | 2 <= k <= |s| :: IsCommentThenTrivia(ci, s, k)))
  }

  /** `s[2..k]` is a comment body ending at a line feed or the end, and trivia follows from `k`. */
  predicate IsCommentThenTrivia(ci: CharInfo, s: string, k: int)
    requires 2 <= k <= |s|
    decreases |s|, 0
  {
    (forall m | 2 <= m < k :: s[m] != '\n') && (k == |s| || s[k] == '\n') && IsTrivia(ci, s[k..])
  }

  /**
   * What TriviaMatcher consumes is trivia, and it consumes all of it: the
   * character after the match is neither white space nor the start of a
   * comment.
   */
  lemma {:induction false} TriviaMatchIsMaximalTrivia(ci: CharInfo, input: string, i: nat)
    requires i <= |input|
    ensures IsTrivia(ci, input[i..ScanTrivia(ci, input, i)])
    ensures var j := ScanTrivia(ci, input, i);
      j == |input| || (!ci.isWhiteSpace(input[j]) && !StartsComment(input, j))
    decreases |input| - i
  {
    var j := ScanTrivia(ci, input, i);
    if i == |input| {
    } else if ci.isWhiteSpace(input[i]) {
      TriviaMatchIsMaximalTrivia(ci, input, i + 1);
      assert input[i..j][1..] == input[i + 1..j];
    } else if StartsComment(input, i) {
      var k := CommentEnd(input, i + 2);
      TriviaMatchIsMaximalTrivia(ci, input, k);
      var s := input[i..j];
      assert s[k - i..] == input[k..j];
      assert IsCommentThenTrivia(ci, s, k - i);
    } else {
      assert input[i..j] == [];
    }
  }

  /**
   * Both matchers as the parser calls them, with any start position. A
   * negative start passes the end-of-input test and then reads
   * `input[startPos]`, which throws IndexOutOfRange.
   */
  function QuotedStringTryMatch(input: string, startPos: int): (r: Result<int>)
    ensures r.Throw? <==> startPos < 0
    ensures r.Throw? ==> r.exception == IndexOutOfRange
    ensures r.Ok? ==> r.value == -1 || (1 <= r.value && startPos + r.value <= |input| && input[startPos] == '"')
  {
    if startPos < 0 then Throw(IndexOutOfRange) else Ok(QuotedStringMatch(input, startPos))
  }

  function TriviaTryMatch(ci: CharInfo, input: string, startPos: int): (r: Result<int>)
    ensures r.Throw? <==> startPos < 0
    ensures r.Throw? ==> r.exception == IndexOutOfRange
    ensures r.Ok? ==> 0 <= r.value && (startPos >= |input| ==> r.value == 0)
    ensures r.Ok? && startPos < |input| ==> startPos + r.value <= |input|
  {
    if startPos < 0 then Throw(IndexOutOfRange) else Ok(TriviaMatch(ci, input, startPos))
  }

  // ---------------------------------------------------------------------------
  // DotQuotedString

  /**
   * ProcessQuotedString on the text between the quotes: \n, \r, \t, \\ and
   * \" decode to the character; \L, \G, \l, \N and \T (DOT's label escapes)
   * are kept with their backslash; any other escaped character stands for
   * itself; a trailing lone backslash is kept.
   */
  function DecodeQuoted(content: string): (value: string)
    ensures |value| <= |content|
    decreases |content|
  {
    if content == [] then []
    else if content[0] == '\\' && |content| >= 2 then
      var next := content[1];
      var decoded :=
        if next == 'n' then "\n"
        else if next == 'r' then "\r"
        else if next == 't' then "\t"
        else if next in "LGlNT" then ['\\', next]
        else [next];
      decoded + DecodeQuoted(content[2..])
    else [content[0]] + DecodeQuoted(content[1..])
  }

  /** The syntax node of a quoted string: its decoded value and the raw text between the quotes. */
  datatype QuotedStringNode = QuotedStringNode(value: string, rawValue: string, startPos: int, endPos: int)

  /**
   * The DotQuotedString constructor from the matched span: drops the first
   * and the last character (whatever they are) and decodes the rest. A span
   * shorter than two characters cannot be cut and throws.
   */
  function NewQuotedStringNode(span: string, startPos: int, endPos: int): (r: Result<QuotedStringNode>)
    ensures r.Throw? <==> |span| < 2
    ensures r.Throw? ==> r.exception == ArgumentOutOfRange
    ensures r.Ok? ==> r.value.rawValue == span[1..|span| - 1] && r.value.value == DecodeQuoted(span[1..|span| - 1])
    ensures r.Ok? ==> r.value.startPos == startPos && r.value.endPos == endPos
  {
    if |span| < 2 then Throw(ArgumentOutOfRange)
    else
      var content := span[1..|span| - 1];
      Ok(QuotedStringNode(DecodeQuoted(content), content, startPos, endPos))
  }

  /** DotQuotedString.ToString: the raw value between double quotes. */
  function QuotedStringText(node: QuotedStringNode): (s: string)
    ensures |s| == |node.rawValue| + 2 && s[0] == '"' && s[|s| - 1] == '"'
    ensures s[1..|s| - 1] == node.rawValue
  {
    "\"" + node.rawValue + "\""
  }

  /** The escaping a writer of DOT text applies so that the value survives decoding. */
  function EscapeQuoted(s: string): (e: string)
    decreases |s|
  {
    if s == [] then []
    else
      var c := s[0];
      var head :=
        if c == '\n' then "\\n"
        else if c == '\r' then "\\r"
        else if c == '\t' then "\\t"
        else if c == '\\' then "\\\\"
        else if c == '"' then "\\\""
        else [c];
      head + EscapeQuoted(s[1..])
  }

  /** Decoding undoes escaping. */
  lemma {:induction false} DecodeEscaped(s: string)
    ensures DecodeQuoted(EscapeQuoted(s)) == s
    decreases |s|
  {
    if s != [] {
      var rest := EscapeQuoted(s[1..]);
      DecodeEscaped(s[1..]);
      var e := EscapeQuoted(s);
      var c := s[0];
      if c == '\n' || c == '\r' || c == '\t' || c == '\\' || c == '"' {
        assert e[2..] == rest;
      } else {
        assert e[1..] == rest;
      }
    }
  }

  /**
   * The matcher's scan of an escaped body ends just past the closing quote:
   * every backslash in it is followed by a letter or a quote, and it holds
   * no raw line feed or quote.
   */
  lemma {:induction false} ScanEscapedBody(input: string, i: nat, s: string)
    requires i + |EscapeQuoted(s)| < |input|
    requires input[i..i + |EscapeQuoted(s)|] == EscapeQuoted(s)
    requires input[i + |EscapeQuoted(s)|] == '"'
    ensures ScanQuoted(input, i) == i + |EscapeQuoted(s)| + 1
    decreases |s|
  {
    if s != [] {
      var e := EscapeQuoted(s);
      var rest := EscapeQuoted(s[1..]);
      var k := EscapeHead(s);
      SliceAfter(input, i, e, k);
      if k == 2 {
        assert input[i] == '\\' && input[i + 1] == e[1] && e[1] != '\0';
      } else {
        assert input[i] == s[0] && s[0] != '\\' && s[0] != '\n' && s[0] != '"';
      }
      ScanEscapedBody(input, i + k, s[1..]);
    }
  }

  /** Escaping the first character takes one character, or two starting with a backslash. */
  lemma EscapeHead(s: string) returns (k: nat)
    requires s != []
    ensures k <= |EscapeQuoted(s)| && EscapeQuoted(s)[k..] == EscapeQuoted(s[1..])
    ensures k == 2 ==> EscapeQuoted(s)[0] == '\\' && EscapeQuoted(s)[1] in "nrt\\\""
    ensures k != 2 ==> k == 1 && EscapeQuoted(s)[0] == s[0] && s[0] !in "\n\r\t\\\""
  {
    var c := s[0];
    var e := EscapeQuoted(s);
    if c == '\n' || c == '\r' || c == '\t' || c == '\\' || c == '"' {
      k := 2;
      assert e[2..] == EscapeQuoted(s[1..]);
    } else {
      k := 1;
      assert e[1..] == EscapeQuoted(s[1..]);
    }
  }

  /** What a slice that spells `e` says about the characters from `k` on. */
  lemma SliceAfter(input: string, i: nat, e: string, k: nat)
    requires i + |e| <= |input| && input[i..i + |e|] == e && k <= |e|
    ensures input[i + k..i + k + |e[k..]|] == e[k..]
    ensures forall j | 0 <= j < k :: input[i + j] == e[j]
  {
    forall j | 0 <= j < k ensures input[i + j] == e[j] {
      assert input[i..i + |e|][j] == input[i + j];
    }
  }

  /**
   * Round trip through the DOT front end: a string written as a quoted,
   * escaped literal anywhere in the input is matched exactly, and the node
   * built from the matched span holds the original string.
   */
  lemma {:induction false} QuotedStringRoundTrip(before: string, s: string, after: string)
    ensures
      var literal := "\"" + EscapeQuoted(s) + "\"";
      var input := before + literal + after;
      QuotedStringMatch(input, |before|) == |literal| &&
      NewQuotedStringNode(input[|before|..|before| + |literal|], 0, 0).Ok? &&
      NewQuotedStringNode(input[|before|..|before| + |literal|], 0, 0).value.value == s
  {
    var e := EscapeQuoted(s);
    var literal := "\"" + e + "\"";
    var input := before + literal + after;
    var i := |before| + 1;
    assert input[i..i + |e|] == e;
    assert input[i + |e|] == '"';
    ScanEscapedBody(input, i, s);
    var span := input[|before|..|before| + |literal|];
    assert span == literal;
    assert span[1..|span| - 1] == e;
    DecodeEscaped(s);
  }

  /** Examples from the matcher tests. */
  lemma MatcherExamples()
    ensures TriviaMatch(Ascii, "  //", 0) == 4
    ensures TriviaMatch(Ascii, "  /", 0) == 2
    ensures TriviaMatch(Ascii, "  ", 4) == 0
    ensures TriviaMatch(Ascii, "we", 0) == 0
    ensures TriviaMatch(Ascii, "  // Top\r\n/ ", 0) == 10
    ensures QuotedStringMatch("123", 0) == -1
    ensures QuotedStringMatch(" \"2345\"", 1) == 6
    ensures QuotedStringMatch("=\"2\\\"\\n4\"", 1) == 8
  {
  }
}

=== FILE: enum_generator.dfy ===
/**
 * The naming rules of the C++-to-C# enum generator: how C++ identifiers
 * become C# type, namespace and member names, which C++ underlying types map
 * to which C# types, and when an enum is marked [Flags]. The Roslyn source
 * generator around them (file lookup, diagnostics, emitting the text) is
 * not modelled.
 */
module EnumGenerator {
  import opened Wrappers
  import opened Chars
  import opened SeqFacts

  // ---------------------------------------------------------------------
  // Words: the '_'-separated parts of an identifier
  // ---------------------------------------------------------------------

  /** How many characters at the front of `s` are not '_'. */
  function RunLength(s: string): (n: nat)
    ensures n <= |s|
    ensures forall k | 0 <= k < n :: s[k] != '_'
    ensures n < |s| ==> s[n] == '_'
  {
    if s == [] || s[0] == '_' then 0 else 1 + RunLength(s[1..])
  }

  /**
   * string.Split('_', RemoveEmptyEntries): the maximal runs of characters
   * other than '_', in order, with the empty runs dropped.
   */
  function Words(s: string): (w: seq<string>)
    ensures forall k | 0 <= k < |w| :: w[k] != [] && forall j | 0 <= j < |w[k]| :: w[k][j] != '_'
    decreases |s|
  {
    if s == [] then []
    else if s[0] == '_' then Words(s[1..])
    else
      var n := RunLength(s);
      [s[..n]] + Words(s[n..])
  }

  function LowerAll(ci: CharInfo, s: string): (r: string)
    ensures |r| == |s| && forall k | 0 <= k < |s| :: r[k] == ci.toLower(s[k])
  {
    if s == [] then [] else [ci.toLower(s[0])] + LowerAll(ci, s[1..])
  }

  /**
   * A non-empty word with its first character upper-cased and the rest
   * lower-cased. A one-character word is upper-cased as a whole, which is
   * the same thing.
   */
  function Capitalize(ci: CharInfo, w: string): (r: string)
    requires w != []
    ensures |r| == |w| && r[0] == ci.toUpper(w[0])
    ensures forall k | 1 <= k < |w| :: r[k] == ci.toLower(w[k])
  {
    [ci.toUpper(w[0])] + LowerAll(ci, w[1..])
  }

  /** Each word capitalised, then all of them joined with nothing between. */
  function CapitalizeAll(ci: CharInfo, words: seq<string>): string
    requires forall k | 0 <= k < |words| :: words[k] != []
  {
    if words == [] then [] else Capitalize(ci, words[0]) + CapitalizeAll(ci, words[1..])
  }

  function CountUnderscores(s: string): (n: nat)
    ensures n <= |s|
  {
    if s == [] then 0 else (if s[0] == '_' then 1 else 0) + CountUnderscores(s[1..])
  }

  // ---------------------------------------------------------------------
  // ConvertToPascalCase
  // ---------------------------------------------------------------------

  /** The name without one trailing ';'. */
  function DropSemicolon(s: string): (r: string)
    ensures |s| > 0 && s[|s| - 1] == ';' ==> r == s[..|s| - 1]
    ensures !(|s| > 0 && s[|s| - 1] == ';') ==> r == s
  {
    if |s| > 0 && s[|s| - 1] == ';' then s[..|s| - 1] else s
  }

  /**
   * The copy loop of ConvertToPascalCase: a '_' is dropped and asks for the
   * next character to be upper-cased; any other character is upper-cased
   * when asked for and lower-cased otherwise. Every character that is not
   * '_' yields exactly one character.
   */
  function PascalLoop(ci: CharInfo, s: string, makeUpper: bool): (r: string)
    ensures |r| == |s| - CountUnderscores(s)
  {
    if s == [] then []
    else if s[0] == '_' then PascalLoop(ci, s[1..], true)
    else [if makeUpper then ci.toUpper(s[0]) else ci.toLower(s[0])] + PascalLoop(ci, s[1..], false)
  }

  /**
   * ConvertToPascalCase. An empty name stays empty. A name without '_' whose
   * first character is upper case is kept, minus a trailing ';'. Otherwise
   * the trailing ';' is dropped and the copy loop runs from an upper-casing
   * start.
   */
  function ConvertToPascalCase(ci: CharInfo, name: string): (r: string)
    ensures name == [] ==> r == []
    ensures name != [] && !Contains(name, "_") && ci.isUpper(name[0]) ==> r == DropSemicolon(name)
    ensures name != [] && (Contains(name, "_") || !ci.isUpper(name[0])) ==>
      |r| == |DropSemicolon(name)| - CountUnderscores(DropSemicolon(name))
  {
    if name == [] then name
    else if !Contains(name, "_") && ci.isUpper(name[0]) then DropSemicolon(name)
    else PascalLoop(ci, DropSemicolon(name), true)
  }

  /** A run of non-'_' characters met without an upper-casing request is lower-cased. */
  lemma {:induction false} LowerRun(ci: CharInfo, s: string)
    ensures PascalLoop(ci, s, false) == LowerAll(ci, s[..RunLength(s)]) + PascalLoop(ci, s[RunLength(s)..], true)
    decreases |s|
  {
    if s != [] && s[0] != '_' {
      LowerRun(ci, s[1..]);
      assert s[1..][..RunLength(s[1..])] == s[..RunLength(s)][1..];
      assert s[1..][RunLength(s[1..])..] == s[RunLength(s)..];
    } else {
      assert s[..0] == [];
      assert s[0..] == s;
    }
  }

  /**
   * The copy loop, once asked to upper-case, capitalises every '_'-separated
   * word and drops the separators: PascalLoop is Split + Capitalize + Concat.
   */
  lemma {:induction false} PascalLoopIsCapitalizedWords(ci: CharInfo, s: string)
    ensures PascalLoop(ci, s, true) == CapitalizeAll(ci, Words(s))
    decreases |s|
  {
    if s == [] {
    } else if s[0] == '_' {
      PascalLoopIsCapitalizedWords(ci, s[1..]);
    } else {
      var n := RunLength(s);
      var u := ci.toUpper(s[0]);
      LowerRun(ci, s[1..]);
      RunSlices(s);
      PascalLoopIsCapitalizedWords(ci, s[n..]);
      FirstWord(ci, s);
      RegroupThree([u], LowerAll(ci, s[..n][1..]), CapitalizeAll(ci, Words(s[n..])));
    }
  }

  /** The first word's run, seen from the second character on. */
  lemma RunSlices(s: string)
    requires s != [] && s[0] != '_'
    ensures RunLength(s[1..]) == RunLength(s) - 1
    ensures s[1..][..RunLength(s) - 1] == s[..RunLength(s)][1..]
    ensures s[1..][RunLength(s) - 1..] == s[RunLength(s)..]
  {
  }

  /** A name that starts with a word capitalises that word first. */
  lemma FirstWord(ci: CharInfo, s: string)
    requires s != [] && s[0] != '_'
    ensures CapitalizeAll(ci, Words(s)) ==
      [ci.toUpper(s[0])] + LowerAll(ci, s[..RunLength(s)][1..]) + CapitalizeAll(ci, Words(s[RunLength(s)..]))
  {
    var n := RunLength(s);
    assert Words(s) == [s[..n]] + Words(s[n..]);
    assert ([s[..n]] + Words(s[n..]))[1..] == Words(s[n..]);
  }

  /** Neither case mapping ever produces '_'. */
  predicate KeepsUnderscoresApart(ci: CharInfo) {
    forall c: char {:trigger ci.toUpper(c)} {:trigger ci.toLower(c)} :: ci.toUpper(c) != '_' && ci.toLower(c) != '_'
  }

  /** When the case mappings never yield '_', the converted name has no '_' left. */
  lemma {:induction false} PascalLoopRemovesUnderscores(ci: CharInfo, s: string, makeUpper: bool)
    requires KeepsUnderscoresApart(ci)
    ensures forall k | 0 <= k < |PascalLoop(ci, s, makeUpper)| :: PascalLoop(ci, s, makeUpper)[k] != '_'
    decreases |s|
  {
    if s != [] {
      PascalLoopRemovesUnderscores(ci, s[1..], true);
      PascalLoopRemovesUnderscores(ci, s[1..], false);
    }
  }

  // ---------------------------------------------------------------------
  // ConvertMemberName
  // ---------------------------------------------------------------------

  /** IsAllUpperCase: non-empty, and every character upper case or a digit. */
  predicate IsAllUpperCase(ci: CharInfo, s: string) {
    s != [] && forall k | 0 <= k < |s| :: ci.isUpper(s[k]) || ci.isDigit(s[k])
  }

  /**
   * ConvertMemberName. The empty name, a name starting upper case and an
   * all-upper-case name are kept; so is a name made only of '_'. Any other
   * name becomes its capitalised words joined together.
   */
  function ConvertMemberName(ci: CharInfo, name: string): (r: string)
    ensures name == [] || ci.isUpper(name[0]) || IsAllUpperCase(ci, name) || Words(name) == [] ==> r == name
    ensures !(name == [] || ci.isUpper(name[0]) || IsAllUpperCase(ci, name) || Words(name) == []) ==>
      r == CapitalizeAll(ci, Words(name))
  {
    if name == [] then name
    else if ci.isUpper(name[0]) || IsAllUpperCase(ci, name) then name
    else
      var parts := Words(name);
      if parts == [] then name else CapitalizeAll(ci, parts)
  }

  /**
   * The two conversions agree on a member-style name: one that starts in
   * lower case, is not all upper case, has at least one word and no
   * trailing ';'.
   */
  lemma MemberNameIsPascalCase(ci: CharInfo, name: string)
    requires name != [] && !ci.isUpper(name[0]) && !IsAllUpperCase(ci, name) && Words(name) != []
    requires name[|name| - 1] != ';'
    ensures ConvertMemberName(ci, name) == ConvertToPascalCase(ci, name)
  {
    PascalLoopIsCapitalizedWords(ci, name);
  }

  // ---------------------------------------------------------------------
  // Enum naming
  // ---------------------------------------------------------------------

  function Join(parts: seq<string>, sep: string): (r: string)
    ensures parts == [] ==> r == []
    ensures |parts| == 1 ==> r == parts[0]
  {
    if parts == [] then []
    else if |parts| == 1 then parts[0]
    else parts[0] + sep + Join(parts[1..], sep)
  }

  function PascalAll(ci: CharInfo, parts: seq<string>): (r: seq<string>)
    ensures |r| == |parts| && forall k | 0 <= k < |parts| :: r[k] == ConvertToPascalCase(ci, parts[k])
  {
    if parts == [] then [] else [ConvertToPascalCase(ci, parts[0])] + PascalAll(ci, parts[1..])
  }

  datatype EnumMember = EnumMember(name: string, value: Option<string>)

  datatype EnumDeclaration = EnumDeclaration(
    name: string, isClass: bool, underlyingType: Option<string>, members: seq<EnumMember>)

  /** The part of EnumInfo that ProcessEnumDeclaration computes. */
  datatype EnumInfo = EnumInfo(
    name: string,
    originalName: string,
    originalNamespace: string,
    members: seq<EnumMember>,
    csNamespace: string,
    sourceFile: string,
    isEnumClass: bool,
    underlyingType: Option<string>)

  /** Joining one more part adds the separator and that part at the end. */
  lemma {:induction false} JoinSnoc(parts: seq<string>, last: string, sep: string)
    requires parts != []
    ensures Join(parts + [last], sep) == Join(parts, sep) + sep + last
  {
    if |parts| > 1 {
      assert (parts + [last])[1..] == parts[1..] + [last];
      JoinSnoc(parts[1..], last, sep);
    }
  }

  /**
   * The namespace parts that reach the C# namespace: all of them, except
   * that an enum named "Enum" leaves the innermost one out.
   */
  function KeptParts(declName: string, parts: seq<string>): (r: seq<string>)
    ensures declName == "Enum" && |parts| >= 1 ==> r + [parts[|parts| - 1]] == parts
    ensures !(declName == "Enum" && |parts| >= 1) ==> r == parts
  {
    if declName == "Enum" && |parts| >= 1 then parts[..|parts| - 1] else parts
  }

  /**
   * ProcessEnumDeclaration. `fileStem` is Path.GetFileNameWithoutExtension
   * of `sourceFile`, which is taken as given. An enum named "Enum" inside a
   * namespace is named after the innermost namespace, which then drops out
   * of the C# namespace. When no namespace part is left, the C# namespace
   * is the PascalCased file stem; otherwise it is the namespace of the
   * enclosing parts followed by the innermost kept part, PascalCased.
   */
  function ProcessEnumDeclaration(ci: CharInfo, decl: EnumDeclaration, namespaceParts: seq<string>,
                                  sourceFile: string, fileStem: string): (info: EnumInfo)
    ensures info.originalName == decl.name && info.originalNamespace == Join(namespaceParts, "::")
    ensures info.members == decl.members && info.isEnumClass == decl.isClass
    ensures info.underlyingType == decl.underlyingType && info.sourceFile == sourceFile
    ensures decl.name == "Enum" && |namespaceParts| >= 1 ==>
      info.name == ConvertToPascalCase(ci, namespaceParts[|namespaceParts| - 1])
    ensures !(decl.name == "Enum" && |namespaceParts| >= 1) ==> info.name == ConvertToPascalCase(ci, decl.name)
    ensures var kept := KeptParts(decl.name, namespaceParts);
      && (kept == [] ==> info.csNamespace == ConvertToPascalCase(ci, fileStem))
      && (|kept| == 1 ==> info.csNamespace == ConvertToPascalCase(ci, kept[0]))
      && (|kept| >= 2 ==> info.csNamespace == Join(PascalAll(ci, kept[..|kept| - 1]), ".") + "." + ConvertToPascalCase(ci, kept[|kept| - 1]))
  {
    var fromNamespace := decl.name == "Enum" && |namespaceParts| >= 1;
    var csName := if fromNamespace then namespaceParts[|namespaceParts| - 1] else decl.name;
    var kept := KeptParts(decl.name, namespaceParts);
    var csParts := PascalAll(ci, kept);
    if |kept| >= 2 then
      var init := kept[..|kept| - 1];
      assert kept == init + [kept[|kept| - 1]];
      assert csParts == PascalAll(ci, init) + [ConvertToPascalCase(ci, kept[|kept| - 1])];
      JoinSnoc(PascalAll(ci, init), ConvertToPascalCase(ci, kept[|kept| - 1]), ".");
      EnumInfo(ConvertToPascalCase(ci, csName), decl.name, Join(namespaceParts, "::"), decl.members,
               Join(csParts, "."), sourceFile, decl.isClass, decl.underlyingType)
    else
      var csNamespace := if |csParts| > 0 then Join(csParts, ".") else ConvertToPascalCase(ci, fileStem);
      EnumInfo(ConvertToPascalCase(ci, csName), decl.name, Join(namespaceParts, "::"), decl.members,
               csNamespace, sourceFile, decl.isClass, decl.underlyingType)
  }

  /**
   * One more enclosing namespace around an enum not named "Enum" appends
   * its PascalCased name to the C# namespace, once there is one to append to.
   */
  lemma NestedNamespace(ci: CharInfo, decl: EnumDeclaration, parts: seq<string>, inner: string,
                        sourceFile: string, fileStem: string)
    requires decl.name != "Enum" && parts != []
    ensures ProcessEnumDeclaration(ci, decl, parts + [inner], sourceFile, fileStem).csNamespace
      == ProcessEnumDeclaration(ci, decl, parts, sourceFile, fileStem).csNamespace + "." + ConvertToPascalCase(ci, inner)
  {
    JoinSnoc(PascalAll(ci, parts), ConvertToPascalCase(ci, inner), ".");
    assert (parts + [inner])[..|parts|] == parts;
  }

  /**
   * An enum named "Enum" inside namespace `inner` gets the same C# name and
   * namespace as an enum named `inner` declared one level up.
   */
  lemma EnumTakesNamespaceName(ci: CharInfo, decl: EnumDeclaration, parts: seq<string>, inner: string,
                               sourceFile: string, fileStem: string)
    requires decl.name == "Enum" && (inner != "Enum" || parts == [])
    ensures var nested := ProcessEnumDeclaration(ci, decl, parts + [inner], sourceFile, fileStem);
      var lifted := ProcessEnumDeclaration(ci, decl.(name := inner), parts, sourceFile, fileStem);
      nested.name == lifted.name && nested.csNamespace == lifted.csNamespace
  {
    assert (parts + [inner])[..|parts|] == parts;
  }

  /** The C++ syntax tree the generator walks. */
  datatype CppAst =
    | CppProgram(items: seq<CppAst>)
    | NamespaceDeclaration(nsName: string, body: CppAst)
    | AnonymousNamespaceDeclaration(anonBody: CppAst)
    | Enum(decl: EnumDeclaration)
    | Skipped

  /** How many enum declarations a tree holds. */
  function EnumCount(node: CppAst): nat {
    match node
    case CppProgram(items) => EnumCountAll(items)
    case NamespaceDeclaration(_, body) => EnumCount(body)
    case AnonymousNamespaceDeclaration(body) => EnumCount(body)
    case Enum(_) => 1
    case Skipped => 0
  }

  function EnumCountAll(items: seq<CppAst>): nat {
    if items == [] then 0 else EnumCount(items[0]) + EnumCountAll(items[1..])
  }

  /**
   * CollectEnums: a depth-first walk in document order. A named namespace
   * adds its name to the parts; an anonymous one adds nothing. Every enum
   * declaration yields exactly one EnumInfo.
   */
  function CollectEnums(ci: CharInfo, node: CppAst, parts: seq<string>, sourceFile: string, fileStem: string): (r: seq<EnumInfo>)
    ensures |r| == EnumCount(node)
  {
    match node
    case CppProgram(items) => CollectAll(ci, items, parts, sourceFile, fileStem)
    case NamespaceDeclaration(n, body) => CollectEnums(ci, body, parts + [n], sourceFile, fileStem)
    case AnonymousNamespaceDeclaration(body) => CollectEnums(ci, body, parts, sourceFile, fileStem)
    case Enum(decl) => [ProcessEnumDeclaration(ci, decl, parts, sourceFile, fileStem)]
    case Skipped => []
  }

  function CollectAll(ci: CharInfo, items: seq<CppAst>, parts: seq<string>, sourceFile: string, fileStem: string): (r: seq<EnumInfo>)
    ensures |r| == EnumCountAll(items)
  {
    if items == [] then [] else CollectEnums(ci, items[0], parts, sourceFile, fileStem) + CollectAll(ci, items[1..], parts, sourceFile, fileStem)
  }

  /**
   * The enum declarations of a tree in document order, each with the names
   * of the named namespaces around it, outermost first, after `parts`;
   * anonymous namespaces contribute no name.
   */
  function Enums(node: CppAst, parts: seq<string>): (e: seq<(EnumDeclaration, seq<string>)>)
    ensures |e| == EnumCount(node)
    ensures forall k | 0 <= k < |e| :: parts <= e[k].1
  {
    match node
    case CppProgram(items) => EnumsAll(items, parts)
    case NamespaceDeclaration(n, body) => Enums(body, parts + [n])
    case AnonymousNamespaceDeclaration(body) => Enums(body, parts)
    case Enum(decl) => [(decl, parts)]
    case Skipped => []
  }

  function EnumsAll(items: seq<CppAst>, parts: seq<string>): (e: seq<(EnumDeclaration, seq<string>)>)
    ensures |e| == EnumCountAll(items)
    ensures forall k | 0 <= k < |e| :: parts <= e[k].1
  {
    if items == [] then [] else Enums(items[0], parts) + EnumsAll(items[1..], parts)
  }

  /** The walk yields one EnumInfo per enum declaration, in document order, built from its enclosing named namespaces. */
  lemma {:induction false} CollectProcessesEachEnum(ci: CharInfo, node: CppAst, parts: seq<string>, sourceFile: string, fileStem: string)
    ensures var r := CollectEnums(ci, node, parts, sourceFile, fileStem); var e := Enums(node, parts);
      |r| == |e| && forall k | 0 <= k < |r| :: r[k] == ProcessEnumDeclaration(ci, e[k].0, e[k].1, sourceFile, fileStem)
    decreases node, 1
  {
    match node
    case CppProgram(items) => CollectAllProcessesEachEnum(ci, items, parts, sourceFile, fileStem);
    case NamespaceDeclaration(n, body) => CollectProcessesEachEnum(ci, body, parts + [n], sourceFile, fileStem);
    case AnonymousNamespaceDeclaration(body) => CollectProcessesEachEnum(ci, body, parts, sourceFile, fileStem);
    case Enum(decl) =>
    case Skipped =>
  }

  lemma {:induction false} CollectAllProcessesEachEnum(ci: CharInfo, items: seq<CppAst>, parts: seq<string>, sourceFile: string, fileStem: string)
    ensures var r := CollectAll(ci, items, parts, sourceFile, fileStem); var e := EnumsAll(items, parts);
      |r| == |e| && forall k | 0 <= k < |r| :: r[k] == ProcessEnumDeclaration(ci, e[k].0, e[k].1, sourceFile, fileStem)
    decreases items, 0
  {
    if items != [] {
      CollectProcessesEachEnum(ci, items[0], parts, sourceFile, fileStem);
      CollectAllProcessesEachEnum(ci, items[1..], parts, sourceFile, fileStem);
    }
  }

  /** `namespace a { namespace { E1 } } E2`: the anonymous namespace adds no part. */
  lemma EnumsSkipAnonymousNamespaces(d1: EnumDeclaration, d2: EnumDeclaration)
    ensures Enums(CppProgram([NamespaceDeclaration("a", AnonymousNamespaceDeclaration(Enum(d1))), Enum(d2)]), [])
      == [(d1, ["a"]), (d2, [])]
  {
    var items := [NamespaceDeclaration("a", AnonymousNamespaceDeclaration(Enum(d1))), Enum(d2)];
    var none: seq<string> := [];
    assert none + ["a"] == ["a"];
    var a: seq<string> := ["a"];
    assert Enums(Enum(d1), a) == [(d1, a)];
    assert Enums(AnonymousNamespaceDeclaration(Enum(d1)), none + ["a"]) == [(d1, a)];
    assert Enums(items[0], none) == [(d1, ["a"])];
    assert items[1..] == [Enum(d2)];
    assert EnumsAll(items[1..][1..], none) == [];
    assert EnumsAll(items[1..], none) == [(d2, none)];
    assert EnumsAll(items, none) == [(d1, ["a"])] + [(d2, none)];
  }

  // ---------------------------------------------------------------------
  // Generated text: [Flags], the underlying type, member lines
  // ---------------------------------------------------------------------

  /** [System.Flags] is written iff some member's value uses "<<" or "|". */
  predicate HasBitwiseOperations(members: seq<EnumMember>) {
    exists k | 0 <= k < |members| ::
      members[k].value.Some? && (Contains(members[k].value.value, "<<") || Contains(members[k].value.value, "|"))
  }

  /**
   * The C# type for a C++ underlying type: the fixed-width integer types map
   * to their C# equivalents, int32_t and no type to none (int is C#'s
   * default), and any other name to itself.
   */
  function CSharpUnderlyingType(t: Option<string>): (r: Option<string>)
    ensures t == None || t == Some("int32_t") ==> r == None
    ensures t.Some? && !(t.value in {"int8_t", "int16_t", "int32_t", "int64_t", "uint8_t", "uint16_t", "uint32_t", "uint64_t"}) ==> r == t
  {
    match t
    case None => None
    case Some(name) =>
      if name == "int8_t" then Some("sbyte")
      else if name == "int16_t" then Some("short")
      else if name == "int32_t" then None
      else if name == "int64_t" then Some("long")
      else if name == "uint8_t" then Some("byte")
      else if name == "uint16_t" then Some("ushort")
      else if name == "uint32_t" then Some("uint")
      else if name == "uint64_t" then Some("ulong")
      else Some(name)
  }

  /** The mapping keeps signedness and width: each fixed-width C++ type has its own C# type. */
  lemma UnderlyingTypeTable()
    ensures CSharpUnderlyingType(Some("int8_t")) == Some("sbyte")
    ensures CSharpUnderlyingType(Some("int16_t")) == Some("short")
    ensures CSharpUnderlyingType(Some("int64_t")) == Some("long")
    ensures CSharpUnderlyingType(Some("uint8_t")) == Some("byte")
    ensures CSharpUnderlyingType(Some("uint16_t")) == Some("ushort")
    ensures CSharpUnderlyingType(Some("uint32_t")) == Some("uint")
    ensures CSharpUnderlyingType(Some("uint64_t")) == Some("ulong")
  {
  }

  /**
   * The line written for one member: its converted name, then " = value"
   * when the value is present and non-empty, then a comma.
   */
  function MemberLine(ci: CharInfo, m: EnumMember): (line: string)
    ensures StartsWith(line, "        " + ConvertMemberName(ci, m.name))
    ensures line[|line| - 1] == ','
    ensures (m.value.Some? && m.value.value != []) <==> |line| > |"        " + ConvertMemberName(ci, m.name)| + 1
  {
    var name := "        " + ConvertMemberName(ci, m.name);
    if m.value.Some? && m.value.value != [] then name + " = " + m.value.value + "," else name + ","
  }

  /**
   * The declaration line as written: "public enum Name". The C# type the
   * underlying type maps to is computed but never placed on it, so an enum
   * declared `: uint8_t` comes out as a C# int enum.
   */
  function EnumHeaderAsWritten(info: EnumInfo): (line: string)
    ensures StartsWith(line, "    public enum " + info.name)
  {
    "    public enum " + info.name
  }

  /** The declaration line as the type mapping intends it: the C# base type follows the name. */
  function EnumHeader(info: EnumInfo): (line: string)
    ensures StartsWith(line, "    public enum " + info.name)
    ensures CSharpUnderlyingType(info.underlyingType) == None ==> line == "    public enum " + info.name
    ensures CSharpUnderlyingType(info.underlyingType).Some? ==>
      line == "    public enum " + info.name + " : " + CSharpUnderlyingType(info.underlyingType).value
  {
    match CSharpUnderlyingType(info.underlyingType)
    case None => "    public enum " + info.name
    case Some(t) => "    public enum " + info.name + " : " + t
  }

  /** For a byte-sized enum the written header stops at the name, while the intended one ends in " : byte". */
  lemma ByteEnumLosesItsType(info: EnumInfo)
    requires info.underlyingType == Some("uint8_t")
    ensures EnumHeader(info) == EnumHeaderAsWritten(info) + " : byte"
    ensures EnumHeaderAsWritten(info) != EnumHeader(info)
  {
  }

  // ---------------------------------------------------------------------
  // Examples
  // ---------------------------------------------------------------------

  lemma PascalCaseExample()
    ensures ConvertToPascalCase(Ascii, "ab_cd") == "AbCd"
  {
    assert OccursAt("ab_cd", "_", 2);
    var t := "ab_cd";
    assert t[1..] == "b_cd" && t[1..][1..] == "_cd" && t[1..][1..][1..] == "cd" && "cd"[1..] == "d" && "d"[1..] == [];
  }

  lemma UpperNameExample()
    ensures ConvertToPascalCase(Ascii, "Color;") == "Color"
  {
    assert !Contains("Color;", "_") by {
      forall i | 0 <= i <= 5 ensures !OccursAt("Color;", "_", i) {
        assert "Color;"[i..i + 1] == ["Color;"[i]];
      }
    }
  }

  lemma MemberNameExamples()
    ensures ConvertMemberName(Ascii, "MAX_VALUE") == "MAX_VALUE"
    ensures ConvertMemberName(Ascii, "ab_cd") == "AbCd"
  {
    var t := "ab_cd";
    assert !Ascii.isUpper(t[0]);
    assert !IsAllUpperCase(Ascii, t);
    PascalCaseExample();
    assert Words(t) != [];
    MemberNameIsPascalCase(Ascii, t);
  }

  /** The "Enum" rule on a test layout: namespace ns::a_b, enum Enum. */
  lemma EnumInNamespaceExample(decl: EnumDeclaration)
    requires decl.name == "Enum"
    ensures var info := ProcessEnumDeclaration(Ascii, decl, ["Ns", "a_b"], "x.h", "x");
      info.name == "AB" && info.csNamespace == "Ns" && info.originalNamespace == "Ns::a_b"
  {
    PascalOfSnakeName();
    PascalOfPascalName();
    var parts := ["Ns", "a_b"];
    assert parts[..1] == ["Ns"];
  }

  lemma PascalOfSnakeName()
    ensures ConvertToPascalCase(Ascii, "a_b") == "AB"
  {
    assert OccursAt("a_b", "_", 1);
    var t := "a_b";
    assert t[1..] == "_b" && t[1..][1..] == "b" && "b"[1..] == [];
  }

  lemma PascalOfPascalName()
    ensures ConvertToPascalCase(Ascii, "Ns") == "Ns"
  {
    assert !Contains("Ns", "_") by {
      forall i | 0 <= i <= 1 ensures !OccursAt("Ns", "_", i) {
        assert "Ns"[i..i + 1] == ["Ns"[i]];
      }
    }
  }
}

=== FILE: follow_sets.dfy ===
/**
 * FIRST and FOLLOW sets of a grammar (FollowSetCalculatorV2): FIRST by a
 * memoised depth-first walk that stores a rule's set before visiting its
 * references, FOLLOW by passes over every production until none grows.
 *
 * The calculator belongs to the older parser namespace, where ReqRef is not
 * a kind of Ref; only `Ref` elements are followed here.
 */
module FollowSets {
  import opened Wrappers
  import opened Rules

  /** A member of a FIRST or FOLLOW set: a grammar terminal, the calculator's private ε, or end of input. */
  datatype Sym = Tok(t: Terminal) | Epsilon | Eof

  type Sets = map<string, set<Sym>>

  /** The rule table: its keys in enumeration order and the alternatives of each. */
  datatype Grammar = Grammar(names: seq<string>, rules: map<string, seq<Rule>>) {
    predicate Valid() {
      && (forall i, j | 0 <= i < j < |names| :: names[i] != names[j])
      && (forall n | n in rules :: n in names)
      && (forall i | 0 <= i < |names| :: names[i] in rules)
    }
  }

  /** The stored set of `n`, or an empty one when there is none. */
  function Get(m: Sets, n: string): (s: set<Sym>)
    ensures n in m ==> s == m[n]
    ensures n !in m ==> s == {}
  {
    if n in m then m[n] else {}
  }

  // ---------------------------------------------------------------------
  // Set facts
  // ---------------------------------------------------------------------

  /** A subset is no larger, and as large only when equal. */
  lemma {:induction false} SubsetCard<T>(a: set<T>, b: set<T>)
    requires a <= b
    ensures |a| <= |b|
    ensures |a| == |b| ==> a == b
  {
    if a != {} {
      var x :| x in a;
      SubsetCard(a - {x}, b - {x});
    }
  }

  /** The number of rules that have no FIRST set stored yet. */
  function Unset(g: Grammar, fs: Sets): nat {
    |g.rules.Keys - fs.Keys|
  }

  lemma UnsetShrinks(g: Grammar, fs: Sets, fs2: Sets)
    requires fs.Keys <= fs2.Keys
    ensures Unset(g, fs2) <= Unset(g, fs)
  {
    SubsetCard(g.rules.Keys - fs2.Keys, g.rules.Keys - fs.Keys);
  }

  lemma StoringShrinks(g: Grammar, fs: Sets, name: string, s: set<Sym>)
    requires name in g.rules && name !in fs
    ensures Unset(g, fs[name := s]) < Unset(g, fs)
  {
    var before := g.rules.Keys - fs.Keys;
    var after := g.rules.Keys - fs[name := s].Keys;
    assert after == before - {name};
  }

  // ---------------------------------------------------------------------
  // Flattening
  // ---------------------------------------------------------------------

  /** FlattenRule: repetitions, options and often-missed elements stand for their element. */
  function Unwrap(r: Rule): (u: Rule)
    ensures !(u.OneOrMany? || u.ZeroOrMany? || u.Optional? || u.OftenMissed?)
    ensures !(r.OneOrMany? || r.ZeroOrMany? || r.Optional? || r.OftenMissed?) ==> u == r
    ensures r.OneOrMany? || r.ZeroOrMany? || r.Optional? || r.OftenMissed? ==> u == Unwrap(r.element)
  {
    match r
    case OneOrMany(e, _) => Unwrap(e)
    case ZeroOrMany(e, _) => Unwrap(e)
    case Optional(e, _) => Unwrap(e)
    case OftenMissed(e, _) => Unwrap(e)
    case _ => r
  }

  /** Unwrapping twice is unwrapping once. */
  lemma UnwrapIsIdempotent(r: Rule)
    ensures Unwrap(Unwrap(r)) == Unwrap(r)
  {
  }

  /** ExpandRule: one production per alternative, a sequence's elements unwrapped one by one. */
  function Production(alt: Rule): (p: seq<Rule>)
    ensures alt.Seq? ==> |p| == |alt.elements| && forall i | 0 <= i < |p| :: p[i] == Unwrap(alt.elements[i])
    ensures !alt.Seq? ==> p == [Unwrap(alt)]
  {
    if alt.Seq? then seq(|alt.elements|, i requires 0 <= i < |alt.elements| => Unwrap(alt.elements[i]))
    else [Unwrap(alt)]
  }

  // ---------------------------------------------------------------------
  // FIRST
  // ---------------------------------------------------------------------

  /** No stored set holds ε or end of input. */
  predicate OnlyTokens(fs: Sets) {
    forall n, s | n in fs && s in fs[n] :: s.Tok?
  }

  /** Whether `fs2` keeps every set of `fs` as it was. */
  predicate Keeps(fs: Sets, fs2: Sets) {
    fs.Keys <= fs2.Keys && forall n | n in fs :: fs2[n] == fs[n]
  }

  /**
   * What a FIRST computation leaves behind: the exception it threw, if any,
   * and the table of stored sets as it stands then. The source stores into
   * its dictionary as it goes, so a computation that throws still leaves
   * the sets it stored. The set a rule's computation returns is the one
   * stored under its name.
   */
  datatype Run = Run(thrown: Option<Exception>, table: Sets)

  /**
   * ComputeFirstForRule. A stored set is returned as it is, even the
   * unfinished one of a rule still being computed. Otherwise an empty set
   * is stored first and then grown alternative by alternative: an
   * alternative that unwraps to a terminal adds it, one that unwraps to a
   * reference adds that rule's FIRST set as it stands, anything else adds
   * nothing. The empty set is stored before the rule's alternatives are
   * looked up, so a rule the grammar lacks throws KeyNotFound with its
   * placeholder already stored.
   */
  function ComputeFirst(g: Grammar, name: string, fs: Sets): (r: Run)
    ensures Keeps(fs, r.table) && name in r.table
    ensures r.thrown.Some? ==> r.thrown.value.KeyNotFound? && r.thrown.value.key in r.table
    ensures OnlyTokens(fs) ==> OnlyTokens(r.table)
    ensures name !in fs && name !in g.rules ==> r == Run(Some(KeyNotFound(name)), fs[name := {}])
    decreases Unset(g, fs), 0
  {
    if name in fs then Run(None, fs)
    else if name !in g.rules then Placeholder(fs, name); Run(Some(KeyNotFound(name)), fs[name := {}])
    else
      StoringShrinks(g, fs, name, {});
      Placeholder(fs, name);
      FirstOfAlternatives(g, name, g.rules[name], 0, fs[name := {}])
  }

  lemma Placeholder(fs: Sets, name: string)
    requires name !in fs
    ensures fs[name := {}] - {name} == fs
    ensures OnlyTokens(fs) ==> OnlyTokens(fs[name := {}])
  {
    assert fs[name := {}] - {name} == fs;
  }

  /** The loop of ComputeFirstForRule over the alternatives from index `k`; `fs[name]` is the set so far. */
  function FirstOfAlternatives(g: Grammar, name: string, alts: seq<Rule>, k: nat, fs: Sets): (r: Run)
    requires name in fs && k <= |alts|
    ensures Keeps(fs - {name}, r.table) && name in r.table
    ensures r.thrown.None? ==> fs[name] <= r.table[name]
    ensures r.thrown.Some? ==> r.thrown.value.KeyNotFound? && r.thrown.value.key in r.table
    ensures OnlyTokens(fs) ==> OnlyTokens(r.table)
    decreases Unset(g, fs), 1, |alts| - k
  {
    if k == |alts| then Run(None, fs)
    else
      var u := Unwrap(alts[k]);
      if u.Term? then
        UnsetShrinks(g, fs, fs[name := fs[name] + {Tok(u.t)}]);
        FirstOfAlternatives(g, name, alts, k + 1, fs[name := fs[name] + {Tok(u.t)}])
      else if u.Ref? then
        var sub := ComputeFirst(g, u.ruleName, fs);
        if sub.thrown.Some? then sub
        else
          var fs2 := sub.table;
          UnsetShrinks(g, fs, fs2[name := fs2[name] + fs2[u.ruleName]]);
          FirstOfAlternatives(g, name, alts, k + 1, fs2[name := fs2[name] + fs2[u.ruleName]])
      else FirstOfAlternatives(g, name, alts, k + 1, fs)
  }

  /** GetFollowSet's first loop: ComputeFirstForRule for every rule from index `k`, in table order. */
  function FirstOfAll(g: Grammar, k: nat, fs: Sets): (r: Run)
    requires k <= |g.names|
    ensures Keeps(fs, r.table)
    ensures r.thrown.None? ==> forall i | k <= i < |g.names| :: g.names[i] in r.table
    ensures r.thrown.Some? ==> r.thrown.value.KeyNotFound? && r.thrown.value.key in r.table
    ensures k < |g.names| ==> g.names[k] in r.table
    ensures OnlyTokens(fs) ==> OnlyTokens(r.table)
    decreases |g.names| - k
  {
    if k == |g.names| then Run(None, fs)
    else
      var one := ComputeFirst(g, g.names[k], fs);
      if one.thrown.Some? then one
      else FirstOfAll(g, k + 1, one.table)
  }

  /** The FIRST sets of a grammar, computed from nothing; every rule gets one. */
  function FirstSets(g: Grammar): (r: Result<Sets>)
    requires g.Valid()
    ensures r.Ok? ==> g.rules.Keys <= r.value.Keys && OnlyTokens(r.value)
  {
    var run := FirstOfAll(g, 0, map[]);
    if run.thrown.Some? then Throw(run.thrown.value) else Ok(run.table)
  }

  /**
   * Found by this model: the calculator's ε is private and only ever added
   * when a remainder's last element already has it, so no FIRST set ever
   * holds ε.
   */
  lemma FirstSetsNeverHoldEpsilon(g: Grammar, n: string)
    requires g.Valid() && FirstSets(g).Ok? && n in FirstSets(g).value
    ensures Epsilon !in FirstSets(g).value[n] && Eof !in FirstSets(g).value[n]
  {
    var fs := FirstSets(g).value;
    assert OnlyTokens(fs);
    if Epsilon in fs[n] || Eof in fs[n] {
      var e: Sym :| e in fs[n] && !e.Tok?;
      assert false;
    }
  }

  /** GetFirstForElement: a terminal itself, a reference its rule's stored set, anything else nothing. */
  function FirstOfElement(fs: Sets, e: Rule): (r: Result<set<Sym>>)
    ensures e.Term? ==> r == Ok({Tok(e.t)})
    ensures e.Ref? ==> (r.Ok? <==> e.ruleName in fs) && (r.Ok? ==> r.value == fs[e.ruleName])
    ensures e.Ref? && r.Throw? ==> r.exception == KeyNotFound(e.ruleName)
    ensures !e.Term? && !e.Ref? ==> r == Ok({})
  {
    match e
    case Term(t) => Ok({Tok(t)})
    case Ref(n, _) => if n in fs then Ok(fs[n]) else Throw(KeyNotFound(n))
    case _ => Ok({})
  }

  /**
   * ComputeFirstForSequence: the FIRST sets of the elements without ε, as
   * far as each one before has ε; ε itself when the last one has it too.
   * An empty remainder gives the empty set.
   */
  function FirstOfSequence(fs: Sets, beta: seq<Rule>): (r: Result<set<Sym>>)
    ensures beta == [] ==> r == Ok({})
    ensures r.Ok? && OnlyTokens(fs) ==> forall s | s in r.value :: s.Tok?
    ensures r.Ok? && beta != [] ==>
      && FirstOfElement(fs, beta[0]).Ok?
      && FirstOfElement(fs, beta[0]).value - {Epsilon} <= r.value
  {
    if beta == [] then Ok({})
    else
      var f := FirstOfElement(fs, beta[0]);
      if f.Throw? then Throw(f.exception)
      else if Epsilon !in f.value then Ok(f.value - {Epsilon})
      else if |beta| == 1 then Ok(f.value - {Epsilon} + {Epsilon})
      else
        var rest := FirstOfSequence(fs, beta[1..]);
        if rest.Throw? then Throw(rest.exception)
        else Ok(f.value - {Epsilon} + rest.value)
  }

  /** The FIRST set of what follows a reference, with an empty remainder standing for ε. */
  function FirstOfRemainder(fs: Sets, beta: seq<Rule>): (r: Result<set<Sym>>)
    ensures beta == [] ==> r == Ok({Epsilon})
    ensures beta != [] ==> r == FirstOfSequence(fs, beta)
  {
    if beta == [] then Ok({Epsilon}) else FirstOfSequence(fs, beta)
  }

  // ---------------------------------------------------------------------
  // FOLLOW
  // ---------------------------------------------------------------------

  /** A position in a production of rule `parent`. */
  datatype Site = Site(parent: string, prod: seq<Rule>, i: nat)

  /** The positions of the productions from index `j`, in order. */
  function SitesOfProductions(parent: string, prods: seq<seq<Rule>>, j: nat): (r: seq<Site>)
    requires j <= |prods|
    ensures forall s | s in r :: s.parent == parent && s.i < |s.prod|
    decreases |prods| - j
  {
    if j == |prods| then []
    else seq(|prods[j]|, i requires 0 <= i < |prods[j]| => Site(parent, prods[j], i)) + SitesOfProductions(parent, prods, j + 1)
  }

  /** GetProductions. */
  function Productions(alts: seq<Rule>): (p: seq<seq<Rule>>)
    ensures |p| == |alts| && forall j | 0 <= j < |p| :: p[j] == Production(alts[j])
  {
    seq(|alts|, j requires 0 <= j < |alts| => Production(alts[j]))
  }

  /** Every position of every production of the rules from index `k`, in table order. */
  function AllSites(g: Grammar, k: nat): (r: seq<Site>)
    requires g.Valid() && k <= |g.names|
    ensures forall s | s in r :: s.i < |s.prod|
    decreases |g.names| - k
  {
    if k == |g.names| then []
    else SitesOfProductions(g.names[k], Productions(g.rules[g.names[k]]), 0) + AllSites(g, k + 1)
  }

  /** What follows the element at a site: the remainder's FIRST set, as written or with ε for an empty remainder. */
  function FirstAfter(fs: Sets, s: Site, corrected: bool): (r: Result<set<Sym>>)
    requires s.i < |s.prod|
  {
    if corrected then FirstOfRemainder(fs, s.prod[s.i + 1..]) else FirstOfSequence(fs, s.prod[s.i + 1..])
  }

  /**
   * The FOLLOW equation at a site holds: the FOLLOW set of the reference
   * there holds what can come next, and the parent's FOLLOW set when ε can.
   */
  predicate SiteClosed(fs: Sets, f: Sets, s: Site, corrected: bool)
    requires s.i < |s.prod|
  {
    s.prod[s.i].Ref? ==>
      var fb := FirstAfter(fs, s, corrected);
      fb.Ok? && Covered(f, s.prod[s.i].ruleName, s.parent, fb.value)
  }

  /** Every set of `f` is still in `f2`, possibly larger. */
  predicate Grows(f: Sets, f2: Sets) {
    f.Keys <= f2.Keys && forall n | n in f :: f[n] <= f2[n]
  }

  /** `before` together with what can come next, and the parent's set when ε can come next. */
  function Absorb(before: set<Sym>, next: set<Sym>, parent: set<Sym>): (after: set<Sym>)
    ensures before <= after && next - {Epsilon} <= after
    ensures Epsilon in next ==> parent <= after
    ensures Epsilon !in next ==> after == before + next
  {
    before + (next - {Epsilon}) + (if Epsilon in next then parent else {})
  }

  /** The FOLLOW set of `a` holds what can come next, and that of `parent` when ε can. */
  predicate Covered(f: Sets, a: string, parent: string, next: set<Sym>) {
    next - {Epsilon} <= Get(f, a) && (Epsilon in next ==> Get(f, parent) <= Get(f, a))
  }

  /**
   * The update of ComputeFollowSets at a reference to `a` in a production
   * of `parent`: the set is stored only when it grew.
   */
  function Update(f: Sets, a: string, parent: string, next: set<Sym>): (r: (Sets, bool))
    ensures Grows(f, r.0) && Covered(r.0, a, parent, next)
    ensures !r.1 ==> r.0 == f
    ensures r.1 ==> a in r.0 && Get(f, a) < r.0[a]
  {
    var before := Get(f, a);
    var after := Absorb(before, next, Get(f, parent));
    SubsetCard(before, after);
    if |after| > |before| then
      StoreGrows(f, a, parent, next, after);
      assert before != after;
      (f[a := after], true)
    else (f, false)
  }

  lemma StoreGrows(f: Sets, a: string, parent: string, next: set<Sym>, after: set<Sym>)
    requires after == Absorb(Get(f, a), next, Get(f, parent))
    ensures Grows(f, f[a := after]) && Covered(f[a := after], a, parent, next)
  {
    var f2 := f[a := after];
    assert Get(f2, a) == after;
    if parent != a {
      assert Get(f2, parent) == Get(f, parent);
    }
    forall n | n in f
      ensures f[n] <= f2[n]
    {
      if n == a {
        assert f[n] == Get(f, a);
      }
    }
  }

  /**
   * One step of ComputeFollowSets' pass: at a reference, its FOLLOW set
   * takes in what can come next, and the parent's FOLLOW set when ε can;
   * the set is stored only when that made it larger.
   */
  function Step(fs: Sets, f: Sets, s: Site, corrected: bool): (r: Result<(Sets, bool)>)
    requires s.i < |s.prod|
    ensures r.Ok? ==> Grows(f, r.value.0) && SiteClosed(fs, r.value.0, s, corrected)
    ensures r.Ok? && !r.value.1 ==> r.value.0 == f
    ensures r.Ok? && r.value.1 ==>
      && s.prod[s.i].Ref? && s.prod[s.i].ruleName in r.value.0
      && Get(f, s.prod[s.i].ruleName) < r.value.0[s.prod[s.i].ruleName]
    ensures r.Throw? ==> s.prod[s.i].Ref? && FirstAfter(fs, s, corrected).Throw?
    ensures !s.prod[s.i].Ref? ==> r == Ok((f, false))
  {
    if !s.prod[s.i].Ref? then Ok((f, false))
    else
      var fb := FirstAfter(fs, s, corrected);
      if fb.Throw? then Throw(fb.exception)
      else Ok(Update(f, s.prod[s.i].ruleName, s.parent, fb.value))
  }

  /** One pass of ComputeFollowSets over the sites from index `k`; `changed` says whether a step grew a set. */
  function Pass(fs: Sets, f: Sets, sites: seq<Site>, k: nat, changed: bool, corrected: bool): (r: Result<(Sets, bool)>)
    requires k <= |sites| && forall s | s in sites :: s.i < |s.prod|
    ensures r.Ok? ==> Grows(f, r.value.0) && (changed ==> r.value.1)
    ensures r.Ok? && !r.value.1 ==> r.value.0 == f && forall j | k <= j < |sites| :: SiteClosed(fs, f, sites[j], corrected)
    decreases |sites| - k
  {
    if k == |sites| then Ok((f, changed))
    else
      var one := Step(fs, f, sites[k], corrected);
      if one.Throw? then Throw(one.exception)
      else Pass(fs, one.value.0, sites, k + 1, changed || one.value.1, corrected)
  }

  /** How ComputeFollowSets ends: with the sets, with an exception, or not within the passes allowed. */
  datatype Outcome<T> = Done(value: T) | Raised(exception: Exception) | OutOfFuel

  /** Every FOLLOW equation holds at every site. */
  predicate Closed(fs: Sets, f: Sets, sites: seq<Site>, corrected: bool)
    requires forall s | s in sites :: s.i < |s.prod|
  {
    forall j | 0 <= j < |sites| :: SiteClosed(fs, f, sites[j], corrected)
  }

  /**
   * The do-while loop of ComputeFollowSets, at most `fuel` more passes
   * after this one: a pass that grows nothing ends it, and then every
   * FOLLOW equation holds.
   */
  function Fixpoint(fs: Sets, f: Sets, sites: seq<Site>, corrected: bool, fuel: nat): (r: Outcome<Sets>)
    requires forall s | s in sites :: s.i < |s.prod|
    ensures r.Done? ==> Grows(f, r.value) && Closed(fs, r.value, sites, corrected)
    decreases fuel
  {
    var pass := Pass(fs, f, sites, 0, false, corrected);
    if pass.Throw? then Raised(pass.exception)
    else if !pass.value.1 then Done(pass.value.0)
    else if fuel == 0 then OutOfFuel
    else
      var rest := Fixpoint(fs, pass.value.0, sites, corrected, fuel - 1);
      rest
  }

  /** The seed of ComputeFollowSets: end of input follows `Module`. */
  const Seed: Sets := map["Module" := {Eof}]

  /**
   * GetFollowSet: FIRST and FOLLOW recomputed from nothing, then the set of
   * `ruleName`, empty when it has none. An empty name is refused.
   */
  function FollowSet(g: Grammar, ruleName: string, corrected: bool, fuel: nat): (r: Outcome<set<Sym>>)
    requires g.Valid()
    ensures ruleName == [] ==> r.Raised? && r.exception.ArgumentError?
    ensures r.Done? ==> var fs := FirstSets(g); fs.Ok? && var f := Fixpoint(fs.value, Seed, AllSites(g, 0), corrected, fuel);
      f.Done? && r.value == Get(f.value, ruleName) && Closed(fs.value, f.value, AllSites(g, 0), corrected)
    ensures r.Done? && ruleName == "Module" ==> Eof in r.value
  {
    if ruleName == [] then Raised(ArgumentError("Rule name cannot be null or empty"))
    else
      var fs := FirstSets(g);
      if fs.Throw? then Raised(fs.exception)
      else
        var f := Fixpoint(fs.value, Seed, AllSites(g, 0), corrected, fuel);
        if !f.Done? then (if f.Raised? then Raised(f.exception) else OutOfFuel)
        else Done(Get(f.value, ruleName))
  }

  /** GetFollowSet as written: an empty remainder contributes nothing. */
  function GetFollowSetAsWritten(g: Grammar, ruleName: string, fuel: nat): (r: Outcome<set<Sym>>)
    requires g.Valid()
    ensures r == FollowSet(g, ruleName, false, fuel)
    ensures r.Done? ==> Eof in r.value ==> ruleName == "Module"
  {
    var r := FollowSet(g, ruleName, false, fuel);
    if r.Done? then FollowAsWrittenNeverInherits(g, ruleName, fuel); r else r
  }

  /** GetFollowSet with an empty remainder read as ε, so a reference that ends a production inherits its rule's FOLLOW set. */
  function GetFollowSet(g: Grammar, ruleName: string, fuel: nat): (r: Outcome<set<Sym>>)
    requires g.Valid()
    ensures r == FollowSet(g, ruleName, true, fuel)
    ensures ruleName == [] ==> r.Raised? && r.exception.ArgumentError?
    ensures r.Done? && ruleName == "Module" ==> Eof in r.value
  {
    FollowSet(g, ruleName, true, fuel)
  }

  // ---------------------------------------------------------------------
  // What the missing ε costs
  // ---------------------------------------------------------------------

  /** As written, no site ever lets ε through, so FOLLOW sets only ever receive grammar terminals. */
  lemma FollowAsWrittenNeverInherits(g: Grammar, ruleName: string, fuel: nat)
    requires g.Valid() && FollowSet(g, ruleName, false, fuel).Done?
    ensures Eof in FollowSet(g, ruleName, false, fuel).value ==> ruleName == "Module"
  {
    var fs := FirstSets(g).value;
    var sites := AllSites(g, 0);
    FixpointAsWrittenOnlyAddsTokens(fs, Seed, sites, fuel);
    var f := Fixpoint(fs, Seed, sites, false, fuel).value;
    assert TokensBeyondSeed(f);
    if Eof in FollowSet(g, ruleName, false, fuel).value {
      assert Eof in Get(f, ruleName);
      assert ruleName in f && Eof in f[ruleName];
      assert Eof.Tok? || (ruleName == "Module" && Eof == Eof);
    }
  }

  /** Every set but Module's holds only grammar terminals, and Module's at most end of input besides. */
  predicate TokensBeyondSeed(f: Sets) {
    forall n, s | n in f && s in f[n] :: s.Tok? || (n == "Module" && s == Eof)
  }

  lemma {:induction false} FixpointAsWrittenOnlyAddsTokens(fs: Sets, f: Sets, sites: seq<Site>, fuel: nat)
    requires forall s | s in sites :: s.i < |s.prod|
    requires OnlyTokens(fs) && TokensBeyondSeed(f)
    ensures var r := Fixpoint(fs, f, sites, false, fuel); r.Done? ==> TokensBeyondSeed(r.value)
    decreases fuel
  {
    PassAsWrittenOnlyAddsTokens(fs, f, sites, 0, false);
    var pass := Pass(fs, f, sites, 0, false, false);
    if pass.Ok? && pass.value.1 && fuel > 0 {
      FixpointAsWrittenOnlyAddsTokens(fs, pass.value.0, sites, fuel - 1);
    }
  }

  lemma {:induction false} PassAsWrittenOnlyAddsTokens(fs: Sets, f: Sets, sites: seq<Site>, k: nat, changed: bool)
    requires k <= |sites| && forall s | s in sites :: s.i < |s.prod|
    requires OnlyTokens(fs) && TokensBeyondSeed(f)
    ensures var r := Pass(fs, f, sites, k, changed, false); r.Ok? ==> TokensBeyondSeed(r.value.0)
    decreases |sites| - k
  {
    if k < |sites| {
      var one := Step(fs, f, sites[k], false);
      if one.Ok? {
        StepAsWrittenOnlyAddsTokens(fs, f, sites[k]);
        PassAsWrittenOnlyAddsTokens(fs, one.value.0, sites, k + 1, changed || one.value.1);
      }
    }
  }

  lemma StepAsWrittenOnlyAddsTokens(fs: Sets, f: Sets, s: Site)
    requires s.i < |s.prod| && OnlyTokens(fs) && TokensBeyondSeed(f)
    ensures var r := Step(fs, f, s, false); r.Ok? ==> TokensBeyondSeed(r.value.0)
  {
    if s.prod[s.i].Ref? {
      var fb := FirstAfter(fs, s, false);
      if fb.Ok? {
        assert forall x | x in fb.value :: x.Tok?;
        UpdateKeepsTokens(f, s.prod[s.i].ruleName, s.parent, fb.value);
      }
    }
  }

  lemma UpdateKeepsTokens(f: Sets, a: string, parent: string, next: set<Sym>)
    requires TokensBeyondSeed(f) && forall x | x in next :: x.Tok?
    ensures TokensBeyondSeed(Update(f, a, parent, next).0)
  {
    var after := Absorb(Get(f, a), next, Get(f, parent));
    assert after == Get(f, a) + next;
    var r := Update(f, a, parent, next);
    if r.1 {
      assert r.0 == f[a := after];
      forall n, x | n in r.0 && x in r.0[n]
        ensures x.Tok? || (n == "Module" && x == Eof)
      {
        if n == a {
          assert x in Get(f, a) || x in next;
        } else {
          assert x in f[n];
        }
      }
    }
  }

  /**
   * With ε standing for an empty remainder, a reference that ends a
   * production has every symbol of its rule's FOLLOW set in its own.
   */
  lemma TailInheritsFollow(g: Grammar, fs: Sets, f: Sets, j: nat)
    requires g.Valid() && Closed(fs, f, AllSites(g, 0), true)
    requires j < |AllSites(g, 0)|
    requires var s := AllSites(g, 0)[j]; s.i + 1 == |s.prod| && s.prod[s.i].Ref?
    ensures var s := AllSites(g, 0)[j]; Get(f, s.parent) <= Get(f, s.prod[s.i].ruleName)
  {
    var s := AllSites(g, 0)[j];
    assert SiteClosed(fs, f, s, true);
    assert s.prod[s.i + 1..] == [];
  }

  // ---------------------------------------------------------------------
  // The example that shows it
  // ---------------------------------------------------------------------

  /** `Module = Stmt`, `Stmt = "x"`. */
  const Tiny: Grammar := Grammar(["Module", "Stmt"], map["Module" := [MakeRef("Stmt", None)], "Stmt" := [MakeLiteral("x", None)]])

  const X: Sym := Tok(Literal("x", "x"))

  /** FIRST(Stmt) = FIRST(Module) = {"x"}. */
  lemma TinyFirstSets()
    ensures Tiny.Valid()
    ensures FirstSets(Tiny) == Ok(map["Module" := {X}, "Stmt" := {X}])
  {
    var lit := MakeLiteral("x", None);
    assert lit == Term(Literal("x", "x"));
    var fs1: Sets := map["Module" := {}];
    var fs2: Sets := map["Module" := {}, "Stmt" := {X}];
    var fs3: Sets := map["Module" := {X}, "Stmt" := {X}];
    var none: set<Sym> := {};
    assert none + {X} == {X};
    assert fs1["Stmt" := none]["Stmt" := none + {X}] == fs2;
    assert FirstOfAlternatives(Tiny, "Stmt", [lit], 1, fs2) == Run(None, fs2);
    assert ComputeFirst(Tiny, "Stmt", fs1) == Run(None, fs2);
    assert fs2["Module" := none + {X}] == fs3;
    assert FirstOfAlternatives(Tiny, "Module", [MakeRef("Stmt", None)], 1, fs3) == Run(None, fs3);
    assert map[]["Module" := {}] == fs1;
    assert ComputeFirst(Tiny, "Module", map[]) == Run(None, fs3);
    assert FirstOfAll(Tiny, 1, fs3) == Run(None, fs3);
  }

  lemma TinySites()
    ensures Tiny.Valid()
    ensures AllSites(Tiny, 0) == [Site("Module", [MakeRef("Stmt", None)], 0), Site("Stmt", [MakeLiteral("x", None)], 0)]
  {
    var m := Productions(Tiny.rules["Module"]);
    var t := Productions(Tiny.rules["Stmt"]);
    assert m == [[MakeRef("Stmt", None)]];
    assert t == [[MakeLiteral("x", None)]];
    assert SitesOfProductions("Module", m, 0) == [Site("Module", [MakeRef("Stmt", None)], 0)];
    assert SitesOfProductions("Stmt", t, 0) == [Site("Stmt", [MakeLiteral("x", None)], 0)];
    assert AllSites(Tiny, 2) == [];
  }

  const TinyFirst: Sets := map["Module" := {X}, "Stmt" := {X}]
  const TinySiteList: seq<Site> := [Site("Module", [MakeRef("Stmt", None)], 0), Site("Stmt", [MakeLiteral("x", None)], 0)]

  lemma TinyPassAsWritten(fs: Sets, sites: seq<Site>)
    requires fs == TinyFirst && sites == TinySiteList
    ensures Pass(fs, Seed, sites, 0, false, false) == Ok((Seed, false))
  {
    assert sites[0].prod[1..] == [];
    assert Step(fs, Seed, sites[0], false) == Ok((Seed, false));
    assert Step(fs, Seed, sites[1], false) == Ok((Seed, false));
    assert Pass(fs, Seed, sites, 2, false, false) == Ok((Seed, false));
    assert Pass(fs, Seed, sites, 1, false, false) == Ok((Seed, false));
  }

  /** As written, `Stmt`, which ends `Module`, is followed by nothing. */
  lemma TinyFollowAsWritten()
    ensures GetFollowSetAsWritten(Tiny, "Stmt", 1) == Done({})
  {
    TinyFirstSets();
    TinySites();
    TinyPassAsWritten(TinyFirst, TinySiteList);
  }

  lemma TinyFirstPassCorrected(fs: Sets, sites: seq<Site>, grown: Sets)
    requires fs == TinyFirst && sites == TinySiteList && grown == Seed["Stmt" := {Eof}]
    ensures Pass(fs, Seed, sites, 0, false, true) == Ok((grown, true))
  {
    assert sites[0].prod[1..] == [];
    assert Step(fs, Seed, sites[0], true) == Ok((grown, true));
    assert Step(fs, grown, sites[1], true) == Ok((grown, false));
    assert Pass(fs, grown, sites, 2, true, true) == Ok((grown, true));
    assert Pass(fs, grown, sites, 1, true, true) == Ok((grown, true));
  }

  lemma TinySecondPassCorrected(fs: Sets, sites: seq<Site>, grown: Sets)
    requires fs == TinyFirst && sites == TinySiteList && grown == Seed["Stmt" := {Eof}]
    ensures Pass(fs, grown, sites, 0, false, true) == Ok((grown, false))
  {
    assert sites[0].prod[1..] == [];
    assert Step(fs, grown, sites[0], true) == Ok((grown, false));
    assert Step(fs, grown, sites[1], true) == Ok((grown, false));
    assert Pass(fs, grown, sites, 2, false, true) == Ok((grown, false));
    assert Pass(fs, grown, sites, 1, false, true) == Ok((grown, false));
  }

  /** Corrected, end of input follows `Stmt` as it follows `Module`. */
  lemma TinyFollowCorrected()
    ensures GetFollowSet(Tiny, "Stmt", 1) == Done({Eof})
  {
    TinyFirstSets();
    TinySites();
    var grown := Seed["Stmt" := {Eof}];
    TinyFirstPassCorrected(TinyFirst, TinySiteList, grown);
    TinySecondPassCorrected(TinyFirst, TinySiteList, grown);
    assert Fixpoint(TinyFirst, grown, TinySiteList, true, 0) == Done(grown);
  }

  // ---------------------------------------------------------------------
  // GetFirstSet
  // ---------------------------------------------------------------------

  /**
   * GetFirstSet: the FIRST sets are computed only when none is stored yet,
   * so a table filled before keeps answering; a rule without a set gets
   * the empty one. Returns the answer and the table afterwards, which a
   * computation that threw has left partly filled.
   */
  function GetFirstSet(g: Grammar, ruleName: string, stored: Sets): (r: (Result<set<Sym>>, Sets))
    requires g.Valid()
    ensures ruleName == [] ==> r.0.Throw? && r.0.exception.ArgumentError? && r.1 == stored
    ensures ruleName != [] && stored != map[] ==> r == (Ok(Get(stored, ruleName)), stored)
    ensures ruleName != [] && stored == map[] ==>
      && (r.0.Ok? <==> FirstSets(g).Ok?)
      && (r.0.Ok? ==> r.0.value == Get(FirstSets(g).value, ruleName) && r.1 == FirstSets(g).value)
      && (r.0.Throw? ==> r.0.exception.KeyNotFound? && r.0.exception.key in r.1)
      && (g.names != [] ==> g.names[0] in r.1)
  {
    if ruleName == [] then (Throw(ArgumentError("Rule name cannot be null or empty")), stored)
    else if stored != map[] then (Ok(Get(stored, ruleName)), stored)
    else
      var run := FirstOfAll(g, 0, stored);
      if run.thrown.Some? then (Throw(run.thrown.value), run.table)
      else (Ok(Get(run.table, ruleName)), run.table)
  }

  /** `Module = Missing`, where no rule `Missing` exists. */
  const Broken: Grammar := Grammar(["Module"], map["Module" := [MakeRef("Missing", None)]])

  /**
   * The first call throws for the missing rule but leaves the empty
   * placeholders of Module and Missing stored; asked again with that
   * table, GetFirstSet computes nothing and answers with Module's
   * placeholder.
   */
  lemma BrokenAnswersOnSecondCall()
    ensures Broken.Valid()
    ensures GetFirstSet(Broken, "Module", map[]) == (Throw(KeyNotFound("Missing")), map["Module" := {}, "Missing" := {}])
    ensures GetFirstSet(Broken, "Module", map["Module" := {}, "Missing" := {}]) == (Ok({}), map["Module" := {}, "Missing" := {}])
  {
    var fs1: Sets := map["Module" := {}];
    var fs2: Sets := map["Module" := {}, "Missing" := {}];
    assert map[]["Module" := {}] == fs1;
    assert fs1["Missing" := {}] == fs2;
    assert ComputeFirst(Broken, "Missing", fs1) == Run(Some(KeyNotFound("Missing")), fs2);
    assert FirstOfAlternatives(Broken, "Module", [MakeRef("Missing", None)], 0, fs1) == Run(Some(KeyNotFound("Missing")), fs2);
    assert ComputeFirst(Broken, "Module", map[]) == Run(Some(KeyNotFound("Missing")), fs2);
  }
}

=== FILE: index_range.dfy ===
/**
 * The back-ported System.Index and System.Range structs and the
 * RuntimeHelpers.GetSubArray slice helper. C# `int` arithmetic in these
 * members is unchecked, so 32-bit wrap-around is written out with `Wrap`,
 * and the `(uint)` casts in the range check are `AsUInt`.
 */
module IndexRange {
  import opened Wrappers

  const MinInt: int := -0x8000_0000
  const MaxInt: int := 0x7FFF_FFFF

  newtype Int32 = x: int | -0x8000_0000 <= x < 0x8000_0000

  /** Reduction of a mathematical integer to 32-bit two's complement. */
  function Wrap(x: int): (r: Int32)
    ensures MinInt <= x <= MaxInt ==> r as int == x
    ensures (r as int - x) % 0x1_0000_0000 == 0
  {
    var m := x % 0x1_0000_0000;
    (if m > MaxInt then m - 0x1_0000_0000 else m) as Int32
  }

  /** The C# cast `(uint)x`. */
  function AsUInt(x: Int32): (u: nat)
    ensures u < 0x1_0000_0000
    ensures x >= 0 ==> u == x as int
    ensures x < 0 ==> u == x as int + 0x1_0000_0000
  {
    if x >= 0 then x as int else x as int + 0x1_0000_0000
  }

  /** Bitwise complement `~x`, which never overflows. */
  function Complement(x: Int32): Int32 {
    (-(x as int) - 1) as Int32
  }

  /** An index stores its value, or the complement of its value when it counts from the end. */
  datatype Index = Index(stored: Int32) {

    /** The index value, recovered from the stored form. */
    function Value(): (v: Int32)
      ensures v >= 0
    {
      if stored < 0 then Complement(stored) else stored
    }

    predicate IsFromEnd() {
      stored < 0
    }

    /** GetOffset: the offset from the start in a collection of `length` elements. */
    function GetOffset(length: Int32): (offset: Int32)
      ensures !IsFromEnd() ==> offset == Value()
      ensures IsFromEnd() ==> offset == Wrap(length as int - Value() as int)
    {
      if IsFromEnd() then Wrap(stored as int + Wrap(length as int + 1) as int) else stored
    }

    /** Equals compares the stored form. */
    predicate Equals(other: Index) {
      stored == other.stored
    }
  }

  /** The public constructor Index(value, fromEnd): rejects negative values. */
  function NewIndex(value: Int32, fromEnd: bool): (r: Result<Index>)
    ensures r.Throw? <==> value < 0
    ensures r.Throw? ==> r.exception == ArgumentOutOfRange
    ensures r.Ok? ==> r.value.Value() == value && r.value.IsFromEnd() == fromEnd
  {
    if value < 0 then Throw(ArgumentOutOfRange)
    else if fromEnd then Ok(Index(Complement(value)))
    else Ok(Index(value))
  }

  /** Index.FromStart, which the implicit conversion from int also calls. */
  function FromStart(value: Int32): (r: Result<Index>)
    ensures r == NewIndex(value, false)
  {
    if value < 0 then Throw(ArgumentOutOfRange) else Ok(Index(value))
  }

  /** Index.FromEnd. */
  function FromEnd(value: Int32): (r: Result<Index>)
    ensures r == NewIndex(value, true)
  {
    if value < 0 then Throw(ArgumentOutOfRange) else Ok(Index(Complement(value)))
  }

  /** Index.Start (the first element) and Index.End (just past the last one). */
  const StartIndex: Index := Index(0)
  const EndIndex: Index := Index(-1)

  /** Two indices are Equal exactly when they have the same value and the same direction. */
  lemma {:induction false} EqualsIffSameValueAndDirection(a: Index, b: Index)
    ensures a.Equals(b) <==> a.Value() == b.Value() && a.IsFromEnd() == b.IsFromEnd()
  {
    if a.Value() == b.Value() && a.IsFromEnd() == b.IsFromEnd() {
      if a.IsFromEnd() {
        assert a.stored as int == -(a.Value() as int) - 1;
      }
    }
  }

  /** For a non-negative length the from-end offset never wraps: it is length minus the value. */
  lemma {:induction false} FromEndOffset(i: Index, length: Int32)
    requires i.IsFromEnd() && length >= 0
    ensures i.GetOffset(length) as int == length as int - i.Value() as int
  {
  }

  datatype Range = Range(start: Index, end: Index) {

    predicate Equals(other: Range) {
      other.start.Equals(start) && other.end.Equals(end)
    }

    /**
     * GetOffsetAndLength: resolves both ends against `length` and throws
     * unless, read as unsigned numbers, start <= end <= length.
     */
    function GetOffsetAndLength(length: Int32): (r: Result<(Int32, Int32)>)
      ensures
        var s := if start.IsFromEnd() then Wrap(length as int - start.Value() as int) else start.Value();
        var e := if end.IsFromEnd() then Wrap(length as int - end.Value() as int) else end.Value();
        (r.Ok? <==> AsUInt(e) <= AsUInt(length) && AsUInt(s) <= AsUInt(e)) &&
        (r.Throw? ==> r.exception == ArgumentOutOfRange) &&
        (r.Ok? ==> r.value == (s, Wrap(e as int - s as int)))
    {
      var s := if start.IsFromEnd() then Wrap(length as int - start.Value() as int) else start.Value();
      var e := if end.IsFromEnd() then Wrap(length as int - end.Value() as int) else end.Value();
      if AsUInt(e) > AsUInt(length) || AsUInt(s) > AsUInt(e) then Throw(ArgumentOutOfRange)
      else Ok((s, Wrap(e as int - s as int)))
    }
  }

  /** Range.StartAt, Range.EndAt and Range.All. */
  function StartAt(start: Index): Range { Range(start, EndIndex) }
  function EndAt(end: Index): Range { Range(StartIndex, end) }
  const All: Range := Range(StartIndex, EndIndex)

  /** The offset an index resolves to, in mathematical integers. */
  function ResolvedOffset(i: Index, length: int): int {
    if i.IsFromEnd() then length - i.Value() as int else i.Value() as int
  }

  /**
   * For a collection length, GetOffsetAndLength succeeds exactly when the
   * resolved start and end satisfy 0 <= start <= end <= length, and then
   * returns the start and the distance between them.
   */
  lemma {:induction false} OffsetAndLengthInBounds(r: Range, length: Int32)
    requires length >= 0
    ensures
      var s := ResolvedOffset(r.start, length as int);
      var e := ResolvedOffset(r.end, length as int);
      (r.GetOffsetAndLength(length).Ok? <==> 0 <= s <= e <= length as int) &&
      (r.GetOffsetAndLength(length).Ok? ==>
         r.GetOffsetAndLength(length).value.0 as int == s && r.GetOffsetAndLength(length).value.1 as int == e - s)
  {
    var s := ResolvedOffset(r.start, length as int);
    var e := ResolvedOffset(r.end, length as int);
    var ws := if r.start.IsFromEnd() then Wrap(length as int - r.start.Value() as int) else r.start.Value();
    var we := if r.end.IsFromEnd() then Wrap(length as int - r.end.Value() as int) else r.end.Value();
    assert ws as int == s && we as int == e;
    if AsUInt(we) <= AsUInt(length) && AsUInt(ws) <= AsUInt(we) {
      assert we >= 0 && ws >= 0;
    }
  }

  /**
   * RuntimeHelpers.GetSubArray: the elements of `items` that `range`
   * selects, in order; throws when the range does not fit.
   */
  function GetSubArray<T>(items: seq<T>, range: Range): (r: Result<seq<T>>)
    requires |items| <= MaxInt
    ensures
      var s := ResolvedOffset(range.start, |items|);
      var e := ResolvedOffset(range.end, |items|);
      (r.Ok? <==> 0 <= s <= e <= |items|) &&
      (r.Throw? ==> r.exception == ArgumentOutOfRange) &&
      (r.Ok? ==> |r.value| == e - s && forall k | 0 <= k < |r.value| :: r.value[k] == items[s + k])
  {
    OffsetAndLengthInBounds(range, |items| as Int32);
    match range.GetOffsetAndLength(|items| as Int32)
    case Throw(ex) => Throw(ex)
    case Ok((offset, length)) =>
      if length == 0 then Ok([]) else Ok(items[offset..offset + length])
  }

  /** Slicing with `..` returns the whole sequence, and `^n..` its last n elements. */
  lemma {:induction false} SliceExamples<T>(items: seq<T>, n: Int32)
    requires |items| <= MaxInt && 0 <= n as int <= |items|
    ensures GetSubArray(items, All) == Ok(items)
    ensures FromEnd(n).Ok? && GetSubArray(items, StartAt(FromEnd(n).value)) == Ok(items[|items| - n as int..])
  {
    var r := GetSubArray(items, All);
    assert r.Ok? && |r.value| == |items|;
    assert r.value == items;
    var t := GetSubArray(items, StartAt(FromEnd(n).value));
    assert t.Ok? && |t.value| == n as int;
    assert t.value == items[|items| - n as int..];
  }
}

=== FILE: json_string.dfy ===
/**
 * Decoding of JSON string literals into the value of a JsonString node.
 * A .NET string is a sequence of UTF-16 code units, so the decoder reads
 * and produces code units: a character above U+FFFF is two units (a
 * surrogate pair), and a \u escape can produce a lone surrogate, which is
 * not a Dafny character.
 */
module JsonString {
  import opened Wrappers
  import opened Chars

  newtype CodeUnit = x: int | 0 <= x < 0x10000

  const Quote: CodeUnit := 0x22
  const Plus: CodeUnit := 0x2B
  const Minus: CodeUnit := 0x2D
  const Slash: CodeUnit := 0x2F
  const Zero: CodeUnit := 0x30
  const UpperX: CodeUnit := 0x58
  const Backslash: CodeUnit := 0x5C
  const LowerX: CodeUnit := 0x78
  const LetterU: CodeUnit := 0x75

  // ---------------------------------------------------------------------
  // UTF-16
  // ---------------------------------------------------------------------

  predicate IsHighSurrogate(u: CodeUnit) {
    0xD800 <= u < 0xDC00
  }

  predicate IsLowSurrogate(u: CodeUnit) {
    0xDC00 <= u < 0xE000
  }

  /** The code units of one character: itself below U+10000, otherwise a high and a low surrogate. */
  function Utf16Char(c: char): (u: seq<CodeUnit>)
    ensures c as int < 0x10000 ==> u == [c as int as CodeUnit] && !IsHighSurrogate(u[0]) && !IsLowSurrogate(u[0])
    ensures c as int >= 0x10000 ==> |u| == 2 && IsHighSurrogate(u[0]) && IsLowSurrogate(u[1])
  {
    if c as int < 0x10000 then [c as int as CodeUnit]
    else
      var v := c as int - 0x10000;
      [(0xD800 + v / 0x400) as CodeUnit, (0xDC00 + v % 0x400) as CodeUnit]
  }

  /** A Dafny string as the .NET string holding the same text. */
  function Utf16(s: string): (u: seq<CodeUnit>)
    ensures |s| <= |u| <= 2 * |s|
  {
    if s == [] then [] else Utf16Char(s[0]) + Utf16(s[1..])
  }

  /**
   * The text a sequence of code units holds: a high surrogate followed by a
   * low one is one character; any other surrogate makes it ill-formed.
   */
  function FromUtf16(u: seq<CodeUnit>): (r: Option<string>)
    decreases |u|
  {
    if u == [] then Some([])
    else if IsHighSurrogate(u[0]) && |u| >= 2 && IsLowSurrogate(u[1]) then
      var c := (0x10000 + (u[0] as int - 0xD800) * 0x400 + (u[1] as int - 0xDC00)) as char;
      var rest := FromUtf16(u[2..]);
      if rest.None? then None else Some([c] + rest.value)
    else if IsHighSurrogate(u[0]) || IsLowSurrogate(u[0]) then None
    else
      var rest := FromUtf16(u[1..]);
      if rest.None? then None else Some([u[0] as int as char] + rest.value)
  }

  /** One character's units are read back as that character, whatever follows. */
  lemma FromUtf16Char(c: char, rest: seq<CodeUnit>)
    ensures FromUtf16(Utf16Char(c) + rest) ==
      (var r := FromUtf16(rest); if r.None? then None else Some([c] + r.value))
  {
    var u := Utf16Char(c) + rest;
    if c as int < 0x10000 {
      assert u[1..] == rest;
    } else {
      var v := c as int - 0x10000;
      assert u[0] as int - 0xD800 == v / 0x400 && u[1] as int - 0xDC00 == v % 0x400;
      assert 0x10000 + (v / 0x400) * 0x400 + v % 0x400 == c as int;
      assert u[2..] == rest;
    }
  }

  /** Encoding loses nothing: the units of a string are read back as that string. */
  lemma {:induction false} Utf16RoundTrip(s: string)
    ensures FromUtf16(Utf16(s)) == Some(s)
    decreases |s|
  {
    if s != [] {
      Utf16RoundTrip(s[1..]);
      FromUtf16Char(s[0], Utf16(s[1..]));
      assert [s[0]] + s[1..] == s;
    }
  }

  /** Text without characters above U+FFFF has one code unit per character, of the same value. */
  lemma {:induction false} Utf16OfBmp(s: string)
    requires forall k | 0 <= k < |s| :: s[k] as int < 0x10000
    ensures |Utf16(s)| == |s|
    ensures forall k | 0 <= k < |s| :: Utf16(s)[k] as int == s[k] as int
    decreases |s|
  {
    if s != [] {
      Utf16OfBmp(s[1..]);
      assert forall k | 1 <= k < |s| :: Utf16(s)[k] == Utf16(s[1..])[k - 1];
    }
  }

  lemma {:induction false} Utf16Concat(a: string, b: string)
    ensures Utf16(a + b) == Utf16(a) + Utf16(b)
    decreases |a|
  {
    if a == [] {
      assert a + b == b;
    } else {
      Utf16Concat(a[1..], b);
      assert (a + b)[0] == a[0] && (a + b)[1..] == a[1..] + b;
    }
  }

  /** Encoding introduces a backslash unit only for a backslash character. */
  lemma {:induction false} NoBackslashUnits(s: string)
    requires forall k | 0 <= k < |s| :: s[k] != '\\'
    ensures forall k | 0 <= k < |Utf16(s)| :: Utf16(s)[k] != Backslash
    decreases |s|
  {
    if s != [] {
      NoBackslashUnits(s[1..]);
      var c := Utf16Char(s[0]);
      assert forall k | 0 <= k < |c| :: c[k] != Backslash;
      assert forall k | |c| <= k < |Utf16(s)| :: Utf16(s)[k] == Utf16(s[1..])[k - |c|];
    }
  }

  // ---------------------------------------------------------------------
  // Convert.ToInt32(s, 16)
  // ---------------------------------------------------------------------

  /** A unit that is an ASCII hexadecimal digit; a surrogate never is. */
  predicate IsHexUnit(u: CodeUnit) {
    !IsHighSurrogate(u) && !IsLowSurrogate(u) && IsHexDigit(u as int as char)
  }

  function HexUnitValue(u: CodeUnit): (v: int)
    ensures 0 <= v < 16
  {
    if IsHexUnit(u) then HexValue(u as int as char) else 0
  }

  /** The value of a run of hexadecimal digits, most significant first. */
  function HexNumber(s: seq<CodeUnit>): (v: nat)
    decreases |s|
  {
    if s == [] then 0 else 16 * HexNumber(s[..|s| - 1]) + HexUnitValue(s[|s| - 1])
  }

  predicate AllHexUnits(s: seq<CodeUnit>) {
    forall k | 0 <= k < |s| :: IsHexUnit(s[k])
  }

  /** Where the digits of Convert.ToInt32(s, 16) start: after an optional '+' and an optional "0x" or "0X". */
  function DigitsStart(s: seq<CodeUnit>): (i: nat)
    ensures i <= |s|
  {
    var i := if |s| > 0 && s[0] == Plus then 1 else 0;
    if i + 1 < |s| && s[i] == Zero && (s[i + 1] == LowerX || s[i + 1] == UpperX) then i + 2 else i
  }

  function Pow16(n: nat): (p: nat)
    ensures p >= 1
  {
    if n == 0 then 1 else 16 * Pow16(n - 1)
  }

  lemma {:induction false} HexNumberBound(s: seq<CodeUnit>)
    ensures HexNumber(s) < Pow16(|s|)
    decreases |s|
  {
    if s != [] {
      HexNumberBound(s[..|s| - 1]);
    }
  }

  /**
   * Convert.ToInt32(s, 16): an optional '+', an optional 0x or 0X prefix and
   * then nothing but hexadecimal digits, at least one. A leading '-' is an
   * ArgumentException for base 16; anything else malformed is a
   * FormatException. No value of four units or fewer can overflow.
   */
  function ParseHex(s: seq<CodeUnit>): (r: Result<nat>)
    requires |s| <= 4
    ensures r.Ok? <==> !(|s| > 0 && s[0] == Minus) && DigitsStart(s) < |s| && AllHexUnits(s[DigitsStart(s)..])
    ensures r.Ok? ==> r.value == HexNumber(s[DigitsStart(s)..]) && r.value < 0x10000
    ensures |s| > 0 && s[0] == Minus ==> r.Throw? && r.exception.ArgumentError?
    ensures !(|s| > 0 && s[0] == Minus) && r.Throw? ==> r.exception.FormatError?
  {
    if |s| > 0 && s[0] == Minus then Throw(ArgumentError("String cannot contain a minus sign if the base is not 10."))
    else
      var i := DigitsStart(s);
      if i == |s| || !AllHexUnits(s[i..]) then Throw(FormatError("Could not find any recognizable digits."))
      else
        HexNumberBound(s[i..]);
        assert Pow16(4) == 0x10000 && Pow16(3) == 0x1000 && Pow16(2) == 0x100 && Pow16(1) == 0x10;
        Ok(HexNumber(s[i..]))
  }

  // ---------------------------------------------------------------------
  // ProcessJsonString
  // ---------------------------------------------------------------------

  /** The code unit a two-character escape \c stands for, for the escapes other than \u. */
  function SimpleEscape(c: CodeUnit): (u: Option<CodeUnit>)
  {
    if c == Quote then Some(Quote)
    else if c == Backslash then Some(Backslash)
    else if c == Slash then Some(Slash)
    else if c == 0x62 then Some(0x08)
    else if c == 0x66 then Some(0x0C)
    else if c == 0x6E then Some(0x0A)
    else if c == 0x72 then Some(0x0D)
    else if c == 0x74 then Some(0x09)
    else None
  }

  /**
   * ProcessJsonString: the eight short escapes decode to their character;
   * \u followed by at least four more units decodes the four through
   * Convert.ToInt32 (and throws when they are not a number); any other
   * escaped unit, including a \u too close to the end, stands for itself;
   * a trailing lone backslash is kept. Every index and length counts code
   * units, as .NET's do. The source's index loop is written here as
   * recursion on what is left of the input.
   */
  function ProcessJsonString(input: seq<CodeUnit>): (r: Result<seq<CodeUnit>>)
    ensures r.Ok? ==> |r.value| <= |input|
    decreases |input|
  {
    if input == [] then Ok([])
    else if input[0] == Backslash && 1 < |input| then
      var next := input[1];
      if SimpleEscape(next).Some? then
        var rest := ProcessJsonString(input[2..]);
        if rest.Throw? then rest else Ok([SimpleEscape(next).value] + rest.value)
      else if next == LetterU && 5 < |input| then
        var hex := ParseHex(input[2..6]);
        if hex.Throw? then Throw(hex.exception)
        else
          var rest := ProcessJsonString(input[6..]);
          if rest.Throw? then rest else Ok([hex.value as CodeUnit] + rest.value)
      else
        var rest := ProcessJsonString(input[2..]);
        if rest.Throw? then rest else Ok([next] + rest.value)
    else
      var rest := ProcessJsonString(input[1..]);
      if rest.Throw? then rest else Ok([input[0]] + rest.value)
  }

  /**
   * The value of a String terminal: the text between the outer quotes
   * (single or double), decoded. The span is cut as a .NET string, in code
   * units; one shorter than two units cannot be cut and throws.
   */
  function StringTerminalValue(span: string): (r: Result<seq<CodeUnit>>)
    ensures var u := Utf16(span);
      && (|u| < 2 <==> r == Throw(ArgumentOutOfRange))
      && (|u| >= 2 ==> r == ProcessJsonString(u[1..|u| - 1]))
  {
    var u := Utf16(span);
    if |u| < 2 then Throw(ArgumentOutOfRange)
    else
      assert ProcessJsonString(u[1..|u| - 1]) != Throw(ArgumentOutOfRange) by {
        ProcessNeverOutOfRange(u[1..|u| - 1]);
      }
      ProcessJsonString(u[1..|u| - 1])
  }

  /** Decoding fails only through Convert.ToInt32, never with ArgumentOutOfRange. */
  lemma {:induction false} ProcessNeverOutOfRange(input: seq<CodeUnit>)
    ensures ProcessJsonString(input).Throw? ==>
      ProcessJsonString(input).exception.ArgumentError? || ProcessJsonString(input).exception.FormatError?
    decreases |input|
  {
    if input != [] {
      if input[0] == Backslash && 1 < |input| {
        if SimpleEscape(input[1]).Some? {
          ProcessNeverOutOfRange(input[2..]);
        } else if input[1] == LetterU && 5 < |input| {
          ProcessNeverOutOfRange(input[6..]);
        } else {
          ProcessNeverOutOfRange(input[2..]);
        }
      } else {
        ProcessNeverOutOfRange(input[1..]);
      }
    }
  }

  /**
   * Text without a backslash is copied unit by unit, so a character above
   * U+FFFF comes through as its surrogate pair.
   */
  lemma {:induction false} UnescapedIsCopied(input: seq<CodeUnit>)
    requires forall k | 0 <= k < |input| :: input[k] != Backslash
    ensures ProcessJsonString(input) == Ok(input)
    decreases |input|
  {
    if input != [] {
      UnescapedIsCopied(input[1..]);
      assert [input[0]] + input[1..] == input;
    }
  }

  /** A String terminal whose text has no backslash has that text, in code units, as its value. */
  lemma UnescapedTerminal(text: string)
    requires forall k | 0 <= k < |text| :: text[k] != '\\'
    ensures StringTerminalValue("\"" + text + "\"") == Ok(Utf16(text))
  {
    var u := QuotedUnits(text);
    assert u[1..|u| - 1] == Utf16(text);
    NoBackslashUnits(text);
    UnescapedIsCopied(Utf16(text));
  }

  /** A text between double quotes, in code units. */
  lemma QuotedUnits(text: string) returns (u: seq<CodeUnit>)
    ensures u == Utf16("\"" + text + "\"") && u == [Quote] + Utf16(text) + [Quote]
  {
    Utf16Concat("\"", text + "\"");
    Utf16Concat(text, "\"");
    assert "\"" + text + "\"" == "\"" + (text + "\"");
    assert Utf16("\"") == [Quote];
    u := Utf16("\"" + text + "\"");
  }

  // ---------------------------------------------------------------------
  // Escaping, the inverse
  // ---------------------------------------------------------------------

  /** The four hexadecimal digits of Hex4, as code units. */
  function HexUnits(v: int): (h: seq<CodeUnit>)
    requires 0 <= v < 0x10000
    ensures |h| == 4
  {
    var s := Hex4(v);
    [s[0] as int as CodeUnit, s[1] as int as CodeUnit, s[2] as int as CodeUnit, s[3] as int as CodeUnit]
  }

  /**
   * The escaping a JSON writer applies (section 7 of RFC 8259): quote and
   * backslash get a backslash, the named control characters their short
   * escape, other control characters and surrogates a \u escape.
   */
  function EscapeUnit(u: CodeUnit): (e: seq<CodeUnit>)
    ensures 2 <= |e| <= 6 || e == [u]
  {
    if u == Quote then [Backslash, Quote]
    else if u == Backslash then [Backslash, Backslash]
    else if u == 0x08 then [Backslash, 0x62]
    else if u == 0x0C then [Backslash, 0x66]
    else if u == 0x0A then [Backslash, 0x6E]
    else if u == 0x0D then [Backslash, 0x72]
    else if u == 0x09 then [Backslash, 0x74]
    else if u < 0x20 || 0xD800 <= u < 0xE000 then [Backslash, LetterU] + HexUnits(u as int)
    else [u]
  }

  function EscapeJson(units: seq<CodeUnit>): (e: seq<CodeUnit>)
    ensures |units| <= |e|
  {
    if units == [] then [] else EscapeUnit(units[0]) + EscapeJson(units[1..])
  }

  lemma HexOfHex4(v: int)
    requires 0 <= v < 0x10000
    ensures DigitsStart(HexUnits(v)) == 0
    ensures ParseHex(HexUnits(v)) == Ok(v)
  {
    var s := Hex4(v);
    var h := HexUnits(v);
    assert forall k | 0 <= k < 4 :: IsHexUnit(h[k]) && HexUnitValue(h[k]) == HexValue(s[k]) by {
      forall k | 0 <= k < 4 ensures IsHexUnit(h[k]) && HexUnitValue(h[k]) == HexValue(s[k]) {
        assert h[k] as int == s[k] as int;
      }
    }
    assert h[..3][..2] == h[..2] && h[..2][..1] == h[..1] && h[..1][..0] == [];
    assert HexNumber(h[..1]) == HexValue(s[0]);
    assert HexNumber(h[..2]) == 16 * HexValue(s[0]) + HexValue(s[1]);
    assert HexNumber(h[..3]) == 16 * (16 * HexValue(s[0]) + HexValue(s[1])) + HexValue(s[2]);
    assert HexNumber(h) == 16 * HexNumber(h[..3]) + HexValue(s[3]);
    assert h[0..] == h;
  }

  /** A unit written as itself decodes to itself. */
  lemma DecodePlainUnit(u: CodeUnit, rest: seq<CodeUnit>)
    requires !(u in {0x22, 0x5C, 0x08, 0x0C, 0x0A, 0x0D, 0x09}) && !(u < 0x20 || 0xD800 <= u < 0xE000)
    ensures ProcessJsonString(EscapeUnit(u) + rest) ==
      (var r := ProcessJsonString(rest); if r.Throw? then r else Ok([u] + r.value))
  {
    var s := EscapeUnit(u) + rest;
    assert s[0] == u && s[0] != Backslash;
    assert s[1..] == rest;
  }

  /** A unit written as a two-unit escape decodes to itself. */
  lemma DecodeShortEscape(u: CodeUnit, rest: seq<CodeUnit>)
    requires u in {0x22, 0x5C, 0x08, 0x0C, 0x0A, 0x0D, 0x09}
    ensures ProcessJsonString(EscapeUnit(u) + rest) ==
      (var r := ProcessJsonString(rest); if r.Throw? then r else Ok([u] + r.value))
  {
    var s := EscapeUnit(u) + rest;
    assert |EscapeUnit(u)| == 2 && s[0] == Backslash;
    assert SimpleEscape(s[1]) == Some(u);
    assert s[2..] == rest;
  }

  /** A \u escape with four well-formed digits decodes to their value, then the rest. */
  lemma DecodeUnicodeAt(h: seq<CodeUnit>, rest: seq<CodeUnit>)
    requires |h| == 4 && ParseHex(h).Ok?
    ensures ProcessJsonString([Backslash, LetterU] + h + rest) ==
      (var r := ProcessJsonString(rest); if r.Throw? then r else Ok([ParseHex(h).value as CodeUnit] + r.value))
  {
    var s := [Backslash, LetterU] + h + rest;
    assert s[0] == Backslash && s[1] == LetterU && |s| > 5;
    assert SimpleEscape(LetterU) == None;
    assert s[2..6] == h;
    assert s[6..] == rest;
  }

  /** A unit written as a \u escape decodes to itself. */
  lemma DecodeUnicodeEscape(u: CodeUnit, rest: seq<CodeUnit>)
    requires (u < 0x20 && !(u in {0x08, 0x0C, 0x0A, 0x0D, 0x09})) || 0xD800 <= u < 0xE000
    ensures ProcessJsonString(EscapeUnit(u) + rest) ==
      (var r := ProcessJsonString(rest); if r.Throw? then r else Ok([u] + r.value))
  {
    var h := HexUnits(u as int);
    assert EscapeUnit(u) == [Backslash, LetterU] + h;
    HexOfHex4(u as int);
    DecodeUnicodeAt(h, rest);
  }

  lemma DecodeEscapedUnit(u: CodeUnit, rest: seq<CodeUnit>)
    ensures ProcessJsonString(EscapeUnit(u) + rest) ==
      (var r := ProcessJsonString(rest); if r.Throw? then r else Ok([u] + r.value))
  {
    if u in {0x22, 0x5C, 0x08, 0x0C, 0x0A, 0x0D, 0x09} {
      DecodeShortEscape(u, rest);
    } else if u < 0x20 || 0xD800 <= u < 0xE000 {
      DecodeUnicodeEscape(u, rest);
    } else {
      DecodePlainUnit(u, rest);
    }
  }

  /** Decoding undoes the writer's escaping, for every sequence of code units. */
  lemma {:induction false} DecodeEscapedJson(units: seq<CodeUnit>)
    ensures ProcessJsonString(EscapeJson(units)) == Ok(units)
    decreases |units|
  {
    if units != [] {
      DecodeEscapedJson(units[1..]);
      DecodeEscapedUnit(units[0], EscapeJson(units[1..]));
      assert [units[0]] + units[1..] == units;
    }
  }

  // ---------------------------------------------------------------------
  // Examples
  // ---------------------------------------------------------------------

  const OmegaSpan: seq<CodeUnit> := [Quote, Backslash, LetterU, 0x30, 0x33, 0x41, 0x39, Quote]

  lemma OmegaSpanUnits()
    ensures Utf16("\"\\u03A9\"") == OmegaSpan
  {
    Utf16OfBmp("\"\\u03A9\"");
  }

  lemma OmegaDigits()
    ensures HexUnits(0x03A9) == [0x30, 0x33, 0x41, 0x39]
  {
    assert Hex4(0x03A9) == "03A9";
  }

  /** The test example: "\u03A9" between quotes decodes to capital omega. */
  lemma OmegaExample()
    ensures StringTerminalValue("\"\\u03A9\"") == Ok([0x03A9])
  {
    OmegaSpanUnits();
    OmegaDigits();
    var h := HexUnits(0x03A9);
    HexOfHex4(0x03A9);
    DecodeUnicodeAt(h, []);
    var one: seq<CodeUnit> := [0x03A9];
    assert one + [] == one;
    assert OmegaSpan[1..|OmegaSpan| - 1] == [Backslash, LetterU] + h + [];
  }

  /** A character above U+FFFF is copied through as its surrogate pair. */
  lemma EmojiExample()
    ensures StringTerminalValue("\"\U{1F600}\"") == Ok([0xD83D, 0xDE00])
  {
    var u := Utf16("\"\U{1F600}\"");
    assert Utf16Char('\U{1F600}') == [0xD83D, 0xDE00];
    assert u == [Quote, 0xD83D, 0xDE00, Quote];
    var body: seq<CodeUnit> := [0xD83D, 0xDE00];
    assert u[1..|u| - 1] == body;
    var low: seq<CodeUnit> := [0xDE00];
    assert low[1..] == [] && body[1..] == low;
    var none: seq<CodeUnit> := [];
    assert ProcessJsonString(low[1..]) == Ok(none);
    assert low[0] != Backslash && [low[0]] + none == low;
    assert ProcessJsonString(low) == Ok(low);
    assert ProcessJsonString(body) == Ok([body[0]] + low);
    assert StringTerminalValue("\"\U{1F600}\"") == ProcessJsonString(body);
    assert [body[0]] + low == body;
  }

  const SurrogateSpan: seq<CodeUnit> := [Quote, Backslash, LetterU, 0x31, 0x32, 0xD83D, 0xDE00, Quote]

  lemma SurrogateSpanUnits()
    ensures Utf16("\"\\u12\U{1F600}\"") == SurrogateSpan
  {
    Utf16OfBmp("\"\\u12");
    Utf16Concat("\"\\u12", "\U{1F600}\"");
    assert "\"\\u12" + "\U{1F600}\"" == "\"\\u12\U{1F600}\"";
    assert Utf16Char('\U{1F600}') == [0xD83D, 0xDE00];
    assert Utf16("\U{1F600}\"") == [0xD83D, 0xDE00, Quote];
  }

  lemma SurrogateDigitsThrow()
    ensures ParseHex([0x31, 0x32, 0xD83D, 0xDE00]) == Throw(FormatError("Could not find any recognizable digits."))
  {
    var digits: seq<CodeUnit> := [0x31, 0x32, 0xD83D, 0xDE00];
    assert DigitsStart(digits) == 0;
    assert !IsHexUnit(digits[2]) && !AllHexUnits(digits);
  }

  /**
   * The \u lookahead counts code units: in \u12 followed by U+1F600 the
   * four units after \u are 1, 2 and the surrogate pair, which are not hex
   * digits, so decoding throws.
   */
  lemma SurrogatesInUnicodeEscape()
    ensures StringTerminalValue("\"\\u12\U{1F600}\"") == Throw(FormatError("Could not find any recognizable digits."))
  {
    SurrogateSpanUnits();
    SurrogateDigitsThrow();
    var body: seq<CodeUnit> := [Backslash, LetterU, 0x31, 0x32, 0xD83D, 0xDE00];
    assert SurrogateSpan[1..|SurrogateSpan| - 1] == body;
    assert body[2..6] == [0x31, 0x32, 0xD83D, 0xDE00];
    assert ProcessJsonString(body) == Throw(FormatError("Could not find any recognizable digits."));
  }
}

=== FILE: loader.dfy ===
/**
 * The pure decisions of the native loader that starts the managed
 * troubleshooting tool: which command-line arguments are passed on, how the
 * --trace-level option is read, which arguments the managed entry point
 * receives, and the exit-code and trace-deletion rule. The Windows calls
 * (CommandLineToArgvW, COM, the CLR host, the registry, the file system)
 * are inputs to these functions.
 */
module Loader {
  import opened Wrappers
  import opened Chars

  const TracePathOption := "--trace-path"
  const TraceLevelOption := "--trace-level"
  const ExecutableName := "troubleshoot.exe"

  /** The tool's exit code for a normal run (tool_exit_codes::Regular). */
  const Regular := 0

  // ---------------------------------------------------------------------
  // Command line
  // ---------------------------------------------------------------------

  /**
   * GetCmdLineArguments. `argv` is what CommandLineToArgvW returned (None
   * when it failed). The program name is dropped when it contains
   * "troubleshoot.exe" anywhere; every later argument is kept, in order.
   */
  function GetCmdLineArguments(argv: Option<seq<string>>): (args: seq<string>)
    ensures argv == None || argv == Some([]) ==> args == []
    ensures argv.Some? && |argv.value| > 0 && Contains(argv.value[0], ExecutableName) ==> args == argv.value[1..]
    ensures argv.Some? && |argv.value| > 0 && !Contains(argv.value[0], ExecutableName) ==> args == argv.value
  {
    match argv
    case None => []
    case Some(v) =>
      if |v| == 0 then []
      else if Contains(v[0], ExecutableName) then v[1..]
      else [v[0]] + v[1..]
  }

  /**
   * Dropping the program name loses no option: an option is read the same
   * from the arguments passed on as from the whole command line, as long as
   * the program name does not itself start with the option's name.
   */
  lemma OptionsSurviveProgramName(v: seq<string>, name: string)
    requires |v| > 0 ==> !StartsWith(v[0], name)
    ensures GetArgumentValue(GetCmdLineArguments(Some(v)), name) == GetArgumentValue(v, name)
  {
  }

  /**
   * An option written on the command line, after the program name, reaches
   * the loader: whether or not the program name is dropped, the option's
   * value is read back from the arguments passed on.
   */
  lemma CommandLineOptionRoundTrip(program: string, before: seq<string>, name: string, value: string, after: seq<string>)
    requires Contains(program, ExecutableName) || !StartsWith(program, name)
    requires forall k | 0 <= k < |before| :: !StartsWith(before[k], name)
    ensures GetArgumentValue(GetCmdLineArguments(Some([program] + before + [name + "=" + value] + after)), name) == value
  {
    if Contains(program, ExecutableName) {
      assert ([program] + before + [name + "=" + value] + after)[1..] == before + [name + "=" + value] + after;
      ArgumentRoundTrip(before, name, value, after);
    } else {
      assert [program] + before + [name + "=" + value] + after == ([program] + before) + [name + "=" + value] + after;
      ArgumentRoundTrip([program] + before, name, value, after);
    }
  }

  /** The position of the first `c` in `s` at or after `from`, if any (find_first_of). */
  function FindFirstOf(s: string, c: char, from: nat): (r: Option<nat>)
    ensures r.Some? ==> from <= r.value < |s| && s[r.value] == c && forall k | from <= k < r.value :: s[k] != c
    ensures r.None? ==> forall k | from <= k < |s| :: s[k] != c
    decreases |s| - from
  {
    if from >= |s| then None
    else if s[from] == c then Some(from)
    else FindFirstOf(s, c, from + 1)
  }

  /** The index of the first argument that starts with `name`, if any (find_if). */
  function FirstStartingWith(args: seq<string>, name: string): (r: Option<nat>)
    ensures r.Some? ==> r.value < |args| && StartsWith(args[r.value], name)
    ensures r.Some? ==> forall k | 0 <= k < r.value :: !StartsWith(args[k], name)
    ensures r.None? ==> forall k | 0 <= k < |args| :: !StartsWith(args[k], name)
  {
    if args == [] then None
    else if StartsWith(args[0], name) then Some(0)
    else
      var rest := FirstStartingWith(args[1..], name);
      if rest.Some? then Some(rest.value + 1) else None
  }

  /**
   * GetArgumentValue. The first argument that starts with `name` is taken;
   * its value is what follows the first '=' at or after the end of the
   * name. No such argument, or no '=' in it, gives the empty string.
   */
  function GetArgumentValue(args: seq<string>, name: string): (v: string)
    ensures FirstStartingWith(args, name).None? ==> v == []
    ensures FirstStartingWith(args, name).Some? ==>
      var arg := args[FirstStartingWith(args, name).value];
      var sep := FindFirstOf(arg, '=', |name|);
      (sep.None? ==> v == []) && (sep.Some? ==> v == arg[sep.value + 1..])
  {
    match FirstStartingWith(args, name)
    case None => []
    case Some(i) =>
      var arg := args[i];
      match FindFirstOf(arg, '=', |name|)
      case None => []
      case Some(p) => arg[p + 1..]
  }

  /**
   * Writing an option as name=value and reading it back gives the value,
   * whatever follows it, provided no earlier argument starts with the name.
   * The search for '=' begins after the name, so a name holding '=' is fine.
   */
  lemma ArgumentRoundTrip(before: seq<string>, name: string, value: string, after: seq<string>)
    requires forall k | 0 <= k < |before| :: !StartsWith(before[k], name)
    ensures GetArgumentValue(before + [name + "=" + value] + after, name) == value
  {
    var args := before + [name + "=" + value] + after;
    var arg := name + "=" + value;
    assert args[|before|] == arg;
    assert StartsWith(arg, name) by { assert arg[..|name|] == name; }
    assert FirstStartingWith(args, name) == Some(|before|) by { FirstMatchAt(args, name, |before|); }
    assert FindFirstOf(arg, '=', |name|) == Some(|name|);
    assert arg[|name| + 1..] == value;
  }

  lemma {:induction false} FirstMatchAt(args: seq<string>, name: string, i: nat)
    requires i < |args| && StartsWith(args[i], name)
    requires forall k | 0 <= k < i :: !StartsWith(args[k], name)
    ensures FirstStartingWith(args, name) == Some(i)
    decreases i
  {
    if i > 0 {
      FirstMatchAt(args[1..], name, i - 1);
    }
  }

  // ---------------------------------------------------------------------
  // Trace level
  // ---------------------------------------------------------------------

  datatype TraceLevel = NON | ALW | CRT | ERR | WRN | IMP | INF | DBG

  /** The name each level is written with on the command line; tlWRN is spelled "WARN". */
  function TraceLevelName(level: TraceLevel): string {
    match level
    case NON => "NON"
    case ALW => "ALW"
    case CRT => "CRT"
    case ERR => "ERR"
    case WRN => "WARN"
    case IMP => "IMP"
    case INF => "INF"
    case DBG => "DBG"
  }

  /** TraceLevelFromString: an exact, case-sensitive table lookup; anything else is INF. */
  function TraceLevelFromString(s: string): (level: TraceLevel)
    ensures (exists l: TraceLevel :: TraceLevelName(l) == s) ==> TraceLevelName(level) == s
    ensures !(exists l: TraceLevel :: TraceLevelName(l) == s) ==> level == INF
  {
    if s == "NON" then NON
    else if s == "ALW" then ALW
    else if s == "CRT" then CRT
    else if s == "ERR" then ERR
    else if s == "WARN" then WRN
    else if s == "IMP" then IMP
    else if s == "INF" then INF
    else if s == "DBG" then DBG
    else INF
  }

  /** Reading a level's name gives the level back. */
  lemma TraceLevelRoundTrip(level: TraceLevel)
    ensures TraceLevelFromString(TraceLevelName(level)) == level
  {
  }

  /** Lower-case or abbreviated spellings are not recognised. */
  lemma TraceLevelExamples()
    ensures TraceLevelFromString("warn") == INF
    ensures TraceLevelFromString("WRN") == INF
    ensures TraceLevelFromString("") == INF
    ensures TraceLevelFromString("DBG") == DBG
  {
  }

  // ---------------------------------------------------------------------
  // The run
  // ---------------------------------------------------------------------

  /** What the platform answers: each Windows or CLR call the loader makes, as a value. */
  datatype Platform = Platform(
    argv: Option<seq<string>>,
    fullTracePath: string,
    tracerCreated: bool,
    entryPointFound: bool,
    managedExitCode: int,
    traceFileExists: bool,
    disableClearingTraces: string)

  datatype Outcome = Outcome(
    exitCode: int,
    traceLevel: TraceLevel,
    managedArgs: Option<seq<string>>,
    deleteTrace: bool)

  /** The strings the managed entry point receives after the tracer: the trace path option, then the arguments. */
  function ManagedArguments(fullTracePath: string, args: seq<string>): (r: seq<string>)
    ensures |r| == 2 + |args| && r[0] == TracePathOption && r[1] == fullTracePath && r[2..] == args
  {
    [TracePathOption, fullTracePath] + args
  }

  /** ShouldDeleteTraceOnExit: clearing is disabled only by the exact value "1". */
  predicate ShouldDeleteTraceOnExit(disableClearingTraces: string) {
    disableClearingTraces != "1"
  }

  /**
   * wWinMain. Failing to create the native tracer, or to find the managed
   * entry point, ends the run with 1 before any managed code runs and
   * without touching the trace file. Otherwise the managed exit code is the
   * process exit code, and the trace file is removed only after a Regular
   * exit, when it exists and clearing is not disabled. The registry lookup
   * of the dotnet path does not decide anything here: an empty path is
   * passed on to the host.
   */
  function WinMain(p: Platform): (o: Outcome)
    ensures o.traceLevel == TraceLevelFromString(GetArgumentValue(GetCmdLineArguments(p.argv), TraceLevelOption))
    ensures !p.tracerCreated || !p.entryPointFound ==> o.exitCode == 1 && o.managedArgs == None && !o.deleteTrace
    ensures p.tracerCreated && p.entryPointFound ==>
      o.exitCode == p.managedExitCode &&
      o.managedArgs == Some(ManagedArguments(p.fullTracePath, GetCmdLineArguments(p.argv)))
    ensures o.deleteTrace <==>
      p.tracerCreated && p.entryPointFound && p.managedExitCode == Regular &&
      p.traceFileExists && ShouldDeleteTraceOnExit(p.disableClearingTraces)
  {
    var args := GetCmdLineArguments(p.argv);
    var level := TraceLevelFromString(GetArgumentValue(args, TraceLevelOption));
    if !p.tracerCreated then Outcome(1, level, None, false)
    else if !p.entryPointFound then Outcome(1, level, None, false)
    else
      var code := p.managedExitCode;
      Outcome(code, level, Some(ManagedArguments(p.fullTracePath, args)),
              code == Regular && p.traceFileExists && ShouldDeleteTraceOnExit(p.disableClearingTraces))
  }

  /** The trace file survives every run that did not end Regular. */
  lemma TraceKeptUnlessRegular(p: Platform)
    requires WinMain(p).exitCode != Regular
    ensures !WinMain(p).deleteTrace
  {
  }

  /** A --trace-level option given after the program name sets the level. */
  lemma TraceLevelFromCommandLine(program: string, level: TraceLevel, rest: seq<string>)
    requires Contains(program, ExecutableName)
    ensures WinMain(Platform(Some([program, TraceLevelOption + "=" + TraceLevelName(level)] + rest),
                             "t.log", true, true, 0, true, "")).traceLevel == level
  {
    var argv := [program, TraceLevelOption + "=" + TraceLevelName(level)] + rest;
    assert argv[1..] == [] + [TraceLevelOption + "=" + TraceLevelName(level)] + rest;
    ArgumentRoundTrip([], TraceLevelOption, TraceLevelName(level), rest);
    TraceLevelRoundTrip(level);
  }
}

=== FILE: nfa.dfy ===
/**
 * Thompson's construction as the terminal matchers build it: every node
 * becomes a fragment with a start and an end state, states are numbered in
 * the order they are created, and each state keeps its transitions in the
 * order they were added. A transition without a condition is an
 * ε-transition.
 */
module Nfa {
  import opened Wrappers
  import opened RegexAst

  datatype Transition = Transition(target: nat, condition: Option<RegexNode>)

  function Epsilon(target: nat): Transition {
    Transition(target, None)
  }

  /** `trans[id]` is the transition list of the state numbered `id`. */
  datatype Nfa = Nfa(trans: seq<seq<Transition>>)
  {
    predicate Valid() {
      forall s, k | 0 <= s < |trans| && 0 <= k < |trans[s]| :: trans[s][k].target < |trans|
    }

    function Count(): nat {
      |trans|
    }
  }

  /** A built node: the automaton so far and the node's start and end states. */
  datatype Fragment = Fragment(nfa: Nfa, start: nat, end: nat)

  /** CreateState: the next number, with no transitions yet. */
  function CreateState(nfa: Nfa): (r: (Nfa, nat))
    ensures r.1 == nfa.Count() && r.0.trans == nfa.trans + [[]]
    ensures nfa.Valid() ==> r.0.Valid()
  {
    (Nfa(nfa.trans + [[]]), |nfa.trans|)
  }

  predicate TargetsBelow(ts: seq<Transition>, count: nat) {
    forall k | 0 <= k < |ts| :: ts[k].target < count
  }

  /** Appends transitions to one state's list; every other state is untouched. */
  function AddTransitions(nfa: Nfa, from: nat, ts: seq<Transition>): (r: Nfa)
    requires from < nfa.Count()
    ensures r.Count() == nfa.Count() && r.trans[from] == nfa.trans[from] + ts
    ensures forall s | 0 <= s < nfa.Count() && s != from :: r.trans[s] == nfa.trans[s]
    ensures nfa.Valid() && TargetsBelow(ts, nfa.Count()) ==> r.Valid()
  {
    var r := Nfa(nfa.trans[from := nfa.trans[from] + ts]);
    assert nfa.Valid() && TargetsBelow(ts, nfa.Count()) ==> r.Valid() by {
      if nfa.Valid() && TargetsBelow(ts, nfa.Count()) {
        forall s, k | 0 <= s < |r.trans| && 0 <= k < |r.trans[s]| ensures r.trans[s][k].target < |r.trans| {
          if s == from && k >= |nfa.trans[from]| {
            assert r.trans[s][k] == ts[k - |nfa.trans[from]|];
          }
        }
      }
    }
    r
  }

  /** The number of states a node's fragment creates. */
  function Size(n: RegexNode): nat
    decreases n, 1
  {
    match n
    case Concat(nodes) => if nodes == [] then 2 else SizeFrom(nodes, 0)
    case Alternation(nodes) => 2 + SizeFrom(nodes, 0)
    case Star(node) => Size(node) + 2
    case Plus(node) => Size(node) + 1
    case Optional(node) => Size(node) + 1
    case Group(node) => Size(node)
    case _ => 2
  }

  function SizeFrom(nodes: seq<RegexNode>, i: nat): nat
    requires i <= |nodes|
    decreases nodes, 0, |nodes| - i
  {
    if i == |nodes| then 0 else Size(nodes[i]) + SizeFrom(nodes, i + 1)
  }

  /** The states the elements `nodes[i..j]` create together. */
  function SizeBetween(nodes: seq<RegexNode>, i: nat, j: nat): (r: nat)
    requires i <= j <= |nodes|
    ensures r + SizeFrom(nodes, j) == SizeFrom(nodes, i)
    decreases j - i
  {
    if i == j then 0 else Size(nodes[i]) + SizeBetween(nodes, i + 1, j)
  }

  /** The states of `nodes[i..j]` are those of `nodes[i..j-1]` and then those of the last one. */
  lemma {:induction false} SizeBetweenLast(nodes: seq<RegexNode>, i: nat, j: nat)
    requires i < j <= |nodes|
    ensures SizeBetween(nodes, i, j) == SizeBetween(nodes, i, j - 1) + Size(nodes[j - 1])
    decreases j - i
  {
    if i < j - 1 {
      SizeBetweenLast(nodes, i + 1, j);
    }
  }

  /** How far after the first new number a node's fragment puts its start. */
  function StartOffset(n: RegexNode): (r: nat)
    ensures r < Size(n)
    decreases n
  {
    match n
    case Concat(nodes) => if nodes == [] then 0 else StartOffset(nodes[0])
    case Alternation(_) => 0
    case Star(node) => Size(node)
    case Plus(node) => StartOffset(node)
    case Optional(node) => Size(node)
    case Group(node) => StartOffset(node)
    case _ => 0
  }

  /** How far after the first new number a node's fragment puts its end. */
  function EndOffset(n: RegexNode): (r: nat)
    ensures r < Size(n)
    decreases n
  {
    match n
    case Concat(nodes) =>
      if nodes == [] then 1 else SizeBetween(nodes, 0, |nodes| - 1) + EndOffset(nodes[|nodes| - 1])
    case Alternation(_) => 1
    case Star(node) => Size(node) + 1
    case Plus(node) => Size(node)
    case Optional(node) => EndOffset(node)
    case Group(node) => EndOffset(node)
    case _ => 1
  }

  /**
   * Where the fragment of `nodes[j]` starts when the elements from `i` on are
   * built one after the other with numbering from `count`.
   */
  function ElemStart(nodes: seq<RegexNode>, i: nat, j: nat, count: nat): (r: nat)
    requires i <= j < |nodes|
    ensures count <= r < count + SizeFrom(nodes, i)
  {
    count + SizeBetween(nodes, i, j) + StartOffset(nodes[j])
  }

  /** Where the fragment of `nodes[j]` ends, numbered as in ElemStart. */
  function ElemEnd(nodes: seq<RegexNode>, i: nat, j: nat, count: nat): (r: nat)
    requires i <= j < |nodes|
    ensures count <= r < count + SizeFrom(nodes, i)
  {
    count + SizeBetween(nodes, i, j) + EndOffset(nodes[j])
  }

  /** Numbering from element `i + 1` right after element `i` puts every later element where numbering from `i` does. */
  lemma ShiftElem(nodes: seq<RegexNode>, i: nat, j: nat, count: nat, next: nat)
    requires i < j < |nodes| && next == count + Size(nodes[i])
    ensures ElemStart(nodes, i + 1, j, next) == ElemStart(nodes, i, j, count)
    ensures ElemEnd(nodes, i + 1, j, next) == ElemEnd(nodes, i, j, count)
  {
  }

  /** Element `i`'s end and element `i + 1`'s start, numbered from `i`, are the plain offsets. */
  lemma ElemAdjacent(nodes: seq<RegexNode>, i: nat, count: nat, next: nat)
    requires i + 1 < |nodes| && next == count + Size(nodes[i])
    ensures ElemEnd(nodes, i, i, count) == count + EndOffset(nodes[i])
    ensures ElemStart(nodes, i, i + 1, count) == next + StartOffset(nodes[i + 1])
  {
  }

  /** A fragment built on `before` for `n` has its start and end where the offsets say. */
  predicate Placed(before: Nfa, r: Fragment, n: RegexNode) {
    r.start == before.Count() + StartOffset(n) && r.end == before.Count() + EndOffset(n)
  }

  /** The list is exactly one ε-transition, to `target`. */
  predicate SingleEpsilon(ts: seq<Transition>, target: nat) {
    |ts| == 1 && ts[0].condition.None? && ts[0].target == target
  }

  /**
   * What every fragment satisfies: the automaton stays well formed, the
   * node's states are new, numbered right after the old ones, start and end
   * differ, the end has no way out yet, and no old state gained a
   * transition.
   */
  predicate Extends(before: Nfa, r: Fragment, size: nat) {
    && r.nfa.Valid()
    && r.nfa.Count() == before.Count() + size
    && before.Count() <= r.start < r.nfa.Count()
    && before.Count() <= r.end < r.nfa.Count()
    && r.start != r.end
    && r.nfa.trans[r.end] == []
    && (forall s | 0 <= s < before.Count() :: r.nfa.trans[s] == before.trans[s])
  }

  /** BuildSingle: two new states joined by one transition on the node. */
  function BuildSingle(n: RegexNode, nfa: Nfa): (r: Fragment)
    requires nfa.Valid()
    ensures Extends(nfa, r, 2)
    ensures r.nfa.trans[r.start] == [Transition(r.end, Some(n))]
  {
    var (a, start) := CreateState(nfa);
    var (b, end) := CreateState(a);
    Fragment(AddTransitions(b, start, [Transition(end, Some(n))]), start, end)
  }

  /**
   * BuildNode. Literals, the dot and classes are single transitions; a
   * group is its contents; the other nodes are wired with ε-transitions.
   */
  function BuildNode(n: RegexNode, nfa: Nfa): (r: Fragment)
    requires nfa.Valid()
    ensures Extends(nfa, r, Size(n)) && Placed(nfa, r, n)
    decreases n, 2
  {
    match n
    case Concat(nodes) => BuildConcat(nodes, nfa)
    case Alternation(nodes) => BuildAlternation(nodes, nfa)
    case Group(node) => BuildNode(node, nfa)
    case _ => BuildOperand(n, nfa)
  }

  /** BuildNode's remaining cases: the postfix operators and the single transitions. */
  function BuildOperand(n: RegexNode, nfa: Nfa): (r: Fragment)
    requires nfa.Valid() && !n.Concat? && !n.Alternation? && !n.Group?
    ensures Extends(nfa, r, Size(n)) && Placed(nfa, r, n)
    decreases n, 1
  {
    match n
    case Star(node) => BuildStar(node, nfa)
    case Plus(node) => BuildPlus(node, nfa)
    case Optional(node) => BuildOptional(node, nfa)
    case RegexChar(_) => BuildSingle(n, nfa)
    case AnyChar => BuildSingle(n, nfa)
    case RangesClass(_, _) => BuildSingle(n, nfa)
    case WordClass(_) => BuildSingle(n, nfa)
    case DigitClass(_) => BuildSingle(n, nfa)
    case LetterClass(_) => BuildSingle(n, nfa)
    case WhitespaceClass(_) => BuildSingle(n, nfa)
    case NegatedGroup(_) => BuildSingle(n, nfa)
  }

  /** An empty concatenation is two unconnected states; otherwise the elements are chained. */
  function BuildConcat(nodes: seq<RegexNode>, nfa: Nfa): (r: Fragment)
    requires nfa.Valid()
    ensures Extends(nfa, r, if nodes == [] then 2 else SizeFrom(nodes, 0))
    ensures nodes == [] ==> r.nfa.trans == nfa.trans + [[], []] && r.start == nfa.Count() && r.end == nfa.Count() + 1
    ensures nodes != [] ==> r.start == ElemStart(nodes, 0, 0, nfa.Count()) && r.end == ElemEnd(nodes, 0, |nodes| - 1, nfa.Count())
    decreases nodes, 1
  {
    if nodes == [] then
      var (a, start) := CreateState(nfa);
      var (b, end) := CreateState(a);
      Fragment(b, start, end)
    else
      var first := BuildNode(nodes[0], nfa);
      if |nodes| > 1 then
        ShiftElem(nodes, 0, |nodes| - 1, nfa.Count(), nfa.Count() + Size(nodes[0]));
        ConcatRest(nodes, 1, first)
      else
        ConcatRest(nodes, 1, first)
  }

  /** BuildAlternation: the shared start and end are created first, then the branches. */
  function BuildAlternation(nodes: seq<RegexNode>, nfa: Nfa): (r: Fragment)
    requires nfa.Valid()
    ensures Extends(nfa, r, 2 + SizeFrom(nodes, 0))
    ensures r.start == nfa.Count() && r.end == nfa.Count() + 1
    decreases nodes, 1
  {
    var (a, start) := CreateState(nfa);
    var (b, end) := CreateState(a);
    Fragment(AlternationBranches(nodes, 0, b, start, end), start, end)
  }

  /**
   * BuildStar: the operand first, then a new start and end; both the new
   * start and the operand's end lead by ε to the operand's start and to the
   * new end.
   */
  function BuildStar(node: RegexNode, nfa: Nfa): (r: Fragment)
    requires nfa.Valid()
    ensures Placed(nfa, r, Star(node))
    ensures Extends(nfa, r, Size(node) + 2)
    ensures var sub := BuildNode(node, nfa);
      && r.start == sub.nfa.Count() && r.end == sub.nfa.Count() + 1
      && r.nfa.trans[r.start] == [Epsilon(sub.start), Epsilon(r.end)]
      && r.nfa.trans[sub.end] == [Epsilon(sub.start), Epsilon(r.end)]
    decreases node, 3
  {
    var sub := BuildNode(node, nfa);
    var (a, start) := CreateState(sub.nfa);
    var (b, end) := CreateState(a);
    var c := AddTransitions(b, start, [Epsilon(sub.start), Epsilon(end)]);
    Fragment(AddTransitions(c, sub.end, [Epsilon(sub.start), Epsilon(end)]), start, end)
  }

  /** BuildPlus: the operand's start is kept; its end loops back to it or moves on to a new end. */
  function BuildPlus(node: RegexNode, nfa: Nfa): (r: Fragment)
    requires nfa.Valid()
    ensures Placed(nfa, r, Plus(node))
    ensures Extends(nfa, r, Size(node) + 1)
    ensures var sub := BuildNode(node, nfa);
      && r.start == sub.start && r.end == sub.nfa.Count()
      && r.nfa.trans[sub.end] == [Epsilon(sub.start), Epsilon(r.end)]
    decreases node, 3
  {
    var sub := BuildNode(node, nfa);
    var (a, end) := CreateState(sub.nfa);
    Fragment(AddTransitions(a, sub.end, [Epsilon(sub.start), Epsilon(end)]), sub.start, end)
  }

  /** BuildOptional: a new start that leads by ε into the operand or straight to its end. */
  function BuildOptional(node: RegexNode, nfa: Nfa): (r: Fragment)
    requires nfa.Valid()
    ensures Placed(nfa, r, Optional(node))
    ensures Extends(nfa, r, Size(node) + 1)
    ensures var sub := BuildNode(node, nfa);
      && r.start == sub.nfa.Count() && r.end == sub.end
      && r.nfa.trans[r.start] == [Epsilon(sub.start), Epsilon(sub.end)]
    decreases node, 3
  {
    var sub := BuildNode(node, nfa);
    var (a, start) := CreateState(sub.nfa);
    Fragment(AddTransitions(a, start, [Epsilon(sub.start), Epsilon(sub.end)]), start, sub.end)
  }

  /** The rest of a concatenation: each element's start is reached by ε from the previous end. */
  function ConcatRest(nodes: seq<RegexNode>, i: nat, f: Fragment): (r: Fragment)
    requires 1 <= i <= |nodes| && f.nfa.Valid()
    requires f.start < f.nfa.Count() && f.end < f.nfa.Count() && f.start != f.end && f.nfa.trans[f.end] == []
    ensures r.nfa.Valid() && r.nfa.Count() == f.nfa.Count() + SizeFrom(nodes, i)
    ensures r.start == f.start && r.start != r.end && r.end < r.nfa.Count() && r.nfa.trans[r.end] == []
    ensures i < |nodes| ==> f.nfa.Count() <= r.end
    ensures i == |nodes| ==> r == f
    ensures forall s | 0 <= s < f.nfa.Count() && s != f.end :: r.nfa.trans[s] == f.nfa.trans[s]
    ensures i < |nodes| ==> r.end == ElemEnd(nodes, i, |nodes| - 1, f.nfa.Count())
    decreases nodes, 0, |nodes| - i
  {
    if i == |nodes| then f
    else
      var next := BuildNode(nodes[i], f.nfa);
      var linked := AddTransitions(next.nfa, f.end, [Epsilon(next.start)]);
      if i + 1 < |nodes| then
        ShiftElem(nodes, i, |nodes| - 1, f.nfa.Count(), f.nfa.Count() + Size(nodes[i]));
        ConcatRest(nodes, i + 1, Fragment(linked, f.start, next.end))
      else
        ConcatRest(nodes, i + 1, Fragment(linked, f.start, next.end))
  }

  /** Each branch: ε from the shared start to its start, ε from its end to the shared end. */
  function AlternationBranches(nodes: seq<RegexNode>, i: nat, nfa: Nfa, start: nat, end: nat): (r: Nfa)
    requires i <= |nodes| && nfa.Valid()
    requires start < nfa.Count() && end < nfa.Count() && start != end && nfa.trans[end] == []
    ensures r.Valid() && r.Count() == nfa.Count() + SizeFrom(nodes, i) && r.trans[end] == []
    ensures forall s | 0 <= s < nfa.Count() && s != start :: r.trans[s] == nfa.trans[s]
    decreases nodes, 0, |nodes| - i
  {
    if i == |nodes| then nfa
    else
      var sub := BuildNode(nodes[i], nfa);
      var a := AddTransitions(sub.nfa, start, [Epsilon(sub.start)]);
      var b := AddTransitions(a, sub.end, [Epsilon(end)]);
      AlternationBranches(nodes, i + 1, b, start, end)
  }

  /** One step of ConcatRest: element `i` is built and the previous end is linked to its start. */
  lemma ConcatRestStep(nodes: seq<RegexNode>, i: nat, f: Fragment) returns (g: Fragment)
    requires 1 <= i < |nodes| && f.nfa.Valid()
    requires f.start < f.nfa.Count() && f.end < f.nfa.Count() && f.start != f.end && f.nfa.trans[f.end] == []
    ensures g.nfa.Valid() && g.nfa.Count() == f.nfa.Count() + Size(nodes[i])
    ensures g.start == f.start && g.end == f.nfa.Count() + EndOffset(nodes[i])
    ensures g.start < g.nfa.Count() && g.end < g.nfa.Count() && g.start != g.end && g.nfa.trans[g.end] == []
    ensures SingleEpsilon(g.nfa.trans[f.end], f.nfa.Count() + StartOffset(nodes[i]))
    ensures ConcatRest(nodes, i, f) == ConcatRest(nodes, i + 1, g)
  {
    var next := BuildNode(nodes[i], f.nfa);
    var linked := AddTransitions(next.nfa, f.end, [Epsilon(next.start)]);
    assert [] + [Epsilon(next.start)] == [Epsilon(next.start)];
    g := Fragment(linked, f.start, next.end);
  }

  /** ConcatRest links the end of the fragment built so far to element `i`'s start, and only to it. */
  lemma ConcatRestFirstLink(nodes: seq<RegexNode>, i: nat, f: Fragment)
    requires 1 <= i < |nodes| && f.nfa.Valid()
    requires f.start < f.nfa.Count() && f.end < f.nfa.Count() && f.start != f.end && f.nfa.trans[f.end] == []
    ensures SingleEpsilon(ConcatRest(nodes, i, f).nfa.trans[f.end], f.nfa.Count() + StartOffset(nodes[i]))
  {
    var g := ConcatRestStep(nodes, i, f);
    var r := ConcatRest(nodes, i + 1, g);
    assert r.nfa.trans[f.end] == g.nfa.trans[f.end];
  }

  /** ConcatRest links the end of element `i` to the start of element `i + 1`, and only to it. */
  lemma ConcatRestLinkNext(nodes: seq<RegexNode>, i: nat, f: Fragment, e: nat, t: nat)
    requires 1 <= i < |nodes| - 1 && f.nfa.Valid()
    requires f.start < f.nfa.Count() && f.end < f.nfa.Count() && f.start != f.end && f.nfa.trans[f.end] == []
    requires e == ElemEnd(nodes, i, i, f.nfa.Count()) && t == ElemStart(nodes, i, i + 1, f.nfa.Count())
    ensures e < ConcatRest(nodes, i, f).nfa.Count() && SingleEpsilon(ConcatRest(nodes, i, f).nfa.trans[e], t)
  {
    var g := ConcatRestStep(nodes, i, f);
    ElemAdjacent(nodes, i, f.nfa.Count(), g.nfa.Count());
    ConcatRestFirstLink(nodes, i + 1, g);
  }

  /**
   * ConcatRest links every element to the next: the end `e` of each element
   * `j` from `i` on but the last gets exactly one ε-transition, to the start
   * `t` of element `j + 1`.
   */
  lemma {:induction false} ConcatRestLinks(nodes: seq<RegexNode>, i: nat, f: Fragment, j: nat, e: nat, t: nat)
    requires 1 <= i <= j < |nodes| - 1 && f.nfa.Valid()
    requires f.start < f.nfa.Count() && f.end < f.nfa.Count() && f.start != f.end && f.nfa.trans[f.end] == []
    requires e == ElemEnd(nodes, i, j, f.nfa.Count()) && t == ElemStart(nodes, i, j + 1, f.nfa.Count())
    ensures e < ConcatRest(nodes, i, f).nfa.Count() && SingleEpsilon(ConcatRest(nodes, i, f).nfa.trans[e], t)
    decreases |nodes| - i, 1
  {
    if j == i {
      ConcatRestLinkNext(nodes, i, f, e, t);
    } else {
      ConcatRestLinksLater(nodes, i, f, j, e, t);
    }
  }

  /** ConcatRestLinks for an element after `i`: building element `i` first moves nothing. */
  lemma {:induction false} ConcatRestLinksLater(nodes: seq<RegexNode>, i: nat, f: Fragment, j: nat, e: nat, t: nat)
    requires 1 <= i < j < |nodes| - 1 && f.nfa.Valid()
    requires f.start < f.nfa.Count() && f.end < f.nfa.Count() && f.start != f.end && f.nfa.trans[f.end] == []
    requires e == ElemEnd(nodes, i, j, f.nfa.Count()) && t == ElemStart(nodes, i, j + 1, f.nfa.Count())
    ensures e < ConcatRest(nodes, i, f).nfa.Count() && SingleEpsilon(ConcatRest(nodes, i, f).nfa.trans[e], t)
    decreases |nodes| - i, 0
  {
    var c := f.nfa.Count();
    var g := ConcatRestStep(nodes, i, f);
    var d := g.nfa.Count();
    ShiftElem(nodes, i, j + 1, c, d);
    ShiftElem(nodes, i, j, c, d);
    ConcatRestLinks(nodes, i + 1, g, j, e, t);
  }

  /**
   * A concatenation's ε-wiring, over all its elements: the fragments are
   * numbered one after the other, and each element's end but the last
   * leads by exactly one ε-transition to the next element's start.
   */
  lemma ConcatLinks(nodes: seq<RegexNode>, nfa: Nfa)
    requires nfa.Valid()
    ensures var r := BuildConcat(nodes, nfa);
      forall j | 0 <= j < |nodes| - 1 ::
        SingleEpsilon(r.nfa.trans[ElemEnd(nodes, 0, j, nfa.Count())], ElemStart(nodes, 0, j + 1, nfa.Count()))
  {
    if nodes != [] {
      var c := nfa.Count();
      var first := BuildNode(nodes[0], nfa);
      var d := first.nfa.Count();
      forall j | 0 <= j < |nodes| - 1
        ensures SingleEpsilon(ConcatRest(nodes, 1, first).nfa.trans[ElemEnd(nodes, 0, j, c)], ElemStart(nodes, 0, j + 1, c))
      {
        ShiftElem(nodes, 0, j + 1, c, d);
        if j == 0 {
          ConcatRestFirstLink(nodes, 1, first);
        } else {
          ConcatRestLinks(nodes, 1, first, j, ElemEnd(nodes, 0, j, c), ElemStart(nodes, 0, j + 1, c));
          ShiftElem(nodes, 0, j, c, d);
        }
      }
    }
  }

  /** The shared start and end of an alternation under construction are distinct existing states, the end without transitions. */
  predicate Ready(nfa: Nfa, start: nat, end: nat) {
    nfa.Valid() && start < nfa.Count() && end < nfa.Count() && start != end && nfa.trans[end] == []
  }

  /**
   * One branch of an alternation: it is built, the shared start gains an
   * ε-transition to its start, and its end gets one to the shared end.
   */
  function AddBranch(n: RegexNode, nfa: Nfa, start: nat, end: nat): (r: Nfa)
    requires Ready(nfa, start, end)
    ensures Ready(r, start, end) && r.Count() == nfa.Count() + Size(n)
    ensures r.trans[start] == nfa.trans[start] + [Epsilon(nfa.Count() + StartOffset(n))]
    ensures SingleEpsilon(r.trans[nfa.Count() + EndOffset(n)], end)
  {
    var sub := BuildNode(n, nfa);
    var a := AddTransitions(sub.nfa, start, [Epsilon(sub.start)]);
    assert [] + [Epsilon(end)] == [Epsilon(end)];
    AddTransitions(a, sub.end, [Epsilon(end)])
  }

  /** AlternationBranches links the end of branch `i` to the shared end, and only to it. */
  lemma BranchEndLink(nodes: seq<RegexNode>, i: nat, nfa: Nfa, start: nat, end: nat, e: nat)
    requires i < |nodes| && Ready(nfa, start, end)
    requires e == ElemEnd(nodes, i, i, nfa.Count())
    ensures SingleEpsilon(AlternationBranches(nodes, i, nfa, start, end).trans[e], end)
  {
    var b := AddBranch(nodes[i], nfa, start, end);
    var r := AlternationBranches(nodes, i + 1, b, start, end);
    assert AlternationBranches(nodes, i, nfa, start, end) == r;
    assert r.trans[e] == b.trans[e];
  }

  /** The automaton once AlternationBranches has added the first `j` branches. */
  function BranchesUpTo(nodes: seq<RegexNode>, j: nat, nfa: Nfa, start: nat, end: nat): (r: Nfa)
    requires j <= |nodes| && Ready(nfa, start, end)
    ensures Ready(r, start, end) && r.Count() == nfa.Count() + SizeBetween(nodes, 0, j)
    ensures |r.trans[start]| == |nfa.trans[start]| + j
  {
    if j == 0 then nfa
    else
      var m := BranchesUpTo(nodes, j - 1, nfa, start, end);
      SizeBetweenLast(nodes, 0, j);
      AddBranch(nodes[j - 1], m, start, end)
  }

  /** AlternationBranches is BranchesUpTo for the first `j` branches, then the rest from `j` on. */
  lemma {:induction false} BranchesUpToRest(nodes: seq<RegexNode>, j: nat, nfa: Nfa, start: nat, end: nat)
    requires j <= |nodes| && Ready(nfa, start, end)
    ensures AlternationBranches(nodes, 0, nfa, start, end) == AlternationBranches(nodes, j, BranchesUpTo(nodes, j, nfa, start, end), start, end)
  {
    if j > 0 {
      BranchesUpToRest(nodes, j - 1, nfa, start, end);
    }
  }

  /** BranchesUpTo gives the shared start, after what it had, one ε-transition per branch so far, to that branch's start. */
  lemma {:induction false} StartLinkAt(nodes: seq<RegexNode>, j: nat, nfa: Nfa, start: nat, end: nat, k: nat)
    requires k < j <= |nodes| && Ready(nfa, start, end)
    ensures var ts := BranchesUpTo(nodes, j, nfa, start, end).trans[start];
      ts[|nfa.trans[start]| + k].condition.None? && ts[|nfa.trans[start]| + k].target == ElemStart(nodes, 0, k, nfa.Count())
  {
    var m := BranchesUpTo(nodes, j - 1, nfa, start, end);
    var r := AddBranch(nodes[j - 1], m, start, end);
    if k < j - 1 {
      StartLinkAt(nodes, j - 1, nfa, start, end, k);
      assert r.trans[start][|nfa.trans[start]| + k] == m.trans[start][|nfa.trans[start]| + k];
    }
  }

  /** Every branch's start is linked from the shared start once all branches are added. */
  lemma AllBranchesStartLink(nodes: seq<RegexNode>, nfa: Nfa, start: nat, end: nat, k: nat)
    requires k < |nodes| && Ready(nfa, start, end) && nfa.trans[start] == []
    ensures var ts := AlternationBranches(nodes, 0, nfa, start, end).trans[start];
      |ts| == |nodes| && ts[k].condition.None? && ts[k].target == ElemStart(nodes, 0, k, nfa.Count())
  {
    BranchesUpToRest(nodes, |nodes|, nfa, start, end);
    StartLinkAt(nodes, |nodes|, nfa, start, end, k);
  }

  /** Every branch's end is linked to the shared end once all branches are added. */
  lemma AllBranchesEndLink(nodes: seq<RegexNode>, nfa: Nfa, start: nat, end: nat, j: nat, e: nat)
    requires j < |nodes| && Ready(nfa, start, end) && e == ElemEnd(nodes, 0, j, nfa.Count())
    ensures SingleEpsilon(AlternationBranches(nodes, 0, nfa, start, end).trans[e], end)
  {
    var m := BranchesUpTo(nodes, j, nfa, start, end);
    BranchesUpToRest(nodes, j, nfa, start, end);
    BranchEndLink(nodes, j, m, start, end, e);
  }

  /** The first state number an alternation built on `nfa` gives its branches: after its new start and end. */
  function BranchBase(nfa: Nfa): nat {
    nfa.Count() + 2
  }

  /** BuildAlternation's two new states, and the automaton its branches are added to. */
  lemma AlternationParts(nodes: seq<RegexNode>, nfa: Nfa) returns (b: Nfa, start: nat, end: nat)
    requires nfa.Valid()
    ensures Ready(b, start, end) && b.Count() == nfa.Count() + 2 && b.trans[start] == []
    ensures BuildAlternation(nodes, nfa) == Fragment(AlternationBranches(nodes, 0, b, start, end), start, end)
  {
    var (a, s) := CreateState(nfa);
    var (b', e) := CreateState(a);
    b, start, end := b', s, e;
  }

  /**
   * The start of an alternation: its transitions are exactly one
   * ε-transition per branch, to that branch's start, in branch order; the
   * branches are numbered one after the other, after the new start and end.
   */
  lemma AlternationStartLinks(nodes: seq<RegexNode>, nfa: Nfa)
    requires nfa.Valid()
    ensures var r := BuildAlternation(nodes, nfa);
      && |r.nfa.trans[r.start]| == |nodes|
      && forall k | 0 <= k < |nodes| ::
           r.nfa.trans[r.start][k].condition.None? && r.nfa.trans[r.start][k].target == ElemStart(nodes, 0, k, BranchBase(nfa))
  {
    var b, start, end := AlternationParts(nodes, nfa);
    if nodes != [] {
      AllBranchesStartLink(nodes, b, start, end, 0);
    }
    forall k | 0 <= k < |nodes|
      ensures AlternationBranches(nodes, 0, b, start, end).trans[start][k].condition.None?
      ensures AlternationBranches(nodes, 0, b, start, end).trans[start][k].target == ElemStart(nodes, 0, k, BranchBase(nfa))
    {
      AllBranchesStartLink(nodes, b, start, end, k);
    }
  }

  /** The end of an alternation's branch `j` leads by exactly one ε-transition to the new end. */
  lemma AlternationEndLink(nodes: seq<RegexNode>, nfa: Nfa, j: nat)
    requires nfa.Valid() && j < |nodes|
    ensures var r := BuildAlternation(nodes, nfa);
      SingleEpsilon(r.nfa.trans[ElemEnd(nodes, 0, j, BranchBase(nfa))], r.end)
  {
    var b, start, end := AlternationParts(nodes, nfa);
    AllBranchesEndLink(nodes, b, start, end, j, ElemEnd(nodes, 0, j, b.Count()));
  }

  /**
   * The ends of an alternation's branches: each leads by exactly one
   * ε-transition to the new end. The branches are numbered one after the
   * other, after the new start and end.
   */
  lemma AlternationEndLinks(nodes: seq<RegexNode>, nfa: Nfa)
    requires nfa.Valid()
    ensures var r := BuildAlternation(nodes, nfa);
      forall j | 0 <= j < |nodes| :: SingleEpsilon(r.nfa.trans[ElemEnd(nodes, 0, j, BranchBase(nfa))], r.end)
  {
    forall j | 0 <= j < |nodes|
      ensures SingleEpsilon(BuildAlternation(nodes, nfa).nfa.trans[ElemEnd(nodes, 0, j, BranchBase(nfa))], BuildAlternation(nodes, nfa).end)
    {
      AlternationEndLink(nodes, nfa, j);
    }
  }

  /** An automaton built for a whole pattern; its only final state is the end. */
  datatype Built = Built(nfa: Nfa, start: nat, end: nat)
  {
    predicate IsFinal(s: nat) {
      s == end
    }
  }

  /**
   * Build: numbering restarts at 0, the pattern's fragment is built, and its
   * end becomes the final state.
   */
  function Build(n: RegexNode): (r: Built)
    ensures r.nfa.Valid() && r.nfa.Count() == Size(n)
    ensures r.start < r.nfa.Count() && r.end < r.nfa.Count() && r.start != r.end
    ensures r.nfa.trans[r.end] == []
  {
    var f := BuildNode(n, Nfa([]));
    Built(f.nfa, f.start, f.end)
  }

  /**
   * The start of a built automaton is never final, so the DFA builder's
   * empty-pattern test (a final start without transitions) never holds for it.
   */
  lemma StartIsNeverFinal(n: RegexNode)
    ensures !Build(n).IsFinal(Build(n).start)
  {
  }

  const ExampleA := Transition(3, Some(RegexChar('a')))
  const ExampleB := Transition(5, Some(RegexChar('b')))
  const AfterA := Nfa([[Epsilon(2)], [], [ExampleA], [Epsilon(1)]])
  const AfterB := Nfa([[Epsilon(2), Epsilon(4)], [], [ExampleA], [Epsilon(1)], [ExampleB], [Epsilon(1)]])

  lemma ExampleFirstBranch(nodes: seq<RegexNode>)
    requires nodes == [RegexChar('a'), RegexChar('b')]
    ensures AlternationBranches(nodes, 0, Nfa([[], []]), 0, 1) == AlternationBranches(nodes, 1, AfterA, 0, 1)
  {
    var sa := BuildNode(RegexChar('a'), Nfa([[], []]));
    assert sa == Fragment(Nfa([[], [], [ExampleA], []]), 2, 3);
    var a1 := AddTransitions(sa.nfa, 0, [Epsilon(2)]);
    assert [] + [Epsilon(2)] == [Epsilon(2)];
    assert a1.trans == [[Epsilon(2)], [], [ExampleA], []] by {
      assert a1.trans[0] == [Epsilon(2)] && a1.trans[1] == [] && a1.trans[2] == [ExampleA] && a1.trans[3] == [];
    }
    var n1 := AddTransitions(a1, 3, [Epsilon(1)]);
    assert [] + [Epsilon(1)] == [Epsilon(1)];
    assert n1.trans == AfterA.trans by {
      assert n1.trans[0] == [Epsilon(2)] && n1.trans[1] == [] && n1.trans[2] == [ExampleA] && n1.trans[3] == [Epsilon(1)];
    }
  }

  lemma ExampleSecondBranch(nodes: seq<RegexNode>)
    requires nodes == [RegexChar('a'), RegexChar('b')]
    ensures AlternationBranches(nodes, 1, AfterA, 0, 1) == AfterB
  {
    var sb := BuildNode(RegexChar('b'), AfterA);
    assert sb == Fragment(Nfa(AfterA.trans + [[ExampleB], []]), 4, 5);
    var b1 := AddTransitions(sb.nfa, 0, [Epsilon(4)]);
    assert [Epsilon(2)] + [Epsilon(4)] == [Epsilon(2), Epsilon(4)];
    assert b1.trans == [[Epsilon(2), Epsilon(4)], [], [ExampleA], [Epsilon(1)], [ExampleB], []] by {
      assert b1.trans[0] == [Epsilon(2), Epsilon(4)] && b1.trans[1] == [] && b1.trans[2] == [ExampleA];
      assert b1.trans[3] == [Epsilon(1)] && b1.trans[4] == [ExampleB] && b1.trans[5] == [];
    }
    var n2 := AddTransitions(b1, 5, [Epsilon(1)]);
    assert [] + [Epsilon(1)] == [Epsilon(1)];
    assert n2.trans == AfterB.trans by {
      assert n2.trans[0] == [Epsilon(2), Epsilon(4)] && n2.trans[1] == [] && n2.trans[2] == [ExampleA];
      assert n2.trans[3] == [Epsilon(1)] && n2.trans[4] == [ExampleB] && n2.trans[5] == [Epsilon(1)];
    }
    assert AlternationBranches(nodes, 2, AfterB, 0, 1) == AfterB;
  }

  lemma ExampleAlternation(nodes: seq<RegexNode>)
    requires nodes == [RegexChar('a'), RegexChar('b')]
    ensures BuildAlternation(nodes, Nfa([])) == Fragment(AfterB, 0, 1)
  {
    var none: seq<seq<Transition>> := [];
    var one: seq<seq<Transition>> := [[]];
    assert none + [[]] == one;
    assert one + [[]] == [[], []];
    assert CreateState(Nfa(none)) == (Nfa([[]]), 0);
    assert CreateState(Nfa([[]])) == (Nfa([[], []]), 1);
    assert BuildAlternation(nodes, Nfa([])) == Fragment(AlternationBranches(nodes, 0, Nfa([[], []]), 0, 1), 0, 1);
    ExampleFirstBranch(nodes);
    ExampleSecondBranch(nodes);
  }

  /** The automaton of a|b: the shared start and end are states 0 and 1, then each branch's pair. */
  lemma AlternationExample()
    ensures Build(Alternation([RegexChar('a'), RegexChar('b')])) == Built(AfterB, 0, 1)
  {
    ExampleAlternation([RegexChar('a'), RegexChar('b')]);
  }
}

=== FILE: parse_result.dfy ===
/**
 * The syntax nodes of the extensible parser and its `Result`: a success
 * carries a node and the position after it, a failure has position -1; both
 * carry the furthest position at which a failure was seen.
 */
module ParseResults {
  import opened Wrappers

  /** The node records the parser builds, each spanning [startPos, endPos). */
  datatype Node =
    | TerminalNode(kind: string, startPos: int, endPos: int, contentLength: int, isRecovery: bool)
    | SeqNode(kind: string, elements: seq<Node>, startPos: int, endPos: int)
    | ListNode(kind: string, elements: seq<Node>, delimiters: seq<Node>, startPos: int, endPos: int)
    | SomeNode(kind: string, value: Node, startPos: int, endPos: int)
    | NoneNode(kind: string, startPos: int, endPos: int)
    | PredicateNode(kind: string, startPos: int, endPos: int)

  /**
   * Result. The node is only reachable through the success accessors; a
   * result built by `Failure` has none.
   */
  datatype ParseResult = ParseResult(newPos: int, maxFailPos: int, node: Option<Node>)
  {
    /** IsSuccess: a non-negative new position. */
    predicate IsSuccess() {
      newPos >= 0
    }
  }

  /** Result.Success. */
  function Success(node: Node, newPos: int, maxFailPos: int): (r: ParseResult)
    ensures r.newPos == newPos && r.maxFailPos == maxFailPos && r.node == Some(node)
    ensures r.IsSuccess() <==> newPos >= 0
  {
    ParseResult(newPos, maxFailPos, Some(node))
  }

  /** Result.Failure: position -1, no node, and the given failure position. */
  function Failure(failPos: int): (r: ParseResult)
    ensures r.newPos == -1 && r.maxFailPos == failPos && r.node.None?
    ensures !r.IsSuccess()
  {
    ParseResult(-1, failPos, None)
  }

  /** The three outputs of TryGetSuccess: the verdict, the node and the new position. */
  datatype SuccessView = SuccessView(ok: bool, node: Option<Node>, newPos: int)

  /**
   * TryGetSuccess: the node and position of a success; on a failure no node
   * and position -1.
   */
  function TryGetSuccess(r: ParseResult): (v: SuccessView)
    ensures v.ok <==> r.IsSuccess()
    ensures v.ok ==> v.node == r.node && v.newPos == r.newPos && v.newPos >= 0
    ensures !v.ok ==> v.node.None? && v.newPos == -1
  {
    if r.newPos >= 0 then SuccessView(true, r.node, r.newPos) else SuccessView(false, None, -1)
  }

  /** GetErrorOrDefault: no message on a success, "Error" otherwise. */
  function GetErrorOrDefault(r: ParseResult): (e: Option<string>)
    ensures e.None? <==> r.IsSuccess()
    ensures e.Some? ==> e.value == "Error"
  {
    if r.newPos >= 0 then None else Some("Error")
  }

  /** GetError: asking a success for its error is an invalid cast. */
  function GetError(r: ParseResult): (e: Result<string>)
    ensures e.Throw? <==> r.IsSuccess()
    ensures e.Throw? ==> e.exception == InvalidCast
    ensures e.Ok? ==> e.value == "Error"
  {
    if r.newPos >= 0 then Throw(InvalidCast) else Ok("Error")
  }

  /** TryGetFailed: the verdict and, on a failure, the message "Error". */
  function TryGetFailed(r: ParseResult): (f: (bool, Option<string>))
    ensures f.0 <==> !r.IsSuccess()
    ensures f.1 == GetErrorOrDefault(r)
  {
    if r.newPos < 0 then (true, Some("Error")) else (false, None)
  }

  /** WithPrefixOnly: a copy of the argument, whatever the receiver. */
  function WithPrefixOnly(self: ParseResult, result: ParseResult): (r: ParseResult)
    ensures r.newPos == result.newPos && r.maxFailPos == result.maxFailPos && r.node == result.node
  {
    ParseResult(result.newPos, result.maxFailPos, result.node)
  }

  /** A success reads back as the node and position it was built from. */
  lemma SuccessReadsBack(node: Node, newPos: int, maxFailPos: int)
    requires newPos >= 0
    ensures TryGetSuccess(Success(node, newPos, maxFailPos)) == SuccessView(true, Some(node), newPos)
    ensures !TryGetFailed(Success(node, newPos, maxFailPos)).0
    ensures GetError(Success(node, newPos, maxFailPos)) == Throw(InvalidCast)
  {
  }

  /** A failure reads back as no node, position -1 and the message "Error". */
  lemma FailureReadsBack(failPos: int)
    ensures TryGetSuccess(Failure(failPos)) == SuccessView(false, None, -1)
    ensures TryGetFailed(Failure(failPos)) == (true, Some("Error"))
    ensures GetError(Failure(failPos)) == Ok("Error")
  {
  }

  /** Exactly one of TryGetSuccess and TryGetFailed reports true. */
  lemma SuccessOrFailed(r: ParseResult)
    ensures TryGetSuccess(r).ok != TryGetFailed(r).0
  {
  }
}

=== FILE: parser.dfy ===
/**
 * The extensible parser: memoised top-down operator-precedence parsing of
 * rules split into prefixes and postfixes, with error-position tracking and
 * a recovery mode entered at the furthest error.
 *
 * The parser object's mutable fields are the `State` threaded through every
 * call. The grammar may make the source loop or recurse without end (a
 * repetition of something that matches nothing, a rule that refers to
 * itself at the same position); `fuel` bounds every loop iteration and
 * every nested rule, and `OutOfFuel` stands for a run that did not finish
 * within it.
 */
module Parser {
  import opened Wrappers
  import opened Rules
  import opened ParseResults
  import TextPosition

  datatype MemoKey = MemoKey(pos: int, rule: string, precedence: int)

  /** ErrorPos, the expected terminals, the recovery position and the memo table. */
  datatype State = State(errorPos: int, expected: set<Terminal>, recoverySkipPos: int, memo: map<MemoKey, ParseResult>)

  /** The trivia terminal, the TDOPP rule table and the custom terminals' matchers. */
  datatype Config = Config(trivia: Terminal, tdopp: map<string, TdoppRule>, matchers: Matchers)

  /** How a call ended: with a value and the state after it, an exception, or out of fuel. */
  datatype Run<T> = Ran(value: T, state: State) | Raised(exception: Exception) | OutOfFuel

  function Stop<A, B>(r: Run<A>): (s: Run<B>)
    requires !r.Ran?
    ensures !s.Ran?
  {
    if r.Raised? then Raised(r.exception) else OutOfFuel
  }

  function Max(a: int, b: int): (m: int)
    ensures m >= a && m >= b && (m == a || m == b)
  {
    if b > a then b else a
  }

  // ---------------------------------------------------------------------
  // Invariants every parse function keeps
  // ---------------------------------------------------------------------

  /** A success carries a node and never ends before where it started. */
  predicate Good(r: ParseResult, startPos: int) {
    r.IsSuccess() ==> r.node.Some? && r.newPos >= startPos
  }

  /** Every memoised result is good for the position it was stored under. */
  predicate MemoOk(st: State) {
    forall k | k in st.memo :: Good(st.memo[k], k.pos)
  }

  /**
   * What every parse function promises when it finishes: memo entries stay
   * good, its own result is good, and ErrorPos has not moved back.
   */
  predicate Sound(r: Run<ParseResult>, startPos: int, st: State) {
    r.Ran? ==> MemoOk(r.state) && Good(r.value, startPos) && r.state.errorPos >= st.errorPos
  }

  /** The node of a good success. */
  function NodeOf(r: ParseResult, startPos: int): Node
    requires Good(r, startPos) && r.IsSuccess()
  {
    r.node.value
  }

  // ---------------------------------------------------------------------
  // Terminals
  // ---------------------------------------------------------------------

  /**
   * A terminal failed at `startPos`: at the error position it joins the
   * expected set; beyond it the set restarts with it alone and ErrorPos
   * moves there; before it nothing changes.
   */
  function RecordFailure(st: State, t: Terminal, startPos: int): (s: State)
    ensures startPos > st.errorPos ==> s.errorPos == startPos && s.expected == {t}
    ensures startPos == st.errorPos ==> s.errorPos == st.errorPos && s.expected == st.expected + {t}
    ensures startPos < st.errorPos ==> s.errorPos == st.errorPos && s.expected == st.expected
    ensures s.memo == st.memo && s.recoverySkipPos == st.recoverySkipPos
  {
    if startPos >= st.errorPos then
      if startPos > st.errorPos then st.(expected := {t}, errorPos := startPos)
      else st.(expected := st.expected + {t})
    else st
  }

  /** Trailing trivia is skipped only when it matches something. */
  function TriviaSkip(length: int): (n: nat)
    ensures length > 0 ==> n == length
    ensures length <= 0 ==> n == 0
  {
    if length > 0 then length else 0
  }

  /**
   * ParseTerminal. A mismatch records the terminal and fails at `startPos`;
   * a match yields a terminal node spanning the content and the trivia
   * after it, and leaves the state as it was.
   */
  function ParseTerminal(cfg: Config, t: Terminal, startPos: int, input: string, st: State): (r: Run<ParseResult>)
    requires MemoOk(st)
    ensures Sound(r, startPos, st)
    ensures var m := TryMatch(cfg.matchers, t, input, startPos);
      && (m.Throw? ==> r == Raised(m.exception))
      && (m.Ok? && m.value < 0 ==> r == Ran(Failure(startPos), RecordFailure(st, t, startPos)))
      && (m.Ok? && m.value >= 0 && r.Ran? ==>
            && r.state == st && r.value.newPos >= startPos + m.value
            && r.value.maxFailPos == r.value.newPos
            && r.value.node == Some(TerminalNode(t.kind, startPos, r.value.newPos, m.value, t.IsRecovery())))
    ensures var m := TryMatch(cfg.matchers, t, input, startPos);
      m.Ok? && m.value >= 0 ==> var tm := TryMatch(cfg.matchers, cfg.trivia, input, startPos + m.value);
        (tm.Throw? ==> r == Raised(tm.exception))
        && (tm.Ok? ==> r.Ran? && r.value.newPos == startPos + m.value + TriviaSkip(tm.value))
  {
    var content := TryMatch(cfg.matchers, t, input, startPos);
    if content.Throw? then Raised(content.exception)
    else if content.value < 0 then Ran(Failure(startPos), RecordFailure(st, t, startPos))
    else
      var afterContent := startPos + content.value;
      var trivia := TryMatch(cfg.matchers, cfg.trivia, input, afterContent);
      if trivia.Throw? then Raised(trivia.exception)
      else
        var endPos := afterContent + TriviaSkip(trivia.value);
        Ran(Success(TerminalNode(t.kind, startPos, endPos, content.value, t.IsRecovery()), endPos, endPos), st)
  }

  /**
   * A literal terminal inside the input succeeds exactly when the literal
   * occurs at `startPos`, and its node then holds the literal's length.
   */
  lemma LiteralTerminalMatchesIffOccurs(cfg: Config, value: string, kind: string, startPos: int, input: string, st: State)
    requires MemoOk(st) && 0 <= startPos <= |input|
    requires cfg.trivia.EmptyTerminal?
    ensures var r := ParseTerminal(cfg, Literal(value, kind), startPos, input, st);
      r.Ran? && (r.value.IsSuccess() <==> OccursAt(input, startPos, value))
      && (r.value.IsSuccess() ==> r.value.newPos == startPos + |value| && r.value.node.value.contentLength == |value|)
      && (!r.value.IsSuccess() ==> r.state.errorPos == Max(st.errorPos, startPos))
  {
  }

  // ---------------------------------------------------------------------
  // Choosing a postfix
  // ---------------------------------------------------------------------

  /**
   * A postfix applies at `minPrecedence` when it binds tighter, or equally
   * tight and right-associative.
   */
  predicate IsApplicable(p: RuleWithPrecedence, minPrecedence: int) {
    p.precedence > minPrecedence || (p.precedence == minPrecedence && p.right)
  }

  /** A postfix that parsed, with the node it built and where it ended. */
  datatype Candidate = Candidate(postfix: RuleWithPrecedence, node: Node, pos: int)

  /** Whether `c` replaces the best so far (ending at `bestPos`): longer, or as long and left beating right. */
  predicate Replaces(c: Candidate, best: Option<Candidate>, bestPos: int) {
    c.pos > bestPos || (c.pos == bestPos && (best.None? || (!c.postfix.right && best.value.postfix.right)))
  }

  /** The choice of ProcessPostfix's inner loop over the candidates from index `k` on. */
  function ChooseFrom(cands: seq<Candidate>, k: nat, best: Option<nat>, bestPos: int): (r: Option<nat>)
    requires k <= |cands| && (best.Some? ==> best.value < k && cands[best.value].pos == bestPos)
    ensures r.Some? ==> r.value < |cands|
    decreases |cands| - k
  {
    if k == |cands| then best
    else
      var b := if best.Some? then Some(cands[best.value]) else None;
      if Replaces(cands[k], b, bestPos) then ChooseFrom(cands, k + 1, Some(k), cands[k].pos)
      else ChooseFrom(cands, k + 1, best, bestPos)
  }

  /** The postfix ProcessPostfix takes among candidates, starting from position `startPos`. */
  function Choose(cands: seq<Candidate>, startPos: int): (r: Option<nat>)
    ensures r.Some? ==> r.value < |cands|
  {
    ChooseFrom(cands, 0, None, startPos)
  }

  /**
   * The chosen one so far: the longest of the first `k` candidates (none
   * when all end before `bestPos`), the first left-associative among the
   * longest when there is one, else the first of the longest.
   */
  predicate ChosenAmong(cands: seq<Candidate>, k: nat, best: Option<nat>, startPos: int, bestPos: int)
    requires k <= |cands|
  {
    && (best.None? ==> bestPos == startPos && forall j | 0 <= j < k :: cands[j].pos < startPos)
    && (best.Some? ==> && best.value < k && cands[best.value].pos == bestPos && bestPos >= startPos
                       && (forall j | 0 <= j < k :: cands[j].pos <= bestPos)
                       && (forall j | 0 <= j < best.value && cands[j].pos == bestPos ::
                             cands[j].postfix.right && !cands[best.value].postfix.right)
                       && (cands[best.value].postfix.right ==>
                             forall j | 0 <= j < k && cands[j].pos == bestPos :: cands[j].postfix.right))
  }

  lemma {:induction false} ChooseFromIsChosen(cands: seq<Candidate>, k: nat, best: Option<nat>, startPos: int, bestPos: int)
    requires k <= |cands| && ChosenAmong(cands, k, best, startPos, bestPos)
    ensures ChosenAmong(cands, |cands|, ChooseFrom(cands, k, best, bestPos), startPos,
      if ChooseFrom(cands, k, best, bestPos).Some? then cands[ChooseFrom(cands, k, best, bestPos).value].pos else startPos)
    decreases |cands| - k
  {
    if k < |cands| {
      var b := if best.Some? then Some(cands[best.value]) else None;
      if Replaces(cands[k], b, bestPos) {
        ChooseFromIsChosen(cands, k + 1, Some(k), startPos, cands[k].pos);
      } else {
        ChooseFromIsChosen(cands, k + 1, best, startPos, bestPos);
      }
    }
  }

  /**
   * The longest candidate wins; among the longest the first
   * left-associative one wins, and the first of them when all are
   * right-associative; with no candidate reaching `startPos` none is taken.
   */
  lemma ChooseIsLongestLeftFirst(cands: seq<Candidate>, startPos: int)
    ensures var r := Choose(cands, startPos);
      && (r.None? <==> forall j | 0 <= j < |cands| :: cands[j].pos < startPos)
      && (r.Some? ==> cands[r.value].pos >= startPos && forall j | 0 <= j < |cands| :: cands[j].pos <= cands[r.value].pos)
      && (r.Some? ==> forall j | 0 <= j < r.value && cands[j].pos == cands[r.value].pos ::
            cands[j].postfix.right && !cands[r.value].postfix.right)
      && (r.Some? && cands[r.value].postfix.right ==>
            forall j | 0 <= j < |cands| && cands[j].pos == cands[r.value].pos :: cands[j].postfix.right)
  {
    ChooseFromIsChosen(cands, 0, None, startPos, startPos);
  }

  // ---------------------------------------------------------------------
  // Accumulators of the loops
  // ---------------------------------------------------------------------

  /** ParseRule's loop: the best result so far, the position it reached and the furthest failure. */
  datatype PrefixAcc = PrefixAcc(best: Option<ParseResult>, maxPos: int, maxFailPos: int)

  /**
   * The best result so far is a good success ending at `maxPos`, and ends
   * after `startPos` unless it was taken at the recovery position.
   */
  predicate PrefixAccOk(a: PrefixAcc, startPos: int, isRecoveryPos: bool) {
    && (a.best.None? ==> a.maxPos == startPos)
    && (a.best.Some? ==> && Good(a.best.value, startPos) && a.best.value.IsSuccess() && a.best.value.newPos == a.maxPos
                         && (a.maxPos > startPos || isRecoveryPos))
  }

  /** A sequence's loop: the nodes so far (None before the first, for a postfix), the position and the furthest failure. */
  datatype Elements = Elements(nodes: Option<seq<Node>>, pos: int, maxFailPos: int)

  /** No predicate node among `ns`. */
  predicate NoPredicates(ns: seq<Node>) {
    forall k | 0 <= k < |ns| :: !ns[k].PredicateNode?
  }

  /**
   * The nodes a sequence's loop has kept: without a lead a list of
   * non-predicate nodes; with one, unset until the first node is kept and
   * then the lead followed by at least one non-predicate node.
   */
  predicate NodesOk(lead: Option<Node>, nodes: Option<seq<Node>>) {
    && (lead.None? ==> nodes.Some? && NoPredicates(nodes.value))
    && (lead.Some? && nodes.Some? ==> |nodes.value| >= 2 && nodes.value[0] == lead.value && NoPredicates(nodes.value[1..]))
  }

  /** The outcome of a loop over elements: all parsed, or the failure that stopped it. */
  datatype Collected = Collected(elements: Elements) | Stopped(failure: ParseResult)

  /** A separated list's loop: elements, delimiters, position, furthest failure, and whether it failed. */
  datatype ListAcc = ListAcc(elements: seq<Node>, delimiters: seq<Node>, pos: int, maxFailPos: int, failed: bool)

  /** Delimiters against elements as the end behaviour demands, for a list that is not empty. */
  predicate ListShape(b: EndBehavior, elements: seq<Node>, delimiters: seq<Node>) {
    && |elements| >= 1
    && (b.TrailingRequired? ==> |delimiters| == |elements|)
    && (b.TrailingForbidden? ==> |delimiters| + 1 == |elements|)
    && (b.TrailingOptional? ==> |delimiters| == |elements| || |delimiters| + 1 == |elements|)
  }

  // ---------------------------------------------------------------------
  // Rules
  // ---------------------------------------------------------------------

  /**
   * ParseRule. A memoised result is reused unless the recovery position
   * equals its furthest failure. Otherwise every prefix (the recovery ones
   * at the recovery position) is tried with its postfixes; a result
   * replaces the best one only when it ends further, or, at the recovery
   * position, when it is the first to end where the rule started. The
   * outcome is memoised; an unknown rule throws.
   */
  function ParseRule(cfg: Config, ruleName: string, minPrecedence: int, startPos: int, input: string, st: State, fuel: nat)
    : (r: Run<ParseResult>)
    requires MemoOk(st)
    ensures Sound(r, startPos, st)
    ensures r.Ran? ==>
      && MemoKey(startPos, ruleName, minPrecedence) in r.state.memo
      && r.state.memo[MemoKey(startPos, ruleName, minPrecedence)] == r.value
    ensures (r.Ran? && r.value.IsSuccess() && MemoKey(startPos, ruleName, minPrecedence) !in st.memo
             && startPos != st.recoverySkipPos) ==> r.value.newPos > startPos
    ensures ruleName !in cfg.tdopp && !(MemoKey(startPos, ruleName, minPrecedence) in st.memo) ==> r.Raised? && r.exception.InvalidData?
    decreases fuel, 6
  {
    var key := MemoKey(startPos, ruleName, minPrecedence);
    var isRecoveryPos := startPos == st.recoverySkipPos;
    if key in st.memo && st.recoverySkipPos != st.memo[key].maxFailPos then Ran(st.memo[key], st)
    else if ruleName !in cfg.tdopp then Raised(InvalidData("The rule '" + ruleName + "' does not exist."))
    else
      var t := cfg.tdopp[ruleName];
      var prefixes := if isRecoveryPos then t.recoveryPrefix else t.prefix;
      var loop := PrefixLoop(cfg, t, prefixes, 0, minPrecedence, startPos, isRecoveryPos, input, st, PrefixAcc(None, startPos, startPos), fuel);
      if !loop.Ran? then Stop(loop)
      else
        var acc := loop.value;
        var result := if acc.best.Some? then acc.best.value else Failure(acc.maxFailPos);
        Ran(result, loop.state.(memo := loop.state.memo[key := result]))
  }

  /** ParseRule's loop over the prefixes from index `k`. */
  function PrefixLoop(cfg: Config, t: TdoppRule, prefixes: seq<Rule>, k: nat, minPrecedence: int, startPos: int,
                      isRecoveryPos: bool, input: string, st: State, acc: PrefixAcc, fuel: nat)
    : (r: Run<PrefixAcc>)
    requires k <= |prefixes| && MemoOk(st) && PrefixAccOk(acc, startPos, isRecoveryPos)
    ensures r.Ran? ==> MemoOk(r.state) && PrefixAccOk(r.value, startPos, isRecoveryPos) && r.state.errorPos >= st.errorPos
    decreases fuel, 5, |prefixes| - k
  {
    if k == |prefixes| then Ran(acc, st)
    else
      var pr := ParseAlternative(cfg, prefixes[k], startPos, input, st, fuel);
      if !pr.Ran? then Stop(pr)
      else
        var failPos := Max(acc.maxFailPos, pr.value.maxFailPos);
        if !pr.value.IsSuccess() then
          PrefixLoop(cfg, t, prefixes, k + 1, minPrecedence, startPos, isRecoveryPos, input, pr.state, acc.(maxFailPos := failPos), fuel)
        else
          var post := ProcessPostfix(cfg, t, NodeOf(pr.value, startPos), minPrecedence, pr.value.newPos, input, pr.state, pr.value.newPos, fuel);
          if !post.Ran? then Stop(post)
          else
            var p := post.value;
            var next :=
              if p.IsSuccess() && (p.newPos > acc.maxPos || (p.newPos == acc.maxPos && acc.best.None? && isRecoveryPos))
              then PrefixAcc(Some(p), p.newPos, failPos)
              else acc.(maxFailPos := failPos);
            PrefixLoop(cfg, t, prefixes, k + 1, minPrecedence, startPos, isRecoveryPos, input, post.state, next, fuel)
  }

  /**
   * ProcessPostfix: repeatedly extend `current` (ending at `pos`) with the
   * best applicable postfix; stop when none parses, or when the best one
   * ends at the recovery position, which ends recovery and keeps `current`.
   * The result is always a success at the last position reached.
   */
  function ProcessPostfix(cfg: Config, t: TdoppRule, current: Node, minPrecedence: int, pos: int, input: string,
                          st: State, maxFailPos: int, fuel: nat)
    : (r: Run<ParseResult>)
    requires MemoOk(st)
    ensures Sound(r, pos, st)
    ensures r.Ran? ==> r.value.node.Some? && r.value.newPos >= pos
    decreases fuel, 4
  {
    var isRecoveryPos := pos == st.recoverySkipPos;
    var postfixes := if isRecoveryPos then t.recoveryPostfix else t.postfix;
    var found := PostfixCandidates(cfg, postfixes, 0, minPrecedence, current, pos, input, st, [], maxFailPos, fuel);
    if !found.Ran? then Stop(found)
    else
      var (cands, failPos) := found.value;
      var choice := Choose(cands, pos);
      if choice.None? then Ran(Success(current, pos, failPos), found.state)
      else
        ChooseIsLongestLeftFirst(cands, pos);
        var best := cands[choice.value];
        if best.pos == found.state.recoverySkipPos then
          Ran(Success(current, pos, failPos), found.state.(recoverySkipPos := -1))
        else if fuel == 0 then OutOfFuel
        else
          var rest := ProcessPostfix(cfg, t, best.node, minPrecedence, best.pos, input, found.state, failPos, fuel - 1);
          rest
  }

  /**
   * ProcessPostfix's inner loop from index `k`: every applicable postfix is
   * tried at `pos`; the ones that parse are collected in order, and every
   * attempt's furthest failure is taken into account.
   */
  function PostfixCandidates(cfg: Config, postfixes: seq<RuleWithPrecedence>, k: nat, minPrecedence: int, current: Node,
                             pos: int, input: string, st: State, cands: seq<Candidate>, maxFailPos: int, fuel: nat)
    : (r: Run<(seq<Candidate>, int)>)
    requires k <= |postfixes| && MemoOk(st)
    requires forall j | 0 <= j < |cands| :: cands[j].pos >= pos && IsApplicable(cands[j].postfix, minPrecedence)
    ensures r.Ran? ==> MemoOk(r.state) && r.state.errorPos >= st.errorPos
    ensures r.Ran? ==> forall j | 0 <= j < |r.value.0| :: r.value.0[j].pos >= pos && IsApplicable(r.value.0[j].postfix, minPrecedence)
    decreases fuel, 3, |postfixes| - k
  {
    if k == |postfixes| then Ran((cands, maxFailPos), st)
    else if !IsApplicable(postfixes[k], minPrecedence) then
      PostfixCandidates(cfg, postfixes, k + 1, minPrecedence, current, pos, input, st, cands, maxFailPos, fuel)
    else
      var tried := TryParsePostfix(cfg, postfixes[k], current, pos, input, st, fuel);
      if !tried.Ran? then Stop(tried)
      else
        var res := tried.value;
        var failPos := Max(maxFailPos, res.maxFailPos);
        var more := if res.IsSuccess() then cands + [Candidate(postfixes[k], NodeOf(res, pos), res.newPos)] else cands;
        PostfixCandidates(cfg, postfixes, k + 1, minPrecedence, current, pos, input, tried.state, more, failPos, fuel)
  }

  /**
   * TryParsePostfix: the postfix's elements in order after `current`; the
   * first failure is returned as it is. The node built is a sequence of
   * `current` and the element nodes, predicates left out, spanning from
   * `current`'s start; a postfix whose elements give no node at all leaves
   * the list unset and reading its count throws.
   */
  function TryParsePostfix(cfg: Config, postfix: RuleWithPrecedence, current: Node, pos: int, input: string, st: State, fuel: nat)
    : (r: Run<ParseResult>)
    requires MemoOk(st)
    ensures Sound(r, pos, st)
    ensures r.Ran? && r.value.IsSuccess() ==> var n := r.value.node.value;
      n.SeqNode? && n.kind == postfix.kind && |n.elements| >= 2 && n.elements[0] == current
      && NoPredicates(n.elements[1..]) && n.startPos == current.startPos && n.endPos == r.value.newPos
    ensures postfix.elements == [] ==> r == Raised(NullReference)
    decreases fuel, 2
  {
    var loop := CollectElements(cfg, postfix.elements, 0, Some(current), input, st, Elements(None, pos, pos), pos, fuel);
    if !loop.Ran? then Stop(loop)
    else
      match loop.value
      case Stopped(failure) => Ran(failure, loop.state)
      case Collected(e) =>
        if e.nodes.None? then Raised(NullReference)
        else Ran(Success(SeqNode(postfix.kind, e.nodes.value, current.startPos, e.pos), e.pos, e.maxFailPos), loop.state)
  }

  /**
   * The element loop of a sequence, from index `k`. Predicate nodes are
   * dropped. For a postfix, `lead` is the node the first kept element is
   * preceded by; for a plain sequence it is None and the list starts empty.
   */
  function CollectElements(cfg: Config, elements: seq<Rule>, k: nat, lead: Option<Node>, input: string, st: State,
                           acc: Elements, startPos: int, fuel: nat)
    : (r: Run<Collected>)
    requires k <= |elements| && MemoOk(st) && acc.pos >= startPos
    requires NodesOk(lead, acc.nodes)
    ensures r.Ran? ==> MemoOk(r.state) && r.state.errorPos >= st.errorPos
    ensures r.Ran? && r.value.Stopped? ==> Good(r.value.failure, startPos) && !r.value.failure.IsSuccess()
    ensures r.Ran? && r.value.Collected? ==> r.value.elements.pos >= startPos && NodesOk(lead, r.value.elements.nodes)
    ensures r.Ran? && r.value.Collected? && acc.nodes.Some? ==> r.value.elements.nodes.Some?
    decreases fuel, 1, |elements| - k
  {
    if k == |elements| then Ran(Collected(acc), st)
    else
      var res := ParseAlternative(cfg, elements[k], acc.pos, input, st, fuel);
      if !res.Ran? then Stop(res)
      else
        var failPos := Max(acc.maxFailPos, res.value.maxFailPos);
        if !res.value.IsSuccess() then Ran(Stopped(res.value), res.state)
        else
          var node := NodeOf(res.value, acc.pos);
          var nodes :=
            if node.PredicateNode? then acc.nodes
            else if acc.nodes.None? then Some([lead.value, node])
            else Some(acc.nodes.value + [node]);
          assert NodesOk(lead, nodes) by {
            if nodes.Some? && !node.PredicateNode? && acc.nodes.Some? && lead.Some? {
              assert nodes.value[1..] == acc.nodes.value[1..] + [node];
            }
          }
          CollectElements(cfg, elements, k + 1, lead, input, res.state, Elements(nodes, res.value.newPos, failPos), startPos, fuel)
  }

  /**
   * ParseSeq: the elements in order; the first failure is returned as it
   * is. A single kept node is returned itself, any other number is wrapped
   * in a sequence node; predicate nodes are never kept.
   */
  function ParseSeq(cfg: Config, rule: Rule, startPos: int, input: string, st: State, fuel: nat): (r: Run<ParseResult>)
    requires rule.Seq? && MemoOk(st)
    ensures Sound(r, startPos, st)
    ensures r.Ran? && r.value.IsSuccess() && r.value.node.Some? ==> !r.value.node.value.PredicateNode?
    decreases fuel, 2
  {
    var loop := CollectElements(cfg, rule.elements, 0, None, input, st, Elements(Some([]), startPos, startPos), startPos, fuel);
    if !loop.Ran? then Stop(loop)
    else
      match loop.value
      case Stopped(failure) => Ran(failure, loop.state)
      case Collected(e) =>
        var nodes := e.nodes.value;
        if |nodes| == 1 then Ran(Success(nodes[0], e.pos, e.maxFailPos), loop.state)
        else Ran(Success(SeqNode(rule.kind, nodes, startPos, e.pos), e.pos, e.maxFailPos), loop.state)
  }

  // ---------------------------------------------------------------------
  // Repetitions, options and predicates
  // ---------------------------------------------------------------------

  /** The loop of OneOrMany and ZeroOrMany: parse `element` until it fails. */
  function Repeat(cfg: Config, element: Rule, input: string, st: State, nodes: seq<Node>, pos: int, maxFailPos: int,
                  startPos: int, fuel: nat)
    : (r: Run<(seq<Node>, int, int)>)
    requires MemoOk(st) && pos >= startPos
    ensures r.Ran? ==> MemoOk(r.state) && r.state.errorPos >= st.errorPos
    ensures r.Ran? ==> r.value.1 >= pos && |r.value.0| >= |nodes| && r.value.0[..|nodes|] == nodes
    decreases fuel, 1
  {
    var res := ParseAlternative(cfg, element, pos, input, st, fuel);
    if !res.Ran? then Stop(res)
    else
      var failPos := Max(maxFailPos, res.value.maxFailPos);
      if !res.value.IsSuccess() then Ran((nodes, pos, failPos), res.state)
      else if fuel == 0 then OutOfFuel
      else
        var more := nodes + [NodeOf(res.value, pos)];
        var rest := Repeat(cfg, element, input, res.state, more, res.value.newPos, failPos, startPos, fuel - 1);
        assert more[..|nodes|] == nodes;
        assert rest.Ran? ==> rest.value.0[..|nodes|] == rest.value.0[..|more|][..|nodes|];
        rest
  }

  /** ParseOneOrMany: one element is required, then as many as parse. */
  function ParseOneOrMany(cfg: Config, rule: Rule, startPos: int, input: string, st: State, fuel: nat): (r: Run<ParseResult>)
    requires rule.OneOrMany? && MemoOk(st)
    ensures Sound(r, startPos, st)
    ensures r.Ran? && r.value.IsSuccess() ==> var n := r.value.node.value;
      n.SeqNode? && n.kind == rule.kind && |n.elements| >= 1 && n.startPos == startPos && n.endPos == r.value.newPos
    decreases fuel, 2
  {
    var first := ParseAlternative(cfg, rule.element, startPos, input, st, fuel);
    if !first.Ran? then Stop(first)
    else if !first.value.IsSuccess() then Ran(Failure(first.value.maxFailPos), first.state)
    else
      var loop := Repeat(cfg, rule.element, input, first.state, [NodeOf(first.value, startPos)], first.value.newPos,
                         first.value.maxFailPos, startPos, fuel);
      if !loop.Ran? then Stop(loop)
      else
        var (nodes, pos, failPos) := loop.value;
        Ran(Success(SeqNode(rule.kind, nodes, startPos, pos), pos, failPos), loop.state)
  }

  /** ParseZeroOrMany: as many elements as parse, possibly none; never fails. */
  function ParseZeroOrMany(cfg: Config, rule: Rule, startPos: int, input: string, st: State, fuel: nat): (r: Run<ParseResult>)
    requires rule.ZeroOrMany? && MemoOk(st)
    ensures Sound(r, startPos, st)
    ensures r.Ran? ==> r.value.newPos >= startPos && r.value.node.Some?
    ensures r.Ran? ==> var n := r.value.node.value;
      n.SeqNode? && n.kind == rule.kind && n.startPos == startPos && n.endPos == r.value.newPos
    decreases fuel, 2
  {
    var loop := Repeat(cfg, rule.element, input, st, [], startPos, startPos, startPos, fuel);
    if !loop.Ran? then Stop(loop)
    else
      var (nodes, pos, failPos) := loop.value;
      Ran(Success(SeqNode(rule.kind, nodes, startPos, pos), pos, failPos), loop.state)
  }

  /** ParseOptional: the element's node wrapped as Some, or None at `startPos`; never fails. */
  function ParseOptional(cfg: Config, rule: Rule, startPos: int, input: string, st: State, fuel: nat): (r: Run<ParseResult>)
    requires rule.Optional? && MemoOk(st)
    ensures Sound(r, startPos, st)
    ensures r.Ran? ==> r.value.node.Some? && (r.value.node.value.SomeNode? || r.value.node.value.NoneNode?)
    ensures r.Ran? && r.value.node.value.NoneNode? ==> r.value.newPos == startPos
    decreases fuel, 1
  {
    var res := ParseAlternative(cfg, rule.element, startPos, input, st, fuel);
    if !res.Ran? then Stop(res)
    else if res.value.IsSuccess() then
      Ran(Success(SomeNode(rule.kind, NodeOf(res.value, startPos), startPos, res.value.newPos), res.value.newPos, res.value.maxFailPos), res.state)
    else Ran(Success(NoneNode(rule.kind, startPos, startPos), startPos, res.value.maxFailPos), res.state)
  }

  /**
   * ParseOftenMissed: the element's own result, except that a failure at
   * the recovery position becomes an empty recovery terminal node. The
   * recovery position is read after the element has been parsed, which may
   * have reset it.
   */
  function ParseOftenMissed(cfg: Config, rule: Rule, startPos: int, input: string, st: State, fuel: nat): (r: Run<ParseResult>)
    requires rule.OftenMissed? && MemoOk(st)
    ensures Sound(r, startPos, st)
    ensures var inner := ParseAlternative(cfg, rule.element, startPos, input, st, fuel);
      && (r.Ran? <==> inner.Ran?)
      && (r.Ran? ==> r.state == inner.state)
      && (r.Ran? && (inner.value.IsSuccess() || startPos != inner.state.recoverySkipPos) ==> r.value == inner.value)
      && (r.Ran? && !inner.value.IsSuccess() && startPos == inner.state.recoverySkipPos ==>
            && (r.value.IsSuccess() <==> startPos >= 0) && r.value.newPos == startPos && r.value.maxFailPos == inner.value.maxFailPos
            && r.value.node == Some(TerminalNode(rule.kind, startPos, startPos, 0, true)))
    decreases fuel, 1
  {
    var res := ParseAlternative(cfg, rule.element, startPos, input, st, fuel);
    if !res.Ran? then Stop(res)
    else if !res.value.IsSuccess() && startPos == res.state.recoverySkipPos then
      Ran(Success(TerminalNode(rule.kind, startPos, startPos, 0, true), startPos, res.value.maxFailPos), res.state)
    else res
  }

  /**
   * ParseAndPredicate / ParseNotPredicate: the inner rule is tried and
   * ErrorPos put back; the predicate succeeds without consuming anything
   * exactly when the inner rule succeeds (And) or fails (Not).
   */
  function ParsePredicate(cfg: Config, rule: Rule, startPos: int, input: string, st: State, fuel: nat): (r: Run<ParseResult>)
    requires (rule.AndPredicate? || rule.NotPredicate?) && MemoOk(st)
    ensures Sound(r, startPos, st)
    ensures var inner := ParseAlternative(cfg, rule.predicateRule, startPos, input, st, fuel);
      && (r.Ran? <==> inner.Ran?)
      && (r.Ran? ==> r.state == inner.state.(errorPos := st.errorPos))
      && (r.Ran? && inner.value.IsSuccess() == rule.AndPredicate? ==>
            r.value.newPos == startPos && r.value.node == Some(PredicateNode(rule.Kind(), startPos, startPos)))
      && (r.Ran? && inner.value.IsSuccess() != rule.AndPredicate? ==> r.value == Failure(startPos))
    decreases fuel, 1
  {
    var res := ParseAlternative(cfg, rule.predicateRule, startPos, input, st, fuel);
    if !res.Ran? then Stop(res)
    else
      var restored := res.state.(errorPos := st.errorPos);
      if res.value.IsSuccess() == rule.AndPredicate? then
        Ran(Success(PredicateNode(rule.Kind(), startPos, startPos), startPos, res.value.maxFailPos), restored)
      else Ran(Failure(startPos), restored)
  }

  // ---------------------------------------------------------------------
  // Separated lists
  // ---------------------------------------------------------------------

  /**
   * The loop of ParseSeparatedList after the first element: a separator
   * then an element, until one fails. A missing separator fails the list
   * when one is required at the end; a separator with no element after it
   * fails the list when a trailing separator is forbidden, and otherwise
   * stays consumed.
   */
  function ListLoop(cfg: Config, rule: Rule, input: string, st: State, acc: ListAcc, startPos: int, fuel: nat)
    : (r: Run<ListAcc>)
    requires rule.SeparatedList? && MemoOk(st) && acc.pos >= startPos && !acc.failed
    requires |acc.delimiters| + 1 == |acc.elements|
    ensures r.Ran? ==> MemoOk(r.state) && r.state.errorPos >= st.errorPos && r.value.pos >= startPos
    ensures r.Ran? && !r.value.failed ==> ListShape(rule.endBehavior, r.value.elements, r.value.delimiters)
    decreases fuel, 1
  {
    var sep := ParseAlternative(cfg, rule.separator, acc.pos, input, st, fuel);
    if !sep.Ran? then Stop(sep)
    else
      var failPos := Max(acc.maxFailPos, sep.value.maxFailPos);
      if !sep.value.IsSuccess() then
        if rule.endBehavior.TrailingRequired? then Ran(acc.(maxFailPos := failPos, failed := true), sep.state)
        else Ran(acc.(maxFailPos := failPos), sep.state)
      else
        var withSep := acc.(delimiters := acc.delimiters + [NodeOf(sep.value, acc.pos)], pos := sep.value.newPos, maxFailPos := failPos);
        var elem := ParseAlternative(cfg, rule.element, withSep.pos, input, sep.state, fuel);
        if !elem.Ran? then Stop(elem)
        else
          var failPos2 := Max(failPos, elem.value.maxFailPos);
          if !elem.value.IsSuccess() then
            if rule.endBehavior.TrailingForbidden? then Ran(withSep.(maxFailPos := failPos2, failed := true), elem.state)
            else Ran(withSep.(maxFailPos := failPos2), elem.state)
          else if fuel == 0 then OutOfFuel
          else
            var next := withSep.(elements := acc.elements + [NodeOf(elem.value, withSep.pos)], pos := elem.value.newPos, maxFailPos := failPos2);
            ListLoop(cfg, rule, input, elem.state, next, startPos, fuel - 1)
  }

  /** A separated list node spanning [startPos, endPos). */
  predicate IsListNode(n: Node, kind: string, startPos: int, endPos: int) {
    n.ListNode? && n.kind == kind && n.startPos == startPos && n.endPos == endPos
  }

  /**
   * ParseSeparatedList. With no first element the list is empty at
   * `startPos` when allowed and fails otherwise. A success's delimiters
   * match its elements as the end behaviour demands: one per element when
   * required, one fewer when forbidden (and no separator may follow), either
   * when optional.
   */
  function ParseSeparatedList(cfg: Config, rule: Rule, startPos: int, input: string, st: State, fuel: nat): (r: Run<ParseResult>)
    requires rule.SeparatedList? && MemoOk(st)
    ensures Sound(r, startPos, st)
    ensures r.Ran? && r.value.IsSuccess() ==> var n := r.value.node.value;
      IsListNode(n, rule.kind, startPos, r.value.newPos)
      && (|n.elements| == 0 ==> rule.canBeEmpty && n.delimiters == [] && r.value.newPos == startPos)
      && (|n.elements| > 0 ==> ListShape(rule.endBehavior, n.elements, n.delimiters))
    ensures var first := ParseAlternative(cfg, rule.element, startPos, input, st, fuel);
      first.Ran? && !first.value.IsSuccess() ==>
        r == (if rule.canBeEmpty then Ran(Success(ListNode(rule.kind, [], [], startPos, startPos), startPos, startPos), first.state)
              else Ran(Failure(first.value.maxFailPos), first.state))
    decreases fuel, 2
  {
    var first := ParseAlternative(cfg, rule.element, startPos, input, st, fuel);
    if !first.Ran? then Stop(first)
    else if !first.value.IsSuccess() then
      if rule.canBeEmpty then Ran(Success(ListNode(rule.kind, [], [], startPos, startPos), startPos, startPos), first.state)
      else Ran(Failure(first.value.maxFailPos), first.state)
    else
      var acc := ListAcc([NodeOf(first.value, startPos)], [], first.value.newPos, first.value.maxFailPos, false);
      var loop := ListLoop(cfg, rule, input, first.state, acc, startPos, fuel);
      if !loop.Ran? then Stop(loop)
      else
        var a := loop.value;
        if a.failed then Ran(Failure(a.maxFailPos), loop.state)
        else if rule.endBehavior.TrailingForbidden? then
          var sep := ParseAlternative(cfg, rule.separator, a.pos, input, loop.state, fuel);
          if !sep.Ran? then Stop(sep)
          else
            var failPos := Max(a.maxFailPos, sep.value.maxFailPos);
            if sep.value.IsSuccess() then Ran(Failure(failPos), sep.state)
            else Ran(Success(ListNode(rule.kind, a.elements, a.delimiters, startPos, a.pos), a.pos, failPos), sep.state)
        else Ran(Success(ListNode(rule.kind, a.elements, a.delimiters, startPos, a.pos), a.pos, a.maxFailPos), loop.state)
  }

  // ---------------------------------------------------------------------
  // Dispatch
  // ---------------------------------------------------------------------

  /**
   * ParseAlternative: each rule to its parser; a Ref parses its rule at
   * precedence 0, a ReqRef at its own precedence.
   */
  function ParseAlternative(cfg: Config, rule: Rule, startPos: int, input: string, st: State, fuel: nat): (r: Run<ParseResult>)
    requires MemoOk(st)
    ensures Sound(r, startPos, st)
    decreases fuel, 0
  {
    if fuel == 0 then OutOfFuel
    else
      match rule
      case Term(t) => ParseTerminal(cfg, t, startPos, input, st)
      case Seq(_, _) => ParseSeq(cfg, rule, startPos, input, st, fuel - 1)
      case OneOrMany(_, _) => ParseOneOrMany(cfg, rule, startPos, input, st, fuel - 1)
      case ZeroOrMany(_, _) => ParseZeroOrMany(cfg, rule, startPos, input, st, fuel - 1)
      case ReqRef(name, precedence, _, _) => ParseRule(cfg, name, precedence, startPos, input, st, fuel - 1)
      case Ref(name, _) => ParseRule(cfg, name, 0, startPos, input, st, fuel - 1)
      case Optional(_, _) => ParseOptional(cfg, rule, startPos, input, st, fuel - 1)
      case OftenMissed(_, _) => ParseOftenMissed(cfg, rule, startPos, input, st, fuel - 1)
      case AndPredicate(_) => ParsePredicate(cfg, rule, startPos, input, st, fuel - 1)
      case NotPredicate(_) => ParsePredicate(cfg, rule, startPos, input, st, fuel - 1)
      case SeparatedList(_, _, _, _, _) => ParseSeparatedList(cfg, rule, startPos, input, st, fuel - 1)
  }

  // ---------------------------------------------------------------------
  // Re-parsing hits the memo
  // ---------------------------------------------------------------------

  /**
   * Once a rule has been parsed at a position, parsing it there again
   * returns the same result and changes nothing, unless the recovery
   * position is that result's furthest failure.
   */
  lemma ParseRuleIsMemoised(cfg: Config, ruleName: string, minPrecedence: int, startPos: int, input: string,
                            st: State, fuel: nat, fuel2: nat)
    requires MemoOk(st)
    ensures var r := ParseRule(cfg, ruleName, minPrecedence, startPos, input, st, fuel);
      r.Ran? && r.state.recoverySkipPos != r.value.maxFailPos ==>
        ParseRule(cfg, ruleName, minPrecedence, startPos, input, r.state, fuel2) == r
  {
  }

  // ---------------------------------------------------------------------
  // Repetitions are successive parses of their element
  // ---------------------------------------------------------------------

  /**
   * `nodes` are the nodes of successive successful parses of `element`,
   * from `pos` on, each starting where the previous one ended and in the
   * state it left; the parse at `endPos` that follows them fails. Each
   * parse after a success has one unit of fuel less.
   */
  predicate Successive(cfg: Config, element: Rule, input: string, st: State, pos: int, fuel: nat,
                       nodes: seq<Node>, endPos: int)
    decreases |nodes|
  {
    MemoOk(st) &&
    var res := ParseAlternative(cfg, element, pos, input, st, fuel);
    if nodes == [] then res.Ran? && !res.value.IsSuccess() && endPos == pos
    else
      && res.Ran? && res.value.IsSuccess() && res.value.node == Some(nodes[0]) && fuel > 0
      && Successive(cfg, element, input, res.state, res.value.newPos, fuel - 1, nodes[1..], endPos)
  }

  /**
   * The repetition loop keeps the nodes it was given and adds exactly the
   * successive parses of the element, stopping at the element's first
   * failure.
   */
  lemma {:induction false} RepeatIsSuccessive(cfg: Config, element: Rule, input: string, st: State, nodes: seq<Node>,
                                              pos: int, maxFailPos: int, startPos: int, fuel: nat)
    requires MemoOk(st) && pos >= startPos
    ensures var r := Repeat(cfg, element, input, st, nodes, pos, maxFailPos, startPos, fuel);
      r.Ran? ==>
        && |r.value.0| >= |nodes| && r.value.0[..|nodes|] == nodes
        && Successive(cfg, element, input, st, pos, fuel, r.value.0[|nodes|..], r.value.1)
    decreases fuel
  {
    var r := Repeat(cfg, element, input, st, nodes, pos, maxFailPos, startPos, fuel);
    var res := ParseAlternative(cfg, element, pos, input, st, fuel);
    if r.Ran? && res.value.IsSuccess() {
      var more := nodes + [res.value.node.value];
      var failPos := Max(maxFailPos, res.value.maxFailPos);
      RepeatIsSuccessive(cfg, element, input, res.state, more, res.value.newPos, failPos, startPos, fuel - 1);
      var all := r.value.0;
      assert all[..|more|] == more;
      assert all[|nodes|..][0] == res.value.node.value;
      assert all[|nodes|..][1..] == all[|more|..];
    }
  }

  /**
   * OneOrMany fails exactly when its first element fails; a success holds
   * that first element's node followed by the successive parses after it.
   */
  lemma OneOrManyIsSuccessive(cfg: Config, rule: Rule, startPos: int, input: string, st: State, fuel: nat)
    requires rule.OneOrMany? && MemoOk(st)
    ensures var r := ParseOneOrMany(cfg, rule, startPos, input, st, fuel);
      var first := ParseAlternative(cfg, rule.element, startPos, input, st, fuel);
      && (r.Ran? ==> first.Ran?)
      && (r.Ran? ==> (r.value.IsSuccess() <==> first.value.IsSuccess()))
      && (r.Ran? && r.value.IsSuccess() ==> var n := r.value.node.value;
            && Some(n.elements[0]) == first.value.node
            && Successive(cfg, rule.element, input, first.state, first.value.newPos, fuel, n.elements[1..], n.endPos))
  {
    var first := ParseAlternative(cfg, rule.element, startPos, input, st, fuel);
    if first.Ran? && first.value.IsSuccess() {
      RepeatIsSuccessive(cfg, rule.element, input, first.state, [first.value.node.value], first.value.newPos,
                         first.value.maxFailPos, startPos, fuel);
    }
  }

  /** ZeroOrMany holds exactly the successive parses of its element from the start position. */
  lemma ZeroOrManyIsSuccessive(cfg: Config, rule: Rule, startPos: int, input: string, st: State, fuel: nat)
    requires rule.ZeroOrMany? && MemoOk(st)
    ensures var r := ParseZeroOrMany(cfg, rule, startPos, input, st, fuel);
      r.Ran? ==> var n := r.value.node.value;
        Successive(cfg, rule.element, input, st, startPos, fuel, n.elements, n.endPos)
  {
    RepeatIsSuccessive(cfg, rule.element, input, st, [], startPos, startPos, startPos, fuel);
  }

  // ---------------------------------------------------------------------
  // The retry loop
  // ---------------------------------------------------------------------

  /** FatalError: the input, the error position, its line and column, and the terminals expected there. */
  datatype FatalError = FatalError(input: string, pos: int, location: TextPosition.LineCol, expected: set<Terminal>)

  /** The error report for the current state; a position outside the input cannot be located. */
  function ErrorAt(input: string, st: State): (r: Result<FatalError>)
    ensures r.Throw? <==> st.errorPos < 0 || st.errorPos > |input|
    ensures r.Throw? ==> r.exception == ArgumentOutOfRange
    ensures r.Ok? ==> ReportsState(r.value, input, st)
  {
    if st.errorPos < 0 || st.errorPos > |input| then Throw(ArgumentOutOfRange)
    else Ok(FatalError(input, st.errorPos, TextPosition.Location(input, st.errorPos), st.expected))
  }

  /** `e` describes ErrorPos and the expected terminals of `st`. */
  predicate ReportsState(e: FatalError, input: string, st: State) {
    && e.input == input && e.pos == st.errorPos && e.expected == st.expected
    && 0 <= e.pos <= |input| && e.location == TextPosition.Location(input, e.pos)
  }

  /**
   * What a retry keeps of the memo: the successes that neither start at
   * the position parsing starts from nor end at the error position.
   */
  function Prune(memo: map<MemoKey, ParseResult>, currentStartPos: int, errorPos: int): (r: map<MemoKey, ParseResult>)
    ensures forall k :: k in r <==> k in memo && memo[k].IsSuccess() && k.pos != currentStartPos && memo[k].newPos != errorPos
    ensures forall k | k in r :: r[k] == memo[k]
  {
    map k | k in memo && memo[k].IsSuccess() && k.pos != currentStartPos && memo[k].newPos != errorPos :: memo[k]
  }

  /** How one round of the retry loop ends. */
  datatype RoundEnd =
    | Complete(result: ParseResult)
    | GaveUp(result: ParseResult, info: FatalError)
    | Retry(info: FatalError)

  /**
   * One round: parse the start rule. Reaching the end of the input
   * completes; otherwise the error is reported, and when ErrorPos has moved
   * forward the next round recovers at it with the memo pruned, else
   * parsing gives up with this round's result.
   */
  function Round(cfg: Config, startRule: string, currentStartPos: int, input: string, st: State, fuel: nat)
    : (r: Run<RoundEnd>)
    requires MemoOk(st)
    ensures r.Ran? ==> MemoOk(r.state) && r.state.errorPos >= st.errorPos
    ensures r.Ran? && r.value.Complete? ==> r.value.result.IsSuccess() && r.value.result.newPos == |input|
    ensures r.Ran? && r.value.GaveUp? ==>
      && ReportsState(r.value.info, input, r.state) && r.state.errorPos == st.errorPos
      && !(r.value.result.IsSuccess() && r.value.result.newPos == |input|)
    ensures r.Ran? && r.value.Retry? ==>
      && ReportsState(r.value.info, input, r.state) && r.state.errorPos > st.errorPos
      && r.state.recoverySkipPos == r.state.errorPos
      && forall k | k in r.state.memo :: r.state.memo[k].IsSuccess() && k.pos != currentStartPos && r.state.memo[k].newPos != r.state.errorPos
  {
    var res := ParseRule(cfg, startRule, 0, currentStartPos, input, st, fuel);
    if !res.Ran? then Stop(res)
    else if res.value.IsSuccess() && res.value.newPos == |input| then Ran(Complete(res.value), res.state)
    else
      var info := ErrorAt(input, res.state);
      if info.Throw? then Raised(info.exception)
      else if res.state.errorPos <= st.errorPos then Ran(GaveUp(res.value, info.value), res.state)
      else
        var s := res.state;
        Ran(Retry(info.value), s.(recoverySkipPos := s.errorPos, memo := Prune(s.memo, currentStartPos, s.errorPos)))
  }

  /**
   * The retry loop, at most `rounds` retries. It ends with a parse of the
   * whole input, or with an error report of the final ErrorPos; a report
   * from an earlier round stays when a later one completes.
   */
  function Rounds(cfg: Config, startRule: string, currentStartPos: int, input: string, st: State,
                  errorInfo: Option<FatalError>, rounds: nat, fuel: nat)
    : (r: Run<(ParseResult, Option<FatalError>)>)
    requires MemoOk(st)
    ensures r.Ran? ==> r.state.errorPos >= st.errorPos
    ensures r.Ran? ==>
      || (r.value.0.IsSuccess() && r.value.0.newPos == |input|)
      || (r.value.1.Some? && ReportsState(r.value.1.value, input, r.state))
    ensures r.Ran? && r.value.1.None? ==> errorInfo.None?
    decreases rounds
  {
    var round := Round(cfg, startRule, currentStartPos, input, st, fuel);
    if !round.Ran? then Stop(round)
    else
      match round.value
      case Complete(result) => Ran((result, errorInfo), round.state)
      case GaveUp(result, info) => Ran((result, Some(info)), round.state)
      case Retry(info) =>
        if rounds == 0 then OutOfFuel
        else Rounds(cfg, startRule, currentStartPos, input, round.state, Some(info), rounds - 1, fuel)
  }

  /** What Parse returns: the result, the leading trivia's length, the error report, and the final state. */
  datatype Outcome = Outcome(result: ParseResult, triviaLength: int, errorInfo: Option<FatalError>)

  /**
   * Parse: ErrorPos starts at `startPos`, recovery is off and the memo is
   * empty, but the expected terminals of the previous parse are kept.
   * Leading trivia is skipped when the input is not empty; a negative
   * trivia length fails the guard. The result either covers the input to
   * its end or comes with a report of the furthest error.
   */
  function Parse(cfg: Config, input: string, startRule: string, startPos: int, st: State, rounds: nat, fuel: nat)
    : (r: Run<Outcome>)
    ensures r.Ran? ==> r.state.errorPos >= startPos && r.value.triviaLength >= 0
    ensures r.Ran? && input == [] ==> r.value.triviaLength == 0
    ensures r.Ran? ==>
      || (r.value.result.IsSuccess() && r.value.result.newPos == |input|)
      || (r.value.errorInfo.Some? && ReportsState(r.value.errorInfo.value, input, r.state))
    ensures var m := TryMatch(cfg.matchers, cfg.trivia, input, startPos);
      input != [] && m.Ok? && m.value < 0 ==> r.Raised? && r.exception.InvalidOperation?
  {
    var start := State(startPos, st.expected, -1, map[]);
    var trivia := if input == [] then Ok(0) else TryMatch(cfg.matchers, cfg.trivia, input, startPos);
    if trivia.Throw? then Raised(trivia.exception)
    else if trivia.value < 0 then Raised(InvalidOperation("Assertion failed. Expression [triviaLength >= 0] bust be true!"))
    else
      var run := Rounds(cfg, startRule, startPos + trivia.value, input, start, None, rounds, fuel);
      if !run.Ran? then Stop(run)
      else Ran(Outcome(run.value.0, trivia.value, run.value.1), run.state)
  }

  // ---------------------------------------------------------------------
  // Examples
  // ---------------------------------------------------------------------

  /** A grammar of one rule `S` whose alternatives are `prefixes`, without postfixes; no trivia. */
  function OneRule(prefixes: seq<Rule>): (cfg: Config)
    ensures "S" in cfg.tdopp && cfg.tdopp["S"].prefix == prefixes && cfg.tdopp["S"].postfix == []
  {
    Config(EmptyTerminal("Trivia"), map["S" := TdoppRule(MakeRef("S", None), "S", prefixes, [], prefixes, [])],
           (id: nat, input: string, pos: int) => -1)
  }

  const Fresh: State := State(0, {}, -1, map[])

  /** `S = "a"` parses "a" in one round. */
  lemma LiteralGrammarParsesA()
    ensures var r := Parse(OneRule([MakeLiteral("a", None)]), "a", "S", 0, Fresh, 0, 2);
      r.Ran? && r.value.result.IsSuccess() && r.value.result.newPos == 1 && r.value.errorInfo.None?
  {
    var cfg := OneRule([MakeLiteral("a", None)]);
    var t := ParseTerminal(cfg, Literal("a", "a"), 0, "a", Fresh);
    assert OccursAt("a", 0, "a");
    assert t == Ran(Success(TerminalNode("a", 0, 1, 1, false), 1, 1), Fresh);
    var post := ProcessPostfix(cfg, cfg.tdopp["S"], TerminalNode("a", 0, 1, 1, false), 0, 1, "a", Fresh, 1, 1);
    assert post == Ran(Success(TerminalNode("a", 0, 1, 1, false), 1, 1), Fresh);
    var rule := ParseRule(cfg, "S", 0, 0, "a", Fresh, 1);
    assert rule.Ran? && rule.value == Success(TerminalNode("a", 0, 1, 1, false), 1, 1);
  }

  /**
   * A rule whose only prefix matches the empty string still fails on the
   * empty input: outside recovery a prefix must consume something, and
   * without a failure further on there is nothing to recover from.
   */
  lemma EmptyMatchIsRejected()
    ensures var cfg := OneRule([ZeroOrMany(MakeLiteral("a", None), "Many")]);
      var r := Parse(cfg, "", "S", 0, Fresh, 3, 3);
      r.Ran? && !r.value.result.IsSuccess() && r.value.errorInfo.Some? && r.value.errorInfo.value.pos == 0
  {
    var lit := MakeLiteral("a", None);
    var cfg := OneRule([ZeroOrMany(lit, "Many")]);
    var failed := Fresh.(expected := {Literal("a", "a")});
    assert ParseAlternative(cfg, lit, 0, "", Fresh, 1) == Ran(Failure(0), failed);
    assert Repeat(cfg, lit, "", Fresh, [], 0, 0, 0, 1) == Ran(([], 0, 0), failed);
    var many := ParseAlternative(cfg, ZeroOrMany(lit, "Many"), 0, "", Fresh, 2);
    assert many == Ran(Success(SeqNode("Many", [], 0, 0), 0, 0), failed);
    var t := cfg.tdopp["S"];
    assert ProcessPostfix(cfg, t, SeqNode("Many", [], 0, 0), 0, 0, "", failed, 0, 2)
      == Ran(Success(SeqNode("Many", [], 0, 0), 0, 0), failed);
    assert PrefixLoop(cfg, t, t.prefix, 1, 0, 0, false, "", failed, PrefixAcc(None, 0, 0), 2) == Ran(PrefixAcc(None, 0, 0), failed);
    assert PrefixLoop(cfg, t, t.prefix, 0, 0, 0, false, "", Fresh, PrefixAcc(None, 0, 0), 2) == Ran(PrefixAcc(None, 0, 0), failed);
    var rule := ParseRule(cfg, "S", 0, 0, "", Fresh, 2);
    assert rule.Ran? && rule.value == Failure(0) && rule.state.errorPos == 0;
  }
}

=== FILE: precedence_order.dfy ===
/**
 * How the grammar type checker turns the grammar's `precedence a, b, c;`
 * statements into binding powers. The lists are merged one by one into a
 * single order, with each new list anchored at the first of its names that
 * is already known. The i-th name of the final order then gets the binding
 * power Count - i.
 */
module PrecedenceOrder {
  import opened Wrappers
  import opened Scopes
  import opened TypeCheckingContext

  /** The names of a list, as a set (the HashSet kept beside the list). */
  function Values(ids: seq<Ident>): set<string> {
    if ids == [] then {} else {ids[0].value} + Values(ids[1..])
  }

  lemma {:induction false} ValuesConcat(a: seq<Ident>, b: seq<Ident>)
    ensures Values(a + b) == Values(a) + Values(b)
    decreases |a|
  {
    if a == [] {
      assert a + b == b;
    } else {
      assert (a + b)[0] == a[0];
      assert (a + b)[1..] == a[1..] + b;
      ValuesConcat(a[1..], b);
    }
  }

  lemma {:induction false} ValuesHasEach(ids: seq<Ident>, k: nat)
    requires k < |ids|
    ensures ids[k].value in Values(ids)
    decreases k
  {
    if k > 0 {
      ValuesHasEach(ids[1..], k - 1);
    }
  }

  /** List.Insert. */
  function Insert(s: seq<Ident>, i: nat, x: Ident): (r: seq<Ident>)
    requires i <= |s|
    ensures |r| == |s| + 1 && r[i] == x && r[..i] == s[..i] && r[i + 1..] == s[i..]
  {
    s[..i] + [x] + s[i..]
  }

  /** The merged order so far, and the set of its names. */
  datatype Merge = Merge(ordered: seq<Ident>, known: set<string>)
  {
    predicate Valid() {
      known == Values(ordered)
    }
  }

  /** The index of the first identifier whose name is known (FirstOrDefault). */
  function FirstKnown(ids: seq<Ident>, known: set<string>): (r: Option<nat>)
    ensures r.Some? ==> r.value < |ids| && ids[r.value].value in known
    ensures r.Some? ==> forall k | 0 <= k < r.value :: ids[k].value !in known
    ensures r.None? ==> forall k | 0 <= k < |ids| :: ids[k].value !in known
  {
    if ids == [] then None
    else if ids[0].value in known then Some(0)
    else
      var rest := FirstKnown(ids[1..], known);
      if rest.Some? then Some(rest.value + 1) else None
  }

  /** The index of the first identifier with the given name (FindIndex). */
  function IndexOfValue(ids: seq<Ident>, v: string): (r: Option<nat>)
    ensures r.Some? ==> r.value < |ids| && ids[r.value].value == v
    ensures r.None? <==> v !in Values(ids)
  {
    if ids == [] then None
    else if ids[0].value == v then Some(0)
    else
      var rest := IndexOfValue(ids[1..], v);
      if rest.Some? then Some(rest.value + 1) else None
  }

  /**
   * The first loop of TryMergePrecedenceList: the names of the new list,
   * from its front up to the anchor, are inserted one after another from
   * position `at`. A name that is already known makes the merge fail.
   */
  function InsertPrefix(newList: seq<Ident>, anchor: string, m: Merge, at: nat): (r: Option<Merge>)
    requires at <= |m.ordered|
    decreases |newList|
  {
    if newList == [] || newList[0].value == anchor then Some(m)
    else if newList[0].value !in m.known then
      InsertPrefix(newList[1..], anchor, Merge(Insert(m.ordered, at, newList[0]), m.known + {newList[0].value}), at + 1)
    else None
  }

  /** The names of a list other than the anchor, in order. */
  function DropValue(ids: seq<Ident>, v: string): (r: seq<Ident>)
    ensures |r| <= |ids|
    ensures forall k | 0 <= k < |r| :: r[k].value != v
  {
    if ids == [] then [] else (if ids[0].value == v then [] else [ids[0]]) + DropValue(ids[1..], v)
  }

  lemma {:induction false} ValuesDrop(ids: seq<Ident>, v: string)
    ensures Values(DropValue(ids, v)) == Values(ids) - {v}
    decreases |ids|
  {
    if ids != [] {
      ValuesDrop(ids[1..], v);
      ValuesConcat(if ids[0].value == v then [] else [ids[0]], DropValue(ids[1..], v));
      assert Values([ids[0]]) == {ids[0].value};
    }
  }

  /**
   * The second loop: the names after the anchor (further copies of the
   * anchor are skipped) are inserted one after another from position `at`.
   * A name that is already known makes the merge fail.
   */
  function InsertSuffix(rest: seq<Ident>, anchor: string, m: Merge, at: nat): (r: Option<Merge>)
    requires at <= |m.ordered|
    decreases |rest|
  {
    if rest == [] then Some(m)
    else if rest[0].value == anchor then InsertSuffix(rest[1..], anchor, m, at)
    else if rest[0].value !in m.known then
      InsertSuffix(rest[1..], anchor, Merge(Insert(m.ordered, at, rest[0]), m.known + {rest[0].value}), at + 1)
    else None
  }

  /** The second loop fails when a name after the anchor, other than the anchor, is already known. */
  lemma {:induction false} SuffixRejectsKnown(rest: seq<Ident>, anchor: string, m: Merge, at: nat, k: nat)
    requires at <= |m.ordered| && k < |rest| && rest[k].value != anchor && rest[k].value in m.known
    ensures InsertSuffix(rest, anchor, m, at).None?
    decreases |rest|
  {
    if k > 0 && rest[0].value == anchor {
      SuffixRejectsKnown(rest[1..], anchor, m, at, k - 1);
    } else if k > 0 && rest[0].value !in m.known {
      var next := Merge(Insert(m.ordered, at, rest[0]), m.known + {rest[0].value});
      SuffixRejectsKnown(rest[1..], anchor, next, at + 1, k - 1);
    }
  }

  /** The list `o` with `ins` spliced in at position `at`. */
  function Splice(o: seq<Ident>, at: nat, ins: seq<Ident>): (r: seq<Ident>)
    requires at <= |o|
    ensures |r| == |o| + |ins|
  {
    o[..at] + ins + o[at..]
  }

  /** Inserting `x` at `at` and splicing after it is splicing `[x] + ins` at `at`. */
  lemma SpliceAfterInsert(o: seq<Ident>, at: nat, x: Ident, ins: seq<Ident>)
    requires at <= |o|
    ensures Splice(Insert(o, at, x), at + 1, ins) == Splice(o, at, [x] + ins)
  {
    var o1 := Insert(o, at, x);
    assert o1[..at + 1] == o[..at] + [x] by {
      assert o1[..at + 1] == o1[..at] + [o1[at]];
    }
  }

  lemma ValuesCons(x: Ident, s: seq<Ident>)
    ensures Values([x] + s) == {x.value} + Values(s)
  {
    assert ([x] + s)[1..] == s;
  }

  /** On success the first loop has put the j names before the anchor, in order, at position `at`. */
  lemma {:induction false} PrefixInserts(newList: seq<Ident>, anchor: string, m: Merge, at: nat, j: nat)
    requires at <= |m.ordered| && j <= |newList|
    requires forall k | 0 <= k < j :: newList[k].value != anchor
    requires j < |newList| ==> newList[j].value == anchor
    requires InsertPrefix(newList, anchor, m, at).Some?
    ensures InsertPrefix(newList, anchor, m, at).value.ordered == Splice(m.ordered, at, newList[..j])
    ensures InsertPrefix(newList, anchor, m, at).value.known == m.known + Values(newList[..j])
    decreases j
  {
    if j == 0 {
      assert m.ordered[..at] + newList[..0] + m.ordered[at..] == m.ordered;
    } else {
      var x := newList[0];
      var rest := newList[1..];
      var next := Merge(Insert(m.ordered, at, x), m.known + {x.value});
      assert InsertPrefix(newList, anchor, m, at) == InsertPrefix(rest, anchor, next, at + 1);
      assert forall k | 0 <= k < j - 1 :: rest[k].value != anchor by {
        forall k | 0 <= k < j - 1 ensures rest[k].value != anchor {
          assert rest[k] == newList[k + 1];
        }
      }
      assert j - 1 < |rest| ==> rest[j - 1] == newList[j];
      PrefixInserts(rest, anchor, next, at + 1, j - 1);
      assert newList[..j] == [x] + rest[..j - 1];
      SpliceAfterInsert(m.ordered, at, x, rest[..j - 1]);
      ValuesCons(x, rest[..j - 1]);
    }
  }

  /** On success the second loop has put the names after the anchor, in order, at position `at`. */
  lemma {:induction false} SuffixInserts(rest: seq<Ident>, anchor: string, m: Merge, at: nat)
    requires at <= |m.ordered|
    requires InsertSuffix(rest, anchor, m, at).Some?
    ensures InsertSuffix(rest, anchor, m, at).value.ordered == Splice(m.ordered, at, DropValue(rest, anchor))
    ensures InsertSuffix(rest, anchor, m, at).value.known == m.known + Values(DropValue(rest, anchor))
    decreases |rest|
  {
    if rest == [] {
      assert m.ordered[..at] + [] + m.ordered[at..] == m.ordered;
    } else if rest[0].value == anchor {
      SuffixInserts(rest[1..], anchor, m, at);
      assert DropValue(rest, anchor) == DropValue(rest[1..], anchor);
    } else {
      var x := rest[0];
      var next := Merge(Insert(m.ordered, at, x), m.known + {x.value});
      assert InsertSuffix(rest, anchor, m, at) == InsertSuffix(rest[1..], anchor, next, at + 1);
      SuffixInserts(rest[1..], anchor, next, at + 1);
      assert DropValue(rest, anchor) == [x] + DropValue(rest[1..], anchor);
      SpliceAfterInsert(m.ordered, at, x, DropValue(rest[1..], anchor));
      ValuesCons(x, DropValue(rest[1..], anchor));
    }
  }

  /** Splicing names into a list adds exactly their names to its set. */
  lemma SpliceValues(o: seq<Ident>, at: nat, ins: seq<Ident>)
    requires at <= |o|
    ensures Values(Splice(o, at, ins)) == Values(o) + Values(ins)
  {
    ValuesConcat(o[..at] + ins, o[at..]);
    ValuesConcat(o[..at], ins);
    ValuesConcat(o[..at], o[at..]);
    assert o[..at] + o[at..] == o;
  }

  /**
   * The order after both loops: the names before the anchor spliced in at
   * the anchor's place `pos`, then the names after it (without further
   * copies of the anchor) spliced into that list at `start`.
   */
  predicate AnchoredOrder(o: seq<Ident>, newList: seq<Ident>, j: nat, pos: nat, start: nat, r: seq<Ident>)
    requires j < |newList| && pos <= |o|
  {
    start <= |o| + j && r == Splice(Splice(o, pos, newList[..j]), start, DropValue(newList[j + 1..], newList[j].value))
  }

  /** A merge that both loops leave behind: valid, in the anchored order, knowing the new list's names. */
  predicate AnchoredMerge(m: Merge, newList: seq<Ident>, j: nat, pos: nat, start: nat, r: Merge)
    requires j < |newList| && pos <= |m.ordered|
  {
    r.Valid() && AnchoredOrder(m.ordered, newList, j, pos, start, r.ordered) && r.known == m.known + Values(newList)
  }

  /**
   * The two loops of TryMergePrecedenceList once the anchor is found: the
   * new list's j-th name, which sits at `pos` of the merged order.
   */
  function MergeAnchored(newList: seq<Ident>, m: Merge, j: nat, pos: nat, shiftSuffix: bool): (r: Option<Merge>)
    requires m.Valid() && j < |newList| && pos < |m.ordered| && m.ordered[pos].value == newList[j].value
    requires forall k | 0 <= k < j :: newList[k].value != newList[j].value
    ensures r.Some? ==> AnchoredMerge(m, newList, j, pos, if shiftSuffix then pos + j + 1 else pos + 1, r.value)
  {
    var anchor := newList[j].value;
    var start := if shiftSuffix then pos + j + 1 else pos + 1;
    BothLoops(newList, m, j, pos, start);
    var prefix := InsertPrefix(newList, anchor, m, pos);
    if prefix.None? then None
    else InsertSuffix(newList[j + 1..], anchor, prefix.value, start)
  }

  /** What the two loops leave behind when both succeed. */
  lemma BothLoops(newList: seq<Ident>, m: Merge, j: nat, pos: nat, start: nat)
    requires m.Valid() && j < |newList| && pos < |m.ordered| && m.ordered[pos].value == newList[j].value
    requires forall k | 0 <= k < j :: newList[k].value != newList[j].value
    requires start <= pos + j + 1
    ensures var prefix := InsertPrefix(newList, newList[j].value, m, pos);
      prefix.Some? ==> |prefix.value.ordered| == |m.ordered| + j
    ensures var prefix := InsertPrefix(newList, newList[j].value, m, pos);
      prefix.Some? && InsertSuffix(newList[j + 1..], newList[j].value, prefix.value, start).Some? ==>
      AnchoredMerge(m, newList, j, pos, start, InsertSuffix(newList[j + 1..], newList[j].value, prefix.value, start).value)
  {
    var prefix := InsertPrefix(newList, newList[j].value, m, pos);
    if prefix.Some? {
      AfterPrefix(newList, m, j, pos);
      if InsertSuffix(newList[j + 1..], newList[j].value, prefix.value, start).Some? {
        AnchoredResult(newList, m, j, pos, prefix.value, start);
      }
    }
  }

  /** MergeAnchored's result when both loops succeed. */
  lemma AnchoredResult(newList: seq<Ident>, m: Merge, j: nat, pos: nat, m1: Merge, start: nat)
    requires m.Valid() && j < |newList| && pos < |m.ordered| && m.ordered[pos].value == newList[j].value
    requires m1.Valid() && m1.ordered == Splice(m.ordered, pos, newList[..j]) && m1.known == m.known + Values(newList[..j])
    requires start <= |m1.ordered| && InsertSuffix(newList[j + 1..], newList[j].value, m1, start).Some?
    ensures var r := InsertSuffix(newList[j + 1..], newList[j].value, m1, start).value;
      AnchoredMerge(m, newList, j, pos, start, r)
  {
    AfterSuffix(newList[j + 1..], newList[j].value, m1, start);
    ValuesHasEach(m.ordered, pos);
    KnowsWholeList(newList, m, j);
  }

  /** The names before the anchor, the anchor and what DropValue keeps after it are all the list's names. */
  lemma KnowsWholeList(newList: seq<Ident>, m: Merge, j: nat)
    requires j < |newList| && newList[j].value in m.known
    ensures m.known + Values(newList[..j]) + Values(DropValue(newList[j + 1..], newList[j].value)) == m.known + Values(newList)
  {
    assert newList == newList[..j] + newList[j..];
    ValuesConcat(newList[..j], newList[j..]);
    assert newList[j..][1..] == newList[j + 1..];
    ValuesDrop(newList[j + 1..], newList[j].value);
  }

  lemma AfterPrefix(newList: seq<Ident>, m: Merge, j: nat, pos: nat)
    requires m.Valid() && j < |newList| && pos < |m.ordered| && m.ordered[pos].value == newList[j].value
    requires forall k | 0 <= k < j :: newList[k].value != newList[j].value
    requires InsertPrefix(newList, newList[j].value, m, pos).Some?
    ensures var m1 := InsertPrefix(newList, newList[j].value, m, pos).value;
      m1.Valid() && m1.ordered == Splice(m.ordered, pos, newList[..j]) &&
      m1.known == m.known + Values(newList[..j])
  {
    PrefixInserts(newList, newList[j].value, m, pos, j);
    SpliceValues(m.ordered, pos, newList[..j]);
  }

  lemma AfterSuffix(rest: seq<Ident>, anchor: string, m1: Merge, start: nat)
    requires m1.Valid() && start <= |m1.ordered| && InsertSuffix(rest, anchor, m1, start).Some?
    ensures var r := InsertSuffix(rest, anchor, m1, start).value;
      r.Valid() && r.ordered == Splice(m1.ordered, start, DropValue(rest, anchor)) &&
      r.known == m1.known + Values(DropValue(rest, anchor))
  {
    SuffixInserts(rest, anchor, m1, start);
    SpliceValues(m1.ordered, start, DropValue(rest, anchor));
  }

  /**
   * TryMergePrecedenceList. The first list is adopted whole. Otherwise the
   * anchor is the first name of the new list that is already known, and
   * the list fails to merge when there is none. The names before the
   * anchor are inserted in front of the anchor's place; the names after it
   * are inserted from a suffix start, which is where the two versions
   * below differ.
   */
  function MergeAt(newList: seq<Ident>, m: Merge, shiftSuffix: bool): (r: Option<Merge>)
    requires m.Valid()
    ensures m.ordered == [] ==> r == Some(Merge(newList, m.known + Values(newList)))
    ensures m.ordered != [] && FirstKnown(newList, m.known).None? ==> r.None?
    ensures r.Some? ==> r.value.Valid() && r.value.known == m.known + Values(newList)
  {
    if m.ordered == [] then Some(Merge(newList, m.known + Values(newList)))
    else
      match FirstKnown(newList, m.known)
      case None => None
      case Some(j) =>
        var anchor := newList[j].value;
        var pos := IndexOfValue(m.ordered, anchor).value;
        MergeAnchored(newList, m, j, pos, shiftSuffix)
  }

  /**
   * The merge as written: the names after the anchor go in from the
   * anchor's ORIGINAL index + 1, although the first loop has already moved
   * the anchor on by the number of names it inserted.
   */
  function TryMergeAsWritten(newList: seq<Ident>, m: Merge): (r: Option<Merge>)
    requires m.Valid()
    ensures r == MergeAt(newList, m, false)
    ensures r.Some? ==> r.value.Valid() && r.value.known == m.known + Values(newList)
  {
    MergeAt(newList, m, false)
  }

  /** The merge as evidently intended: the names after the anchor go in right after its new place. */
  function TryMerge(newList: seq<Ident>, m: Merge): (r: Option<Merge>)
    requires m.Valid()
    ensures r == MergeAt(newList, m, true)
    ensures r.Some? ==> r.value.Valid() && r.value.known == m.known + Values(newList)
  {
    MergeAt(newList, m, true)
  }

  /**
   * The shape of a successful merge into a non-empty order: the names
   * before the anchor are spliced in at the anchor's place, then the names
   * after it are spliced into that list at the suffix start.
   */
  lemma MergeAtShape(newList: seq<Ident>, m: Merge, shiftSuffix: bool) returns (j: nat, pos: nat)
    requires m.Valid() && m.ordered != [] && MergeAt(newList, m, shiftSuffix).Some?
    ensures FirstKnown(newList, m.known) == Some(j) && IndexOfValue(m.ordered, newList[j].value) == Some(pos)
    ensures pos < |m.ordered|
    ensures AnchoredOrder(m.ordered, newList, j, pos, if shiftSuffix then pos + j + 1 else pos + 1, MergeAt(newList, m, shiftSuffix).value.ordered)
  {
    j := FirstKnown(newList, m.known).value;
    pos := IndexOfValue(m.ordered, newList[j].value).value;
    assert MergeAt(newList, m, shiftSuffix) == MergeAnchored(newList, m, j, pos, shiftSuffix);
  }

  /**
   * The corrected merge splices the new list around the anchor's place:
   * the names before the anchor, the anchor, the names after it, with the
   * existing order kept on either side.
   */
  lemma MergeSplicesAroundAnchor(newList: seq<Ident>, m: Merge) returns (j: nat, pos: nat)
    requires m.Valid() && m.ordered != [] && TryMerge(newList, m).Some?
    ensures FirstKnown(newList, m.known) == Some(j) && IndexOfValue(m.ordered, newList[j].value) == Some(pos)
    ensures pos < |m.ordered|
    ensures TryMerge(newList, m).value.ordered ==
      m.ordered[..pos] + newList[..j] + [m.ordered[pos]] + DropValue(newList[j + 1..], newList[j].value) + m.ordered[pos + 1..]
  {
    j, pos := MergeAtShape(newList, m, true);
    SpliceAroundAnchor(m.ordered, pos, newList[..j], DropValue(newList[j + 1..], newList[j].value));
  }

  /** Splicing `pre` at `pos` and `post` right after the element that moved on from `pos`. */
  lemma SpliceAroundAnchor(o: seq<Ident>, pos: nat, pre: seq<Ident>, post: seq<Ident>)
    requires pos < |o|
    ensures Splice(Splice(o, pos, pre), pos + |pre| + 1, post) == o[..pos] + pre + [o[pos]] + post + o[pos + 1..]
  {
    var l1 := Splice(o, pos, pre);
    assert l1[..pos + |pre| + 1] == o[..pos] + pre + [o[pos]];
    assert l1[pos + |pre| + 1..] == o[pos + 1..];
  }

  /** Splicing `pre` at `pos` and `post` right after the first element of `pre`. */
  lemma SpliceAfterFirst(o: seq<Ident>, pos: nat, pre: seq<Ident>, post: seq<Ident>)
    requires pos <= |o| && |pre| >= 1
    ensures Splice(Splice(o, pos, pre), pos + 1, post) == o[..pos] + [pre[0]] + post + pre[1..] + o[pos..]
  {
    var l1 := Splice(o, pos, pre);
    assert l1[..pos + 1] == o[..pos] + [pre[0]];
    assert l1[pos + 1..] == pre[1..] + o[pos..];
  }

  /**
   * The merge as written, once j >= 1 names went in before the anchor,
   * puts the names after the anchor between the first of those names and
   * the rest of them, that is in front of the anchor.
   */
  lemma AsWrittenShape(newList: seq<Ident>, m: Merge) returns (j: nat, pos: nat)
    requires m.Valid() && m.ordered != [] && TryMergeAsWritten(newList, m).Some?
    ensures FirstKnown(newList, m.known) == Some(j) && IndexOfValue(m.ordered, newList[j].value) == Some(pos)
    ensures j >= 1 ==>
      TryMergeAsWritten(newList, m).value.ordered ==
        m.ordered[..pos] + [newList[0]] + DropValue(newList[j + 1..], newList[j].value) + newList[1..j] + m.ordered[pos..]
  {
    j, pos := MergeAtShape(newList, m, false);
    if j >= 1 {
      SpliceAfterFirst(m.ordered, pos, newList[..j], DropValue(newList[j + 1..], newList[j].value));
      assert newList[..j][0] == newList[0] && newList[..j][1..] == newList[1..j];
    }
  }

  /** Whether a name occurs before another in a list. */
  predicate Before(ids: seq<Ident>, a: string, b: string) {
    exists i, k | 0 <= i < k < |ids| :: ids[i].value == a && ids[k].value == b
  }

  /**
   * The corrected merge respects the new list: a name before the anchor
   * ends up before it, and a name after the anchor ends up after it.
   */
  lemma MergeRespectsNewList(newList: seq<Ident>, m: Merge, i: nat)
    requires m.Valid() && m.ordered != [] && TryMerge(newList, m).Some?
    requires i < |newList|
    ensures FirstKnown(newList, m.known).Some?
    ensures var j := FirstKnown(newList, m.known).value;
      var r := TryMerge(newList, m).value.ordered;
      (i < j ==> Before(r, newList[i].value, newList[j].value)) &&
      (j < i && newList[i].value != newList[j].value ==> Before(r, newList[j].value, newList[i].value))
  {
    var j, pos := MergeSplicesAroundAnchor(newList, m);
    ArrangementRespects(m.ordered, pos, newList, j, i);
  }

  /** The arrangement of MergeSplicesAroundAnchor keeps the new list's order on both sides of its anchor. */
  lemma ArrangementRespects(o: seq<Ident>, pos: nat, newList: seq<Ident>, j: nat, i: nat)
    requires pos < |o| && j < |newList| && i < |newList| && o[pos].value == newList[j].value
    ensures var r := o[..pos] + newList[..j] + [o[pos]] + DropValue(newList[j + 1..], newList[j].value) + o[pos + 1..];
      (i < j ==> Before(r, newList[i].value, newList[j].value)) &&
      (j < i && newList[i].value != newList[j].value ==> Before(r, newList[j].value, newList[i].value))
  {
    var anchor := newList[j].value;
    var tail := DropValue(newList[j + 1..], anchor);
    if i < j {
      assert newList[..j][i] == newList[i];
      BeforeInParts(o[..pos], newList[..j], o[pos], tail, o[pos + 1..], i);
    }
    if j < i && newList[i].value != anchor {
      var k := DropValueKeeps(newList[j + 1..], anchor, i - j - 1);
      AfterInParts(o[..pos], newList[..j], o[pos], tail, o[pos + 1..], k);
    }
  }

  /** In a five-part concatenation the second part's names come before the middle one. */
  lemma BeforeInParts(a: seq<Ident>, b: seq<Ident>, x: Ident, c: seq<Ident>, d: seq<Ident>, i: nat)
    requires i < |b|
    ensures Before(a + b + [x] + c + d, b[i].value, x.value)
  {
    var r := a + b + [x] + c + d;
    assert r[|a| + i] == b[i];
    assert r[|a| + |b|] == x;
  }

  /** In a five-part concatenation the fourth part's names come after the middle one. */
  lemma AfterInParts(a: seq<Ident>, b: seq<Ident>, x: Ident, c: seq<Ident>, d: seq<Ident>, k: nat)
    requires k < |c|
    ensures Before(a + b + [x] + c + d, x.value, c[k].value)
  {
    var r := a + b + [x] + c + d;
    assert r[|a| + |b|] == x;
    assert r[|a| + |b| + 1 + k] == c[k];
  }

  /** A name other than `v` survives DropValue, somewhere. */
  lemma {:induction false} DropValueKeeps(ids: seq<Ident>, v: string, i: nat) returns (k: nat)
    requires i < |ids| && ids[i].value != v
    ensures k < |DropValue(ids, v)| && DropValue(ids, v)[k] == ids[i]
    decreases i
  {
    if i == 0 {
      k := 0;
    } else {
      var k' := DropValueKeeps(ids[1..], v, i - 1);
      k := if ids[0].value == v then k' else k' + 1;
    }
  }

  function Id(v: string): Ident {
    Ident(v, Span(0, 0))
  }

  /**
   * The merge as written misplaces the names after the anchor once names
   * were inserted before it: with A known, "x, A, y" yields x, y, A, so y
   * would bind tighter than A although the list puts A first. The corrected
   * merge yields x, A, y.
   */
  lemma AsWrittenMisplacesSuffix()
    ensures TryMergeAsWritten([Id("x"), Id("A"), Id("y")], Merge([Id("A")], {"A"})) ==
      Some(Merge([Id("x"), Id("y"), Id("A")], {"A", "x", "y"}))
    ensures TryMerge([Id("x"), Id("A"), Id("y")], Merge([Id("A")], {"A"})) ==
      Some(Merge([Id("x"), Id("A"), Id("y")], {"A", "x", "y"}))
  {
    var newList := [Id("x"), Id("A"), Id("y")];
    var m := Merge([Id("A")], {"A"});
    assert Values(m.ordered) == {"A"} by {
      assert m.ordered[0].value == "A";
    }
    assert FirstKnown(newList, m.known) == Some(1) by {
      assert newList[1..][0].value == "A";
    }
    assert IndexOfValue(m.ordered, "A") == Some(0);
    var m1 := Merge([Id("x"), Id("A")], {"A", "x"});
    assert Values(m1.ordered) == {"A", "x"} by {
      assert m1.ordered[0].value == "x" && m1.ordered[1].value == "A";
    }
    assert InsertPrefix(newList, "A", m, 0) == Some(m1) by {
      var n1 := newList[1..];
      var step := Merge(Insert(m.ordered, 0, newList[0]), m.known + {"x"});
      assert step.ordered == m1.ordered && step.known == m1.known;
      assert n1[0].value == "A";
      assert InsertPrefix(n1, "A", step, 1) == Some(step);
      assert InsertPrefix(newList, "A", m, 0) == InsertPrefix(n1, "A", step, 1);
    }
    assert newList[2..] == [Id("y")];
    assert [Id("y")][1..] == [];
    assert Insert(m1.ordered, 1, Id("y")) == [Id("x"), Id("y"), Id("A")];
    assert Insert(m1.ordered, 2, Id("y")) == [Id("x"), Id("A"), Id("y")];
    assert Values([Id("x"), Id("y"), Id("A")]) == {"A", "x", "y"} by {
      var l := [Id("x"), Id("y"), Id("A")];
      assert l[0].value == "x" && l[1].value == "y" && l[2].value == "A";
    }
    assert Values([Id("x"), Id("A"), Id("y")]) == {"A", "x", "y"} by {
      var l := [Id("x"), Id("A"), Id("y")];
      assert l[0].value == "x" && l[1].value == "A" && l[2].value == "y";
    }
  }

  // ---------------------------------------------------------------------
  // ResolvePrecedenceDependencies
  // ---------------------------------------------------------------------

  /** One `precedence ...;` statement: its names and its span. */
  datatype PrecedenceDependency = PrecedenceDependency(identifiers: seq<Ident>, location: Span)

  datatype MergeAll = Merged(order: seq<Ident>) | FailedAt(index: nat)

  /**
   * The merge of every list in turn, stopping at the first one that does
   * not merge. The source merges as written (`corrected` false); with
   * `corrected` true each list goes through the corrected merge instead.
   */
  function MergeEach(deps: seq<PrecedenceDependency>, m: Merge, done: nat, corrected: bool): (r: MergeAll)
    requires m.Valid()
    ensures r.FailedAt? ==> done <= r.index < done + |deps|
    decreases |deps|
  {
    if deps == [] then Merged(m.ordered)
    else
      match (if corrected then TryMerge(deps[0].identifiers, m) else TryMergeAsWritten(deps[0].identifiers, m))
      case None => FailedAt(done)
      case Some(m1) => MergeEach(deps[1..], m1, done + 1, corrected)
  }

  /** Every name of every statement. */
  function AllNames(deps: seq<PrecedenceDependency>): set<string> {
    if deps == [] then {} else Values(deps[0].identifiers) + AllNames(deps[1..])
  }

  /** When every statement merges, the order holds exactly the names of all of them. */
  lemma {:induction false} MergeEachKeepsEveryName(deps: seq<PrecedenceDependency>, m: Merge, done: nat, corrected: bool)
    requires m.Valid() && MergeEach(deps, m, done, corrected).Merged?
    ensures Values(MergeEach(deps, m, done, corrected).order) == m.known + AllNames(deps)
    decreases |deps|
  {
    if deps != [] {
      var m1 := MergeAt(deps[0].identifiers, m, corrected).value;
      MergeEachKeepsEveryName(deps[1..], m1, done + 1, corrected);
    }
  }

  function SymbolNames(ids: seq<Ident>): (names: seq<string>)
    ensures |names| == |ids| && forall k | 0 <= k < |ids| :: names[k] == ids[k].value
  {
    if ids == [] then [] else [ids[0].value] + SymbolNames(ids[1..])
  }

  /** The precedence symbols in the order they are added: the i-th name gets Count - i. */
  function BindingPowers(order: seq<Ident>): (syms: seq<Symbol>)
    ensures |syms| == |order|
    ensures forall i | 0 <= i < |order| ::
      syms[i] == PrecedenceSymbol(order[i].value, order[i].at, |order| - i)
  {
    seq(|order|, i requires 0 <= i < |order| => PrecedenceSymbol(order[i].value, order[i].at, |order| - i))
  }

  function AddAll(c: Context, syms: seq<Symbol>): (r: Context)
    requires c.Valid()
    ensures r.Valid() && r.diagnostics == c.diagnostics && |r.scopes| == |c.scopes|
    decreases |syms|
  {
    if syms == [] then c else AddAll(AddToGlobalScope(c, syms[0]), syms[1..])
  }

  /**
   * ResolvePrecedenceDependencies. When a list fails to merge, one error
   * spanning that statement is reported and no precedence symbol is
   * added. Otherwise every name of the merged order is added as a
   * precedence symbol with its binding power, and nothing is reported.
   * The source is `corrected` false: its merge misplaces the names after
   * the anchor; `corrected` true resolves with the corrected merge.
   */
  function ResolvePrecedenceDependencies(c: Context, deps: seq<PrecedenceDependency>, corrected: bool): (r: Context)
    requires c.Valid()
    ensures r.Valid()
    ensures MergeEach(deps, Merge([], {}), 0, corrected).FailedAt? ==>
      var i := MergeEach(deps, Merge([], {}), 0, corrected).index;
      r == ReportError(c, CannotMergePrecedences(SymbolNames(deps[i].identifiers)), deps[i].location)
    ensures MergeEach(deps, Merge([], {}), 0, corrected).Merged? ==>
      r == AddAll(c, BindingPowers(MergeEach(deps, Merge([], {}), 0, corrected).order))
  {
    assert Merge([], {}).Valid();
    match MergeEach(deps, Merge([], {}), 0, corrected)
    case FailedAt(i) => ReportError(c, CannotMergePrecedences(SymbolNames(deps[i].identifiers)), deps[i].location)
    case Merged(order) => AddAll(c, BindingPowers(order))
  }

  /**
   * After the symbols are added, a name of the order that does not occur
   * again later in it is found in the global scope with binding power
   * Count - i, its position i counted from the front.
   */
  lemma {:induction false} AddedPowersAreFound(c: Context, order: seq<Ident>, from: nat, i: nat)
    requires c.Valid() && from <= i < |order|
    requires forall k | i < k < |order| :: order[k].value != order[i].value
    ensures var r := AddAll(c, BindingPowers(order)[from..]);
      FindPrecedence(r.scopes, order[i].value, false) == Some(PrecedenceSymbol(order[i].value, order[i].at, |order| - i))
    decreases |order| - from
  {
    var syms := BindingPowers(order);
    if from == i {
      var c1 := AddToGlobalScope(c, syms[i]);
      assert syms[i..][1..] == syms[i + 1..];
      LaterAddsKeep(c1, order, i + 1, order[i].value);
    } else {
      assert syms[from..][1..] == syms[from + 1..];
      AddedPowersAreFound(AddToGlobalScope(c, syms[from]), order, from + 1, i);
    }
  }

  /** Adding precedence symbols for other names keeps a name's current lookup result. */
  lemma {:induction false} LaterAddsKeep(c: Context, order: seq<Ident>, from: nat, name: string)
    requires c.Valid() && from <= |order|
    requires forall k | from <= k < |order| :: order[k].value != name
    ensures FindPrecedence(AddAll(c, BindingPowers(order)[from..]).scopes, name, false) == FindPrecedence(c.scopes, name, false)
    decreases |order| - from
  {
    var syms := BindingPowers(order);
    if from < |order| {
      assert syms[from..][1..] == syms[from + 1..];
      var c1 := AddToGlobalScope(c, syms[from]);
      AddLeavesOthers(c.scopes, syms[from], PrecedenceKind, name, false);
      LaterAddsKeep(c1, order, from + 1, name);
    } else {
      assert syms[from..] == [];
    }
  }

  /** The single-statement case: precedence a, b, c gives a = 3, b = 2, c = 1. */
  lemma SingleListBindingPowers(c: Context, a: Ident, b: Ident, d: Ident, corrected: bool)
    requires c.Valid() && a.value != b.value && b.value != d.value && a.value != d.value
    ensures var r := ResolvePrecedenceDependencies(c, [PrecedenceDependency([a, b, d], Span(0, 0))], corrected);
      FindPrecedence(r.scopes, a.value, false) == Some(PrecedenceSymbol(a.value, a.at, 3)) &&
      FindPrecedence(r.scopes, b.value, false) == Some(PrecedenceSymbol(b.value, b.at, 2)) &&
      FindPrecedence(r.scopes, d.value, false) == Some(PrecedenceSymbol(d.value, d.at, 1)) &&
      r.diagnostics == c.diagnostics
  {
    var deps := [PrecedenceDependency([a, b, d], Span(0, 0))];
    var order := [a, b, d];
    assert Merge([], {}).Valid();
    assert MergeEach(deps, Merge([], {}), 0, corrected) == Merged(order) by {
      var m1 := Merge(order, Values(order));
      assert deps[1..] == [];
      assert MergeEach(deps[1..], m1, 1, corrected) == Merged(order);
    }
    var syms := BindingPowers(order);
    assert syms[0..] == syms;
    AddedPowersAreFound(c, order, 0, 0);
    AddedPowersAreFound(c, order, 0, 1);
    AddedPowersAreFound(c, order, 0, 2);
  }

  /**
   * `precedence A;` then `precedence x, A, y;`: the source's merge orders
   * the names x, y, A, the corrected one x, A, y.
   */
  lemma TwoListsOrder()
    ensures MergeEach(TwoLists, Merge([], {}), 0, false) == Merged([Id("x"), Id("y"), Id("A")])
    ensures MergeEach(TwoLists, Merge([], {}), 0, true) == Merged([Id("x"), Id("A"), Id("y")])
  {
    var m1 := Merge([Id("A")], {"A"});
    assert Merge([], {}).Valid();
    assert Values([Id("A")]) == {"A"} by {
      assert [Id("A")][0].value == "A";
    }
    assert TryMergeAsWritten([Id("A")], Merge([], {})) == Some(m1);
    assert TryMerge([Id("A")], Merge([], {})) == Some(m1);
    AsWrittenMisplacesSuffix();
    assert TwoLists[1..][1..] == [];
  }

  const TwoLists: seq<PrecedenceDependency> :=
    [PrecedenceDependency([Id("A")], Span(0, 0)), PrecedenceDependency([Id("x"), Id("A"), Id("y")], Span(0, 0))]

  /**
   * After a resolution that merges every statement, a name of the merged
   * order that does not occur again after position i has binding power
   * Count - i in the global scope.
   */
  lemma ResolvedPowersAreFound(c: Context, deps: seq<PrecedenceDependency>, corrected: bool, order: seq<Ident>, i: nat)
    requires c.Valid() && i < |order|
    requires MergeEach(deps, Merge([], {}), 0, corrected) == Merged(order)
    requires forall k | i < k < |order| :: order[k].value != order[i].value
    ensures FindPrecedence(ResolvePrecedenceDependencies(c, deps, corrected).scopes, order[i].value, false) ==
      Some(PrecedenceSymbol(order[i].value, order[i].at, |order| - i))
  {
    assert BindingPowers(order)[0..] == BindingPowers(order);
    AddedPowersAreFound(c, order, 0, i);
  }

  /**
   * Hence the binding powers after both statements: the source gives A
   * power 1, below y, where the statement puts A above y.
   */
  lemma TwoListsAsWrittenPowers(c: Context)
    requires c.Valid()
    ensures FindPrecedence(ResolvePrecedenceDependencies(c, TwoLists, false).scopes, "A", false) ==
      Some(PrecedenceSymbol("A", Span(0, 0), 1))
  {
    var order := [Id("x"), Id("y"), Id("A")];
    TwoListsOrder();
    assert order[2].value == "A" && order[2].at == Span(0, 0) && |order| - 2 == 1;
    ResolvedPowersAreFound(c, TwoLists, false, order, 2);
  }

  /** The corrected merge gives A power 2, between x and y. */
  lemma TwoListsCorrectedPowers(c: Context)
    requires c.Valid()
    ensures FindPrecedence(ResolvePrecedenceDependencies(c, TwoLists, true).scopes, "A", false) ==
      Some(PrecedenceSymbol("A", Span(0, 0), 2))
  {
    var order := [Id("x"), Id("A"), Id("y")];
    TwoListsOrder();
    assert order[1].value == "A" && order[1].at == Span(0, 0) && |order| - 1 == 2;
    assert order[2].value != "A";
    ResolvedPowersAreFound(c, TwoLists, true, order, 1);
  }
}

=== FILE: regex_ast.dfy ===
/**
 * The regular-expression syntax tree of the terminal matchers: literal
 * characters, the any-character dot, character classes, concatenation,
 * alternation, the three postfix operators and groups; what a character
 * class matches; and the precedence-aware printing that the DFA builder
 * also uses to compare transition conditions.
 */
module RegexAst {
  import opened Chars

  datatype CharRange = CharRange(from: char, to: char)

  datatype RegexNode =
    | RegexChar(value: char)
    | AnyChar
    | RangesClass(ranges: seq<CharRange>, negated: bool)
    | WordClass(negated: bool)
    | DigitClass(negated: bool)
    | LetterClass(negated: bool)
    | WhitespaceClass(negated: bool)
    | NegatedGroup(classes: seq<RegexNode>)
    | Concat(nodes: seq<RegexNode>)
    | Alternation(nodes: seq<RegexNode>)
    | Star(node: RegexNode)
    | Plus(node: RegexNode)
    | Optional(node: RegexNode)
    | Group(node: RegexNode)
  {
    /** The RegexCharClass subtypes. */
    predicate IsCharClass() {
      RangesClass? || WordClass? || DigitClass? || LetterClass? || WhitespaceClass? || NegatedGroup?
    }
  }

  // ---------------------------------------------------------------------
  // Matching
  // ---------------------------------------------------------------------

  /** Whether some range of the list holds `c`. */
  function InSomeRange(ranges: seq<CharRange>, c: char): (b: bool)
    ensures b <==> exists k | 0 <= k < |ranges| :: ranges[k].from <= c <= ranges[k].to
  {
    if ranges == [] then false
    else if ranges[0].from <= c <= ranges[0].to then true
    else
      var rest := InSomeRange(ranges[1..], c);
      assert rest <==> exists k | 1 <= k < |ranges| :: ranges[k].from <= c <= ranges[k].to by {
        if rest {
          var k :| 0 <= k < |ranges[1..]| && ranges[1..][k].from <= c <= ranges[1..][k].to;
          assert ranges[k + 1] == ranges[1..][k];
        }
        if exists k | 1 <= k < |ranges| :: ranges[k].from <= c <= ranges[k].to {
          var k :| 1 <= k < |ranges| && ranges[k].from <= c <= ranges[k].to;
          assert ranges[1..][k - 1] == ranges[k];
        }
      }
      rest
  }

  /**
   * RegexCharClass.Matches. A ranges class matches a character in one of
   * its ranges, flipped when negated; the named classes test the character
   * predicates, flipped when negated; a negated group matches a character
   * that no member class matches. Other nodes are not classes and match
   * nothing here.
   */
  function Matches(ci: CharInfo, n: RegexNode, c: char): (b: bool)
    ensures n.RangesClass? ==> (b <==> (InSomeRange(n.ranges, c) != n.negated))
    ensures n.WordClass? ==> (b <==> ((ci.IsLetterOrDigit(c) || c == '_') != n.negated))
    ensures n.DigitClass? ==> (b <==> (ci.isDigit(c) != n.negated))
    ensures n.LetterClass? ==> (b <==> (ci.isLetter(c) != n.negated))
    ensures n.WhitespaceClass? ==> (b <==> (ci.isWhiteSpace(c) != n.negated))
    ensures n.NegatedGroup? ==> (b <==> forall k | 0 <= k < |n.classes| :: !Matches(ci, n.classes[k], c))
    ensures !n.IsCharClass() ==> !b
    decreases n, 1
  {
    match n
    case RangesClass(ranges, negated) => InSomeRange(ranges, c) != negated
    case WordClass(negated) => (ci.IsLetterOrDigit(c) || c == '_') != negated
    case DigitClass(negated) => ci.isDigit(c) != negated
    case LetterClass(negated) => ci.isLetter(c) != negated
    case WhitespaceClass(negated) => ci.isWhiteSpace(c) != negated
    case NegatedGroup(classes) => !AnyMatches(ci, classes, c)
    case _ => false
  }

  /** Whether some class of the list matches `c` (Any). */
  function AnyMatches(ci: CharInfo, classes: seq<RegexNode>, c: char): (b: bool)
    ensures b <==> exists k | 0 <= k < |classes| :: Matches(ci, classes[k], c)
    decreases classes, 0
  {
    if classes == [] then false
    else
      var rest := AnyMatches(ci, classes[1..], c);
      assert rest <==> exists k | 1 <= k < |classes| :: Matches(ci, classes[k], c) by {
        if rest {
          var k :| 0 <= k < |classes[1..]| && Matches(ci, classes[1..][k], c);
          assert classes[k + 1] == classes[1..][k];
        }
        if exists k | 1 <= k < |classes| :: Matches(ci, classes[k], c) {
          var k :| 1 <= k < |classes| && Matches(ci, classes[k], c);
          assert classes[1..][k - 1] == classes[k];
        }
      }
      Matches(ci, classes[0], c) || rest
  }

  /**
   * DfaInterpreter.MatchesCondition: a literal matches its own character,
   * the dot matches everything, a class as above; any other node matches
   * nothing.
   */
  function MatchesCondition(ci: CharInfo, condition: RegexNode, c: char): (b: bool)
    ensures condition.RegexChar? ==> (b <==> condition.value == c)
    ensures condition.AnyChar? ==> b
    ensures condition.IsCharClass() ==> b == Matches(ci, condition, c)
    ensures !condition.RegexChar? && !condition.AnyChar? && !condition.IsCharClass() ==> !b
  {
    match condition
    case RegexChar(v) => v == c
    case AnyChar => true
    case _ => Matches(ci, condition, c)
  }

  // ---------------------------------------------------------------------
  // Printing
  // ---------------------------------------------------------------------

  /** RangesCharClass.EscapeChar: the class metacharacters and control characters are escaped. */
  function EscapeChar(c: char): (s: string)
    ensures |s| >= 1
    ensures c !in "\\]-^" && !IsControl(c) ==> s == [c]
    ensures c in "\\]-^" ==> s == ['\\', c]
  {
    if c == '\\' then "\\\\"
    else if c == ']' then "\\]"
    else if c == '-' then "\\-"
    else if c == '^' then "\\^"
    else if c == '\t' then "\\t"
    else if c == '\n' then "\\n"
    else if c == '\r' then "\\r"
    else if IsControl(c) then "\\u" + Hex4(c as int)
    else [c]
  }

  function RangesText(ranges: seq<CharRange>): string {
    if ranges == [] then ""
    else
      var r := ranges[0];
      (if r.from == r.to then EscapeChar(r.from) else EscapeChar(r.from) + "-" + EscapeChar(r.to)) + RangesText(ranges[1..])
  }

  /** The postfix operators print their operand at precedence 3, parenthesised only above 3. */
  function PostfixText(operand: string, op: char, precedence: int): string {
    if precedence > 3 then "(" + operand + ")" + [op] else operand + [op]
  }

  /**
   * RegexNode.ToString(precedence). Concatenation is parenthesised in a
   * context above 1 and alternation in a context above 2; a literal
   * backslash is written doubled; a group always prints its contents at
   * precedence 0 in parentheses. The source prints the elements of a
   * concatenation at precedence 1, which leaves an alternation element
   * unparenthesised; `elements` is the precedence given to them, 1 as
   * written and 3 in the corrected printer.
   */
  function Print(n: RegexNode, precedence: int, elements: int): string
    decreases n, 1
  {
    match n
    case RegexChar(v) => if v == '\\' then "\\\\" else [v]
    case AnyChar => "."
    case RangesClass(ranges, negated) => (if negated then "[^" else "[") + RangesText(ranges) + "]"
    case WordClass(negated) => if negated then "\\W" else "\\w"
    case DigitClass(negated) => if negated then "\\D" else "\\d"
    case LetterClass(negated) => if negated then "\\L" else "\\l"
    case WhitespaceClass(negated) => if negated then "\\S" else "\\s"
    case NegatedGroup(classes) => "[^" + Join(classes, 0, "", elements) + "]"
    case Concat(nodes) =>
      var joined := Join(nodes, elements, "", elements);
      if precedence > 1 then "(" + joined + ")" else joined
    case Alternation(nodes) =>
      var joined := Join(nodes, 2, "|", elements);
      if precedence > 2 then "(" + joined + ")" else joined
    case Star(node) => PostfixText(Print(node, 3, elements), '*', precedence)
    case Plus(node) => PostfixText(Print(node, 3, elements), '+', precedence)
    case Optional(node) => PostfixText(Print(node, 3, elements), '?', precedence)
    case Group(node) => "(" + Print(node, 0, elements) + ")"
  }

  /** string.Join(sep, nodes.Select(n => n.ToString(precedence))). */
  function Join(nodes: seq<RegexNode>, precedence: int, sep: string, elements: int): string
    decreases nodes, 0
  {
    if nodes == [] then ""
    else if |nodes| == 1 then Print(nodes[0], precedence, elements)
    else Print(nodes[0], precedence, elements) + sep + Join(nodes[1..], precedence, sep, elements)
  }

  /** ToString() as written: ToString(0), concatenation elements at precedence 1. */
  function TextAsWritten(n: RegexNode): string {
    Print(n, 0, 1)
  }

  const ConcatElementPrecedence := 3

  function ToText(n: RegexNode, precedence: int): string {
    Print(n, precedence, ConcatElementPrecedence)
  }

  /**
   * ToString() with the corrected concatenation elements. The correction
   * shows only in a tree with a concatenation.
   */
  function Text(n: RegexNode): (r: string)
    ensures !HasConcat(n) ==> r == TextAsWritten(n)
  {
    if !HasConcat(n) then
      PrintIgnoresElementsWithoutConcat(n, 0, ConcatElementPrecedence, 1);
      ToText(n, 0)
    else ToText(n, 0)
  }

  /** A literal backslash is printed doubled; every other literal character as itself. */
  lemma CharText(c: char, precedence: int)
    ensures c == '\\' ==> ToText(RegexChar(c), precedence) == "\\\\"
    ensures c != '\\' ==> ToText(RegexChar(c), precedence) == [c]
    ensures TextAsWritten(RegexChar(c)) == ToText(RegexChar(c), 0)
  {
  }

  /**
   * Concatenation is parenthesised exactly in a context above 1, and
   * alternation exactly in a context above 2; otherwise the context does
   * not matter.
   */
  lemma ParenthesesByPrecedence(nodes: seq<RegexNode>, precedence: int)
    ensures precedence > 1 ==> ToText(Concat(nodes), precedence) == "(" + ToText(Concat(nodes), 0) + ")"
    ensures precedence <= 1 ==> ToText(Concat(nodes), precedence) == ToText(Concat(nodes), 0)
    ensures precedence > 2 ==> ToText(Alternation(nodes), precedence) == "(" + ToText(Alternation(nodes), 0) + ")"
    ensures precedence <= 2 ==> ToText(Alternation(nodes), precedence) == ToText(Alternation(nodes), 0)
  {
  }

  /** Whether a concatenation occurs anywhere in the tree. */
  predicate HasConcat(n: RegexNode)
    decreases n, 1
  {
    match n
    case Concat(_) => true
    case NegatedGroup(classes) => AnyHasConcat(classes)
    case Alternation(nodes) => AnyHasConcat(nodes)
    case Star(node) => HasConcat(node)
    case Plus(node) => HasConcat(node)
    case Optional(node) => HasConcat(node)
    case Group(node) => HasConcat(node)
    case _ => false
  }

  predicate AnyHasConcat(nodes: seq<RegexNode>)
    decreases nodes, 0
  {
    nodes != [] && (HasConcat(nodes[0]) || AnyHasConcat(nodes[1..]))
  }

  /**
   * The correction changes only how concatenations print: a tree without
   * one prints the same either way, whatever the context.
   */
  lemma {:induction false} PrintIgnoresElementsWithoutConcat(n: RegexNode, precedence: int, e1: int, e2: int)
    requires !HasConcat(n)
    ensures Print(n, precedence, e1) == Print(n, precedence, e2)
    decreases n, 1
  {
    match n
    case NegatedGroup(classes) => JoinIgnoresElementsWithoutConcat(classes, 0, "", e1, e2);
    case Alternation(nodes) => JoinIgnoresElementsWithoutConcat(nodes, 2, "|", e1, e2);
    case Star(node) => PrintIgnoresElementsWithoutConcat(node, 3, e1, e2);
    case Plus(node) => PrintIgnoresElementsWithoutConcat(node, 3, e1, e2);
    case Optional(node) => PrintIgnoresElementsWithoutConcat(node, 3, e1, e2);
    case Group(node) => PrintIgnoresElementsWithoutConcat(node, 0, e1, e2);
    case _ =>
  }

  lemma {:induction false} JoinIgnoresElementsWithoutConcat(nodes: seq<RegexNode>, precedence: int, sep: string, e1: int, e2: int)
    requires !AnyHasConcat(nodes)
    ensures Join(nodes, precedence, sep, e1) == Join(nodes, precedence, sep, e2)
    decreases nodes, 0
  {
    if nodes != [] {
      PrintIgnoresElementsWithoutConcat(nodes[0], precedence, e1, e2);
      if |nodes| > 1 {
        JoinIgnoresElementsWithoutConcat(nodes[1..], precedence, sep, e1, e2);
      }
    }
  }

  /**
   * As written, an alternation that is an element of a concatenation loses
   * its parentheses, so a(b|c) prints as ab|c; the corrected printer keeps
   * them. A concatenation inside an alternation or under a postfix
   * operator is parenthesised by both.
   */
  lemma NestingExamples()
    ensures TextAsWritten(Concat([RegexChar('a'), Alternation([RegexChar('b'), RegexChar('c')])])) == "ab|c"
    ensures Text(Concat([RegexChar('a'), Alternation([RegexChar('b'), RegexChar('c')])])) == "a(b|c)"
    ensures Text(Alternation([Concat([RegexChar('a'), RegexChar('b')]), RegexChar('c')])) == "(ab)|c"
    ensures Text(Star(Concat([RegexChar('a'), RegexChar('b')]))) == "(ab)*"
  {
    var b, c := RegexChar('b'), RegexChar('c');
    var bc := Alternation([b, c]);
    assert [b, c][1..] == [c];
    assert Print(b, 2, 1) == "b" && Print(c, 2, 1) == "c";
    assert Print(b, 2, 3) == "b" && Print(c, 2, 3) == "c";
    assert Join([b, c], 2, "|", 1) == "b|c";
    assert Join([b, c], 2, "|", 3) == "b|c";
    assert [RegexChar('a'), bc][1..] == [bc];
    var ab := Concat([RegexChar('a'), b]);
    assert [RegexChar('a'), b][1..] == [b];
    assert Print(RegexChar('a'), 3, 3) == "a" && Print(b, 3, 3) == "b";
    assert Join([RegexChar('a'), b], 3, "", 3) == "ab";
    assert [ab, c][1..] == [c];
  }

  /** The class [a-z] together with \d prints as [a-z]|\d. */
  lemma CombinedClassText()
    ensures Text(Alternation([RangesClass([CharRange('a', 'z')], false), DigitClass(false)])) == "[a-z]|\\d"
  {
    var ranges := [CharRange('a', 'z')];
    assert RangesText(ranges) == "a-z" by {
      assert ranges[1..] == [];
    }
    var nodes := [RangesClass(ranges, false), DigitClass(false)];
    assert nodes[1..] == [DigitClass(false)];
  }
}

=== FILE: regex_parser.dfy ===
/**
 * The recursive-descent parser of terminal patterns. Each function takes
 * the pattern and the position to read from and returns the node it built
 * together with the position after it, or the exception the parser throws.
 */
module RegexParser {
  import opened Wrappers
  import opened Chars
  import opened RegexAst
  import opened SeqFacts

  datatype Parsed = Parsed(node: RegexNode, next: nat)

  const UnexpectedEnd := FormatError("Unexpected end of pattern")

  /**
   * Parse: an alternation that must take the whole pattern. A pattern that
   * stops early (at an unbalanced closing parenthesis) is a FormatException.
   */
  function Parse(p: string): (r: Result<RegexNode>)
    ensures r.Ok? <==> ParseAlternation(p, 0).Ok? && ParseAlternation(p, 0).value.next == |p|
    ensures r.Ok? ==> r.value == ParseAlternation(p, 0).value.node
  {
    match ParseAlternation(p, 0)
    case Throw(e) => Throw(e)
    case Ok(Parsed(node, next)) =>
      if next < |p| then Throw(FormatError("Unexpected char")) else Ok(node)
  }

  /** Concatenations separated by '|'; one of them alone is returned as it is. It stops at the end or at ')'. */
  function ParseAlternation(p: string, pos: nat): (r: Result<Parsed>)
    requires pos <= |p|
    ensures r.Ok? ==> pos <= r.value.next <= |p| && (r.value.next == |p| || p[r.value.next] == ')')
    decreases |p| - pos, 6
  {
    match ParseConcat(p, pos)
    case Throw(e) => Throw(e)
    case Ok(first) => AlternationTail(p, first.next, [first.node])
  }

  function AlternationTail(p: string, pos: nat, nodes: seq<RegexNode>): (r: Result<Parsed>)
    requires pos <= |p| && |nodes| >= 1
    requires pos == |p| || p[pos] == ')' || p[pos] == '|'
    ensures r.Ok? ==> pos <= r.value.next <= |p| && (r.value.next == |p| || p[r.value.next] == ')')
    decreases |p| - pos, 5
  {
    if pos < |p| && p[pos] == '|' then
      match ParseConcat(p, pos + 1)
      case Throw(e) => Throw(e)
      case Ok(next) => AlternationTail(p, next.next, nodes + [next.node])
    else
      Ok(Parsed(if |nodes| == 1 then nodes[0] else Alternation(nodes), pos))
  }

  /** Atoms up to the end, ')' or '|'; a single atom is returned as it is, none gives an empty concatenation. */
  function ParseConcat(p: string, pos: nat): (r: Result<Parsed>)
    requires pos <= |p|
    ensures r.Ok? ==> pos <= r.value.next <= |p| && (r.value.next == |p| || p[r.value.next] == ')' || p[r.value.next] == '|')
    decreases |p| - pos, 5
  {
    ConcatTail(p, pos, [])
  }

  function ConcatTail(p: string, pos: nat, nodes: seq<RegexNode>): (r: Result<Parsed>)
    requires pos <= |p|
    ensures r.Ok? ==> pos <= r.value.next <= |p| && (r.value.next == |p| || p[r.value.next] == ')' || p[r.value.next] == '|')
    decreases |p| - pos, 4
  {
    if pos < |p| && p[pos] != ')' && p[pos] != '|' then
      match ParseAtom(p, pos)
      case Throw(e) => Throw(e)
      case Ok(atom) => ConcatTail(p, atom.next, nodes + [atom.node])
    else
      Ok(Parsed(if |nodes| == 1 then nodes[0] else Concat(nodes), pos))
  }

  /** A factor followed by any number of postfix operators, applied left to right. */
  function ParseAtom(p: string, pos: nat): (r: Result<Parsed>)
    requires pos <= |p|
    ensures r.Ok? ==> pos < r.value.next <= |p|
    decreases |p| - pos, 3
  {
    match ParseFactor(p, pos)
    case Throw(e) => Throw(e)
    case Ok(factor) => Ok(Postfix(p, factor.next, factor.node))
  }

  predicate IsPostfix(c: char) {
    c == '*' || c == '+' || c == '?'
  }

  function Postfix(p: string, pos: nat, node: RegexNode): (r: Parsed)
    requires pos <= |p|
    ensures pos <= r.next <= |p| && (r.next == |p| || !IsPostfix(p[r.next]))
    ensures forall k | pos <= k < r.next :: IsPostfix(p[k])
    decreases |p| - pos
  {
    if pos < |p| && p[pos] == '*' then Postfix(p, pos + 1, Star(node))
    else if pos < |p| && p[pos] == '+' then Postfix(p, pos + 1, Plus(node))
    else if pos < |p| && p[pos] == '?' then Postfix(p, pos + 1, Optional(node))
    else Parsed(node, pos)
  }

  /** One postfix operator applied to a node. */
  function ApplyPostfix(op: char, node: RegexNode): (r: RegexNode)
    requires IsPostfix(op)
    ensures r.Star? || r.Plus? || r.Optional?
    ensures r.node == node
  {
    if op == '*' then Star(node) else if op == '+' then Plus(node) else Optional(node)
  }

  /** Postfix operators applied left to right: the first one wraps the node, the last one is outermost. */
  function ApplyAll(ops: string, node: RegexNode): RegexNode
    requires forall k | 0 <= k < |ops| :: IsPostfix(ops[k])
    decreases |ops|
  {
    if ops == [] then node else ApplyAll(ops[1..], ApplyPostfix(ops[0], node))
  }

  /** The operators after a factor wrap it in the order they are written. */
  lemma {:induction false} PostfixWrapsInOrder(p: string, pos: nat, node: RegexNode)
    requires pos <= |p|
    ensures var r := Postfix(p, pos, node);
      (forall k | 0 <= k < |p[pos..r.next]| :: IsPostfix(p[pos..r.next][k])) &&
      r.node == ApplyAll(p[pos..r.next], node)
    decreases |p| - pos
  {
    var r := Postfix(p, pos, node);
    assert forall k | 0 <= k < |p[pos..r.next]| :: p[pos..r.next][k] == p[pos + k];
    if pos < |p| && IsPostfix(p[pos]) {
      PostfixWrapsInOrder(p, pos + 1, ApplyPostfix(p[pos], node));
      assert p[pos..r.next][1..] == p[pos + 1..r.next];
    } else {
      assert p[pos..r.next] == [];
    }
  }

  /**
   * A group, a class, the dot, an escape or a literal character; any other
   * character, a postfix operator or ']' included, stands for itself.
   * Reading past the end is the string indexer's exception.
   */
  function ParseFactor(p: string, pos: nat): (r: Result<Parsed>)
    requires pos <= |p|
    ensures pos == |p| ==> r == Throw(IndexOutOfRange)
    ensures pos < |p| && p[pos] !in "([.\\" ==> r == Ok(Parsed(RegexChar(p[pos]), pos + 1))
    ensures r.Ok? ==> pos < r.value.next <= |p|
    decreases |p| - pos, 2
  {
    if pos == |p| then Throw(IndexOutOfRange)
    else if p[pos] == '(' then ParseGroup(p, pos)
    else if p[pos] == '[' then ParseCharClass(p, pos + 1)
    else if p[pos] == '.' then Ok(Parsed(AnyChar, pos + 1))
    else if p[pos] == '\\' then ParseEscape(p, pos + 1)
    else Ok(Parsed(RegexChar(p[pos]), pos + 1))
  }

  /**
   * '(' alternation ')'. The alternation stops only at ')' or at the end;
   * at the end the closing Consume reads past the string.
   */
  function ParseGroup(p: string, pos: nat): (r: Result<Parsed>)
    requires pos < |p|
    ensures r.Ok? ==> pos < r.value.next <= |p| && p[r.value.next - 1] == ')' && r.value.node.Group?
    decreases |p| - pos, 1
  {
    match ParseAlternation(p, pos + 1)
    case Throw(e) => Throw(e)
    case Ok(inner) =>
      if inner.next == |p| then Throw(IndexOutOfRange)
      else if p[inner.next] != ')' then Throw(FormatError("Expected ')'"))
      else Ok(Parsed(Group(inner.node), inner.next + 1))
  }

  /** The eight class letters of an escape: lower case for the class, upper case for its negation. */
  function NamedClass(c: char): (r: Option<RegexNode>)
    ensures r.Some? <==> c in "wWlLdDsS"
    ensures r.Some? ==> r.value.IsCharClass() && !r.value.RangesClass? && !r.value.NegatedGroup?
    ensures r.Some? ==> r.value.negated == (c in "WLDS")
  {
    match c
    case 'w' => Some(WordClass(false))
    case 'W' => Some(WordClass(true))
    case 'l' => Some(LetterClass(false))
    case 'L' => Some(LetterClass(true))
    case 'd' => Some(DigitClass(false))
    case 'D' => Some(DigitClass(true))
    case 's' => Some(WhitespaceClass(false))
    case 'S' => Some(WhitespaceClass(true))
    case _ => None
  }

  /** After a backslash: a class letter, or any other character taken literally. */
  function ParseEscape(p: string, pos: nat): (r: Result<Parsed>)
    requires pos <= |p|
    ensures pos == |p| <==> r == Throw(UnexpectedEnd)
    ensures pos < |p| ==> r == Ok(Parsed(NamedClass(p[pos]).GetOr(RegexChar(p[pos])), pos + 1))
  {
    if pos == |p| then Throw(UnexpectedEnd)
    else Ok(Parsed(NamedClass(p[pos]).GetOr(RegexChar(p[pos])), pos + 1))
  }

  /**
   * What combining class items can yield: a negated group of items, or
   * else merged ranges, a single item, or an alternation of items.
   */
  predicate ClassNode(node: RegexNode, negated: bool) {
    if negated then node.NegatedGroup? && AllItems(node.classes)
    else (node.RangesClass? && !node.negated) || IsItem(node) || (node.Alternation? && AllItems(node.nodes))
  }

  /** '[' then an optional '^', then class items up to ']', combined. */
  function ParseCharClass(p: string, pos: nat): (r: Result<Parsed>)
    requires pos <= |p|
    ensures r.Ok? ==> pos < r.value.next <= |p| && p[r.value.next - 1] == ']'
    ensures r.Ok? ==> ClassNode(r.value.node, pos < |p| && p[pos] == '^')
  {
    var negated := pos < |p| && p[pos] == '^';
    var items := ClassItems(p, if negated then pos + 1 else pos);
    if items.Throw? then Throw(items.exception)
    else
      CombineIsClassNode(items.value.0, negated);
      Ok(Parsed(Combine(items.value.0, negated), items.value.1))
  }

  lemma CombineIsClassNode(items: seq<RegexNode>, negated: bool)
    requires AllItems(items)
    ensures ClassNode(Combine(items, negated), negated)
  {
  }

  predicate AllItems(ns: seq<RegexNode>) {
    forall k | 0 <= k < |ns| :: IsItem(ns[k])
  }

  /** A class item: a ranges class of one range, or an escaped class letter. */
  predicate IsItem(n: RegexNode) {
    n.IsCharClass() && !n.NegatedGroup? && (n.RangesClass? ==> |n.ranges| == 1 && !n.negated)
  }

  /** The items of a class, up to and including the closing ']'. */
  function ClassItems(p: string, pos: nat): (r: Result<(seq<RegexNode>, nat)>)
    requires pos <= |p|
    ensures r.Ok? ==> pos < r.value.1 <= |p| && p[r.value.1 - 1] == ']'
    ensures r.Ok? ==> AllItems(r.value.0)
    decreases |p| - pos
  {
    if pos < |p| && p[pos] == ']' then Ok(([], pos + 1))
    else
      var item := if pos < |p| && p[pos] == '\\' then ClassEscape(p, pos + 1) else RangeItem(p, pos);
      match item
      case Throw(e) => Throw(e)
      case Ok(it) =>
        match ClassItems(p, it.next)
        case Throw(e) => Throw(e)
        case Ok((rest, next)) => Ok(([it.node] + rest, next))
  }

  /** An escape inside a class: a class letter, or any other character as a one-character range. */
  function ClassEscape(p: string, pos: nat): (r: Result<Parsed>)
    requires pos <= |p|
    ensures pos == |p| <==> r == Throw(UnexpectedEnd)
    ensures pos < |p| ==> r == Ok(Parsed(NamedClass(p[pos]).GetOr(RangesClass([CharRange(p[pos], p[pos])], false)), pos + 1))
    ensures r.Ok? ==> IsItem(r.value.node) && r.value.next == pos + 1
  {
    if pos == |p| then Throw(UnexpectedEnd)
    else Ok(Parsed(NamedClass(p[pos]).GetOr(RangesClass([CharRange(p[pos], p[pos])], false)), pos + 1))
  }

  /**
   * A character, or a range `from-to` when a '-' follows that is neither
   * the last character nor just before ']'. A range whose ends are out of
   * order is a FormatException.
   */
  function RangeItem(p: string, pos: nat): (r: Result<Parsed>)
    requires pos <= |p|
    ensures r.Ok? ==> IsItem(r.value.node) && pos < r.value.next <= |p|
    ensures r.Ok? ==> r.value.node.RangesClass? && r.value.node.ranges[0].from == p[pos] && r.value.node.ranges[0].from <= r.value.node.ranges[0].to
    ensures pos == |p| ==> r == Throw(UnexpectedEnd)
    ensures pos + 2 < |p| && p[pos + 1] == '-' && p[pos + 2] != ']' ==>
      (r.Ok? <==> p[pos] <= p[pos + 2]) && (r.Ok? ==> r.value == Parsed(RangesClass([CharRange(p[pos], p[pos + 2])], false), pos + 3))
  {
    if pos == |p| then Throw(UnexpectedEnd)
    else
      var from := p[pos];
      if pos + 2 < |p| && p[pos + 1] == '-' && p[pos + 2] != ']' then
        var to := p[pos + 2];
        if from > to then Throw(FormatError("Invalid range"))
        else Ok(Parsed(RangesClass([CharRange(from, to)], false), pos + 3))
      else Ok(Parsed(RangesClass([CharRange(from, from)], false), pos + 1))
  }

  predicate AllRanges(classes: seq<RegexNode>) {
    forall k | 0 <= k < |classes| :: classes[k].RangesClass?
  }

  /** The ranges of a list of ranges classes, in order. */
  function FlattenRanges(classes: seq<RegexNode>): seq<CharRange>
    requires AllRanges(classes)
  {
    if classes == [] then [] else classes[0].ranges + FlattenRanges(classes[1..])
  }

  /**
   * CombineCharClasses: a negated class is the group of its items; items
   * that are all ranges merge into one ranges class; a single other item is
   * itself; several are an alternation of the items.
   */
  function Combine(classes: seq<RegexNode>, negated: bool): RegexNode {
    if negated then NegatedGroup(classes)
    else if AllRanges(classes) then RangesClass(FlattenRanges(classes), false)
    else if |classes| == 1 then classes[0]
    else Alternation(classes)
  }

  lemma {:induction false} FlattenMatches(ci: CharInfo, classes: seq<RegexNode>, c: char)
    requires forall k | 0 <= k < |classes| :: classes[k].RangesClass? && !classes[k].negated
    ensures InSomeRange(FlattenRanges(classes), c) <==> AnyMatches(ci, classes, c)
    decreases |classes|
  {
    if classes != [] {
      FlattenMatches(ci, classes[1..], c);
      InSomeRangeConcat(classes[0].ranges, FlattenRanges(classes[1..]), c);
    }
  }

  /** A character is in the ranges of a concatenation when it is in the ranges of either part. */
  lemma InSomeRangeConcat(head: seq<CharRange>, rest: seq<CharRange>, c: char)
    ensures InSomeRange(head + rest, c) <==> InSomeRange(head, c) || InSomeRange(rest, c)
  {
    if InSomeRange(head + rest, c) {
      var k :| 0 <= k < |head + rest| && (head + rest)[k].from <= c <= (head + rest)[k].to;
      if k < |head| {
        assert head[k] == (head + rest)[k];
      } else {
        assert rest[k - |head|] == (head + rest)[k];
      }
    }
    if InSomeRange(head, c) {
      var k :| 0 <= k < |head| && head[k].from <= c <= head[k].to;
      assert (head + rest)[k] == head[k];
    }
    if InSomeRange(rest, c) {
      var k :| 0 <= k < |rest| && rest[k].from <= c <= rest[k].to;
      assert (head + rest)[|head| + k] == rest[k];
    }
  }

  /**
   * What the combined class matches: a negated class a character that no
   * item matches, merged ranges a character some item matches, and a
   * single item what that item matches. Otherwise the result is the
   * alternation of the items.
   */
  lemma CombineMatches(ci: CharInfo, classes: seq<RegexNode>, negated: bool, c: char)
    requires AllItems(classes)
    ensures negated ==> (Matches(ci, Combine(classes, negated), c) <==> !AnyMatches(ci, classes, c))
    ensures !negated && (AllRanges(classes) || |classes| == 1) ==>
      (Matches(ci, Combine(classes, negated), c) <==> AnyMatches(ci, classes, c))
    ensures !negated && !AllRanges(classes) && |classes| != 1 ==> Combine(classes, negated) == Alternation(classes)
  {
    if !negated && AllRanges(classes) {
      FlattenMatches(ci, classes, c);
    }
    if !negated && |classes| == 1 {
      assert classes[1..] == [];
    }
  }

  // ---------------------------------------------------------------------
  // Literal patterns
  // ---------------------------------------------------------------------

  /** Characters that are not literal at the top level of a pattern. */
  predicate IsMeta(c: char) {
    c in "()[.\\|*+?"
  }

  function LiteralChars(s: string): (r: seq<RegexNode>)
    ensures |r| == |s| && forall k | 0 <= k < |s| :: r[k] == RegexChar(s[k])
  {
    seq(|s|, k requires 0 <= k < |s| => RegexChar(s[k]))
  }

  /** The node a concatenation of the given nodes yields. */
  function ConcatOf(nodes: seq<RegexNode>): RegexNode {
    if |nodes| == 1 then nodes[0] else Concat(nodes)
  }

  lemma {:induction false} LiteralTail(s: string, pos: nat, nodes: seq<RegexNode>)
    requires pos <= |s| && forall k | 0 <= k < |s| :: !IsMeta(s[k])
    ensures ConcatTail(s, pos, nodes) == Ok(Parsed(ConcatOf(nodes + LiteralChars(s[pos..])), |s|))
    decreases |s| - pos
  {
    if pos == |s| {
      LiteralEnd(s, nodes);
    } else {
      var c := RegexChar(s[pos]);
      LiteralStep(s, pos, nodes);
      LiteralTail(s, pos + 1, nodes + [c]);
      LiteralCharsCons(s, pos);
      RegroupThree(nodes, [c], LiteralChars(s[pos + 1..]));
    }
  }

  lemma LiteralEnd(s: string, nodes: seq<RegexNode>)
    ensures ConcatTail(s, |s|, nodes) == Ok(Parsed(ConcatOf(nodes + LiteralChars(s[|s|..])), |s|))
  {
    assert LiteralChars(s[|s|..]) == [];
    assert nodes + [] == nodes;
  }

  /** A literal character not followed by a postfix operator is one atom. */
  lemma LiteralStep(s: string, pos: nat, nodes: seq<RegexNode>)
    requires pos < |s| && !IsMeta(s[pos]) && (pos + 1 < |s| ==> !IsMeta(s[pos + 1]))
    ensures ConcatTail(s, pos, nodes) == ConcatTail(s, pos + 1, nodes + [RegexChar(s[pos])])
  {
    var c := RegexChar(s[pos]);
    assert ParseFactor(s, pos) == Ok(Parsed(c, pos + 1));
    assert Postfix(s, pos + 1, c) == Parsed(c, pos + 1);
    ConcatStep(s, pos, nodes);
  }

  lemma LiteralCharsCons(s: string, pos: nat)
    requires pos < |s|
    ensures LiteralChars(s[pos..]) == [RegexChar(s[pos])] + LiteralChars(s[pos + 1..])
  {
  }

  /** A concatenation of one atom is that atom, not a one-element Concat. */
  lemma SingleAtomIsItself(p: string, pos: nat)
    requires pos < |p| && p[pos] != ')' && p[pos] != '|' && ParseAtom(p, pos).Ok?
    requires var n := ParseAtom(p, pos).value.next; n == |p| || p[n] == ')' || p[n] == '|'
    ensures ParseConcat(p, pos) == ParseAtom(p, pos)
  {
    var atom := ParseAtom(p, pos).value;
    ConcatStep(p, pos, []);
    assert [] + [atom.node] == [atom.node];
    assert ConcatTail(p, atom.next, [atom.node]) == Ok(atom);
  }

  /** An alternation of one branch, one not followed by '|', is that branch and not a one-element Alternation. */
  lemma SingleBranchIsItself(p: string, pos: nat)
    requires pos <= |p| && ParseConcat(p, pos).Ok?
    requires var n := ParseConcat(p, pos).value.next; n < |p| ==> p[n] != '|'
    ensures ParseAlternation(p, pos) == ParseConcat(p, pos)
  {
  }

  /** A pattern without metacharacters is the concatenation of its characters (one character is itself). */
  lemma LiteralPattern(s: string)
    requires forall k | 0 <= k < |s| :: !IsMeta(s[k])
    ensures Parse(s) == Ok(ConcatOf(LiteralChars(s)))
  {
    LiteralTail(s, 0, []);
    assert [] + LiteralChars(s[0..]) == LiteralChars(s);
    assert ParseConcat(s, 0) == Ok(Parsed(ConcatOf(LiteralChars(s)), |s|));
    assert AlternationTail(s, |s|, [ConcatOf(LiteralChars(s))]) == Ok(Parsed(ConcatOf(LiteralChars(s)), |s|));
  }

  /** The characters of a word without backslashes print back as the word. */
  lemma {:induction false} JoinLiteral(s: string, precedence: int, elements: int)
    requires forall k | 0 <= k < |s| :: s[k] != '\\'
    ensures Join(LiteralChars(s), precedence, "", elements) == s
    decreases |s|
  {
    if |s| > 1 {
      assert LiteralChars(s)[1..] == LiteralChars(s[1..]);
      JoinLiteral(s[1..], precedence, elements);
      assert [s[0]] + "" + s[1..] == s;
    } else if |s| == 1 {
      assert [s[0]] == s;
    }
  }

  /**
   * Printing and parsing are inverse on literal patterns: a pattern without
   * metacharacters parses to a node that prints back as the pattern, by
   * either printer, and that printed text parses back to the same node.
   */
  lemma LiteralRoundTrip(s: string)
    requires forall k | 0 <= k < |s| :: !IsMeta(s[k])
    ensures var n := ConcatOf(LiteralChars(s));
      && Parse(s) == Ok(n)
      && Text(n) == s && TextAsWritten(n) == s
      && Parse(Text(n)) == Ok(n) && Parse(TextAsWritten(n)) == Ok(n)
  {
    LiteralPattern(s);
    var n := ConcatOf(LiteralChars(s));
    if |s| == 1 {
      assert LiteralChars(s)[0] == RegexChar(s[0]);
      assert [s[0]] == s;
    } else {
      JoinLiteral(s, ConcatElementPrecedence, ConcatElementPrecedence);
      JoinLiteral(s, 1, 1);
    }
  }

  // ---------------------------------------------------------------------
  // Examples
  // ---------------------------------------------------------------------

  /** A class with a range and a digit escape is the alternation of the two. */
  lemma RangeAndDigitClass()
    ensures Parse(RangeAndDigit) == Ok(Alternation([RangesClass([CharRange('a', 'z')], false), DigitClass(false)]))
  {
    var az, d := RangesClass([CharRange('a', 'z')], false), DigitClass(false);
    RangeAndDigitItems();
    assert !AllRanges([az, d]) by {
      assert ![az, d][1].RangesClass?;
    }
    assert ParseFactor(RangeAndDigit, 0) == Ok(Parsed(Alternation([az, d]), 7));
  }

  const RangeAndDigit := "[a-z\\d]"

  lemma RangeAndDigitItems()
    ensures ClassItems(RangeAndDigit, 1) == Ok(([RangesClass([CharRange('a', 'z')], false), DigitClass(false)], 7))
  {
    var p := RangeAndDigit;
    var az, d := RangesClass([CharRange('a', 'z')], false), DigitClass(false);
    assert ClassItems(p, 4) == Ok(([d], 7)) by {
      assert ClassItems(p, 6) == Ok(([], 7));
      assert p[4] == '\\' && p[5] == 'd';
      assert ClassEscape(p, 5) == Ok(Parsed(d, 6));
      assert [d] + [] == [d];
    }
    assert p[1] != ']' && p[1] != '\\';
    assert RangeItem(p, 1) == Ok(Parsed(az, 4));
    assert [az] + [d] == [az, d];
  }

  /** An unclosed group runs past the end of the pattern: the source indexes the missing ')'. */
  lemma UnclosedGroupFails()
    ensures Parse("(a") == Throw(IndexOutOfRange)
  {
    assert ParseConcat("(a", 1) == Ok(Parsed(RegexChar('a'), 2));
    assert ParseAlternation("(a", 1) == Ok(Parsed(RegexChar('a'), 2));
  }

  /** A ')' without its '(' is left over after the top-level alternation. */
  lemma UnopenedGroupFails()
    ensures Parse("a)") == Throw(FormatError("Unexpected char"))
  {
    assert ConcatTail("a)", 1, [RegexChar('a')]) == Ok(Parsed(RegexChar('a'), 1));
    assert ParseConcat("a)", 0) == Ok(Parsed(RegexChar('a'), 1));
  }

  /** A range whose ends are out of order. */
  lemma InvalidRangeFails()
    ensures Parse("[z-a]") == Throw(FormatError("Invalid range"))
  {
    assert RangeItem("[z-a]", 1) == Throw(FormatError("Invalid range"));
  }

  /** A class that is never closed. */
  lemma UnclosedClassFails()
    ensures Parse("[a") == Throw(UnexpectedEnd)
  {
    assert ClassItems("[a", 2) == Throw(UnexpectedEnd);
  }

  /** A pattern that ends in a lone backslash. */
  lemma TrailingBackslashFails()
    ensures Parse("a\\") == Throw(UnexpectedEnd)
  {
    assert ParseAtom("a\\", 1) == Throw(UnexpectedEnd);
  }

  // ---------------------------------------------------------------------
  // Printing a parsed class and reading it back
  // ---------------------------------------------------------------------

  const AzOrDigit := Alternation([Az, DigitClass(false)])

  /** The items of a-z\d] read from any position, as in the class example. */
  lemma AzDigitItems(p: string, pos: nat)
    requires pos + 6 <= |p| && p[pos..pos + 6] == "a-z\\d]"
    ensures ClassItems(p, pos) == Ok(([RangesClass([CharRange('a', 'z')], false), DigitClass(false)], pos + 6))
  {
    var az, d := RangesClass([CharRange('a', 'z')], false), DigitClass(false);
    var w := p[pos..pos + 6];
    assert p[pos] == w[0] && p[pos + 1] == w[1] && p[pos + 2] == w[2];
    assert p[pos + 3] == w[3] && p[pos + 4] == w[4] && p[pos + 5] == w[5];
    assert ClassItems(p, pos + 3) == Ok(([d], pos + 6)) by {
      assert ClassItems(p, pos + 5) == Ok(([], pos + 6));
      assert ClassEscape(p, pos + 4) == Ok(Parsed(d, pos + 5));
      assert [d] + [] == [d];
    }
    assert RangeItem(p, pos) == Ok(Parsed(az, pos + 3));
    assert [az] + [d] == [az, d];
  }

  const ClassAfterCharPattern := "x[a-z\\d]"
  const AsWrittenText := "x[a-z]|\\d"
  const CorrectedText := "x([a-z]|\\d)"

  lemma ClassAfterCharAtom(p: string)
    requires p == ClassAfterCharPattern
    ensures ParseAtom(p, 1) == Ok(Parsed(AzOrDigit, 8))
  {
    assert |p| == 8 && p[1] == '[';
    AzOrDigitClass(p);
    assert Postfix(p, 8, AzOrDigit) == Parsed(AzOrDigit, 8);
  }

  lemma AzOrDigitClass(p: string)
    requires p == ClassAfterCharPattern
    ensures ParseCharClass(p, 2) == Ok(Parsed(AzOrDigit, 8))
  {
    assert |p| == 8 && p[2] != '^' && p[2..8] == "a-z\\d]";
    AzDigitItems(p, 2);
    var d := DigitClass(false);
    assert !AllRanges([Az, d]) by {
      assert ![Az, d][1].RangesClass?;
    }
  }

  lemma ClassAfterCharConcat(p: string)
    requires p == ClassAfterCharPattern
    ensures ParseConcat(p, 0) == Ok(Parsed(Concat([RegexChar('x'), AzOrDigit]), 8))
  {
    ClassAfterCharTail(p);
    assert |p| == 8 && p[0] == 'x' && p[1] == '[';
    XAtom(p);
  }

  lemma ClassAfterCharTail(p: string)
    requires p == ClassAfterCharPattern
    ensures ConcatTail(p, 1, [RegexChar('x')]) == Ok(Parsed(Concat([RegexChar('x'), AzOrDigit]), 8))
  {
    ClassAfterCharAtom(p);
    var n := Concat([RegexChar('x'), AzOrDigit]);
    assert |p| == 8 && p[1] == '[';
    assert ConcatTail(p, 8, [RegexChar('x'), AzOrDigit]) == Ok(Parsed(n, 8));
    assert [RegexChar('x')] + [AzOrDigit] == [RegexChar('x'), AzOrDigit];
  }

  /** x[a-z\d] is the character x followed by the alternation of the two items. */
  lemma ClassAfterChar()
    ensures Parse(ClassAfterCharPattern) == Ok(Concat([RegexChar('x'), AzOrDigit]))
  {
    var p := ClassAfterCharPattern;
    ClassAfterCharConcat(p);
    var n := Concat([RegexChar('x'), AzOrDigit]);
    assert AlternationTail(p, 8, [n]) == Ok(Parsed(n, 8));
  }

  lemma AzOrDigitPrints(elements: int)
    ensures Join([Az, DigitClass(false)], 2, "|", elements) == "[a-z]|\\d"
  {
    var d := DigitClass(false);
    assert RangesText([CharRange('a', 'z')]) == "a-z" by {
      assert [CharRange('a', 'z')][1..] == [];
    }
    assert Print(Az, 2, elements) == "[a-z]";
    assert Print(d, 2, elements) == "\\d";
    assert [Az, d][1..] == [d];
  }

  /** The two printers on x[a-z\d]: as written the alternation loses its parentheses. */
  lemma ClassAfterCharPrints()
    ensures TextAsWritten(Concat([RegexChar('x'), AzOrDigit])) == AsWrittenText
    ensures Text(Concat([RegexChar('x'), AzOrDigit])) == CorrectedText
  {
    ClassAfterCharPrintsAsWritten();
    ClassAfterCharPrintsCorrected();
  }

  lemma ClassAfterCharPrintsAsWritten()
    ensures TextAsWritten(Concat([RegexChar('x'), AzOrDigit])) == AsWrittenText
  {
    AzOrDigitPrints(1);
    assert Print(AzOrDigit, 1, 1) == "[a-z]|\\d";
    assert Print(RegexChar('x'), 1, 1) == "x";
    assert [RegexChar('x'), AzOrDigit][1..] == [AzOrDigit];
    assert Join([RegexChar('x'), AzOrDigit], 1, "", 1) == "x" + "" + "[a-z]|\\d";
  }

  lemma ClassAfterCharPrintsCorrected()
    ensures Text(Concat([RegexChar('x'), AzOrDigit])) == CorrectedText
  {
    AzOrDigitPrints(3);
    assert Print(AzOrDigit, 3, 3) == "([a-z]|\\d)";
    assert Print(RegexChar('x'), 3, 3) == "x";
    assert [RegexChar('x'), AzOrDigit][1..] == [AzOrDigit];
    assert Join([RegexChar('x'), AzOrDigit], 3, "", 3) == "x" + "" + "([a-z]|\\d)";
  }

  const Az := RangesClass([CharRange('a', 'z')], false)

  lemma FlattenAz()
    ensures FlattenRanges([Az]) == [CharRange('a', 'z')]
  {
    assert [Az][1..] == [];
  }

  /** [a-z] starting at `pos`, read as one atom that ends before a '|' or ')'. */
  lemma AzAtom(p: string, pos: nat)
    requires pos + 6 <= |p| && p[pos..pos + 6] in {"[a-z]|", "[a-z])"}
    ensures ParseAtom(p, pos) == Ok(Parsed(Az, pos + 5))
  {
    var w := p[pos..pos + 6];
    assert p[pos] == w[0] && p[pos + 1] == w[1] && p[pos + 2] == w[2];
    assert p[pos + 3] == w[3] && p[pos + 4] == w[4] && p[pos + 5] == w[5];
    AzItems(p, pos + 1);
    FlattenAz();
    assert ParseCharClass(p, pos + 1) == Ok(Parsed(Az, pos + 5));
    assert Postfix(p, pos + 5, Az) == Parsed(Az, pos + 5);
  }

  lemma AzItems(p: string, pos: nat)
    requires pos + 4 <= |p| && p[pos] == 'a' && p[pos + 1] == '-' && p[pos + 2] == 'z' && p[pos + 3] == ']'
    ensures ClassItems(p, pos) == Ok(([Az], pos + 4))
  {
    assert ClassItems(p, pos + 3) == Ok(([], pos + 4));
    assert RangeItem(p, pos) == Ok(Parsed(Az, pos + 3));
    assert [Az] + [] == [Az];
  }

  /** \d starting at `pos`, read as a whole concatenation up to the end or ')'. */
  lemma DigitConcat(p: string, pos: nat)
    requires pos + 2 <= |p| && p[pos] == '\\' && p[pos + 1] == 'd' && (pos + 2 == |p| || p[pos + 2] == ')')
    ensures ParseConcat(p, pos) == Ok(Parsed(DigitClass(false), pos + 2))
  {
    var d := DigitClass(false);
    assert ParseEscape(p, pos + 1) == Ok(Parsed(d, pos + 2));
    assert Postfix(p, pos + 2, d) == Parsed(d, pos + 2);
    assert ParseAtom(p, pos) == Ok(Parsed(d, pos + 2));
    assert ConcatTail(p, pos + 2, [d]) == Ok(Parsed(d, pos + 2));
    assert [] + [d] == [d];
  }

  lemma AsWrittenTextFirstBranch(p: string)
    requires p == AsWrittenText
    ensures ParseConcat(p, 0) == Ok(Parsed(Concat([RegexChar('x'), Az]), 6))
  {
    AsWrittenTextAfterX(p);
    XAtom(p);
  }

  /** A leading x followed by '[' or '(' is a one-character atom. */
  lemma XAtom(p: string)
    requires |p| > 1 && p[0] == 'x' && (p[1] == '[' || p[1] == '(')
    ensures ParseConcat(p, 0) == ConcatTail(p, 1, [RegexChar('x')])
  {
    assert ParseFactor(p, 0) == Ok(Parsed(RegexChar('x'), 1));
    assert Postfix(p, 1, RegexChar('x')) == Parsed(RegexChar('x'), 1);
    ConcatStep(p, 0, []);
    assert [] + [RegexChar('x')] == [RegexChar('x')];
  }

  lemma AsWrittenTextAfterX(p: string)
    requires p == AsWrittenText
    ensures ConcatTail(p, 1, [RegexChar('x')]) == Ok(Parsed(Concat([RegexChar('x'), Az]), 6))
  {
    assert p[1..7] == "[a-z]|";
    AzAtom(p, 1);
    assert p[6] == '|';
    assert ConcatTail(p, 6, [RegexChar('x'), Az]) == Ok(Parsed(Concat([RegexChar('x'), Az]), 6));
    assert [RegexChar('x')] + [Az] == [RegexChar('x'), Az];
  }

  /**
   * As written, the printed form of x[a-z\d] reads back as an alternation
   * whose first branch is x[a-z]: a different pattern from the one printed.
   */
  lemma AsWrittenPrintChangesMeaning()
    ensures Parse(AsWrittenText) == Ok(Alternation([Concat([RegexChar('x'), Az]), DigitClass(false)]))
    ensures Parse(TextAsWritten(Concat([RegexChar('x'), AzOrDigit]))) != Ok(Concat([RegexChar('x'), AzOrDigit]))
  {
    AsWrittenAlternation(AsWrittenText);
    ClassAfterCharPrints();
  }

  lemma AsWrittenAlternation(p: string)
    requires p == AsWrittenText
    ensures ParseAlternation(p, 0) == Ok(Parsed(Alternation([Concat([RegexChar('x'), Az]), DigitClass(false)]), 9))
  {
    var d := DigitClass(false);
    var xaz := Concat([RegexChar('x'), Az]);
    AsWrittenTextFirstBranch(p);
    assert |p| == 9 && p[6] == '|' && p[7] == '\\' && p[8] == 'd';
    DigitConcat(p, 7);
    assert AlternationTail(p, 9, [xaz, d]) == Ok(Parsed(Alternation([xaz, d]), 9));
    assert [xaz] + [d] == [xaz, d];
    assert AlternationTail(p, 6, [xaz]) == Ok(Parsed(Alternation([xaz, d]), 9));
  }

  lemma CorrectedTextInner(p: string)
    requires p == CorrectedText
    ensures ParseAlternation(p, 2) == Ok(Parsed(AzOrDigit, 10))
  {
    var d := DigitClass(false);
    assert p[2..8] == "[a-z]|";
    AzAtom(p, 2);
    assert p[7] == '|';
    assert ConcatTail(p, 7, [Az]) == Ok(Parsed(Az, 7));
    assert [] + [Az] == [Az];
    assert ParseConcat(p, 2) == Ok(Parsed(Az, 7));
    assert p[8] == '\\' && p[9] == 'd' && p[10] == ')';
    DigitConcat(p, 8);
    assert AlternationTail(p, 10, [Az, d]) == Ok(Parsed(AzOrDigit, 10));
    assert [Az] + [d] == [Az, d];
    assert AlternationTail(p, 7, [Az]) == Ok(Parsed(AzOrDigit, 10));
  }

  lemma CorrectedTextConcat(p: string)
    requires p == CorrectedText
    ensures ParseConcat(p, 0) == Ok(Parsed(Concat([RegexChar('x'), Group(AzOrDigit)]), 11))
  {
    assert |p| > 1 && p[0] == 'x' && p[1] == '(';
    XAtom(p);
    CorrectedGroupTail(p);
  }

  lemma CorrectedGroupTail(p: string)
    requires p == CorrectedText
    ensures ConcatTail(p, 1, [RegexChar('x')]) == Ok(Parsed(Concat([RegexChar('x'), Group(AzOrDigit)]), 11))
  {
    assert |p| == 11 && p[1] == '(';
    assert [RegexChar('x')] + [Group(AzOrDigit)] == [RegexChar('x'), Group(AzOrDigit)];
    CorrectedGroupAtom(p);
    ConcatStep(p, 1, [RegexChar('x')]);
  }

  /** One atom read by the concatenation loop. */
  lemma ConcatStep(p: string, pos: nat, nodes: seq<RegexNode>)
    requires pos < |p| && p[pos] != ')' && p[pos] != '|' && ParseAtom(p, pos).Ok?
    ensures var atom := ParseAtom(p, pos).value; ConcatTail(p, pos, nodes) == ConcatTail(p, atom.next, nodes + [atom.node])
  {
  }

  lemma CorrectedGroupAtom(p: string)
    requires p == CorrectedText
    ensures ParseAtom(p, 1) == Ok(Parsed(Group(AzOrDigit), 11))
  {
    CorrectedTextInner(p);
    assert |p| == 11 && p[1] == '(' && p[10] == ')';
    assert ParseGroup(p, 1) == Ok(Parsed(Group(AzOrDigit), 11));
    assert Postfix(p, 11, Group(AzOrDigit)) == Parsed(Group(AzOrDigit), 11);
  }

  /**
   * The corrected printer writes x([a-z]|\d), which reads back as the same
   * concatenation with the alternation in a group, a node the automaton
   * builder treats as its contents.
   */
  lemma CorrectedPrintKeepsGrouping()
    ensures Parse(Text(Concat([RegexChar('x'), AzOrDigit]))) == Ok(Concat([RegexChar('x'), Group(AzOrDigit)]))
  {
    var p := CorrectedText;
    ClassAfterCharPrints();
    CorrectedTextConcat(p);
    var n := Concat([RegexChar('x'), Group(AzOrDigit)]);
    assert AlternationTail(p, 11, [n]) == Ok(Parsed(n, 11));
  }
}

=== FILE: rules.dfy ===
/**
 * The grammar rules of the extensible parser: terminals, sequences,
 * repetitions, references, lookahead predicates and separated lists, with
 * reference inlining and the typed walk over sub-rules.
 */
module Rules {
  import opened Wrappers

  /**
   * Terminal. Besides literals and the recovery terminal that matches
   * nothing, a grammar supplies its own matchers (regular-expression
   * terminals, the Dot matchers); those are `Custom`, run by a caller-given
   * function keyed by `id`.
   */
  datatype Terminal =
    | Literal(value: string, kind: string)
    | EmptyTerminal(kind: string)
    | Custom(kind: string, id: nat)
  {
    /** Only EmptyTerminal derives from RecoveryTerminal. */
    predicate IsRecovery() {
      EmptyTerminal?
    }
  }

  /** The matchers of the custom terminals: (id, input, startPos) to a length or -1. */
  type Matchers = (nat, string, int) -> int

  /** SeparatorEndBehavior: whether a trailing separator may, must or must not appear. */
  datatype EndBehavior = TrailingOptional | TrailingRequired | TrailingForbidden

  /** Rule. `kind` holds the Kind the constructors store, defaults already applied. */
  datatype Rule =
    | Term(t: Terminal)
    | Seq(elements: seq<Rule>, kind: string)
    | OneOrMany(element: Rule, kind: string)
    | ZeroOrMany(element: Rule, kind: string)
    | Optional(element: Rule, kind: string)
    | OftenMissed(element: Rule, kind: string)
    | Ref(ruleName: string, kind: string)
    | ReqRef(ruleName: string, precedence: int, right: bool, kind: string)
    | AndPredicate(predicateRule: Rule)
    | NotPredicate(predicateRule: Rule)
    | SeparatedList(element: Rule, separator: Rule, kind: string, endBehavior: EndBehavior, canBeEmpty: bool)
  {
    /** Rule.Kind; the two predicates are named "&" and "!". */
    function Kind(): string {
      match this
      case Term(t) => t.kind
      case AndPredicate(_) => "&"
      case NotPredicate(_) => "!"
      case _ => this.kind
    }

    /** `is Ref`: a ReqRef derives from Ref. */
    predicate IsRef() {
      Ref? || ReqRef?
    }

    function Name(): string
      requires IsRef()
    {
      match this
      case Ref(n, _) => n
      case ReqRef(n, _, _, _) => n
    }
  }

  /** `Kind ?? default`. */
  function KindOr(kind: Option<string>, default: string): (k: string)
    ensures kind.Some? ==> k == kind.value
    ensures kind.None? ==> k == default
  {
    match kind
    case Some(v) => v
    case None => default
  }

  /** new Literal(value, kind): the kind defaults to the literal's own text. */
  function MakeLiteral(value: string, kind: Option<string>): (r: Rule)
    ensures r.Term? && r.t.Literal? && r.t.value == value
    ensures kind.None? ==> r.Kind() == value
    ensures kind.Some? ==> r.Kind() == kind.value
  {
    Term(Literal(value, KindOr(kind, value)))
  }

  /**
   * new Ref(name, kind): the kind defaults to `nameof(RuleName)`, which is
   * the text "RuleName" and not the referenced name; ReqRef does the same.
   */
  function MakeRef(name: string, kind: Option<string>): (r: Rule)
    ensures r.Ref? && r.ruleName == name
    ensures kind.None? ==> r.Kind() == "RuleName"
    ensures kind.Some? ==> r.Kind() == kind.value
  {
    Ref(name, KindOr(kind, "RuleName"))
  }

  /** new ReqRef(name, precedence, right, kind). */
  function MakeReqRef(name: string, precedence: int, right: bool, kind: Option<string>): (r: Rule)
    ensures r.ReqRef? && r.ruleName == name && r.precedence == precedence && r.right == right
    ensures kind.None? ==> r.Kind() == "RuleName"
    ensures kind.Some? ==> r.Kind() == kind.value
  {
    ReqRef(name, precedence, right, KindOr(kind, "RuleName"))
  }

  // ---------------------------------------------------------------------
  // Terminal matching
  // ---------------------------------------------------------------------

  /** `value` occurs in `input` at `startPos`. */
  predicate OccursAt(input: string, startPos: int, value: string) {
    0 <= startPos && startPos + |value| <= |input| && input[startPos..startPos + |value|] == value
  }

  /**
   * Terminal.TryMatch. A literal matches its own length when the input
   * continues with it at `startPos` (ordinal comparison) and -1 otherwise;
   * taking the span from a position outside the input throws. The empty
   * terminal always matches 0 characters.
   */
  function TryMatch(m: Matchers, t: Terminal, input: string, startPos: int): (r: Result<int>)
    ensures t.Literal? ==> (r.Throw? <==> startPos < 0 || startPos > |input|)
    ensures t.Literal? && r.Ok? ==> (r.value == |t.value| <==> OccursAt(input, startPos, t.value))
    ensures t.Literal? && r.Ok? ==> (r.value == -1 <==> !OccursAt(input, startPos, t.value))
    ensures r.Throw? ==> r.exception == ArgumentOutOfRange
    ensures t.EmptyTerminal? ==> r == Ok(0)
    ensures t.Custom? ==> r == Ok(m(t.id, input, startPos))
  {
    match t
    case Literal(value, _) =>
      if startPos < 0 || startPos > |input| then Throw(ArgumentOutOfRange)
      else
        assert OccursAt(input, startPos, value) <==> value <= input[startPos..] by {
          if startPos + |value| <= |input| {
            assert input[startPos..][..|value|] == input[startPos..startPos + |value|];
          }
        }
        Ok(if value <= input[startPos..] then |value| else -1)
    case EmptyTerminal(_) => Ok(0)
    case Custom(_, id) => Ok(m(id, input, startPos))
  }

  // ---------------------------------------------------------------------
  // Sub-rules
  // ---------------------------------------------------------------------

  /** The classes a rule can be tested against with `is T`. */
  datatype RuleClass =
    | AnyRule | TerminalClass | RecoveryTerminalClass | LiteralClass | SeqClass
    | OneOrManyClass | ZeroOrManyClass | OptionalClass | OftenMissedClass
    | RefClass | ReqRefClass | AndPredicateClass | NotPredicateClass | SeparatedListClass

  /** `r is T`, following the record hierarchy (ReqRef is a Ref, EmptyTerminal a RecoveryTerminal). */
  predicate IsA(r: Rule, c: RuleClass) {
    match c
    case AnyRule => true
    case TerminalClass => r.Term?
    case RecoveryTerminalClass => r.Term? && r.t.IsRecovery()
    case LiteralClass => r.Term? && r.t.Literal?
    case SeqClass => r.Seq?
    case OneOrManyClass => r.OneOrMany?
    case ZeroOrManyClass => r.ZeroOrMany?
    case OptionalClass => r.Optional?
    case OftenMissedClass => r.OftenMissed?
    case RefClass => r.IsRef()
    case ReqRefClass => r.ReqRef?
    case AndPredicateClass => r.AndPredicate?
    case NotPredicateClass => r.NotPredicate?
    case SeparatedListClass => r.SeparatedList?
  }

  /** `x` is `r` or lies somewhere inside it. */
  predicate Contains(r: Rule, x: Rule) {
    x == r ||
    match r
    case Seq(es, _) => exists k | 0 <= k < |es| :: Contains(es[k], x)
    case OneOrMany(e, _) => Contains(e, x)
    case ZeroOrMany(e, _) => Contains(e, x)
    case Optional(e, _) => Contains(e, x)
    case OftenMissed(e, _) => Contains(e, x)
    case AndPredicate(e) => Contains(e, x)
    case NotPredicate(e) => Contains(e, x)
    case SeparatedList(e, s, _, _, _) => Contains(e, x) || Contains(s, x)
    case _ => false
  }

  /**
   * GetSubRules<T>: the rule itself first when it is a T, then the sub-rules
   * of each child in order (a separated list's element before its
   * separator); references and terminals have no children.
   */
  function GetSubRules(r: Rule, c: RuleClass): (s: seq<Rule>)
    ensures |s| > 0 && IsA(r, c) ==> s[0] == r
    ensures forall k | 0 <= k < |s| :: IsA(s[k], c) && Contains(r, s[k])
    decreases r, 1
  {
    var self := if IsA(r, c) then [r] else [];
    match r
    case Seq(es, _) => self + SubRulesOfAll(es, c)
    case OneOrMany(e, _) => self + GetSubRules(e, c)
    case ZeroOrMany(e, _) => self + GetSubRules(e, c)
    case Optional(e, _) => self + GetSubRules(e, c)
    case OftenMissed(e, _) => self + GetSubRules(e, c)
    case AndPredicate(e) => self + GetSubRules(e, c)
    case NotPredicate(e) => self + GetSubRules(e, c)
    case SeparatedList(e, sep, _, _, _) => self + GetSubRules(e, c) + GetSubRules(sep, c)
    case _ => self
  }

  /** The sub-rules of each rule of `es`, in order. */
  function SubRulesOfAll(es: seq<Rule>, c: RuleClass): (s: seq<Rule>)
    ensures forall k | 0 <= k < |s| :: IsA(s[k], c) && exists j | 0 <= j < |es| :: Contains(es[j], s[k])
    decreases es, 0
  {
    if es == [] then []
    else
      var head := GetSubRules(es[0], c);
      var rest := SubRulesOfAll(es[1..], c);
      forall k | 0 <= k < |rest| ensures exists j | 0 <= j < |es| :: Contains(es[j], rest[k]) {
        var j :| 0 <= j < |es[1..]| && Contains(es[1..][j], rest[k]);
        assert es[1..][j] == es[j + 1];
      }
      forall k | 0 <= k < |head| ensures Contains(es[0], head[k]) {
      }
      head + rest
  }

  /** Every sub-rule of class `c` that `r` contains is listed. */
  lemma {:induction false} SubRulesComplete(r: Rule, c: RuleClass, x: Rule)
    requires Contains(r, x) && IsA(x, c)
    ensures x in GetSubRules(r, c)
    decreases r, 1
  {
    if x != r {
      match r
      case Seq(es, _) =>
        var k :| 0 <= k < |es| && Contains(es[k], x);
        SubRulesOfAllComplete(es, c, x, k);
      case OneOrMany(e, _) => SubRulesComplete(e, c, x);
      case ZeroOrMany(e, _) => SubRulesComplete(e, c, x);
      case Optional(e, _) => SubRulesComplete(e, c, x);
      case OftenMissed(e, _) => SubRulesComplete(e, c, x);
      case AndPredicate(e) => SubRulesComplete(e, c, x);
      case NotPredicate(e) => SubRulesComplete(e, c, x);
      case SeparatedList(e, sep, _, _, _) =>
        if Contains(e, x) { SubRulesComplete(e, c, x); } else { SubRulesComplete(sep, c, x); }
    }
  }

  lemma {:induction false} SubRulesOfAllComplete(es: seq<Rule>, c: RuleClass, x: Rule, k: nat)
    requires k < |es| && Contains(es[k], x) && IsA(x, c)
    ensures x in SubRulesOfAll(es, c)
    decreases es, 0
  {
    if k == 0 {
      SubRulesComplete(es[0], c, x);
    } else {
      assert es[1..][k - 1] == es[k];
      SubRulesOfAllComplete(es[1..], c, x, k - 1);
    }
  }

  /** Membership in GetSubRules is exactly "contained and of class `c`". */
  lemma SubRulesExactly(r: Rule, c: RuleClass, x: Rule)
    ensures x in GetSubRules(r, c) <==> Contains(r, x) && IsA(x, c)
  {
    if Contains(r, x) && IsA(x, c) {
      SubRulesComplete(r, c, x);
    }
  }

  /** An alternative is a recovery rule when it holds a recovery terminal anywhere. */
  predicate HasRecoveryTerminal(r: Rule) {
    GetSubRules(r, RecoveryTerminalClass) != []
  }

  // ---------------------------------------------------------------------
  // Inlining
  // ---------------------------------------------------------------------

  /** No plain Ref inside `r` names a rule of `m`. */
  predicate NoInlineable(r: Rule, m: map<string, Rule>) {
    match r
    case Ref(n, _) => n !in m
    case Seq(es, _) => forall k | 0 <= k < |es| :: NoInlineable(es[k], m)
    case OneOrMany(e, _) => NoInlineable(e, m)
    case ZeroOrMany(e, _) => NoInlineable(e, m)
    case Optional(e, _) => NoInlineable(e, m)
    case OftenMissed(e, _) => NoInlineable(e, m)
    case AndPredicate(e) => NoInlineable(e, m)
    case NotPredicate(e) => NoInlineable(e, m)
    case SeparatedList(e, s, _, _, _) => NoInlineable(e, m) && NoInlineable(s, m)
    case _ => true
  }

  /** Every OftenMissed inside `r` has the default kind "Error". */
  predicate DefaultMissedKinds(r: Rule) {
    match r
    case Seq(es, _) => forall k | 0 <= k < |es| :: DefaultMissedKinds(es[k])
    case OneOrMany(e, _) => DefaultMissedKinds(e)
    case ZeroOrMany(e, _) => DefaultMissedKinds(e)
    case Optional(e, _) => DefaultMissedKinds(e)
    case OftenMissed(e, k) => k == "Error" && DefaultMissedKinds(e)
    case AndPredicate(e) => DefaultMissedKinds(e)
    case NotPredicate(e) => DefaultMissedKinds(e)
    case SeparatedList(e, s, _, _, _) => DefaultMissedKinds(e) && DefaultMissedKinds(s)
    case _ => true
  }

  /**
   * InlineReferences: each plain Ref whose name is in `m` is replaced by the
   * mapped rule, itself inlined; ReqRef and terminals stay; the other rules
   * inline their children and keep their kind, except that OftenMissed is
   * rebuilt with the default kind "Error". A cyclic map makes the source
   * recurse without end; `fuel` bounds the number of expansions, and None
   * means it ran out.
   */
  function InlineReferences(r: Rule, m: map<string, Rule>, fuel: nat): (o: Option<Rule>)
    ensures o.Some? ==> NoInlineable(o.value, m) && DefaultMissedKinds(o.value)
    ensures r.Term? || r.ReqRef? ==> o == Some(r)
    ensures r.Ref? && r.ruleName !in m ==> o == Some(r)
    decreases fuel, r, 1
  {
    match r
    case Ref(n, _) =>
      if n in m then
        if fuel == 0 then None else InlineReferences(m[n], m, fuel - 1)
      else Some(r)
    case Seq(es, k) =>
      var inner := InlineAll(es, m, fuel);
      if inner.None? then None else Some(Seq(inner.value, k))
    case OneOrMany(e, k) => MapInner(InlineReferences(e, m, fuel), (x: Rule) => OneOrMany(x, k))
    case ZeroOrMany(e, k) => MapInner(InlineReferences(e, m, fuel), (x: Rule) => ZeroOrMany(x, k))
    case Optional(e, k) => MapInner(InlineReferences(e, m, fuel), (x: Rule) => Optional(x, k))
    case OftenMissed(e, _) => MapInner(InlineReferences(e, m, fuel), (x: Rule) => OftenMissed(x, "Error"))
    case AndPredicate(e) => MapInner(InlineReferences(e, m, fuel), (x: Rule) => AndPredicate(x))
    case NotPredicate(e) => MapInner(InlineReferences(e, m, fuel), (x: Rule) => NotPredicate(x))
    case SeparatedList(e, s, k, b, ce) =>
      var e' := InlineReferences(e, m, fuel);
      var s' := InlineReferences(s, m, fuel);
      if e'.None? || s'.None? then None else Some(SeparatedList(e'.value, s'.value, k, b, ce))
    case _ => Some(r)
  }

  function MapInner(o: Option<Rule>, f: Rule -> Rule): (p: Option<Rule>)
    ensures o.None? <==> p.None?
    ensures o.Some? ==> p == Some(f(o.value))
  {
    match o
    case None => None
    case Some(x) => Some(f(x))
  }

  /** InlineReferences on each rule of `es`, in order; None if any runs out of fuel. */
  function InlineAll(es: seq<Rule>, m: map<string, Rule>, fuel: nat): (o: Option<seq<Rule>>)
    ensures o.Some? ==> |o.value| == |es|
    ensures o.Some? ==> forall k | 0 <= k < |es| :: NoInlineable(o.value[k], m) && DefaultMissedKinds(o.value[k])
    decreases fuel, es, 0
  {
    if es == [] then Some([])
    else
      match InlineReferences(es[0], m, fuel)
      case None => None
      case Some(h) =>
        match InlineAll(es[1..], m, fuel)
        case None => None
        case Some(t) => Some([h] + t)
  }

  /**
   * A rule with nothing left to inline and default OftenMissed kinds is a
   * fixed point of InlineReferences, at any fuel.
   */
  lemma {:induction false} InlinedIsFixed(r: Rule, m: map<string, Rule>, fuel: nat)
    requires NoInlineable(r, m) && DefaultMissedKinds(r)
    ensures InlineReferences(r, m, fuel) == Some(r)
    decreases r, 1
  {
    match r
    case Seq(es, k) => InlinedAllFixed(es, m, fuel);
    case OneOrMany(e, _) => InlinedIsFixed(e, m, fuel);
    case ZeroOrMany(e, _) => InlinedIsFixed(e, m, fuel);
    case Optional(e, _) => InlinedIsFixed(e, m, fuel);
    case OftenMissed(e, _) => InlinedIsFixed(e, m, fuel);
    case AndPredicate(e) => InlinedIsFixed(e, m, fuel);
    case NotPredicate(e) => InlinedIsFixed(e, m, fuel);
    case SeparatedList(e, s, _, _, _) => InlinedIsFixed(e, m, fuel); InlinedIsFixed(s, m, fuel);
    case _ =>
  }

  lemma {:induction false} InlinedAllFixed(es: seq<Rule>, m: map<string, Rule>, fuel: nat)
    requires forall k | 0 <= k < |es| :: NoInlineable(es[k], m) && DefaultMissedKinds(es[k])
    ensures InlineAll(es, m, fuel) == Some(es)
    decreases es, 0
  {
    if es != [] {
      InlinedIsFixed(es[0], m, fuel);
      InlinedAllFixed(es[1..], m, fuel);
      assert [es[0]] + es[1..] == es;
    }
  }

  /** Inlining twice gives what inlining once gives. */
  lemma InlineIsIdempotent(r: Rule, m: map<string, Rule>, fuel: nat, fuel2: nat)
    requires InlineReferences(r, m, fuel).Some?
    ensures InlineReferences(InlineReferences(r, m, fuel).value, m, fuel2) == InlineReferences(r, m, fuel)
  {
    InlinedIsFixed(InlineReferences(r, m, fuel).value, m, fuel2);
  }

  /** An OftenMissed with a kind of its own comes out of inlining as "Error". */
  lemma InlineResetsMissedKind(e: Rule, kind: string, m: map<string, Rule>, fuel: nat)
    requires NoInlineable(e, m) && DefaultMissedKinds(e)
    ensures InlineReferences(OftenMissed(e, kind), m, fuel) == Some(OftenMissed(e, "Error"))
  {
    InlinedIsFixed(e, m, fuel);
  }

  // ---------------------------------------------------------------------
  // TDOPP rules
  // ---------------------------------------------------------------------

  /** RuleWithPrecedence: an operator's tail `Seq(elements, kind)` with its binding. */
  datatype RuleWithPrecedence = RuleWithPrecedence(kind: string, elements: seq<Rule>, precedence: int, right: bool)

  /** TdoppRule: a rule's alternatives split into prefix and postfix parts. */
  datatype TdoppRule = TdoppRule(
    name: Rule,
    kind: string,
    prefix: seq<Rule>,
    postfix: seq<RuleWithPrecedence>,
    recoveryPrefix: seq<Rule>,
    recoveryPostfix: seq<RuleWithPrecedence>)

  function PostfixSubRules(ps: seq<RuleWithPrecedence>, c: RuleClass): (s: seq<Rule>)
    ensures forall k | 0 <= k < |s| :: IsA(s[k], c)
  {
    if ps == [] then [] else GetSubRules(Seq(ps[0].elements, ps[0].kind), c) + PostfixSubRules(ps[1..], c)
  }

  /**
   * TdoppRule.GetSubRules after its own entry: the sub-rules of the
   * prefixes, the postfix sequences, the recovery prefixes and the recovery
   * postfix sequences, in that order.
   */
  function TdoppSubRules(t: TdoppRule, c: RuleClass): (s: seq<Rule>)
    ensures forall k | 0 <= k < |s| :: IsA(s[k], c)
  {
    SubRulesOfAll(t.prefix, c) + PostfixSubRules(t.postfix, c)
      + SubRulesOfAll(t.recoveryPrefix, c) + PostfixSubRules(t.recoveryPostfix, c)
  }
}

=== FILE: scope.dfy ===
/**
 * Symbol scopes of the CsNitra grammar type checker. A scope holds three
 * separate tables (precedences, rules, terminals), each keyed by the
 * symbol's name. Scopes form a parent chain, written here as a sequence
 * from the outermost scope to the innermost one.
 */
module Scopes {
  import opened Wrappers

  datatype Span = Span(start: int, end: int)

  /** A name as written in the grammar, with where it was written. */
  datatype Ident = Ident(value: string, at: Span)

  datatype SymbolKind = PrecedenceKind | RuleKind | TerminalKind

  datatype Symbol =
    | PrecedenceSymbol(name: string, at: Span, bindingPower: int)
    | RuleSymbol(name: string, at: Span)
    | TerminalSymbol(name: string, at: Span, terminalKind: string)
  {
    function Kind(): SymbolKind {
      match this
      case PrecedenceSymbol(_, _, _) => PrecedenceKind
      case RuleSymbol(_, _) => RuleKind
      case TerminalSymbol(_, _, _) => TerminalKind
    }
  }

  datatype Scope = Scope(precedences: map<string, Symbol>, rules: map<string, Symbol>, terminals: map<string, Symbol>)
  {
    /** The table that holds symbols of one kind. */
    function Table(kind: SymbolKind): map<string, Symbol> {
      match kind
      case PrecedenceKind => precedences
      case RuleKind => rules
      case TerminalKind => terminals
    }
  }

  const EmptyScope := Scope(map[], map[], map[])

  /**
   * AddSymbol: the symbol goes into the table of its own kind under its
   * name, replacing a symbol of the same kind and name. The other two
   * tables are untouched.
   */
  function AddSymbol(scope: Scope, sym: Symbol): (r: Scope)
    ensures sym.name in r.Table(sym.Kind()) && r.Table(sym.Kind())[sym.name] == sym
    ensures forall n | n != sym.name :: (n in r.Table(sym.Kind()) <==> n in scope.Table(sym.Kind()))
    ensures forall n | n != sym.name && n in scope.Table(sym.Kind()) :: r.Table(sym.Kind())[n] == scope.Table(sym.Kind())[n]
    ensures forall k: SymbolKind | k != sym.Kind() :: r.Table(k) == scope.Table(k)
  {
    match sym.Kind()
    case PrecedenceKind => scope.(precedences := scope.precedences[sym.name := sym])
    case RuleKind => scope.(rules := scope.rules[sym.name := sym])
    case TerminalKind => scope.(terminals := scope.terminals[sym.name := sym])
  }

  /**
   * FindPrecedence, FindRule and FindTerminal: the innermost scope's own
   * table first; otherwise, when `recursive`, the same search in the
   * parent. Without `recursive` the parent is never consulted.
   */
  function Find(chain: seq<Scope>, kind: SymbolKind, name: string, recursive: bool): (r: Option<Symbol>)
    ensures |chain| > 0 && name in chain[|chain| - 1].Table(kind) ==> r == Some(chain[|chain| - 1].Table(kind)[name])
    ensures !recursive ==> (r.Some? <==> |chain| > 0 && name in chain[|chain| - 1].Table(kind))
    decreases |chain|
  {
    if chain == [] then None
    else
      var local := chain[|chain| - 1].Table(kind);
      if name in local then Some(local[name])
      else if recursive && |chain| > 1 then Find(chain[..|chain| - 1], kind, name, recursive)
      else None
  }

  function FindPrecedence(chain: seq<Scope>, name: string, recursive: bool): Option<Symbol> {
    Find(chain, PrecedenceKind, name, recursive)
  }

  function FindRule(chain: seq<Scope>, name: string, recursive: bool): Option<Symbol> {
    Find(chain, RuleKind, name, recursive)
  }

  function FindTerminal(chain: seq<Scope>, name: string, recursive: bool): Option<Symbol> {
    Find(chain, TerminalKind, name, recursive)
  }

  /**
   * FindAnySymbol: the innermost scope's precedences, then its rules, then
   * its terminals, and only then, when `recursive`, the parent.
   */
  function FindAnySymbol(chain: seq<Scope>, name: string, recursive: bool): (r: Option<Symbol>)
    ensures |chain| > 0 && name in chain[|chain| - 1].precedences ==> r == Some(chain[|chain| - 1].precedences[name])
    ensures !recursive && |chain| > 0 && name !in chain[|chain| - 1].precedences && name !in chain[|chain| - 1].rules ==>
      r == Find(chain, TerminalKind, name, false)
    decreases |chain|
  {
    if chain == [] then None
    else
      var local := chain[|chain| - 1];
      if name in local.precedences then Some(local.precedences[name])
      else if name in local.rules then Some(local.rules[name])
      else if name in local.terminals then Some(local.terminals[name])
      else if recursive && |chain| > 1 then FindAnySymbol(chain[..|chain| - 1], name, recursive)
      else None
  }

  /** A scope of the chain that has `name` in its table of `kind`. */
  predicate Holds(chain: seq<Scope>, i: int, kind: SymbolKind, name: string) {
    0 <= i < |chain| && name in chain[i].Table(kind)
  }

  /**
   * The recursive search is the innermost-scope rule: it finds a symbol iff
   * some scope of the chain holds the name, and then the one held by the
   * innermost such scope.
   */
  lemma {:induction false} FindIsInnermost(chain: seq<Scope>, kind: SymbolKind, name: string)
    ensures Find(chain, kind, name, true).Some? <==> exists i :: Holds(chain, i, kind, name)
    ensures Find(chain, kind, name, true).Some? ==>
      exists i :: Holds(chain, i, kind, name) && Find(chain, kind, name, true).value == chain[i].Table(kind)[name] &&
        forall j | i < j < |chain| :: !Holds(chain, j, kind, name)
    decreases |chain|
  {
    if chain != [] {
      var last := |chain| - 1;
      if name in chain[last].Table(kind) {
        assert Holds(chain, last, kind, name);
      } else if |chain| > 1 {
        var parent := chain[..last];
        FindIsInnermost(parent, kind, name);
        if exists i :: Holds(chain, i, kind, name) {
          var i :| Holds(chain, i, kind, name);
          assert i < last;
          assert Holds(parent, i, kind, name);
        }
        if Find(parent, kind, name, true).Some? {
          var i :| Holds(parent, i, kind, name) && Find(parent, kind, name, true).value == parent[i].Table(kind)[name] &&
            forall j | i < j < |parent| :: !Holds(parent, j, kind, name);
          assert Holds(chain, i, kind, name);
          assert forall j | i < j < |chain| :: !Holds(chain, j, kind, name) by {
            forall j | i < j < |chain| ensures !Holds(chain, j, kind, name) {
              if j < last {
                assert !Holds(parent, j, kind, name);
              }
            }
          }
        }
      }
    }
  }

  /** FindAnySymbol finds something iff some scope holds the name in one of its three tables. */
  lemma {:induction false} FindAnyFindsSomeKind(chain: seq<Scope>, name: string)
    ensures FindAnySymbol(chain, name, true).Some? <==> exists i, k: SymbolKind :: Holds(chain, i, k, name)
    decreases |chain|
  {
    if chain != [] {
      var last := |chain| - 1;
      var local := chain[last];
      if name in local.precedences {
        assert Holds(chain, last, PrecedenceKind, name);
      } else if name in local.rules {
        assert Holds(chain, last, RuleKind, name);
      } else if name in local.terminals {
        assert Holds(chain, last, TerminalKind, name);
      } else if |chain| > 1 {
        var parent := chain[..last];
        FindAnyFindsSomeKind(parent, name);
        if exists i, k: SymbolKind :: Holds(chain, i, k, name) {
          var i, k: SymbolKind :| Holds(chain, i, k, name);
          assert i != last by {
            if i == last {
              match k
              case PrecedenceKind =>
              case RuleKind =>
              case TerminalKind =>
            }
          }
          assert Holds(parent, i, k, name);
        }
        if exists i, k: SymbolKind :: Holds(parent, i, k, name) {
          var i, k: SymbolKind :| Holds(parent, i, k, name);
          assert Holds(chain, i, k, name);
        }
      } else {
        if exists i, k: SymbolKind :: Holds(chain, i, k, name) {
          var i, k: SymbolKind :| Holds(chain, i, k, name);
          assert i == last;
          match k
          case PrecedenceKind =>
          case RuleKind =>
          case TerminalKind =>
        }
      }
    }
  }

  /** A symbol added to the innermost scope is what the search then finds, whatever the parents hold. */
  lemma AddThenFind(chain: seq<Scope>, sym: Symbol, recursive: bool)
    requires |chain| > 0
    ensures var chain' := chain[|chain| - 1 := AddSymbol(chain[|chain| - 1], sym)];
      Find(chain', sym.Kind(), sym.name, recursive) == Some(sym)
  {
  }

  /** Adding a symbol changes no search for another name or another kind. */
  lemma AddLeavesOthers(chain: seq<Scope>, sym: Symbol, kind: SymbolKind, name: string, recursive: bool)
    requires |chain| > 0 && (kind != sym.Kind() || name != sym.name)
    ensures var chain' := chain[|chain| - 1 := AddSymbol(chain[|chain| - 1], sym)];
      Find(chain', kind, name, recursive) == Find(chain, kind, name, recursive)
  {
    var chain' := chain[|chain| - 1 := AddSymbol(chain[|chain| - 1], sym)];
    assert chain'[..|chain| - 1] == chain[..|chain| - 1];
  }

  /** An empty innermost scope is transparent to a recursive search. */
  lemma EmptyScopeIsTransparent(chain: seq<Scope>, kind: SymbolKind, name: string)
    requires |chain| > 0
    ensures Find(chain + [EmptyScope], kind, name, true) == Find(chain, kind, name, true)
  {
    assert (chain + [EmptyScope])[..|chain|] == chain;
    assert EmptyScope.Table(kind) == map[];
  }
}

=== FILE: seq_facts.dfy ===
/**
 * Regrouping concatenations. Sequence equality is extensional, and proving
 * a regrouping inside a larger proof costs the solver far more than
 * calling these.
 */
module SeqFacts {

  lemma RegroupThree<T>(a: seq<T>, b: seq<T>, c: seq<T>)
    ensures a + b + c == a + (b + c)
  {
  }

  lemma RegroupFour<T>(a: seq<T>, b: seq<T>, c: seq<T>, d: seq<T>)
    ensures a + b + c + d == a + (b + c + d)
  {
  }
}

=== FILE: tdopp.dfy ===
/**
 * Preparing a grammar for top-down operator-precedence parsing: inlining
 * single-alternative rules, then splitting each rule's alternatives into
 * prefixes (what can start the rule) and postfixes (left-recursive
 * `Rule op operand` tails with a precedence and associativity).
 */
module Tdopp {
  import opened Wrappers
  import opened Rules

  /** `alt` is `Seq[Ref(ruleName), rest...]`; the head may be a ReqRef. */
  predicate IsLeftRecursive(alt: Rule, ruleName: string) {
    alt.Seq? && |alt.elements| > 0 && alt.elements[0].IsRef() && alt.elements[0].Name() == ruleName
  }

  /** `rest.OfType<ReqRef>().FirstOrDefault()`, as an index. */
  function FirstReqRef(rest: seq<Rule>): (r: Option<nat>)
    ensures r.Some? ==> r.value < |rest| && rest[r.value].ReqRef?
    ensures r.Some? ==> forall k | 0 <= k < r.value :: !rest[k].ReqRef?
    ensures r.None? <==> forall k | 0 <= k < |rest| :: !rest[k].ReqRef?
  {
    if rest == [] then None
    else if rest[0].ReqRef? then Some(0)
    else
      var t := FirstReqRef(rest[1..]);
      if t.None? then None
      else
        assert rest[1..][t.value] == rest[t.value + 1];
        Some(t.value + 1)
  }

  /**
   * The postfix a left-recursive alternative becomes: the tail after the
   * head reference, bound like the first ReqRef in the tail; with none,
   * like the head when that is a ReqRef, else at 0, and never
   * right-associative.
   */
  function PostfixOf(alt: Rule, ruleName: string): (p: RuleWithPrecedence)
    requires IsLeftRecursive(alt, ruleName)
    ensures p.kind == alt.kind && p.elements == alt.elements[1..]
    ensures var f := FirstReqRef(alt.elements[1..]);
      f.Some? ==> p.precedence == alt.elements[1..][f.value].precedence && p.right == alt.elements[1..][f.value].right
    ensures FirstReqRef(alt.elements[1..]).None? ==> !p.right
    ensures FirstReqRef(alt.elements[1..]).None? ==>
      p.precedence == (if alt.elements[0].ReqRef? then alt.elements[0].precedence else 0)
  {
    var rest := alt.elements[1..];
    match FirstReqRef(rest)
    case Some(i) => RuleWithPrecedence(alt.kind, rest, rest[i].precedence, rest[i].right)
    case None =>
      var head := alt.elements[0];
      RuleWithPrecedence(alt.kind, rest, if head.ReqRef? then head.precedence else 0, false)
  }

  datatype Split = Split(
    prefix: seq<Rule>,
    postfix: seq<RuleWithPrecedence>,
    recoveryPrefix: seq<Rule>,
    recoveryPostfix: seq<RuleWithPrecedence>)

  /**
   * The loop of BuildTdoppRulesInternal over one rule's alternatives, in
   * order: each goes to the recovery lists, and also to the normal lists
   * unless it holds a recovery terminal.
   */
  function SplitAlternatives(ruleName: string, alts: seq<Rule>): (r: Split)
    ensures |r.recoveryPrefix| + |r.recoveryPostfix| == |alts|
    ensures |r.prefix| <= |r.recoveryPrefix| && |r.postfix| <= |r.recoveryPostfix|
  {
    if alts == [] then Split([], [], [], [])
    else
      var rest := SplitAlternatives(ruleName, alts[1..]);
      var alt := alts[0];
      var normal := !HasRecoveryTerminal(alt);
      if IsLeftRecursive(alt, ruleName) then
        var p := PostfixOf(alt, ruleName);
        Split(rest.prefix, (if normal then [p] else []) + rest.postfix, rest.recoveryPrefix, [p] + rest.recoveryPostfix)
      else
        Split((if normal then [alt] else []) + rest.prefix, rest.postfix, [alt] + rest.recoveryPrefix, rest.recoveryPostfix)
  }

  /**
   * The prefix lists hold exactly the alternatives that are not
   * left-recursive, the normal one only those without a recovery terminal.
   */
  lemma {:induction false} PrefixesAreNonRecursive(ruleName: string, alts: seq<Rule>, x: Rule)
    ensures x in SplitAlternatives(ruleName, alts).recoveryPrefix <==> x in alts && !IsLeftRecursive(x, ruleName)
    ensures x in SplitAlternatives(ruleName, alts).prefix <==>
      x in alts && !IsLeftRecursive(x, ruleName) && !HasRecoveryTerminal(x)
  {
    if alts != [] {
      PrefixesAreNonRecursive(ruleName, alts[1..], x);
      assert alts == [alts[0]] + alts[1..];
    }
  }

  /** The recovery postfix list holds exactly the postfixes of the left-recursive alternatives. */
  lemma {:induction false} RecoveryPostfixesAreRecursive(ruleName: string, alts: seq<Rule>, p: RuleWithPrecedence)
    ensures p in SplitAlternatives(ruleName, alts).recoveryPostfix <==>
      exists a | a in alts :: IsLeftRecursive(a, ruleName) && p == PostfixOf(a, ruleName)
  {
    if alts != [] {
      RecoveryPostfixesAreRecursive(ruleName, alts[1..], p);
      InHeadOrTail(alts);
    }
  }

  /**
   * The normal postfix list holds exactly the postfixes of the
   * left-recursive alternatives without a recovery terminal.
   */
  lemma {:induction false} PostfixesAreRecursive(ruleName: string, alts: seq<Rule>, p: RuleWithPrecedence)
    ensures p in SplitAlternatives(ruleName, alts).postfix <==>
      exists a | a in alts :: IsLeftRecursive(a, ruleName) && !HasRecoveryTerminal(a) && p == PostfixOf(a, ruleName)
  {
    if alts != [] {
      PostfixesAreRecursive(ruleName, alts[1..], p);
      InHeadOrTail(alts);
    }
  }

  lemma InHeadOrTail(alts: seq<Rule>)
    requires alts != []
    ensures forall a :: a in alts <==> a == alts[0] || a in alts[1..]
  {
    assert alts == [alts[0]] + alts[1..];
  }

  /** The TdoppRule built for one rule: named by a Ref to itself, kind the rule's name. */
  function BuildTdoppRule(ruleName: string, alts: seq<Rule>): (t: TdoppRule)
    ensures t.name == MakeRef(ruleName, None) && t.kind == ruleName
    ensures |t.recoveryPrefix| + |t.recoveryPostfix| == |alts|
  {
    var s := SplitAlternatives(ruleName, alts);
    TdoppRule(MakeRef(ruleName, None), ruleName, s.prefix, s.postfix, s.recoveryPrefix, s.recoveryPostfix)
  }

  /**
   * BuildTdoppRulesInternal: every rule gets its TdoppRule; entries of
   * names that are no longer rules stay, since the table is never cleared.
   */
  function BuildTdoppRulesInternal(rules: map<string, seq<Rule>>, tdopp: map<string, TdoppRule>): (r: map<string, TdoppRule>)
    ensures r.Keys == rules.Keys + tdopp.Keys
    ensures forall n | n in rules :: r[n] == BuildTdoppRule(n, rules[n])
    ensures forall n | n in tdopp && n !in rules :: r[n] == tdopp[n]
  {
    tdopp + map n | n in rules :: BuildTdoppRule(n, rules[n])
  }

  /** The inlineable rules: those with no postfix and exactly one prefix, mapped to that prefix. */
  function InlineableRules(tdopp: map<string, TdoppRule>): (m: map<string, Rule>)
    ensures forall n :: n in m <==> n in tdopp && |tdopp[n].postfix| == 0 && |tdopp[n].prefix| == 1
    ensures forall n | n in m :: m[n] == tdopp[n].prefix[0]
  {
    map n | n in tdopp && |tdopp[n].postfix| == 0 && |tdopp[n].prefix| == 1 :: tdopp[n].prefix[0]
  }

  /** Every alternative of every rule inlined; None when some inlining runs out of fuel. */
  function InlineRules(rules: map<string, seq<Rule>>, m: map<string, Rule>, fuel: nat): (r: Option<map<string, seq<Rule>>>)
    ensures r.Some? ==> r.value.Keys == rules.Keys
    ensures r.Some? ==> forall n | n in rules :: Some(r.value[n]) == InlineAll(rules[n], m, fuel)
    ensures r.None? <==> exists n | n in rules :: InlineAll(rules[n], m, fuel).None?
  {
    if exists n | n in rules :: InlineAll(rules[n], m, fuel).None? then None
    else Some(map n | n in rules :: InlineAll(rules[n], m, fuel).value)
  }

  /**
   * BuildTdoppRules: inline the rules that the current table marks
   * inlineable into every alternative, then rebuild the table from the
   * inlined rules.
   */
  function BuildTdoppRules(rules: map<string, seq<Rule>>, tdopp: map<string, TdoppRule>, fuel: nat)
    : (r: Option<(map<string, seq<Rule>>, map<string, TdoppRule>)>)
    ensures r.Some? ==> r.value.0.Keys == rules.Keys
    ensures r.Some? ==> forall n, k | n in r.value.0 && 0 <= k < |r.value.0[n]| ::
      NoInlineable(r.value.0[n][k], InlineableRules(tdopp))
    ensures r.Some? ==> r.value.1 == BuildTdoppRulesInternal(r.value.0, tdopp)
  {
    var inlined := InlineRules(rules, InlineableRules(tdopp), fuel);
    if inlined.None? then None
    else
      var rs := inlined.value;
      assert forall n | n in rs :: Some(rs[n]) == InlineAll(rules[n], InlineableRules(tdopp), fuel);
      Some((rs, BuildTdoppRulesInternal(rs, tdopp)))
  }

  /** A rule with one alternative that is neither left-recursive nor a recovery rule becomes inlineable. */
  lemma SingleAlternativeIsInlineable(rules: map<string, seq<Rule>>, tdopp: map<string, TdoppRule>, n: string)
    requires n in rules && |rules[n]| == 1
    requires !IsLeftRecursive(rules[n][0], n) && !HasRecoveryTerminal(rules[n][0])
    ensures var m := InlineableRules(BuildTdoppRulesInternal(rules, tdopp));
      n in m && m[n] == rules[n][0]
  {
    var alts := rules[n];
    assert alts[1..] == [];
  }

  /** `1 + 2` shaped: `Expr = Num | Expr "+" ReqRef(Expr, 100)` gives one prefix and one postfix at 100. */
  lemma AdditionExample()
    ensures var num := MakeLiteral("1", None);
      var plus := Seq([MakeRef("Expr", None), MakeLiteral("+", None), MakeReqRef("Expr", 100, false, None)], "Add");
      var t := BuildTdoppRule("Expr", [num, plus]);
      t.prefix == [num] && t.recoveryPrefix == [num]
      && t.postfix == [RuleWithPrecedence("Add", plus.elements[1..], 100, false)]
      && t.recoveryPostfix == t.postfix
  {
    var num := MakeLiteral("1", None);
    var plus := Seq([MakeRef("Expr", None), MakeLiteral("+", None), MakeReqRef("Expr", 100, false, None)], "Add");
    assert GetSubRules(num, RecoveryTerminalClass) == [];
    assert GetSubRules(plus, RecoveryTerminalClass) == [] by {
      assert plus.elements[1..][1..][1..] == [];
    }
    assert [num, plus][1..] == [plus];
    assert FirstReqRef(plus.elements[1..]) == Some(1);
  }
}

=== FILE: text_position.dfy ===
/**
 * Error-position helpers of the extensible parser: converting an offset into
 * a (line, column) pair and cutting the window of input shown around an
 * error.
 */
module TextPosition {
  import opened Wrappers

  datatype LineCol = LineCol(line: int, col: int)

  /**
   * Whether the character at `j` ends a line: every '\r' does, and so does a
   * '\n' that does not complete a "\r\n" pair.
   */
  predicate EndsLineAt(text: string, j: int)
    requires 0 <= j < |text|
  {
    text[j] == '\r' || (text[j] == '\n' && !(j > 0 && text[j - 1] == '\r'))
  }

  /** The number of line ends among the first `k` characters. */
  function LineEndsBefore(text: string, k: int): (n: nat)
    requires 0 <= k <= |text|
    ensures n <= k
  {
    if k == 0 then 0
    else LineEndsBefore(text, k - 1) + (if EndsLineAt(text, k - 1) then 1 else 0)
  }

  /** The offset just past the last '\r' or '\n' among the first `k` characters, or 0. */
  function LineStart(text: string, k: int): (s: nat)
    requires 0 <= k <= |text|
    ensures s <= k
    ensures s > 0 ==> text[s - 1] == '\r' || text[s - 1] == '\n'
    ensures forall j | s <= j < k :: text[j] != '\r' && text[j] != '\n'
  {
    if k == 0 then 0
    else if text[k - 1] == '\r' || text[k - 1] == '\n' then k
    else LineStart(text, k - 1)
  }

  /** The location of offset `k`: one more than the line ends before it, and one more than its distance from the line start. */
  function Location(text: string, k: int): LineCol
    requires 0 <= k <= |text|
  {
    LineCol(1 + LineEndsBefore(text, k), 1 + k - LineStart(text, k))
  }

  /** No scan position lies between the two characters of a "\r\n" pair. */
  predicate NotInsidePair(text: string, i: int) {
    !(0 < i < |text| && text[i - 1] == '\r' && text[i] == '\n')
  }

  /**
   * PositionToLineCol: a scan of the text that counts "\r\n", a lone '\r'
   * and a lone '\n' as one line break each. A position between the two
   * characters of a "\r\n" reports the location after the pair.
   */
  method PositionToLineCol(text: string, pos: int) returns (r: Result<LineCol>)
    ensures r.Throw? <==> pos < 0 || pos > |text|
    ensures r.Throw? ==> r.exception == ArgumentOutOfRange
    ensures r.Ok? ==> r.value == Location(text, pos) && r.value.line >= 1 && r.value.col >= 1
    ensures pos == 0 ==> r == Ok(LineCol(1, 1))
  {
    if pos < 0 || pos > |text| {
      return Throw(ArgumentOutOfRange);
    }
    var line := 1;
    var col := 1;
    var i := 0;
    while i < pos
      invariant 0 <= i <= pos + 1 && i <= |text|
      invariant i == pos + 1 ==> 1 <= pos < |text| && text[pos - 1] == '\r' && text[pos] == '\n'
      invariant NotInsidePair(text, i)
      invariant line == 1 + LineEndsBefore(text, i)
      invariant col == 1 + i - LineStart(text, i)
    {
      if i + 1 < |text| && text[i] == '\r' && text[i + 1] == '\n' {
        assert LineEndsBefore(text, i + 1) == LineEndsBefore(text, i) + 1;
        line := line + 1;
        col := 1;
        i := i + 2;
      } else if text[i] == '\r' || text[i] == '\n' {
        line := line + 1;
        col := 1;
        i := i + 1;
      } else {
        col := col + 1;
        i := i + 1;
      }
    }
    if i == pos + 1 {
      assert LineEndsBefore(text, i) == LineEndsBefore(text, pos);
    }
    return Ok(LineCol(line, col));
  }

  /** "\r\n" ends exactly one line and the column starts over after it. */
  lemma {:induction false} CrLfIsOneLineEnd(text: string, k: int)
    requires 0 <= k && k + 2 <= |text| && text[k] == '\r' && text[k + 1] == '\n'
    ensures Location(text, k + 2) == LineCol(Location(text, k).line + 1, 1)
    ensures Location(text, k + 1) == Location(text, k + 2)
  {
    assert LineEndsBefore(text, k + 1) == LineEndsBefore(text, k) + 1;
  }

  /** A character that is neither '\r' nor '\n' moves one column right on the same line. */
  lemma {:induction false} OrdinaryCharAdvancesColumn(text: string, k: int)
    requires 0 <= k < |text| && text[k] != '\r' && text[k] != '\n'
    ensures Location(text, k + 1) == LineCol(Location(text, k).line, Location(text, k).col + 1)
  {
  }

  /** The line is one more than the number of line ends, and no line end lies between the line start and the position. */
  lemma {:induction false} LineCountsLineEnds(text: string, k: int)
    requires 0 <= k <= |text|
    ensures Location(text, k).line == 1 + |set j | 0 <= j < k && EndsLineAt(text, j)|
  {
    if k > 0 {
      LineCountsLineEnds(text, k - 1);
      var prev := set j | 0 <= j < k - 1 && EndsLineAt(text, j);
      var now := set j | 0 <= j < k && EndsLineAt(text, j);
      if EndsLineAt(text, k - 1) {
        assert now == prev + {k - 1};
      } else {
        assert now == prev;
      }
    }
  }

  // ---------------------------------------------------------------------------
  // HighlightContext

  /** C#'s integer division, which truncates toward zero. */
  function TruncDiv(a: int, b: int): (q: int)
    requires b > 0
    ensures a >= 0 ==> q == a / b
    ensures a < 0 ==> q == -((-a) / b)
  {
    if a >= 0 then a / b else -((-a) / b)
  }

  /** The number of '\r' and '\n' characters in `s`. */
  function CountLineEndChars(s: string): (n: nat)
    ensures n <= |s|
  {
    if s == [] then 0 else (if s[0] == '\r' || s[0] == '\n' then 1 else 0) + CountLineEndChars(s[1..])
  }

  /** Replaces '\r' and '\n' by the two-character escapes "\r" and "\n". */
  function EscapeLineEnds(s: string): (e: string)
    ensures |e| == |s| + CountLineEndChars(s)
  {
    if s == [] then []
    else
      var head := if s[0] == '\r' then "\\r" else if s[0] == '\n' then "\\n" else [s[0]];
      head + EscapeLineEnds(s[1..])
  }

  lemma {:induction false} EscapeConcat(a: string, b: string)
    ensures EscapeLineEnds(a + b) == EscapeLineEnds(a) + EscapeLineEnds(b)
    decreases |a|
  {
    if a != [] {
      assert (a + b)[1..] == a[1..] + b;
      EscapeConcat(a[1..], b);
    } else {
      assert a + b == b;
    }
  }

  /** Where the highlighted window starts: half a window before the error, but not before 0. */
  function WindowStart(errorPos: int, contextSize: int): (start: int)
    ensures start >= 0
  {
    var half := TruncDiv(contextSize, 2);
    if errorPos - half < 0 then 0 else errorPos - half
  }

  /** How long the window is: `contextSize`, or what is left of the input after `start`. */
  function WindowLength(input: string, start: int, contextSize: int): (length: int)
    ensures length <= contextSize && length <= |input| - start
    ensures length == contextSize || length == |input| - start
  {
    if contextSize < |input| - start then contextSize else |input| - start
  }

  /** The two lines of the highlight: the escaped window between "..." marks, and the caret line. */
  datatype Highlight = Highlight(contextLine: string, caretLine: string)

  function Spaces(n: nat): (s: string)
    ensures |s| == n && forall j | 0 <= j < n :: s[j] == ' '
  {
    if n == 0 then "" else Spaces(n - 1) + " "
  }

  /**
   * HighlightContext: a window of at most `contextSize` characters starting
   * half a window before the error (clamped at 0), with line ends escaped,
   * and a caret line pointing at the error. Throws when the window or the
   * text before the error cannot be cut from the input.
   */
  function HighlightContext(input: string, errorPos: int, contextSize: int): (r: Result<Highlight>)
    ensures
      var start := WindowStart(errorPos, contextSize);
      var length := WindowLength(input, start, contextSize);
      (r.Ok? <==> start <= errorPos <= |input| && 0 <= length) &&
      (r.Throw? ==> r.exception == ArgumentOutOfRange) &&
      (r.Ok? ==>
        r.value.contextLine == " ..." + EscapeLineEnds(input[start..start + length]) + "..." &&
        r.value.caretLine == "    " + Spaces(|EscapeLineEnds(input[start..errorPos])|) + "^")
  {
    var start := WindowStart(errorPos, contextSize);
    var length := WindowLength(input, start, contextSize);
    if !(start <= errorPos <= |input|) || length < 0 then Throw(ArgumentOutOfRange)
    else
      var before := input[start..errorPos];
      var offset := errorPos - start + CountLineEndChars(before);
      var context := EscapeLineEnds(input[start..start + length]);
      Ok(Highlight(" ..." + context + "...", "    " + Spaces(offset) + "^"))
  }

  lemma EscapedCharAt(before: string, c: char, after: string)
    ensures |EscapeLineEnds(before)| < |EscapeLineEnds(before + [c] + after)|
    ensures EscapeLineEnds(before + [c] + after)[|EscapeLineEnds(before)|] == EscapeLineEnds([c])[0]
  {
    EscapeConcat(before, [c] + after);
    EscapeConcat([c], after);
    assert before + [c] + after == before + ([c] + after);
  }

  /**
   * The caret stands under the (escaped) character at the error position
   * whenever that character lies inside the window.
   */
  lemma {:induction false} CaretPointsAtError(input: string, errorPos: int, contextSize: int)
    requires HighlightContext(input, errorPos, contextSize).Ok?
    requires errorPos < WindowStart(errorPos, contextSize) + WindowLength(input, WindowStart(errorPos, contextSize), contextSize)
    ensures
      var h := HighlightContext(input, errorPos, contextSize).value;
      |h.caretLine| - 1 < |h.contextLine| &&
      h.contextLine[|h.caretLine| - 1] == EscapeLineEnds([input[errorPos]])[0]
  {
    var start := WindowStart(errorPos, contextSize);
    var length := WindowLength(input, start, contextSize);
    var before := input[start..errorPos];
    var after := input[errorPos + 1..start + length];
    WindowSplit(input, start, errorPos, start + length);
    CaretUnder(HighlightContext(input, errorPos, contextSize).value, before, input[errorPos], after);
  }

  /** The caret under a window cut as `before`, `c`, `after` stands under the escaped `c`. */
  lemma CaretUnder(h: Highlight, before: string, c: char, after: string)
    requires h.contextLine == " ..." + EscapeLineEnds(before + [c] + after) + "..."
    requires h.caretLine == "    " + Spaces(|EscapeLineEnds(before)|) + "^"
    ensures |h.caretLine| - 1 < |h.contextLine| && h.contextLine[|h.caretLine| - 1] == EscapeLineEnds([c])[0]
  {
    EscapedCharAt(before, c, after);
    FramedAt(EscapeLineEnds(before + [c] + after), |EscapeLineEnds(before)|);
    CaretLength(|EscapeLineEnds(before)|);
  }

  lemma CaretLength(n: nat)
    ensures |"    " + Spaces(n) + "^"| == n + 5
  {
  }

  /** Cutting a window around one of its characters. */
  lemma WindowSplit(input: string, start: int, at: int, end: int)
    requires 0 <= start <= at < end <= |input|
    ensures input[start..end] == input[start..at] + [input[at]] + input[at + 1..end]
  {
  }

  /** The escaped window between its "..." marks starts four characters in. */
  lemma FramedAt(e: string, k: nat)
    requires k < |e|
    ensures 4 + k < |" ..." + e + "..."| && (" ..." + e + "...")[4 + k] == e[k]
  {
  }
}

=== FILE: type_checker.dfy ===
/**
 * The grammar type checker of CsNitra: declaration collection, precedence
 * resolution, and the visitor that checks names and references. An
 * expression is checked with a "has name" flag, the top of the visitor's
 * name stack: repetitions, sequences, groups and separated lists must sit
 * under a name, and references must resolve.
 */
module TypeChecker {
  import opened Wrappers
  import opened Scopes
  import opened TypeCheckingContext
  import opened PrecedenceOrder
  import opened SeqFacts

  /** The `: Name` suffix of a reference, with its span. */
  datatype PrecedenceRef = PrecedenceRef(name: Ident, at: Span)

  datatype Expr =
    | Sequence(left: Expr, right: Expr, at: Span)
    | Named(name: Ident, expr: Expr, at: Span)
    | Optional(expr: Expr, at: Span)
    | OftenMissed(expr: Expr, at: Span)
    | OneOrMany(expr: Expr, at: Span)
    | ZeroOrMany(expr: Expr, at: Span)
    | AndPredicate(expr: Expr, at: Span)
    | NotPredicate(expr: Expr, at: Span)
    | LiteralExpr(value: string, at: Span)
    | RuleRef(parts: seq<Ident>, precedence: Option<PrecedenceRef>, at: Span)
    | Group(expr: Expr, at: Span)
    | SeparatedList(element: Expr, separator: Expr, at: Span)

  datatype Alternative =
    | NamedAlternative(name: Ident, expr: Expr, at: Span)
    | AnonymousAlternative(ruleRef: seq<Ident>, at: Span)

  datatype Statement =
    | PrecedenceStatement(precedences: seq<Ident>, at: Span)
    | RuleStatement(name: Ident, alternatives: seq<Alternative>, at: Span)
    | SimpleRuleStatement(name: Ident, expr: Expr, at: Span)

  /** A diagnostic the visitor can report; the other two kinds come from elsewhere. */
  predicate IsVisitorMessage(m: Message) {
    !m.RuleNotFound? && !m.CannotMergePrecedences?
  }

  /** A one-part reference that names neither a rule nor a terminal. */
  predicate Unresolved(scopes: seq<Scope>, parts: seq<Ident>) {
    |parts| == 1 && FindRule(scopes, parts[0].value, true).None? && FindTerminal(scopes, parts[0].value, true).None?
  }

  /** A precedence suffix whose name is not a known precedence. */
  predicate UnknownPrecedence(scopes: seq<Scope>, precedence: Option<PrecedenceRef>) {
    precedence.Some? && FindPrecedence(scopes, precedence.value.name.value, true).None?
  }

  function Err(m: Message, at: Span): Diagnostic {
    Diagnostic(m, at, Error)
  }

  /** The error a node reports when it needs a name and has none, as a list. */
  function Missing(hasName: bool, m: Message, at: Span): seq<Diagnostic> {
    if hasName then [] else [Err(m, at)]
  }

  /** Reporting `m` unless the node has a name: the context grows by exactly Missing. */
  function RequireName(c: Context, hasName: bool, m: Message, at: Span): (r: Context)
    ensures r.scopes == c.scopes
    ensures r.diagnostics == c.diagnostics + Missing(hasName, m, at)
  {
    if hasName then c else ReportError(c, m, at)
  }

  /**
   * The visit of an expression, threading the context as the visitor does.
   * Expressions never open a scope, so the scopes never change.
   */
  function VisitExpr(c: Context, e: Expr, hasName: bool): (r: Context)
    requires c.Valid()
    ensures r.scopes == c.scopes
    decreases e
  {
    match e
    case Sequence(left, right, at) =>
      var c1 := RequireName(c, hasName, MustHaveName("Name"), at);
      var leftHasName := left.Sequence?;
      var c2 := VisitExpr(c1, left, leftHasName);
      VisitExpr(c2, right, leftHasName)
    case Named(name, inner, at) =>
      var c1 := if inner.Named? then ReportError(c, NestedName(name.value, inner.name.value), inner.name.at) else c;
      VisitExpr(c1, inner, true)
    case Optional(inner, _) => VisitExpr(c, inner, false)
    case OftenMissed(inner, _) => VisitExpr(c, inner, false)
    case OneOrMany(inner, at) =>
      VisitExpr(RequireName(c, hasName, MustHaveName("Items"), at), inner, false)
    case ZeroOrMany(inner, at) =>
      VisitExpr(RequireName(c, hasName, MustHaveName("Items"), at), inner, false)
    case Group(inner, at) =>
      VisitExpr(RequireName(c, hasName, MustHaveName("Name"), at), inner, true)
    case SeparatedList(element, separator, at) =>
      var c1 := RequireName(c, hasName, MustHaveName("Items"), at);
      var c2 := VisitExpr(c1, element, false);
      VisitExpr(c2, separator, false)
    case RuleRef(parts, precedence, _) =>
      var c1 := if Unresolved(c.scopes, parts) then ReportError(c, SymbolNotFound(parts[0].value), parts[0].at) else c;
      if UnknownPrecedence(c1.scopes, precedence) then
        ReportError(c1, PrecedenceNotFound(precedence.value.name.value), precedence.value.at)
      else c1
    case AndPredicate(_, _) => c
    case NotPredicate(_, _) => c
    case LiteralExpr(_, _) => c
  }

  /**
   * The diagnostics of an expression as a plain list, written rule by
   * rule: what a node reports itself, then what its children report,
   * left to right.
   */
  function Reports(scopes: seq<Scope>, e: Expr, hasName: bool): seq<Diagnostic>
    decreases e
  {
    match e
    case Sequence(left, right, at) =>
      Missing(hasName, MustHaveName("Name"), at) +
      Reports(scopes, left, left.Sequence?) + Reports(scopes, right, left.Sequence?)
    case Named(name, inner, _) =>
      (if inner.Named? then [Err(NestedName(name.value, inner.name.value), inner.name.at)] else []) +
      Reports(scopes, inner, true)
    case Optional(inner, _) => Reports(scopes, inner, false)
    case OftenMissed(inner, _) => Reports(scopes, inner, false)
    case OneOrMany(inner, at) =>
      Missing(hasName, MustHaveName("Items"), at) + Reports(scopes, inner, false)
    case ZeroOrMany(inner, at) =>
      Missing(hasName, MustHaveName("Items"), at) + Reports(scopes, inner, false)
    case Group(inner, at) =>
      Missing(hasName, MustHaveName("Name"), at) + Reports(scopes, inner, true)
    case SeparatedList(element, separator, at) =>
      Missing(hasName, MustHaveName("Items"), at) +
      Reports(scopes, element, false) + Reports(scopes, separator, false)
    case RuleRef(parts, precedence, _) =>
      (if Unresolved(scopes, parts) then [Err(SymbolNotFound(parts[0].value), parts[0].at)] else []) +
      (if UnknownPrecedence(scopes, precedence) then [Err(PrecedenceNotFound(precedence.value.name.value), precedence.value.at)] else [])
    case AndPredicate(_, _) => []
    case NotPredicate(_, _) => []
    case LiteralExpr(_, _) => []
  }

  /** Reporting one diagnostic, as a list. */
  lemma ReportAppends(c: Context, m: Message, at: Span)
    ensures ReportError(c, m, at).diagnostics == c.diagnostics + [Err(m, at)]
  {
  }

  /**
   * The threaded visit appends exactly the plain list of the expression's
   * diagnostics to whatever was reported before.
   */
  lemma {:induction false} VisitAppends(c: Context, e: Expr, hasName: bool)
    requires c.Valid()
    ensures VisitExpr(c, e, hasName).diagnostics == c.diagnostics + Reports(c.scopes, e, hasName)
    decreases e, 2
  {
    match e
    case Sequence(left, right, at) => SequenceAppends(c, left, right, at, hasName);
    case Named(name, inner, at) =>
      var c1 := if inner.Named? then ReportError(c, NestedName(name.value, inner.name.value), inner.name.at) else c;
      var pre := if inner.Named? then [Err(NestedName(name.value, inner.name.value), inner.name.at)] else [];
      assert c1.diagnostics == c.diagnostics + pre;
      VisitAppends(c1, inner, true);
      RegroupThree(c.diagnostics, pre, Reports(c.scopes, inner, true));
    case Optional(inner, _) => VisitAppends(c, inner, false);
    case OftenMissed(inner, _) => VisitAppends(c, inner, false);
    case OneOrMany(inner, at) => PrefixedAppends(c, e, inner, MustHaveName("Items"), at, hasName, false);
    case ZeroOrMany(inner, at) => PrefixedAppends(c, e, inner, MustHaveName("Items"), at, hasName, false);
    case Group(inner, at) => PrefixedAppends(c, e, inner, MustHaveName("Name"), at, hasName, true);
    case SeparatedList(element, separator, at) => SeparatedListAppends(c, element, separator, at, hasName);
    case RuleRef(_, _, _) =>
    case AndPredicate(_, _) =>
    case NotPredicate(_, _) =>
    case LiteralExpr(_, _) =>
  }

  /** A node that reports `m` when unnamed and then visits one child with a fixed flag. */
  lemma {:induction false} PrefixedAppends(c: Context, e: Expr, inner: Expr, m: Message, at: Span, hasName: bool, innerFlag: bool)
    requires c.Valid()
    requires || (e == OneOrMany(inner, at) && m == MustHaveName("Items") && !innerFlag)
             || (e == ZeroOrMany(inner, at) && m == MustHaveName("Items") && !innerFlag)
             || (e == Group(inner, at) && m == MustHaveName("Name") && innerFlag)
    ensures VisitExpr(c, e, hasName).diagnostics == c.diagnostics + Reports(c.scopes, e, hasName)
    decreases e, 1
  {
    var c1 := RequireName(c, hasName, m, at);
    VisitAppends(c1, inner, innerFlag);
    assert VisitExpr(c, e, hasName) == VisitExpr(c1, inner, innerFlag);
    assert Reports(c.scopes, e, hasName) == Missing(hasName, m, at) + Reports(c.scopes, inner, innerFlag);
    RegroupThree(c.diagnostics, Missing(hasName, m, at), Reports(c.scopes, inner, innerFlag));
  }

  /** Visiting two children in turn appends both their lists. */
  lemma {:induction false} PairAppends(c1: Context, parent: Expr, a: Expr, fa: bool, b: Expr, fb: bool)
    requires c1.Valid() && a < parent && b < parent
    ensures VisitExpr(VisitExpr(c1, a, fa), b, fb).diagnostics == c1.diagnostics + Reports(c1.scopes, a, fa) + Reports(c1.scopes, b, fb)
    decreases parent, 0
  {
    VisitAppends(c1, a, fa);
    VisitAppends(VisitExpr(c1, a, fa), b, fb);
  }

  lemma {:induction false} SequenceAppends(c: Context, left: Expr, right: Expr, at: Span, hasName: bool)
    requires c.Valid()
    ensures VisitExpr(c, Sequence(left, right, at), hasName).diagnostics == c.diagnostics + Reports(c.scopes, Sequence(left, right, at), hasName)
    decreases Sequence(left, right, at), 1
  {
    var c1 := RequireName(c, hasName, MustHaveName("Name"), at);
    PairAppends(c1, Sequence(left, right, at), left, left.Sequence?, right, left.Sequence?);
    RegroupFour(c.diagnostics, Missing(hasName, MustHaveName("Name"), at), Reports(c.scopes, left, left.Sequence?), Reports(c.scopes, right, left.Sequence?));
  }

  lemma {:induction false} SeparatedListAppends(c: Context, element: Expr, separator: Expr, at: Span, hasName: bool)
    requires c.Valid()
    ensures VisitExpr(c, SeparatedList(element, separator, at), hasName).diagnostics ==
      c.diagnostics + Reports(c.scopes, SeparatedList(element, separator, at), hasName)
    decreases SeparatedList(element, separator, at), 1
  {
    var c1 := RequireName(c, hasName, MustHaveName("Items"), at);
    PairAppends(c1, SeparatedList(element, separator, at), element, false, separator, false);
    RegroupFour(c.diagnostics, Missing(hasName, MustHaveName("Items"), at), Reports(c.scopes, element, false), Reports(c.scopes, separator, false));
  }

  /** An expression never reports a missing rule or an unmergeable precedence list. */
  lemma {:induction false} ReportsAreVisitorMessages(scopes: seq<Scope>, e: Expr, hasName: bool)
    ensures forall k | 0 <= k < |Reports(scopes, e, hasName)| :: IsVisitorMessage(Reports(scopes, e, hasName)[k].message)
    decreases e
  {
    match e
    case Sequence(left, right, _) =>
      ReportsAreVisitorMessages(scopes, left, left.Sequence?);
      ReportsAreVisitorMessages(scopes, right, left.Sequence?);
    case Named(_, inner, _) => ReportsAreVisitorMessages(scopes, inner, true);
    case Optional(inner, _) => ReportsAreVisitorMessages(scopes, inner, false);
    case OftenMissed(inner, _) => ReportsAreVisitorMessages(scopes, inner, false);
    case OneOrMany(inner, _) => ReportsAreVisitorMessages(scopes, inner, false);
    case ZeroOrMany(inner, _) => ReportsAreVisitorMessages(scopes, inner, false);
    case Group(inner, _) => ReportsAreVisitorMessages(scopes, inner, true);
    case SeparatedList(element, separator, _) =>
      ReportsAreVisitorMessages(scopes, element, false);
      ReportsAreVisitorMessages(scopes, separator, false);
    case RuleRef(_, _, _) =>
    case AndPredicate(_, _) =>
    case NotPredicate(_, _) =>
    case LiteralExpr(_, _) =>
  }

  /**
   * An unnamed group reports one error and then checks its contents as if
   * named, so it reports exactly one diagnostic more than a named group.
   */
  lemma UnnamedGroupReportsOnce(c: Context, inner: Expr, at: Span)
    requires c.Valid()
    ensures VisitExpr(c, Group(inner, at), false).diagnostics ==
      c.diagnostics + [Err(MustHaveName("Name"), at)] + Reports(c.scopes, Group(inner, at), true)
  {
    VisitAppends(c, Group(inner, at), false);
  }

  /** Unnamed repetitions and separated lists report one error at their own span, then check their contents. */
  lemma UnnamedRepetitionReportsItems(c: Context, e: Expr)
    requires c.Valid() && (e.OneOrMany? || e.ZeroOrMany? || e.SeparatedList?)
    ensures VisitExpr(c, e, false).diagnostics == c.diagnostics + [Err(MustHaveName("Items"), e.at)] + Reports(c.scopes, e, true)
  {
    VisitAppends(c, e, false);
  }

  /** Optional and OftenMissed never require a name: what they report does not depend on the flag. */
  lemma OptionalNeedsNoName(c: Context, e: Expr, hasName: bool)
    requires c.Valid() && (e.Optional? || e.OftenMissed?)
    ensures VisitExpr(c, e, hasName) == VisitExpr(c, e, !hasName)
  {
  }

  /** A name on a name is reported at the inner name; the inner expression is then checked as named. */
  lemma NestedNameReported(c: Context, outer: Ident, inner: Ident, e: Expr, at: Span, at2: Span, hasName: bool)
    requires c.Valid()
    ensures VisitExpr(c, Named(outer, Named(inner, e, at2), at), hasName).diagnostics ==
      c.diagnostics + [Err(NestedName(outer.value, inner.value), inner.at)] + Reports(c.scopes, Named(inner, e, at2), true)
  {
    VisitAppends(c, Named(outer, Named(inner, e, at2), at), hasName);
  }

  /**
   * A one-part reference reports "not found" exactly when it names neither
   * a rule nor a terminal, at the identifier's span; a reference with
   * several parts is never looked up.
   */
  lemma ReferenceReported(c: Context, parts: seq<Ident>, at: Span, hasName: bool)
    requires c.Valid()
    ensures |VisitExpr(c, RuleRef(parts, None, at), hasName).diagnostics| == |c.diagnostics| + 1 <==>
      |parts| == 1 && LookupRule(c, parts[0].value).None? && LookupTerminal(c, parts[0].value).None?
    ensures |parts| != 1 ==> VisitExpr(c, RuleRef(parts, None, at), hasName) == c
  {
  }

  /** A name over a sequence of resolved references reports nothing, whatever the flag outside. */
  lemma NamedSequenceIsClean(c: Context, n: Ident, a: Ident, b: Ident, at: Span, hasName: bool)
    requires c.Valid() && LookupRule(c, a.value).Some? && LookupTerminal(c, b.value).Some?
    ensures VisitExpr(c, Named(n, Sequence(RuleRef([a], None, a.at), RuleRef([b], None, b.at), at), at), hasName) == c
  {
    var ra := RuleRef([a], None, a.at);
    var rb := RuleRef([b], None, b.at);
    var e := Named(n, Sequence(ra, rb, at), at);
    assert [a][0] == a && [b][0] == b;
    assert Reports(c.scopes, ra, false) == [];
    assert Reports(c.scopes, rb, false) == [];
    assert Reports(c.scopes, Sequence(ra, rb, at), true) == [];
    assert Reports(c.scopes, e, hasName) == [];
    VisitAppends(c, e, hasName);
  }

  /** The right-hand side of a sequence is checked as named only when the left-hand side is a sequence itself. */
  lemma RightOfSequenceNeedsSequenceOnLeft(c: Context, a: Expr, inner: Expr, at: Span, at2: Span)
    requires c.Valid() && !a.Sequence?
    ensures VisitExpr(c, Sequence(a, OneOrMany(inner, at2), at), true).diagnostics ==
      c.diagnostics + Reports(c.scopes, a, false) + [Err(MustHaveName("Items"), at2)] + Reports(c.scopes, inner, false)
  {
    SequenceAppends(c, a, OneOrMany(inner, at2), at, true);
    var ra := Reports(c.scopes, a, false);
    var ri := Reports(c.scopes, inner, false);
    var rr := Reports(c.scopes, OneOrMany(inner, at2), false);
    assert rr == [Err(MustHaveName("Items"), at2)] + ri;
    assert Missing(true, MustHaveName("Name"), at) == [];
    assert Reports(c.scopes, Sequence(a, OneOrMany(inner, at2), at), true) == [] + ra + rr;
    assert [] + ra == ra;
    RegroupThree(ra, [Err(MustHaveName("Items"), at2)], ri);
    RegroupThree(c.diagnostics, ra, rr);
    RegroupThree(c.diagnostics + ra, [Err(MustHaveName("Items"), at2)], ri);
  }

  // ---------------------------------------------------------------------
  // Alternatives and statements
  // ---------------------------------------------------------------------

  /** What an alternative reports: a named one in a scope of its own, as named; an anonymous one as a reference. */
  function AlternativeReports(scopes: seq<Scope>, alt: Alternative): seq<Diagnostic> {
    match alt
    case NamedAlternative(_, e, _) => Reports(scopes + [EmptyScope], e, true)
    case AnonymousAlternative(parts, at) =>
      if Unresolved(scopes, parts) then [Err(SymbolNotFound(parts[0].value), at)] else []
  }

  function AlternativesReports(scopes: seq<Scope>, alts: seq<Alternative>): seq<Diagnostic>
    decreases |alts|
  {
    if alts == [] then [] else AlternativeReports(scopes, alts[0]) + AlternativesReports(scopes, alts[1..])
  }

  /** What a statement reports: a missing rule, or else what its body reports in a scope of its own. */
  function StatementReports(scopes: seq<Scope>, s: Statement): seq<Diagnostic> {
    match s
    case PrecedenceStatement(_, _) => []
    case RuleStatement(name, alts, at) =>
      if FindRule(scopes, name.value, true).None? then [Err(RuleNotFound(name.value), at)]
      else AlternativesReports(scopes + [EmptyScope], alts)
    case SimpleRuleStatement(name, e, at) =>
      if FindRule(scopes, name.value, true).None? then [Err(RuleNotFound(name.value), at)]
      else Reports(scopes + [EmptyScope], e, true)
  }

  /** Entering a scope and leaving it again around a visit restores the scopes and keeps what the visit reported. */
  lemma ScopedVisit(c: Context, checked: Context)
    requires c.Valid() && checked.scopes == EnterScope(c).scopes
    ensures ExitScope(checked).scopes == c.scopes && ExitScope(checked).diagnostics == checked.diagnostics
  {
    assert checked.scopes[..|checked.scopes| - 1] == c.scopes;
  }

  /** The visitor's NamedAlternative and AnonymousAlternative cases. */
  function VisitAlternative(c: Context, alt: Alternative): (r: Context)
    requires c.Valid()
    ensures r.scopes == c.scopes
    ensures r.diagnostics == c.diagnostics + AlternativeReports(c.scopes, alt)
  {
    match alt
    case NamedAlternative(_, e, _) =>
      var inner := EnterScope(c);
      var checked := VisitExpr(inner, e, true);
      VisitAppends(inner, e, true);
      ScopedVisit(c, checked);
      ExitScope(checked)
    case AnonymousAlternative(parts, at) =>
      if Unresolved(c.scopes, parts) then ReportError(c, SymbolNotFound(parts[0].value), at) else c
  }

  function VisitAlternatives(c: Context, alts: seq<Alternative>): (r: Context)
    requires c.Valid()
    ensures r.scopes == c.scopes
    ensures r.diagnostics == c.diagnostics + AlternativesReports(c.scopes, alts)
    decreases |alts|
  {
    if alts == [] then c
    else
      var c1 := VisitAlternative(c, alts[0]);
      var r := VisitAlternatives(c1, alts[1..]);
      RegroupThree(c.diagnostics, AlternativeReports(c.scopes, alts[0]), AlternativesReports(c.scopes, alts[1..]));
      r
  }

  /**
   * A rule statement whose rule is not in the symbol table reports that
   * and is not checked further; otherwise it is checked in a scope of its
   * own, a simple rule as named. Precedence statements are not visited.
   */
  function VisitStatement(c: Context, s: Statement): (r: Context)
    requires c.Valid()
    ensures r.scopes == c.scopes
    ensures r.diagnostics == c.diagnostics + StatementReports(c.scopes, s)
  {
    match s
    case PrecedenceStatement(_, _) => c
    case RuleStatement(name, alts, at) =>
      if LookupRule(c, name.value).None? then ReportError(c, RuleNotFound(name.value), at)
      else
        var inner := EnterScope(c);
        var checked := VisitAlternatives(inner, alts);
        ScopedVisit(c, checked);
        ExitScope(checked)
    case SimpleRuleStatement(name, e, at) =>
      if LookupRule(c, name.value).None? then ReportError(c, RuleNotFound(name.value), at)
      else
        var inner := EnterScope(c);
        var checked := VisitExpr(inner, e, true);
        VisitAppends(inner, e, true);
        ScopedVisit(c, checked);
        ExitScope(checked)
  }

  function StatementsReports(scopes: seq<Scope>, stmts: seq<Statement>): seq<Diagnostic>
    decreases |stmts|
  {
    if stmts == [] then [] else StatementReports(scopes, stmts[0]) + StatementsReports(scopes, stmts[1..])
  }

  /** GrammarAst: the statements in order; the scopes are the same after each. */
  function VisitStatements(c: Context, stmts: seq<Statement>): (r: Context)
    requires c.Valid()
    ensures r.scopes == c.scopes
    ensures r.diagnostics == c.diagnostics + StatementsReports(c.scopes, stmts)
    decreases |stmts|
  {
    if stmts == [] then c
    else
      var c1 := VisitStatement(c, stmts[0]);
      var r := VisitStatements(c1, stmts[1..]);
      assert StatementsReports(c.scopes, stmts) == StatementReports(c.scopes, stmts[0]) + StatementsReports(c.scopes, stmts[1..]);
      RegroupThree(c.diagnostics, StatementReports(c.scopes, stmts[0]), StatementsReports(c.scopes, stmts[1..]));
      r
  }

  /** No diagnostic of the list reports a missing rule. */
  predicate NoMissingRule(ds: seq<Diagnostic>) {
    forall k | 0 <= k < |ds| :: !ds[k].message.RuleNotFound?
  }

  /** An alternative never reports a missing rule. */
  lemma {:induction false} AlternativesReportNoRule(scopes: seq<Scope>, alts: seq<Alternative>)
    ensures forall k | 0 <= k < |AlternativesReports(scopes, alts)| :: !AlternativesReports(scopes, alts)[k].message.RuleNotFound?
    decreases |alts|
  {
    if alts != [] {
      if alts[0].NamedAlternative? {
        ReportsAreVisitorMessages(scopes + [EmptyScope], alts[0].expr, true);
      }
      AlternativesReportNoRule(scopes, alts[1..]);
    }
  }

  /** A statement reports a missing rule only when its own rule is not found. */
  lemma StatementReportsRuleOnlyIfMissing(scopes: seq<Scope>, s: Statement)
    ensures forall k | 0 <= k < |StatementReports(scopes, s)| ::
      StatementReports(scopes, s)[k].message.RuleNotFound? ==> DeclaresRule(s) && FindRule(scopes, s.name.value, true).None?
  {
    match s
    case PrecedenceStatement(_, _) =>
    case RuleStatement(_, alts, _) => AlternativesReportNoRule(scopes + [EmptyScope], alts);
    case SimpleRuleStatement(_, e, _) => ReportsAreVisitorMessages(scopes + [EmptyScope], e, true);
  }

  // ---------------------------------------------------------------------
  // CheckGrammar
  // ---------------------------------------------------------------------

  /** Whether a statement declares a rule. */
  predicate DeclaresRule(s: Statement) {
    s.RuleStatement? || s.SimpleRuleStatement?
  }

  /**
   * The declaration collector: each rule statement adds a rule symbol to
   * the global scope, and each precedence statement adds its list, with
   * its span, to the dependencies, in statement order.
   */
  function CollectDeclarations(c: Context, stmts: seq<Statement>): (r: (Context, seq<PrecedenceDependency>))
    requires c.Valid()
    ensures r.0.Valid() && |r.0.scopes| == |c.scopes| && r.0.diagnostics == c.diagnostics
    ensures |r.1| <= |stmts|
    ensures FromPrecedenceStatements(r.1, stmts)
    decreases |stmts|
  {
    if stmts == [] then (c, [])
    else
      var s := stmts[0];
      var c1 := if DeclaresRule(s) then AddToGlobalScope(c, RuleSymbol(s.name.value, s.name.at)) else c;
      var rest := CollectDeclarations(c1, stmts[1..]);
      DependencyOfHead(stmts, rest.1);
      (rest.0, StatementDependency(s) + rest.1)
  }

  /** The dependency a precedence statement contributes, as a list. */
  function StatementDependency(s: Statement): seq<PrecedenceDependency> {
    if s.PrecedenceStatement? then [PrecedenceDependency(s.precedences, s.at)] else []
  }

  /** Every dependency comes from a precedence statement of the list, with its names and span. */
  predicate FromPrecedenceStatements(deps: seq<PrecedenceDependency>, stmts: seq<Statement>) {
    forall k | 0 <= k < |deps| :: exists i | 0 <= i < |stmts| :: stmts[i] == PrecedenceStatement(deps[k].identifiers, deps[k].location)
  }

  lemma DependencyOfHead(stmts: seq<Statement>, rest: seq<PrecedenceDependency>)
    requires stmts != [] && FromPrecedenceStatements(rest, stmts[1..])
    ensures FromPrecedenceStatements(StatementDependency(stmts[0]) + rest, stmts)
  {
    var s := stmts[0];
    var deps := StatementDependency(s) + rest;
    forall k | 0 <= k < |deps|
      ensures exists i | 0 <= i < |stmts| :: stmts[i] == PrecedenceStatement(deps[k].identifiers, deps[k].location)
    {
      if s.PrecedenceStatement? && k == 0 {
        assert stmts[0] == PrecedenceStatement(deps[k].identifiers, deps[k].location);
      } else {
        var k' := if s.PrecedenceStatement? then k - 1 else k;
        assert deps[k] == rest[k'];
        var i :| 0 <= i < |stmts[1..]| && stmts[1..][i] == PrecedenceStatement(rest[k'].identifiers, rest[k'].location);
        assert stmts[i + 1] == stmts[1..][i];
      }
    }
  }

  /**
   * With the global scope alone on the stack, every rule statement's name
   * is found as a rule once the declarations are collected.
   */
  lemma {:induction false} CollectedRulesAreFound(c: Context, stmts: seq<Statement>, i: nat)
    requires c.Valid() && |c.scopes| == 1 && i < |stmts| && DeclaresRule(stmts[i])
    ensures LookupRule(CollectDeclarations(c, stmts).0, stmts[i].name.value).Some?
    decreases |stmts|
  {
    var s := stmts[0];
    var c1 := if DeclaresRule(s) then AddToGlobalScope(c, RuleSymbol(s.name.value, s.name.at)) else c;
    if i == 0 {
      LaterCollectsKeepRule(c1, stmts[1..], s.name.value);
    } else {
      CollectedRulesAreFound(c1, stmts[1..], i - 1);
    }
  }

  /** Collecting more declarations never loses a rule. */
  lemma {:induction false} LaterCollectsKeepRule(c: Context, stmts: seq<Statement>, name: string)
    requires c.Valid() && |c.scopes| == 1 && LookupRule(c, name).Some?
    ensures LookupRule(CollectDeclarations(c, stmts).0, name).Some?
    decreases |stmts|
  {
    if stmts != [] {
      var s := stmts[0];
      if DeclaresRule(s) {
        var sym := RuleSymbol(s.name.value, s.name.at);
        var c1 := AddToGlobalScope(c, sym);
        if sym.name != name {
          AddLeavesOthers(c.scopes, sym, RuleKind, name, true);
        }
        LaterCollectsKeepRule(c1, stmts[1..], name);
      } else {
        LaterCollectsKeepRule(c, stmts[1..], name);
      }
    }
  }

  /** Adding precedence symbols changes no rule lookup. */
  lemma {:induction false} AddAllKeepsRules(c: Context, syms: seq<Symbol>, name: string)
    requires c.Valid() && forall k | 0 <= k < |syms| :: syms[k].PrecedenceSymbol?
    ensures LookupRule(AddAll(c, syms), name) == LookupRule(c, name)
    decreases |syms|
  {
    if syms != [] {
      AddLeavesOthers(c.scopes, syms[0], RuleKind, name, true);
      AddAllKeepsRules(AddToGlobalScope(c, syms[0]), syms[1..], name);
    }
  }

  /** Resolving the precedences changes no rule lookup. */
  lemma ResolveKeepsRules(c: Context, deps: seq<PrecedenceDependency>, name: string, corrected: bool)
    requires c.Valid()
    ensures LookupRule(ResolvePrecedenceDependencies(c, deps, corrected), name) == LookupRule(c, name)
  {
    assert Merge([], {}).Valid();
    match MergeEach(deps, Merge([], {}), 0, corrected)
    case FailedAt(_) =>
    case Merged(order) => AddAllKeepsRules(c, BindingPowers(order), name);
  }

  /**
   * CheckGrammar: a context seeded with the terminals, the declarations
   * collected, the precedences resolved, then the rule statements checked.
   * The result is the diagnostics and the global scope. The source is
   * `corrected` false; `corrected` true resolves with the corrected merge.
   *
   * Collecting reports nothing, so the diagnostics are the precedence
   * error, when a list does not merge, followed by the visitor's reports;
   * checking the statements leaves the resolved global scope as it is.
   * The source's last step, ResolveSymbolReferences, only stores the
   * results of scope lookups in the syntax tree's Symbol,
   * ReferencedSymbol and PrecedenceSymbol fields; it reports nothing and
   * declares nothing, so it changes neither part of the result and is
   * left out.
   */
  function CheckGrammar(terminalKinds: seq<string>, stmts: seq<Statement>, corrected: bool): (r: (seq<Diagnostic>, Scope))
    ensures var collected := CollectDeclarations(NewContext(terminalKinds), stmts);
      var resolved := ResolvePrecedenceDependencies(collected.0, collected.1, corrected);
      var reports := StatementsReports(resolved.scopes, stmts);
      && r.1 == GlobalScope(resolved)
      && (MergeEach(collected.1, Merge([], {}), 0, corrected).Merged? ==> r.0 == reports)
      && (MergeEach(collected.1, Merge([], {}), 0, corrected).FailedAt? ==>
            var i := MergeEach(collected.1, Merge([], {}), 0, corrected).index;
            |r.0| == |reports| + 1 && r.0[1..] == reports
            && r.0[0] == Diagnostic(CannotMergePrecedences(SymbolNames(collected.1[i].identifiers)), collected.1[i].location, Error))
  {
    var c0 := NewContext(terminalKinds);
    var collected := CollectDeclarations(c0, stmts);
    assert Merge([], {}).Valid();
    var resolved := ResolvePrecedenceDependencies(collected.0, collected.1, corrected);
    var checked := VisitStatements(resolved, stmts);
    (checked.diagnostics, GlobalScope(checked))
  }

  /** When every declared rule is found, checking the statements reports no missing rule. */
  lemma {:induction false} StatementsFindRules(scopes: seq<Scope>, stmts: seq<Statement>)
    requires forall i | 0 <= i < |stmts| :: DeclaresRule(stmts[i]) ==> FindRule(scopes, stmts[i].name.value, true).Some?
    ensures NoMissingRule(StatementsReports(scopes, stmts))
    decreases |stmts|
  {
    if stmts != [] {
      assert forall i | 0 <= i < |stmts[1..]| :: stmts[1..][i] == stmts[i + 1];
      StatementsFindRules(scopes, stmts[1..]);
      StatementReportsRuleOnlyIfMissing(scopes, stmts[0]);
      NoMissingRuleConcat(StatementReports(scopes, stmts[0]), StatementsReports(scopes, stmts[1..]));
    }
  }

  lemma NoMissingRuleConcat(a: seq<Diagnostic>, b: seq<Diagnostic>)
    requires NoMissingRule(a) && NoMissingRule(b)
    ensures NoMissingRule(a + b)
  {
    assert forall k | 0 <= k < |a + b| :: (a + b)[k] == if k < |a| then a[k] else b[k - |a|];
  }

  /**
   * A grammar's rule statements are always found: the checker never
   * reports a missing rule, because the collector declares every rule
   * before the visitor looks for it.
   */
  lemma CheckGrammarNeverMissesRule(terminalKinds: seq<string>, stmts: seq<Statement>, corrected: bool)
    ensures NoMissingRule(CheckGrammar(terminalKinds, stmts, corrected).0)
  {
    var c0 := NewContext(terminalKinds);
    var collected := CollectDeclarations(c0, stmts);
    var resolved := ResolvePrecedenceDependencies(collected.0, collected.1, corrected);
    forall i | 0 <= i < |stmts| && DeclaresRule(stmts[i]) ensures FindRule(resolved.scopes, stmts[i].name.value, true).Some? {
      CollectedRulesAreFound(c0, stmts, i);
      ResolveKeepsRules(collected.0, collected.1, stmts[i].name.value, corrected);
    }
    StatementsFindRules(resolved.scopes, stmts);
    assert Merge([], {}).Valid();
    assert NoMissingRule(resolved.diagnostics);
    NoMissingRuleConcat(resolved.diagnostics, StatementsReports(resolved.scopes, stmts));
  }
}

=== FILE: type_checking_context.dfy ===
/**
 * The state the grammar type checker threads through its visitors: a stack
 * of scopes, whose innermost scope is the current one, and the list of
 * diagnostics reported so far.
 */
module TypeCheckingContext {
  import opened Wrappers
  import opened Scopes

  datatype Severity = Error | Warning | Info

  /** What a diagnostic reports; the wording of the source's messages is not modelled. */
  datatype Message =
    | RuleNotFound(rule: string)
    | SymbolNotFound(symbol: string)
    | PrecedenceNotFound(precedence: string)
    | MustHaveName(suggestedName: string)
    | NestedName(outer: string, inner: string)
    | CannotMergePrecedences(names: seq<string>)

  datatype Diagnostic = Diagnostic(message: Message, location: Span, severity: Severity)

  /** `scopes` runs from the bottom of the stack (the global scope) to the top. */
  datatype Context = Context(scopes: seq<Scope>, diagnostics: seq<Diagnostic>)
  {
    predicate Valid() {
      |scopes| >= 1
    }

    function CurrentScope(): Scope
      requires Valid()
    {
      scopes[|scopes| - 1]
    }
  }

  /** One terminal symbol per terminal, named by its Kind, with a span covering the name. */
  function TerminalSymbolFor(kind: string): (s: Symbol)
    ensures s.Kind() == TerminalKind && s.name == kind && s.at == Span(0, |kind|)
  {
    TerminalSymbol(kind, Span(0, |kind|), kind)
  }

  function SeedTerminals(scope: Scope, kinds: seq<string>): (r: Scope)
    ensures r.precedences == scope.precedences && r.rules == scope.rules
    ensures forall n :: n in r.terminals <==> n in scope.terminals || n in kinds
    ensures forall n | n in kinds :: r.terminals[n] == TerminalSymbolFor(n)
    ensures forall n | n !in kinds && n in scope.terminals :: r.terminals[n] == scope.terminals[n]
    decreases |kinds|
  {
    if kinds == [] then scope
    else
      var next := AddSymbol(scope, TerminalSymbolFor(kinds[0]));
      assert next.terminals == scope.terminals[kinds[0] := TerminalSymbolFor(kinds[0])];
      SeedTerminals(next, kinds[1..])
  }

  /**
   * The constructor: a single global scope holding a terminal symbol for
   * every terminal Kind given, and no diagnostics. A later terminal with the
   * same Kind replaces an earlier one; since a symbol here records only the
   * Kind, the replacement is equal to what it replaces, whereas the source's
   * symbol holds the later terminal object.
   */
  function NewContext(terminalKinds: seq<string>): (c: Context)
    ensures c.Valid() && |c.scopes| == 1 && c.diagnostics == []
    ensures c.CurrentScope().precedences == map[] && c.CurrentScope().rules == map[]
    ensures forall n :: n in c.CurrentScope().terminals <==> n in terminalKinds
  {
    Context([SeedTerminals(EmptyScope, terminalKinds)], [])
  }

  /**
   * GlobalScope is Stack.First(). A .NET Stack enumerates from the top, so
   * this is the same scope as CurrentScope. Every caller uses it while only
   * the bottom scope is on the stack, where the two agree with the
   * outermost scope.
   */
  function GlobalScope(c: Context): (s: Scope)
    requires c.Valid()
    ensures s == c.CurrentScope()
    ensures |c.scopes| == 1 ==> s == c.scopes[0]
  {
    c.scopes[|c.scopes| - 1]
  }

  /** GlobalScope.AddSymbol: the symbol goes into the scope GlobalScope returns. */
  function AddToGlobalScope(c: Context, sym: Symbol): (r: Context)
    requires c.Valid()
    ensures r.Valid() && |r.scopes| == |c.scopes| && r.diagnostics == c.diagnostics
    ensures r.scopes[..|r.scopes| - 1] == c.scopes[..|c.scopes| - 1]
    ensures GlobalScope(r) == AddSymbol(GlobalScope(c), sym)
  {
    c.(scopes := c.scopes[|c.scopes| - 1 := AddSymbol(c.scopes[|c.scopes| - 1], sym)])
  }

  /** EnterScope pushes a new, empty child of the current scope. */
  function EnterScope(c: Context): (r: Context)
    requires c.Valid()
    ensures r.Valid() && r.scopes[..|r.scopes| - 1] == c.scopes && r.CurrentScope() == EmptyScope
    ensures r.diagnostics == c.diagnostics
  {
    c.(scopes := c.scopes + [EmptyScope])
  }

  /** ExitScope pops the current scope, but never the last one. */
  function ExitScope(c: Context): (r: Context)
    requires c.Valid()
    ensures r.Valid() && r.diagnostics == c.diagnostics
    ensures |c.scopes| > 1 ==> r.scopes == c.scopes[..|c.scopes| - 1]
    ensures |c.scopes| == 1 ==> r.scopes == c.scopes
  {
    if |c.scopes| > 1 then c.(scopes := c.scopes[..|c.scopes| - 1]) else c
  }

  /** ReportError appends one Error-severity diagnostic; the scopes do not change. */
  function ReportError(c: Context, message: Message, location: Span): (r: Context)
    ensures r.scopes == c.scopes
    ensures |r.diagnostics| == |c.diagnostics| + 1 && r.diagnostics[..|c.diagnostics|] == c.diagnostics
    ensures r.diagnostics[|c.diagnostics|] == Diagnostic(message, location, Error)
  {
    c.(diagnostics := c.diagnostics + [Diagnostic(message, location, Error)])
  }

  /** The context's lookups search the current scope and its parents. */
  function LookupPrecedence(c: Context, name: string): Option<Symbol> {
    FindPrecedence(c.scopes, name, true)
  }

  function LookupRule(c: Context, name: string): Option<Symbol> {
    FindRule(c.scopes, name, true)
  }

  function LookupTerminal(c: Context, name: string): Option<Symbol> {
    FindTerminal(c.scopes, name, true)
  }

  /** Entering a scope and leaving it again restores the context. */
  lemma EnterThenExit(c: Context)
    requires c.Valid()
    ensures ExitScope(EnterScope(c)) == c
  {
    assert (c.scopes + [EmptyScope])[..|c.scopes|] == c.scopes;
  }

  /** Exiting any number of times leaves the global scope on the stack. */
  lemma {:induction false} ExitNeverPopsGlobal(c: Context, n: nat)
    requires c.Valid()
    ensures ExitTimes(c, n).Valid() && ExitTimes(c, n).scopes[0] == c.scopes[0]
    decreases n
  {
    if n > 0 {
      ExitNeverPopsGlobal(ExitScope(c), n - 1);
    }
  }

  function ExitTimes(c: Context, n: nat): (r: Context)
    requires c.Valid()
    ensures r.Valid()
    decreases n
  {
    if n == 0 then c else ExitTimes(ExitScope(c), n - 1)
  }

  /** A freshly constructed context knows a terminal by exactly the Kinds it was given. */
  lemma SeededTerminalsAreFound(terminalKinds: seq<string>, name: string)
    ensures LookupTerminal(NewContext(terminalKinds), name).Some? <==> name in terminalKinds
    ensures name in terminalKinds ==> LookupTerminal(NewContext(terminalKinds), name) == Some(TerminalSymbolFor(name))
  {
  }
}

=== FILE: wrappers.dfy ===
/**
 * Optional values and the results of operations that can raise a .NET or
 * C++ exception. An exception thrown by the modelled code is a `Throw`
 * value here; nothing is ever raised.
 */
module Wrappers {

  datatype Option<+T> = None | Some(value: T) {
    function GetOr(default: T): T {
      match this
      case Some(v) => v
      case None => default
    }
  }

  /** The exception classes the modelled code throws. */
  datatype Exception =
    | ArgumentOutOfRange
    | ArgumentError(message: string)
    | FormatError(message: string)
    | IndexOutOfRange
    | InvalidCast
    | InvalidData(message: string)
    | InvalidOperation(message: string)
    | NullReference
    | KeyNotFound(key: string)

  datatype Result<+T> = Ok(value: T) | Throw(exception: Exception) {
    predicate IsOk() {
      Ok?
    }
  }
}
